=== FILE: README.md ===
# OpenCLGA, modelled in Dafny

OpenCLGA runs a genetic algorithm on OpenCL devices. A control node
(`OpenCLGAServer`) drives any number of workers (`OpenCLGAWorker`), one per
device, across machines. It sends them commands, collects their reports and
migrates elites between them. Each worker owns one engine. The engine's
lifecycle is a ten-state machine. The host loops generations by count or by
time, can pause, stop, save and restore, and leaves the crossover, mutation
and fitness work to kernels.

This project models that core as pure functions and small methods, and
proves what each piece promises:

- **Lifecycle, Engine, LegacyEngine, Evolution, Best.** The state machine
  and its `EnterExit` wrapper; the public calls and the checkpoint; the
  generation loops; the choice of the best individual. `LegacyEngine` is the
  older `ocl_ga.py`.
- **Framing, Transport, LegacyTransport.** The sentinel-framed socket
  protocol between control node and workers: send queues, the receive
  buffer and the server's handler registry, in both the current and the
  older version.
- **Worker, ControlNode, Elites.** Command dispatch on the worker;
  broadcasting, the worker registry and elite aggregation on the control
  node.
- **WebSocket.** The vendored WebSocket handler that carries the control
  node's reports to the browser. It covers frame headers, lengths, masking
  and the close frame (RFC 6455).
- **Genes, Chromosomes, Text, Bytes.** The host-side gene and chromosome
  representations, and the text they write into kernel source.
- **Population, GaUtils, Rng, GaAlgo, ShufflerKernel, Tours, EvalShuffler,
  TaiwanTour.** The device kernels: the flat population buffer, survivor
  selection and refilling, swap mutation, the shuffler's tour-preserving
  crossover, the ratio of best to worst, and the Taiwan example's tour
  fitness.
- **PyGene, PyChromosome, PyOperators, PyTsp, PyAlgorithm.** The
  pure-Python genetic algorithm and its travelling-salesman example.

The model has no I/O of its own. Sockets, clocks, random draws, kernels and
the noise generators are parameters. Every operation that can itself raise
in the source returns a `Result` that names the exception, and each contract
says exactly when that happens. Exceptions raised inside hooks the caller
supplies (the pure-Python driver's crossover, mutation and fitness hooks)
are listed under "## Left out".

Two behaviours of the code worth noting:

- The lifecycle callback receives only the new state, not the (old, new)
  pair (OpenCLGA/ocl_ga.py:55-56).
- The older engine accepts the probabilities 0 and 1 (ocl_ga.py:344-345).
  The current engine requires both to lie strictly between 0 and 1
  (OpenCLGA/ocl_ga.py:432-433).

## Model

| member | source | states |
|---|---|---|
| Lifecycle.Lookup | OpenCLGA/ocl_ga.py:44-51 | The table scan finds no target exactly when no row has the (state, action) key, and any target it finds belongs to a row with that key |
| Lifecycle.Next | OpenCLGA/ocl_ga.py:44-56 | At most one state is passed to the `state` callback: the new state, and only when a callback is registered |
| Lifecycle.NextFollowsTable | OpenCLGA/ocl_ga.py:44-56 | An unmatched (state, action) leaves the state and reports nothing; a matched one moves to the row's target and reports it exactly when a callback is registered |
| Lifecycle.RowsAreSuccessors | OpenCLGA/ocl_ga.py:24-38 | Every row of the thirteen-row table is a case of the case-by-case transition function |
| Lifecycle.SuccessorsAreRows | OpenCLGA/ocl_ga.py:24-38 | Every case of the case-by-case transition function is a row of the table |
| Lifecycle.TableKeysDistinct | OpenCLGA/ocl_ga.py:24-38 | The table has thirteen rows and no two share a (state, action) key, so the scan's `assert next_state is None` never fires |
| Lifecycle.TableAgreesWithSuccessor | OpenCLGA/ocl_ga.py:24-51 | Scanning the table gives the same target as the case-by-case statement, for every state and action |
| Lifecycle.StoppedIsAbsorbing | OpenCLGA/ocl_ga.py:24-56 | `stopped` has no outgoing row: every action leaves it there and reports nothing |
| Lifecycle.Wrapped | OpenCLGA/ocl_ga.py:13-20 | A decorated call issues its own name, then `done` only if the body returned; the reported states are those of the two steps in order |
| Lifecycle.PrepareAndRestoreEndPrepared | OpenCLGA/ocl_ga.py:13-38 | `prepare` and `restore` from `waiting` end in `prepared`, reporting the intermediate state and then `prepared` |
| Lifecycle.PauseAndSaveEndPaused | OpenCLGA/ocl_ga.py:13-38 | `pause` from `running` and `save` from `paused` both end in `paused` |
| Lifecycle.StopEndsStopped | OpenCLGA/ocl_ga.py:13-38 | `stop` from `running` or `paused` ends in `stopped` |
| Lifecycle.RunEndsRunning | OpenCLGA/ocl_ga.py:13-38 | `run` from `prepared` or `paused` ends in `running`; the trailing `done` matches no row and reports nothing |
| Engine.Init | OpenCLGA/ocl_ga.py:140-173 | A new engine starts in `waiting`, not paused or stopped, with a live thread, no tasks, generation index and time offset 0, empty statistics, one fitness slot per individual and the configured `saved_filename`, `None` when absent |
| Engine.Decorated | OpenCLGA/ocl_ga.py:13-20 | The machine follows the wrapper; a raising body leaves every host field but the state untouched and records the exception, a returning body's effects all apply |
| Engine.Run | OpenCLGA/ocl_ga.py:428-439 | A zero argument falls back to the configured probability; the call succeeds iff both effective probabilities lie strictly inside (0, 1) and the thread exists, and then force-stop is cleared and exactly one task with those probabilities is queued; a failed call queues nothing |
| Engine.Stop | OpenCLGA/ocl_ga.py:441-446 | `stop` raises force-stop and discards the thread, and touches neither the task queue, the paused flag nor the statistics |
| Engine.Pause | OpenCLGA/ocl_ga.py:448-450 | `pause` sets the paused flag and changes no other bookkeeping |
| Engine.RunAfterStopRaises | OpenCLGA/ocl_ga.py:428-446 | After `stop`, every `run` fails its thread assertion, whatever the probabilities |
| Engine.Save | OpenCLGA/ocl_ga.py:451-459 | `save` fails its assertion unless paused; while paused it resolves the file name (a configured non-empty `saved_filename` wins over the argument), raises `TypeError` when that name is `None`, and otherwise writes the checkpoint under it; the host fields never change |
| Engine.FileName | OpenCLGA/ocl_ga.py:456 | The configured name is used exactly when it is set and non-empty; otherwise the argument is |
| Engine.Restore | OpenCLGA/ocl_ga.py:461-468 | `restore` returns exactly when the resolved file name is a usable name, leaving the engine paused; with no name `open` raises `TypeError` and the host keeps its fields |
| Engine.SaveState | OpenCLGA/ocl_ga.py:373-394 | Restoring an engine from its own checkpoint gives back the same engine, now paused |
| Engine.RestoreState | OpenCLGA/ocl_ga.py:396-420 | Restoring leaves the engine paused and keeps its lifecycle state, stop flag, elapsed time, callbacks, queued tasks, thread and configured file name |
| Engine.NoFileNameRaises | OpenCLGA/ocl_ga.py:451-468 | On an engine configured without `saved_filename`, the `save` and `restore` the control node sends with no file name both raise, nothing is written, and the host keeps its fields |
| Engine.SaveRestoreRoundTrip | OpenCLGA/ocl_ga.py:373-422 | Restoring, from the file it wrote, what a paused engine saved brings back its generation index, statistics, time offset, population, random state, fitnesses, chromosomes and both probabilities, on any engine with the same configured name, and leaves it paused |
| Engine.GARun | OpenCLGA/ocl_ga.py:67-76 | A task populates generation 0 exactly when the engine was not paused, clears paused before evolving, adds its duration to the elapsed time, and reports the final paused flag to a registered `run` callback |
| Engine.RunAfterRestoreResumes | OpenCLGA/ocl_ga.py:67-72 | A task started after `restore` does not repopulate, and the restored generation index is the one evolution resumes from |
| Engine.CountRunResumeIndex | OpenCLGA/ocl_ga.py:317-329 | A count-terminated task that pauses after its last generation leaves the resume index one past it and the engine paused; one that runs every generation leaves the index where it was |
| LegacyEngine.Run | ocl_ga.py:342-352 | The older `run` fails unless both probabilities lie in the closed range [0, 1]; otherwise it populates exactly when not paused, clears paused, evolves with a force-stop flag left set by an earlier `stop` seen at every boundary, afterwards has the flag set exactly when it was set before or a `stop` arrived at a boundary the run reached, and adds the call's duration to the elapsed time |
| LegacyEngine.Seen | ocl_ga.py:232-268 | The boundaries the loops read are those supplied with the force-stop flag added, and are unchanged while the flag is clear |
| LegacyEngine.Stop | ocl_ga.py:354-355 | `stop` only raises force-stop |
| LegacyEngine.RunWithStopRaisedEndsAtFirstBoundary | ocl_ga.py:232-268 | A run begun with the force-stop flag set executes at most one generation and ends with the flag still set |
| LegacyEngine.ForceStoppedRunKeepsFlag | ocl_ga.py:232-268 | A run that a `stop` ended at a boundary leaves the force-stop flag set |
| LegacyEngine.RunAfterStopEndsAtFirstBoundary | ocl_ga.py:232-268 | Since nothing clears `__forceStop`, every run after `stop` executes at most one generation and leaves the flag set |
| LegacyEngine.Pause | ocl_ga.py:357-358 | `pause` only sets the paused flag |
| LegacyEngine.Save | ocl_ga.py:360-366 | `save` fails its assertion unless paused; while paused, `open` raises `TypeError` for no file name and `FileNotFoundError` for the empty name, and otherwise the checkpoint is written under exactly the name given |
| LegacyEngine.Restore | ocl_ga.py:368-372 | `restore` succeeds exactly for a usable file name, with `TypeError` for no name and `FileNotFoundError` for the empty name; a restored engine keeps its paused and force-stop flags and takes the saved random seeds |
| LegacyEngine.RestoreState | ocl_ga.py:307-334 | The older restore leaves the paused and force-stop flags and the elapsed time untouched, and the seed buffer ends with the saved words whatever the value conversion that first filled it gave |
| LegacyEngine.SaveRestoreRoundTrip | ocl_ga.py:288-372 | Saving a paused engine under a non-empty name succeeds, and restoring from that name brings back generation index, statistics, time offset, population, random seeds, fitnesses and chromosomes, keeping the target's own paused flag |
| Evolution.EntryCount | OpenCLGA/ocl_ga.py:369-371 | `len(__dictStatistics)` is zero exactly when no generation is stored and no `avg_time_per_gen` key exists |
| Evolution.Record | OpenCLGA/ocl_ga.py:310-313 | Executing generation `i` stores its best/worst/avg under key `i` and changes no other host field |
| Evolution.CountLoop | OpenCLGA/ocl_ga.py:310-333 | The count loop runs only generations below `count`, and never writes `avg_time_per_gen` |
| Evolution.CountLoopExit | OpenCLGA/ocl_ga.py:310-333 | The count loop runs every remaining generation exactly when no boundary raises a flag or a callback exception; otherwise it stops at the first boundary that does, the exit names what stopped it (a raising generation callback first), and the paused flag it leaves is the one seen last |
| Evolution.CountLoopResumeIndex | OpenCLGA/ocl_ga.py:324-327 | Only a pause moves the resume index, to one past the generation it followed, with the time spent so far as the carried offset; every other exit leaves index and offset alone |
| Evolution.CountLoopStatistics | OpenCLGA/ocl_ga.py:317-321 | Each executed generation `i + k` has the `k`-th boundary's statistics under its own key, and every other key keeps its entry |
| Evolution.StoresStep | OpenCLGA/ocl_ga.py:310-313 | Storing the first generation's statistics and then the rest stores them all, so the loops' statistics lemmas compose |
| Evolution.TimeLoop | OpenCLGA/ocl_ga.py:335-353 | The time loop runs at least one generation, no more than the boundaries supplied, and never writes `avg_time_per_gen` |
| Evolution.TimeLoopExit | OpenCLGA/ocl_ga.py:335-353 | The time loop advances the index once per completed generation, but not for one whose generation callback raised, and stops at the first boundary that ends it; it runs out of time only when the elapsed time there, offset included, exceeds the budget, and a pause records the time spent |
| Evolution.TimeLoopStatistics | OpenCLGA/ocl_ga.py:337-340 | Generation `index + k` holds the `k`-th boundary's statistics, and every other key keeps its entry |
| Evolution.Evolve | OpenCLGA/ocl_ga.py:355-361 | An unrecognised termination type runs no generation and changes nothing |
| Evolution.StartEvolution | OpenCLGA/ocl_ga.py:355-371 | A raising generation callback passes its exception through; otherwise a paused finish adds nothing, the division raises exactly when the statistics dictionary is empty, and `avg_time_per_gen` times the number of entries equals the total time including the carried offset |
| Evolution.NoZeroDivisionAfterAGeneration | OpenCLGA/ocl_ga.py:355-371 | A time run, or a count run with a generation left to execute, always has an entry by the time it divides, so it never raises `ZeroDivisionError`, and it succeeds when no generation callback raises |
| Best.ParseDirection | OpenCLGA/ocl_ga.py:474 | Only `"max"` and `"min"` pass the assertion, and each selects its direction |
| Best.FirstExtreme | OpenCLGA/ocl_ga.py:476-477 | `list(f).index(max(f))`: no fitness is strictly better than the one picked, and no earlier index holds the same value |
| Best.FirstExtremeUnique | OpenCLGA/ocl_ga.py:476-477 | Any index that is extreme and first among equal values is the one picked, so the pick is determined by those two properties |
| Best.GetTheBest | OpenCLGA/ocl_ga.py:473-485 | An unknown direction fails the assertion and an empty fitness array makes `max` raise; otherwise the result is the first extreme individual, its fitness, and the buffer slice `[i*n, (i+1)*n)` whenever that lies inside the buffer |
| ControlNode.Update | OpenCLGA/ocl_ga_server.py:139 | `dict.update`: every key present in the payload overrides the option, every other option is kept, and no key is lost |
| ControlNode.UpdateIdempotent | OpenCLGA/ocl_ga_server.py:139 | Merging the same payload twice gives the same options as merging it once |
| ControlNode.Forwarded | OpenCLGA/ocl_ga_server.py:268 | The dictionary that reaches the websockets no longer carries `best_result`; any other report is forwarded as received |
| ControlNode.Init | OpenCLGA/ocl_ga_server.py:67-76 | Elitism is on exactly when both `top` and `every` are nonzero (both default to 0, so no `elitism_mode` means off); the node optimises for max unless `opt_for_max` says otherwise; pool, round, registry and controller start empty |
| ControlNode.Put | OpenCLGA/ocl_ga_server.py:253-255 | `client_workers[worker_id] = msg` adds the key and keeps every other key |
| ControlNode.Pop | OpenCLGA/ocl_ga_server.py:256-258 | `client_workers.pop(worker_id, None)` removes exactly that key, and never fails on a missing one |
| ControlNode.Get | OpenCLGA/ocl_ga_server.py:253-258 | A lookup finds a value exactly when the key is registered |
| ControlNode.PutKeepsKeysDistinct | OpenCLGA/ocl_ga_server.py:253-255 | Re-registering a worker keeps one entry per worker id |
| ControlNode.PutGet | OpenCLGA/ocl_ga_server.py:253-255 | After `workerConnected`, the worker's entry is the new message and every other worker's entry is unchanged |
| ControlNode.PopGet | OpenCLGA/ocl_ga_server.py:256-258 | After `workerLost`, the worker has no entry and every other worker's entry is unchanged |
| ControlNode.SendToWebsockets | OpenCLGA/ocl_ga_server.py:297-306 | The message goes once to the controller, if any, and once to each viewer, and nothing else changes |
| ControlNode.ReplayWorkers | OpenCLGA/ocl_ga_server.py:193-195 | Replaying the registry to a new peer only sends websocket messages |
| ControlNode.WsConnected | OpenCLGA/ocl_ga_server.py:185-195 | The first peer becomes the controller; a later peer joins the viewers once, and a known viewer address is not added again |
| ControlNode.DropViewer | OpenCLGA/ocl_ga_server.py:201 | Removing an address drops every viewer with that address, keeps every other viewer, and adds none |
| ControlNode.WsDisconnected | OpenCLGA/ocl_ga_server.py:198-205 | The controller leaving clears the controller and all viewers; anyone else leaving removes only that viewer |
| ControlNode.WsQueueInputs | OpenCLGA/ocl_ga_server.py:209-219 | While a controller exists, input from any other peer is ignored; undecodable input is dropped; otherwise the decoded input is queued |
| ControlNode.GetInput | OpenCLGA/ocl_ga_server.py:120-136 | A completed keyboard line wins over the websocket queue, the queue is read first-in first-out, and with neither the input is an empty dictionary |
| ControlNode.Send | OpenCLGA/ocl_ga_server.py:334-378 | Sending a command succeeds exactly when the socket server exists, and then appends exactly that command |
| ControlNode.Translate | OpenCLGA/ocl_ga_server.py:173-176 | `get_st` is sent as `statistics`, `get_best` as `best`, every other name as itself |
| ControlNode.UpdateMembers | OpenCLGA/ocl_ga_server.py:138-144 | `__update_members` raises exactly when the merged options lack `opt_for_max`, and does not recompute the elitism mode |
| ControlNode.RunArguments | OpenCLGA/ocl_ga_server.py:164-168 | Without a payload `run` forwards (0, 0); with one it forwards the payload's two probabilities, and a missing key raises |
| ControlNode.Shutdown | OpenCLGA/ocl_ga_server.py:382-411 | `exit` is sent to the workers, then the servers stop and the registry and websocket tables are emptied; without a socket server the assertion fails |
| ControlNode.HandleMessage | OpenCLGA/ocl_ga_server.py:147-182 | No command keeps the loop going unchanged, so does an unknown command, and the loop stops exactly on a successful `exit` |
| ControlNode.Continue | OpenCLGA/ocl_ga_server.py:162-182 | A command other than `exit` keeps the loop going exactly when its send succeeded |
| ControlNode.HandlesPrepare | OpenCLGA/ocl_ga_server.py:155-161 | `prepare` merges the payload, or nothing when there is none, into the options and sends the merged options to the workers |
| ControlNode.HandlesPause | OpenCLGA/ocl_ga_server.py:162-163 | `pause` sets the pause flag and sends `pause` |
| ControlNode.HandlesRun | OpenCLGA/ocl_ga_server.py:164-168 | `run` sends the payload's probabilities, or (0, 0) |
| ControlNode.HandlesStop | OpenCLGA/ocl_ga_server.py:169-170 | `stop` sets the stop flag and sends `stop` |
| ControlNode.HandlesSaveRestore | OpenCLGA/ocl_ga_server.py:171-178 | `save` and `restore` are sent with no file name |
| ControlNode.HandlesQueries | OpenCLGA/ocl_ga_server.py:173-176 | `get_st` and `get_best` are sent under their translated names with no data |
| ControlNode.CommandsAreForwarded | OpenCLGA/ocl_ga_server.py:147-182 | Every known command but `exit` sends exactly one command to the workers, under its translated name |
| ControlNode.Apply | OpenCLGA/ocl_ga_server.py:253-291 | Handling a report never touches the websocket peers, and only an elitism-mode `generationResult` can stop it before forwarding |
| ControlNode.Aggregate | OpenCLGA/ocl_ga_server.py:267-290 | A missing or malformed `best_result` changes nothing and stops processing before forwarding; otherwise only the elite pool, the round counter and the commands sent change, at most one command is sent, and a sent command restarts the counter and lets processing forward the report |
| ControlNode.ProcessData | OpenCLGA/ocl_ga_server.py:245-306 | Earlier websocket output is kept and only the report, without `best_result`, is appended; every report other than an elitism-mode `generationResult` reaches the controller and each viewer; `workerConnected` registers the worker, `workerLost` removes it, and no other report touches the registry |
| ControlNode.AggregateCountsRound | OpenCLGA/ocl_ga_server.py:271-283 | Before the window ends, a well-formed report appends one elite per reported fitness and counts the round, sending nothing |
| ControlNode.AggregateAtWindowEnd | OpenCLGA/ocl_ga_server.py:283-290 | The round that reaches `every` sorts and truncates the pool, sends it as `elites`, and resets the counter |
| ControlNode.AggregatePromotes | OpenCLGA/ocl_ga_server.py:283-290 | At the window's end the pool becomes the best `top` of the sorted pool, sorted in the optimisation direction and drawn from the pool, and it stays as the next window's starting pool |
| ControlNode.ReportsAreForwarded | OpenCLGA/ocl_ga_server.py:292-306 | Every processed report reaches the controller and each viewer once, without `best_result` |
| ControlNode.ApplyForwards | OpenCLGA/ocl_ga_server.py:245-292 | Processing reaches the forwarding step outside elitism mode, and in it whenever the report is well formed and the socket server is up |
| ControlNode.RegistryFollowsReports | OpenCLGA/ocl_ga_server.py:253-258 | `workerConnected` registers the message under its worker and `workerLost` forgets the worker |
| Elites.Unpack | OpenCLGA/ocl_ga_server.py:279-281 | One elite per reported fitness, in order, each tagged with the worker and holding a genome of `dna_size` values |
| Elites.UnpackRoundTrip | OpenCLGA/ocl_ga_server.py:279-281 | Laying the unpacked genomes end to end gives the flat buffer back |
| Elites.Insert | OpenCLGA/ocl_ga_server.py:286 | Insertion adds exactly the one elite |
| Elites.InsertSorted | OpenCLGA/ocl_ga_server.py:286 | Inserting into a sorted list keeps it sorted |
| Elites.Sort | OpenCLGA/ocl_ga_server.py:286 | The sort is a permutation of the pool, ordered by fitness, descending when maximising and ascending otherwise |
| Elites.InsertKeepsTies | OpenCLGA/ocl_ga_server.py:286 | An inserted elite goes ahead of every elite of equal fitness |
| Elites.SortIsStable | OpenCLGA/ocl_ga_server.py:286 | The sort is stable: elites of equal fitness keep their relative order, also with `reverse=True` |
| Elites.KeepTop | OpenCLGA/ocl_ga_server.py:287-288 | Truncation keeps the first `top` elites when there are at least that many, and all of them otherwise |
| Elites.KeepTopIsBest | OpenCLGA/ocl_ga_server.py:286-288 | Every kept elite may stand before every dropped one |
| Elites.PromotedPool | OpenCLGA/ocl_ga_server.py:286-288 | The promoted pool is sorted, has `min(top, len)` entries and is drawn from the pool |
| Worker.Send | OpenCLGA/ocl_ga_client.py:195-197 | `__send` queues the report exactly when a client exists, and otherwise does nothing |
| Worker.Call | OpenCLGA/ocl_ga_client.py:124-191 | An engine call is recorded once; a traceback is logged exactly when it raises; a decorated call moves the lifecycle machine and sends one `stateChanged` per state it enters, even when its body raises, while the getters send none |
| Worker.Decoration | OpenCLGA/ocl_ga.py:423-467 | Exactly the six `EnterExit`-decorated calls issue a lifecycle action, never `done`; the getters and `update_elites` issue none |
| Worker.BranchOf | OpenCLGA/ocl_ga_client.py:149-189 | A name has no branch exactly when it is not one of the ten handled commands, and is guarded exactly when it is one of the seven that need an engine |
| Worker.Process | OpenCLGA/ocl_ga_client.py:131-191 | A guarded command without an engine only logs the refusal; an unknown command only logs itself; the exit event is set exactly by `exit`; identity and client never change |
| Worker.ProcessCalls | OpenCLGA/ocl_ga_client.py:152-191 | A command makes at most one engine call, appended after the earlier ones |
| Worker.ProcessEngine | OpenCLGA/ocl_ga_client.py:131-137 | The engine exists afterwards exactly when it existed before or the command was `prepare` with options the constructor accepts, even when the engine's `prepare()` then raises |
| Worker.ProcessLog | OpenCLGA/ocl_ga_client.py:149-191 | A command logs at most one line: the refusal, a traceback, or, only for a name without a branch, the unknown command |
| Worker.Replies | OpenCLGA/ocl_ga_client.py:124-178 | `save` replies with no file name after the `stateChanged` reports of its decorated call, `best` and `statistics` reply with the engine's answers and report no state, and a raising engine call sends no reply, only the states it entered |
| Worker.SaveReportsStates | OpenCLGA/ocl_ga_client.py:161-168 | `save` on a paused engine sends `stateChanged` `saving`, then `paused`, then the reply; a `save` whose body raises has sent only `saving` |
| Worker.RunPassesProbabilities | OpenCLGA/ocl_ga_client.py:179-183 | `run` hands the payload's two probabilities to the engine unchanged |
| Worker.NoEngineWithoutPrepare | OpenCLGA/ocl_ga_client.py:149-191 | Until a `prepare` with options arrives, no sequence of commands touches the engine or creates it |
| Worker.ControlNodeCommandsAreHandled | OpenCLGA/ocl_ga_client.py:149-189 | Every command the control node sends, under its translated name, has a branch on the worker and is never logged as unknown |
| Worker.NotifyOnline | OpenCLGA/ocl_ga_client.py:229-235 | A connected worker announces itself with `workerConnected` under its own id |
| Worker.Shutdown | OpenCLGA/ocl_ga_client.py:203-226 | Shutdown stops an existing engine, sending the `stateChanged` reports of `stop` first; it reports `workerLost` unless stopping raised or no client exists; it logs nothing and always drops the client |
| Worker.ShutdownWhileRunning | OpenCLGA/ocl_ga_client.py:203-210 | Shutting down a worker whose engine is running sends `stopping` and `stopped` before `workerLost`; a raising `stop` sends only `stopping` |
| Worker.GenerationCallback | OpenCLGA/ocl_ga_client.py:111-122 | As written: no engine fails the assertion; an entry without `best_result` raises `KeyError`; only an entry with all four keys read sends a `generationResult` |
| Worker.EntryLacksBestResult | OpenCLGA/ocl_ga.py:310-315 | On the `{best, worst, avg}` entry the engine hands its callback, the worker's callback as written always raises `KeyError` |
| Worker.WorkerRunEndsAtFirstGeneration | OpenCLGA/ocl_ga_client.py:131-135 | A run of an engine the worker prepared stores one generation, leaves the resume index unchanged and raises the callback's exception out of `_start_evolution`, so no `generationResult` is sent |
| Worker.GenerationCallbackCorrected | OpenCLGA/ocl_ga_client.py:111-122 | Corrected: with an engine, the callback never raises and sends exactly one `generationResult` with the generation's best fitness |
| Worker.CorrectedRunFinishes | OpenCLGA/ocl_ga.py:310-371 | Corrected: with the fixed callback, a time run or a count run with a generation left always finishes its evolution without raising |
| Worker.QueryDevices | OpenCLGA/ocl_ga_client.py:20-30 | With no platform `platforms[0]` raises `IndexError`; otherwise every (platform, device) pair appears, nothing else does, in platform-major order, one entry per device |
| Worker.IsAlive | OpenCLGA/ocl_ga_client.py:316-320 | The client is alive exactly when every worker is |
| Worker.RunForever | OpenCLGA/ocl_ga_client.py:262-271 | The loop ends at the first poll in which some worker is dead, and every earlier poll found all workers alive |
| Framing.Frame | OpenCLGA/utilities/socketserverclient/server_client.py:92-97 | A frame is the six prefix bytes, the payload, then the six postfix bytes, twelve bytes longer than the payload |
| Framing.Extract | OpenCLGA/utilities/socketserverclient/server_client.py:45-61 | No frame exactly when a sentinel is missing; the prefix assertion fails exactly when both occur and the prefix is not at index 0; otherwise the message is what lies between the prefix and the first postfix |
| Framing.PostfixNotInsidePrefix | OpenCLGA/utilities/socketserverclient/server_client.py:10-11 | The end marker cannot start inside a leading begin marker |
| Framing.Remove | OpenCLGA/utilities/socketserverclient/server_client.py:64-71 | Trimming keeps exactly the bytes after the end marker, and nothing when none follow |
| Framing.Drain | OpenCLGA/utilities/socketserverclient/server_client.py:215-222 | The extract-and-trim loop never grows the buffer |
| Framing.FirstPostfixEndsFrame | OpenCLGA/utilities/socketserverclient/server_client.py:53-58 | In a frame whose payload lacks the end marker, the first end marker is the frame's own |
| Framing.ExtractFrame | OpenCLGA/utilities/socketserverclient/server_client.py:45-71 | Extracting from a frame followed by anything yields its payload and trimming leaves exactly what followed |
| Framing.Frames | OpenCLGA/utilities/socketserverclient/server_client.py:92-97 | Back-to-back frames take at least twelve bytes each |
| Framing.DrainFrames | OpenCLGA/utilities/socketserverclient/server_client.py:215-222 | Frames followed by an incomplete tail are all delivered, in order, leaving exactly the tail and no failure |
| Transport.MessageBytes | OpenCLGA/utilities/socketserverclient/server_client.py:93 | Bytes pass through unchanged; a string is ASCII-encoded and fails when it is not ASCII |
| Transport.AppendToQueue | OpenCLGA/utilities/socketserverclient/server_client.py:92-98 | Appending fails exactly when the message cannot be encoded; otherwise the queue grows by exactly one frame of it and nothing else changes |
| Transport.ClearQueue | OpenCLGA/utilities/socketserverclient/server_client.py:103-106 | Clearing empties the send queue and keeps the receive buffer |
| Transport.PendingAfterClearAndAppend | OpenCLGA/utilities/socketserverclient/server_client.py:92-112 | After a clear nothing is pending; after a successful append something is |
| Transport.Shutdown | OpenCLGA/utilities/socketserverclient/server_client.py:146-156 | Afterwards the handler is done, its socket closed and its sender stopped, with both buffers kept |
| Transport.SendMsg | OpenCLGA/utilities/socketserverclient/server_client.py:158-160 | A done handler ignores the message; a live one appends it |
| Transport.ShutdownIsFinal | OpenCLGA/utilities/socketserverclient/server_client.py:146-160 | Shutting down twice is shutting down once, and a shut-down handler queues nothing |
| Transport.SocketSend | OpenCLGA/utilities/socketserverclient/server_client.py:162-178 | What reaches the socket is a prefix of the data; all of it unless a send call accepted nothing, in which case the write stopped there and every earlier call accepted something |
| Transport.CheckForRecv | OpenCLGA/utilities/socketserverclient/server_client.py:32-41 | A read succeeds exactly when it returned bytes, which are then appended to the buffer; otherwise nothing changes |
| Transport.OnReadable | OpenCLGA/utilities/socketserverclient/server_client.py:203-230 | An empty or failed read disconnects and shuts the handler down; otherwise the buffer is drained and the loop ends exactly when the prefix assertion failed |
| Transport.QueuedFramesAreDelivered | OpenCLGA/utilities/socketserverclient/server_client.py:92-97 | Frames queued by a sender and read in one piece reach the callback unchanged, in order, leaving the buffer empty |
| Transport.Register | OpenCLGA/utilities/socketserverclient/server_client.py:354-357 | Registration adds a fresh handler and its address under a new key and keeps the registry consistent |
| Transport.Unregister | OpenCLGA/utilities/socketserverclient/server_client.py:359-361 | Removal drops the key, known or not, and keeps the registry consistent |
| Transport.Broadcast | OpenCLGA/utilities/socketserverclient/server_client.py:363-365 | A broadcast fails exactly when the message cannot be encoded and some handler is live; otherwise every registered handler gets what `send_msg` gives it and the key set is unchanged |
| Transport.BroadcastReachesRegistered | OpenCLGA/utilities/socketserverclient/server_client.py:354-365 | A newly registered handler receives exactly the broadcast frame; a removed one receives nothing |
| Transport.ServerReceive | OpenCLGA/utilities/socketserverclient/server_client.py:212-230 | A peer that has gone is removed from the registry; otherwise only its handler's buffer changes |
| Transport.ShutdownServer | OpenCLGA/utilities/socketserverclient/server_client.py:367-375 | Server shutdown empties the registry and shuts down every handler that was registered, keeping its queue |
| LegacyTransport.SendWrites | server_client.py:25-33 | An unencodable message gets only the `OPMsgB` prefix written before encoding raises `UnicodeEncodeError`; otherwise the three writes together form one frame of the message |
| LegacyTransport.Send | server_client.py:25-41 | An unencodable message puts at most the prefix on the wire, all of it unless the socket broke, and then reports the encoding error; otherwise what reaches the socket is a prefix of the frame, all of it unless a send call accepted nothing |
| LegacyTransport.DeliveryFor | server_client.py:87-100 | A firing entry splits the message exactly when it has a non-empty middle marker that occurs in the buffer |
| LegacyTransport.Extract | server_client.py:80-101 | Nothing fires exactly when no entry has both markers in the buffer; otherwise the first entry that does delivers |
| LegacyTransport.OnReadable | server_client.py:71-78 | On the server, an empty read disconnects and leaves the buffers alone; otherwise the bytes are appended under the (socket, address) key, one extraction is tried, and the key's whole buffer is popped exactly when something fired |
| LegacyTransport.FrameDeliveredTailDropped | server_client.py:230-236 | With the standard markers, a frame read together with further bytes delivers its payload whole and leaves no buffer, so the further bytes are lost |
| WebSocket.SendImplAsWritten | OpenCLGA/utilities/httpwebsocketserver/HTTPWebSocketsHandler.py:147-155 | As written, an int, `bytes` or `str` is sent as its bytes and a `bytearray` is sent as nothing |
| WebSocket.SendImpl | OpenCLGA/utilities/httpwebsocketserver/HTTPWebSocketsHandler.py:147-155 | Corrected: every value is sent as its bytes, and only the `bytearray` case differs from the code as written |
| WebSocket.PayloadBytes | OpenCLGA/utilities/httpwebsocketserver/HTTPWebSocketsHandler.py:170-171 | The payload of a message is what the send step makes of it |
| WebSocket.PyLen | OpenCLGA/utilities/httpwebsocketserver/HTTPWebSocketsHandler.py:161 | `len` of bytes is the payload size; `len` of text never exceeds the payload size |
| WebSocket.LengthByte | OpenCLGA/utilities/httpwebsocketserver/HTTPWebSocketsHandler.py:162-169 | The seven-bit length has the mask bit clear and holds the length itself exactly when the length is at most 125 |
| WebSocket.ExtendedLength | OpenCLGA/utilities/httpwebsocketserver/HTTPWebSocketsHandler.py:162-169 | The extended length takes no bytes up to 125, two up to 65535, and eight beyond |
| WebSocket.SendMessage | OpenCLGA/utilities/httpwebsocketserver/HTTPWebSocketsHandler.py:157-181 | Sending fails exactly when the payload does not fit 64 bits, and for bytes or ASCII text the output equals the code as written |
| WebSocket.SendMessageAsWritten | OpenCLGA/utilities/httpwebsocketserver/HTTPWebSocketsHandler.py:157-181 | As written, sending fails exactly when `len(message)` does not fit 64 bits, after the header byte and 127; otherwise the wire is the header byte, the length field of `len(message)` and the encoded payload |
| WebSocket.ReadLength | OpenCLGA/utilities/httpwebsocketserver/HTTPWebSocketsHandler.py:124-128 | A decoded length consumes between one byte and the available bytes, and the only failure is a short extended length |
| WebSocket.Unmask | OpenCLGA/utilities/httpwebsocketserver/HTTPWebSocketsHandler.py:130-133 | Unmasking keeps the length of the data |
| WebSocket.UnmaskBytes | OpenCLGA/utilities/httpwebsocketserver/HTTPWebSocketsHandler.py:130-133 | Byte i of the unmasked data is byte i of the data XOR mask byte i mod 4 |
| WebSocket.ReadNextMessage | OpenCLGA/utilities/httpwebsocketserver/HTTPWebSocketsHandler.py:118-145 | A decoded message has a four-bit opcode and consumes at least two bytes; a stream shorter than two bytes raises the `ord` failure |
| WebSocket.WsClose | OpenCLGA/utilities/httpwebsocketserver/HTTPWebSocketsHandler.py:201-219 | A connected handler disconnects, ends the request loop and notifies once, sending nothing as written and the close frame `0x88 0x00` when corrected; a disconnected one is left as it was |
| WebSocket.OnMessage | OpenCLGA/utilities/httpwebsocketserver/HTTPWebSocketsHandler.py:221-244 | Close disconnects, ends the loop and notifies, sending nothing as written and the close frame when corrected; a message is delivered exactly for continuation, text and binary frames; other opcodes change nothing but deliveries |
| WebSocket.ReadStep | OpenCLGA/utilities/httpwebsocketserver/HTTPWebSocketsHandler.py:100-112 | One read pass never grows the unread stream |
| WebSocket.HeaderByte | OpenCLGA/utilities/httpwebsocketserver/HTTPWebSocketsHandler.py:160 | The first header byte has FIN set and carries the opcode in its low four bits |
| WebSocket.MaskBitIgnored | OpenCLGA/utilities/httpwebsocketserver/HTTPWebSocketsHandler.py:124 | The reader's `& 0x7F` ignores the mask bit of a length byte |
| WebSocket.LengthFieldRoundTrip | OpenCLGA/utilities/httpwebsocketserver/HTTPWebSocketsHandler.py:124-128 | Reading back an encoded length field, with or without the mask bit, yields the length and the field's size |
| WebSocket.UnmaskInvolution | OpenCLGA/utilities/httpwebsocketserver/HTTPWebSocketsHandler.py:130-133 | Unmasking twice with one key gives the data back |
| WebSocket.ReadClientFrame | OpenCLGA/utilities/httpwebsocketserver/HTTPWebSocketsHandler.py:118-136 | The reader decodes a masked client frame to its opcode and original payload, leaving what follows |
| WebSocket.ParseServerFrame | OpenCLGA/utilities/httpwebsocketserver/HTTPWebSocketsHandler.py:160-171 | A peer reads a server frame back as FIN, its opcode, no mask and its payload, leaving what follows |
| WebSocket.SendMessageWire | OpenCLGA/utilities/httpwebsocketserver/HTTPWebSocketsHandler.py:157-171 | A fitting payload goes out as header byte, length field, payload |
| WebSocket.SendMessageFrames | OpenCLGA/utilities/httpwebsocketserver/HTTPWebSocketsHandler.py:157-171 | A peer reads every sent message back as one final frame with exactly its payload bytes |
| WebSocket.EAcuteWire | OpenCLGA/utilities/httpwebsocketserver/HTTPWebSocketsHandler.py:161-171 | As written, the text "é" goes out as a header announcing one byte followed by two payload bytes |
| WebSocket.TextLengthCountsCharacters | OpenCLGA/utilities/httpwebsocketserver/HTTPWebSocketsHandler.py:161-171 | As written, a peer reads "é" as a one-byte frame and a stray byte; corrected, it reads both bytes and nothing more |
| WebSocket.CloseAsWrittenSendsNothing | OpenCLGA/utilities/httpwebsocketserver/HTTPWebSocketsHandler.py:246-251 | As written, the close step puts no bytes on the wire |
| WebSocket.SendCloseAsWritten | OpenCLGA/utilities/httpwebsocketserver/HTTPWebSocketsHandler.py:246-251 | As written, nothing reaches the wire although the `bytearray` holds two bytes |
| WebSocket.SendClose | OpenCLGA/utilities/httpwebsocketserver/HTTPWebSocketsHandler.py:246-251 | Corrected, the close step sends the `bytearray`, the two bytes `0x88 0x00` |
| WebSocket.CloseFrameIsRfcClose | OpenCLGA/utilities/httpwebsocketserver/HTTPWebSocketsHandler.py:246-251 | Corrected, the close step sends the two-byte close frame, which a peer reads as a final close frame with an empty body |
| WebSocket.WsCloseIdempotent | OpenCLGA/utilities/httpwebsocketserver/HTTPWebSocketsHandler.py:201-219 | A second close changes nothing, so the close notice runs at most once |
| WebSocket.ReadStepOnClientFrames | OpenCLGA/utilities/httpwebsocketserver/HTTPWebSocketsHandler.py:100-145 | A client data frame delivers its unmasked payload and nothing else changes; a close frame disconnects and, as written, answers with nothing, while the corrected handler answers with the close frame |
| WebSocket.ReadStepAtEndOfStream | OpenCLGA/utilities/httpwebsocketserver/HTTPWebSocketsHandler.py:100-145 | At the end of the stream a connected handler closes and a closed one stays as it is |
| Bytes.AsciiEncode | OpenCLGA/utilities/socketserverclient/server_client.py:93 | ASCII encoding succeeds exactly on text below code 128 and gives one byte of the same value per character |
| Bytes.AsciiRoundTrip | OpenCLGA/utilities/socketserverclient/server_client.py:93 | Decoding the ASCII encoding of ASCII text gives the text back |
| Bytes.Utf8Encode | OpenCLGA/utilities/httpwebsocketserver/HTTPWebSocketsHandler.py:153-154 | UTF-8 never takes fewer bytes than characters, takes exactly as many exactly for ASCII text, and agrees with ASCII encoding there |
| Bytes.Utf8Char | OpenCLGA/utilities/httpwebsocketserver/HTTPWebSocketsHandler.py:153-154 | A character takes its UTF-8 width in bytes, and an ASCII character is its own byte |
| Bytes.ToBE | OpenCLGA/utilities/httpwebsocketserver/HTTPWebSocketsHandler.py:165-169 | Packing a value that fits gives exactly the requested number of bytes |
| Bytes.FromBE | OpenCLGA/utilities/httpwebsocketserver/HTTPWebSocketsHandler.py:125-128 | Unpacking k bytes gives a value below 256 to the power k |
| Bytes.FromToBE | OpenCLGA/utilities/httpwebsocketserver/HTTPWebSocketsHandler.py:125-169 | Unpacking a packed value gives the value back |
| Bytes.ToFromBE | OpenCLGA/utilities/httpwebsocketserver/HTTPWebSocketsHandler.py:125-169 | Packing unpacked bytes gives the bytes back |
| Text.Decimal | OpenCLGA/simple_gene.py:75 | `str(n)` is a non-empty run of digits without a leading zero |
| Text.DecimalRoundTrip | OpenCLGA/simple_gene.py:75 | Reading back `str(n)` gives n |
| Text.ParseDecimal | OpenCLGA/simple_gene.py:75 | Reading back a digit string whose first digit is not 0 gives a positive number |
| Text.ParseDecimalRoundTrip | OpenCLGA/simple_gene.py:75 | A digit string without a leading zero is exactly what `str` prints for its value |
| Text.DecimalListRoundTrip | OpenCLGA/simple_gene.py:73-76 | A comma-joined list of numbers reads back as exactly that list |
| Genes.NewGene | OpenCLGA/simple_gene.py:15-20 | Construction succeeds exactly when the DNA is not `None`, and keeps the elements, name and DNA given |
| Genes.SetDna | OpenCLGA/simple_gene.py:26-29 | The setter succeeds exactly when the DNA is not `None`, and changes only the DNA |
| Genes.Clone | OpenCLGA/simple_gene.py:7-10 | A clone equals the gene it was made from |
| Genes.Length | OpenCLGA/simple_gene.py:36-38 | A simple gene always counts as one DNA value |
| Genes.ElementsInKernel | OpenCLGA/simple_gene.py:50-52 | The device values are the positions of the element list, one per element |
| Genes.ElementsInKernelStr | OpenCLGA/simple_gene.py:73-76 | The initialiser opens with a brace and ends with a closing brace and a newline |
| Genes.ElementsInKernelStrReadsBack | OpenCLGA/simple_gene.py:72-76 | The initialiser is a braced, newline-terminated list that reads back as the device values |
| Genes.LegacyKernelize | simple_gene.py:53-55 | The older gene's line opens with the `SIMPLE_GENE_ELEMENTS` macro, followed by a braced initialiser and a newline |
| Genes.LegacyKernelizeAgrees | simple_gene.py:53-55 | The older gene's `#define` line is the `SIMPLE_GENE_ELEMENTS` macro around the newer gene's initialiser |
| Genes.FromKernelValue | OpenCLGA/simple_gene.py:78-82 | Reading a device value back succeeds exactly for a position of the element list, gives the element at that position, and keeps the elements and the name |
| Genes.LegacyFromKernelValue | simple_gene.py:57-59 | The older gene accepts exactly the values above -1 and below the element count |
| Genes.LegacyFromKernelValueAgrees | simple_gene.py:57-59 | The older and newer guards accept the same values and build the same gene |
| Genes.FromKernelValueRoundTrip | OpenCLGA/simple_gene.py:50-82 | With distinct elements, the gene read back from a device value sits at that value's position, so the device value is recovered |
| Genes.IndexOf | OpenCLGA/simple_gene.py:33 | `list.index` finds the first position holding the value, and gives -1 exactly when the value is absent, where the source raises `ValueError` |
| Chromosomes.Dna | OpenCLGA/shuffler_chromosome.py:37-39 | The DNA list has one entry per gene, each the gene's own DNA |
| Chromosomes.AssignFrom | OpenCLGA/shuffler_chromosome.py:44-45 | Genes before the first `None` take their new DNA, the genes from it on are untouched, and no gene changes its elements or name |
| Chromosomes.AssignDna | OpenCLGA/shuffler_chromosome.py:41-45 | The setter completes exactly when the lengths agree and no entry is `None`; a length mismatch changes nothing; on completion the DNA reads back as given |
| Chromosomes.AssignOwnDna | OpenCLGA/simple_chromosome.py:37-45 | Setting a chromosome's DNA to what it already is changes nothing and completes |
| Chromosomes.GenesFromKernel | OpenCLGA/shuffler_chromosome.py:83-85 | Mapping device values succeeds exactly when there is one per gene and each is a position of its gene's elements, and then each gene is that gene's own reading of its value |
| Chromosomes.GenesFromKernelRoundTrip | OpenCLGA/simple_chromosome.py:77-82 | Reading back the device values of a chromosome gives back its genes |
| Chromosomes.ShufflerFromKernelValue | OpenCLGA/shuffler_chromosome.py:83-86 | Reading back succeeds exactly when the gene mapping does, keeps the name and drops the improving function and repopulation setting |
| Chromosomes.NewShuffler | OpenCLGA/shuffler_chromosome.py:14-23 | A new shuffler chromosome holds the genes and name given, counts one DNA value per gene, names the dummy improving function to the kernel and has no repopulation setting, so `IsRepopulating` answers false |
| Chromosomes.ImprovingFunc | OpenCLGA/shuffler_chromosome.py:88-93 | The kernel uses the improving function that was set, or the dummy one |
| Chromosomes.ShufflerKernelize | OpenCLGA/shuffler_chromosome.py:91-101 | Kernel text exists exactly when the chromosome has genes |
| Chromosomes.ShufflerKernelizeDefines | OpenCLGA/shuffler_chromosome.py:91-101 | The kernel text opens with the first gene's element `#define` and carries the gene count and the improving function's macro |
| Chromosomes.IsRepopulating | OpenCLGA/shuffler_chromosome.py:186-198 | No setting means no repopulation; a setting without `type` or `diff` fails its assertion; repopulation happens only when the difference the type names is below `diff` |
| Chromosomes.Below | OpenCLGA/shuffler_chromosome.py:194-196 | The comparison succeeds exactly for a numeric threshold and is `abs(x) < diff` |
| Chromosomes.RepopulateCountBounds | OpenCLGA/shuffler_chromosome.py:224 | Repopulation launches at least one and at most the population's number of work items |
| Chromosomes.RepopulateCount | OpenCLGA/shuffler_chromosome.py:224 | The repopulating launch size is one more than nine tenths of the population, rounded down |
| Chromosomes.ShufflerCrossoverLaunches | OpenCLGA/shuffler_chromosome.py:207-252 | The ratio kernel always runs first on one item; a repopulating step then only populates; otherwise pick and crossover each run over the whole population |
| Chromosomes.Lengths | OpenCLGA/simple_chromosome.py:35 | One length per gene, each the gene's length |
| Chromosomes.TotalLengthIsGeneCount | OpenCLGA/simple_chromosome.py:32-35 | The total DNA length of a simple chromosome is its gene count, as for the shuffler |
| Chromosomes.SimpleCrossoverLaunches | OpenCLGA/simple_chromosome.py:220-241 | Nothing runs exactly when best and worst are within 0.0001; otherwise pick and crossover each run over the whole population |
| Chromosomes.EarlyTerminated | OpenCLGA/simple_chromosome.py:72-75 | A run counts as early terminated exactly when the best lies strictly within 0.0001 of the worst |
| Chromosomes.SimpleFromKernelValue | OpenCLGA/simple_chromosome.py:77-82 | Reading back succeeds exactly when the gene mapping does and keeps the name |
| Chromosomes.ElementCounts | OpenCLGA/simple_chromosome.py:93 | One count per gene, each the size of that gene's element list |
| Chromosomes.SimpleKernelize | OpenCLGA/simple_chromosome.py:88-100 | Kernel text exists exactly when the chromosome has genes |
| Chromosomes.SimpleKernelizeReadsBack | OpenCLGA/simple_chromosome.py:88-100 | The size initialiser reads back as each gene's number of elements, and the gene count follows it |
| Tours.OrderCrossover | OpenCLGA/kernel/shuffler_chromosome.c:188-198 | The reference crossover starts with the other parent's first `cut` genes |
| Tours.OrderCrossoverIsTour | OpenCLGA/kernel/shuffler_chromosome.c:185-198 | Crossing two tours at any cut gives a tour |
| Tours.PermutationKeepsTour | OpenCLGA/kernel/shuffler_chromosome.c:47-52 | Any rearrangement of a tour, such as a swap, is a tour |
| Tours.RangeIsTour | OpenCLGA/simple_gene.py:50-52 | The device values `0 .. n-1` of a gene's elements form a tour |
| ShufflerKernel.Populate | OpenCLGA/kernel/shuffler_chromosome.c:22-31 | Populating with in-range draws yields a rearrangement of the element list, hence a tour when the list is one |
| ShufflerKernel.PoolStep | OpenCLGA/kernel/shuffler_chromosome.c:26-28 | Taking an item out of the live pool and moving the last live item into its place loses nothing else |
| ShufflerKernel.SingleGeneMutate | OpenCLGA/kernel/shuffler_chromosome.c:61-95 | A draw above the probability keeps the chromosome; otherwise exactly positions i and j trade genes, a chromosome without repeats changes when the partner is random, and a tour stays a tour |
| ShufflerKernel.Pick | OpenCLGA/kernel/shuffler_chromosome.c:111-138 | When not converged, an in-range work item copies the chosen chromosome into its own slot of the other-parent buffer and nothing else changes; otherwise the buffer is unchanged |
| ShufflerKernel.CopyPrefix | OpenCLGA/kernel/shuffler_chromosome.c:178-192 | The first loop gives the child the other parent's first `cut` genes and marks exactly those genes |
| ShufflerKernel.AppendRestStep | OpenCLGA/kernel/shuffler_chromosome.c:194-198 | One pass of the second loop appends the gene exactly when it is unmarked, keeping the filled cells equal to the other parent's prefix followed by this parent's unmarked genes seen so far |
| ShufflerKernel.AppendRest | OpenCLGA/kernel/shuffler_chromosome.c:194-198 | The second loop leaves the other parent's prefix followed by this parent's remaining genes in their own order |
| ShufflerKernel.OrderCrossoverKernel | OpenCLGA/kernel/shuffler_chromosome.c:174-198 | The two loops with the mark map compute the reference order crossover, so the child is a tour |
| ShufflerKernel.DoCrossover | OpenCLGA/kernel/shuffler_chromosome.c:140-201 | Only the crossing work item's chromosome changes; its cut lies in `[1, n-1]`, its head is the other parent's and its tail is its own remaining genes, and it stays a tour |
| ShufflerKernel.RandomChoose | kernel/shuffler_chromosome.c:77-94 | The chosen index is the first whose running total of ratios exceeds the draw, or the last index when none does |
| ShufflerKernel.CalcRatioBoundsAsWritten | kernel/shuffler_chromosome.c:138-157 | As written, when maximising the best is never above 0 and the worst never below `INT_MAX`; when minimising it agrees with the corrected bounds |
| ShufflerKernel.CalcRatioBoundsMisreadsMaximum | kernel/shuffler_chromosome.c:148-157 | For fitnesses 5 and 7 under maximisation the code as written reports best 0 and worst `INT_MAX`, while the corrected one reports 7 and 5 |
| ShufflerKernel.CalcRatioBounds | kernel/shuffler_chromosome.c:138-157 | Corrected: for fitnesses within `[0, INT_MAX]`, best and worst are fitnesses of the population, every fitness lies between them, and best is the maximum exactly when maximising |
| GaUtils.Abs | kernel/ga_utils.c:6-25 | `fabs` is non-negative and is the value or its negation |
| GaUtils.ChromosomeSwap | kernel/ga_utils.c:6-13 | Exactly the two cells of chromosome `idx` trade places, every other cell of the buffer is unchanged, and the chromosome keeps its genes |
| GaUtils.SwapInsideSlice | kernel/ga_utils.c:6-13 | Swapping two cells of one chromosome in the buffer is swapping them within that chromosome |
| GaUtils.CalcMinMax | kernel/ga_utils.c:15-25 | The minimum never rises and the maximum never falls, every fitness lies between them, and each is either its starting value or one of the fitnesses |
| Rng.InitRand | kernel/ga_utils.c:68-71 | The seeded holder is a 32-bit value derived from the seed by the first generator |
| Rng.Rand | kernel/ga_utils.c:29-36 | The draw and the new holder are 32-bit values, and the holder keeps the second intermediate value, not the draw |
| Rng.RandRange | kernel/ga_utils.c:40-44 | A ranged draw lies below the range and advances the holder as one plain draw does |
| Rng.RandRangeExclude | kernel/ga_utils.c:48-55 | The result is the first draw whose residue differs from the excluded value, every earlier draw hit the excluded value, and with range 1 and exclusion 0 no draw can ever be accepted |
| Population.Slice | kernel/ga_utils.c:9 | A chromosome's slice has exactly `size` genes |
| Population.WithSlice | kernel/ga_utils.c:6-13 | Writing one chromosome puts its genes in its slice and leaves every cell outside the slice unchanged |
| Population.OtherSlicesUnchanged | kernel/ga_algo.c:5-119 | Writing one chromosome leaves every other chromosome as it was |
| GaAlgo.Adjusted | kernel/ga_algo.c:11 | The probed index is always a chromosome of the population, as written and with wrap-around |
| GaAlgo.Probe | kernel/ga_algo.c:10-16 | The probe loop stops at the first probe that lands on a survivor, and reports none only when every remaining probe misses |
| GaAlgo.FindSurvivedIdx | kernel/ga_algo.c:5-18 | The index returned is a chromosome and a survivor, unless every probe missed, in which case it is the first draw after the full number of probes |
| GaAlgo.FindsSurvivor | kernel/ga_algo.c:5-18 | Corrected with wrap-around, the search finds a survivor whenever one exists |
| GaAlgo.SkipsSurvivorAsWritten | kernel/ga_algo.c:11 | As written, with two chromosomes of which only the second survives and a first draw of 0, the search ends on the dead chromosome |
| GaAlgo.Reproduce | kernel/ga_algo.c:20-61 | With either survivor search, a survivor is kept; a dead chromosome becomes a rearrangement of the chromosome the search returns, an exact copy when the crossover draw is above the probability; no other chromosome changes |
| GaAlgo.ReproduceAsWrittenKeepsDead | kernel/ga_algo.c:5-39 | As written, with two chromosomes of which only the second survives, a first draw of 0 and no crossover, the dead chromosome 0 is refilled from itself and the buffer does not change |
| GaAlgo.ReproduceCopiesSurvivor | kernel/ga_algo.c:27-39 | Corrected with wrap-around: when any chromosome survives, a dead chromosome becomes a rearrangement of a survivor other than itself |
| GaAlgo.UpdateSurvivors | kernel/ga_algo.c:63-89 | Only work item 0 acts; the best never rises and the weakest never falls, every fitness lies between them, and a chromosome survives exactly when its fitness is at most the threshold |
| GaAlgo.BestSurvives | kernel/ga_algo.c:83-88 | A chromosome whose fitness is the best survives |
| GaAlgo.MutatedUpTo | kernel/ga_mutation.c:3-13 | Mutation rearranges the genes, and leaves them alone when no draw is below the probability |
| GaAlgo.MutateGenes | kernel/ga_mutation.c:3-13 | The mutation loop performs the swaps of all positions in order and rearranges the genes |
| GaAlgo.Mutate | kernel/ga_mutation.c:3-13 | Mutating chromosome `idx` rearranges its genes and changes no other cell of the buffer |
| GaAlgo.MutateGuarded | kernel/ga_mutation.c:3-13 | Corrected: a chromosome of fewer than two genes is left alone; otherwise mutation rearranges chromosome `idx` and changes no other cell |
| GaAlgo.SimpleGeneMutate | kernel/simple_gene.c:7-14 | A draw above the probability keeps the gene; otherwise the new gene is a different value below `max`, and a one-element gene at 0 can never be replaced |
| GaAlgo.OneGeneration | kernel/ga_algo.c:103-144 | With the kernel's `mutate`, a work item of the population hangs exactly when its chromosome has one gene and the mutation draw is below the probability; with the guarded mutation nothing hangs. Otherwise work items past the population change nothing, and only the work item's chromosome changes, with either survivor search, a survivor being rearranged and a dead one becoming a rearrangement of the chromosome the search returns |
| EvalShuffler.FirstMatchExcept | evaluation/oclGA/cl/shuffler_chromosome.c:89-95 | The index found is the first from `from` on that holds the value and is not the skipped position, or the length when there is none |
| EvalShuffler.Reproduce | evaluation/oclGA/cl/shuffler_chromosome.c:67-102 | With either survivor search, a survivor is kept and no other chromosome changes; a dead chromosome becomes a rearrangement of the chromosome the search returns, a tour when that one is, and an exact copy when the crossover draw is above the probability or both searches return the same chromosome |
| EvalShuffler.ReproduceAsWrittenKeepsDead | evaluation/oclGA/cl/shuffler_chromosome.c:52-66 | As written, with only the second of two chromosomes surviving, a first draw of 0 and no crossover, the dead chromosome 0 is refilled from itself and nothing changes |
| EvalShuffler.ReproduceFromSurvivor | evaluation/oclGA/cl/shuffler_chromosome.c:52-102 | Corrected with wrap-around: when any chromosome survives, a dead one becomes a rearrangement of a survivor other than itself |
| TaiwanTour.Legs | examples/taiwan_travel/kernel/taiwan_fitness.c:19-24 | One leg per consecutive pair of genes, each measured from the later gene to the earlier |
| TaiwanTour.SumRealSnoc | examples/taiwan_travel/kernel/taiwan_fitness.c:18-24 | Adding one more leg adds its length to the running total |
| TaiwanTour.CalcFitness | examples/taiwan_travel/kernel/taiwan_fitness.c:13-29 | The loop computes the closed tour's length: all consecutive legs plus the leg from the last city back to the first |
| TaiwanTour.RotationKeepsLength | examples/taiwan_travel/kernel/taiwan_fitness.c:13-29 | A closed tour has the same length whichever city it starts from |
| TaiwanTour.SwapGenes | examples/taiwan_travel/kernel/taiwan_fitness.c:39-44 | Exactly the two positions trade genes, and the genes are rearranged, not changed |
| TaiwanTour.SwapTwice | examples/taiwan_travel/kernel/taiwan_fitness.c:63-65 | Swapping the same two positions twice restores the chromosome |
| TaiwanTour.ImprovingHelper | examples/taiwan_travel/kernel/taiwan_fitness.c:46-72 | The chromosome is handed back unchanged; the answer is `idx` when no swap with a position below `size - 1` improves the score, and otherwise the first such position giving the lowest score, which is below the current one |
| PyGene.SetDna | gene.py:21-24 | The setter succeeds exactly when every item is one of the gene's elements, stores exactly that list, keeps the invariant, and changes nothing else |
| PyGene.SetDnaOfDna | gene.py:18-24 | Storing back what the getter returns gives the gene back unchanged |
| PyGene.NewGene | gene.py:11-16 | Construction succeeds exactly when every item is one of the elements, and keeps the list, elements and name given |
| PyGene.CloneGene | gene.py:4-5 | A clone has the same DNA, elements and name |
| PyGene.MutatedItems | gene.py:40-45 | The new list fails to build exactly when a drawn position has no other element; otherwise each drawn position takes a different element and every other keeps its item |
| PyGene.Mutate | gene.py:40-46 | Mutation raises exactly when a drawn position has no alternative; otherwise exactly the drawn positions change, to other elements of the gene, and the gene stays valid |
| PyGene.MutateNeverDrawn | gene.py:40-46 | When no draw is below the probability, mutation changes nothing |
| PyChromosome.NewChromosome | chromosome.py:9-13 | An empty gene list raises `IndexError`; otherwise construction succeeds exactly when all genes have the first one's length, keeping the genes and the name |
| PyChromosome.Dna | chromosome.py:27-28 | One DNA list per gene, in gene order |
| PyChromosome.DnaTotalLength | chromosome.py:21-25 | The loop adds up every gene's DNA length |
| PyChromosome.UniformTotalLength | chromosome.py:21-25 | Genes of one common length add up to that length times their count |
| PyChromosome.ConstructedTotalLength | chromosome.py:9-25 | A constructed chromosome totals its gene count times the first gene's length |
| PyChromosome.StoreAll | chromosome.py:32-33 | Each gene becomes what its own setter makes of the list at its position |
| PyChromosome.SetDna | chromosome.py:30-33 | The setter succeeds exactly when there is one list per gene and each is accepted by its gene; then the DNA reads back as given, every gene stays valid, and elements, names and the chromosome's name are kept |
| PyChromosome.SetDnaOfDna | chromosome.py:27-33 | Storing back what the getter returns changes nothing |
| PyChromosome.SwapGenes | chromosome.py:58-64 | The swap succeeds exactly when both positions are gene indices, and then exactly those two genes trade places |
| PyChromosome.SwapGenesTwice | chromosome.py:58-64 | A swap keeps the chromosome's genes, and repeating it restores the chromosome |
| PyChromosome.Exchange | chromosome.py:78-86 | The result takes the first list's items inside the range and keeps its own outside it |
| PyChromosome.ExchangeKeepsItems | chromosome.py:78-86 | Exchanging a range between two lists keeps the two lists' items together |
| PyChromosome.Crossover | chromosome.py:72-86 | Crossover fails its assertions exactly outside the bounds, succeeds on compatible parents, and then the parents trade the DNA of the rear from `p1` (one point) or of `[p1, p2)` (two points), keeping names, elements and validity |
| PyChromosome.ExchangeBack | chromosome.py:78-86 | Exchanging the same range back restores the first list |
| PyChromosome.SameChromosome | chromosome.py:27-33 | A chromosome is determined by its name, its DNA and its genes' elements and names |
| PyChromosome.CrossoverTwice | chromosome.py:72-86 | Crossover neither loses nor invents DNA, and crossing the children again at the same points gives the parents back |
| PyChromosome.Clone | chromosome.py:54-56 | Cloning succeeds exactly when the constructor accepts the genes, gives the same genes and DNA, and drops the name |
| PyOperators.CustomCrossover | utils.py:29-33 | With no genes nothing happens; a `point` past `c2` raises `IndexError`; otherwise the first gene of `c1` carrying `c2`'s DNA at `point` trades places with the gene at `point`, only those two positions change, and the genes are kept as a multiset |
| PyOperators.CrossoverImportsGene | tsp.py:15-19 | Between two orderings of the same genes the crossover always finds a match, puts `c2`'s DNA at `point`, and leaves an ordering of the same genes |
| PyOperators.CustomMutate | tsp.py:7-13 | A single gene drawn below the probability has no partner and `random.sample` raises `ValueError`; otherwise each drawn position swaps with its partner in turn, and the genes, their count and the name are kept |
| PyTsp.ShuffleSteps | utils.py:11 | Each exchange of a shuffle keeps the list's items, so every prefix of the shuffle is a permutation |
| PyTsp.Shuffle | utils.py:11 | The shuffled list is a permutation of the list |
| PyTsp.Orders | utils.py:8-11 | Because the one id list is shuffled in place, chromosome `x` sees a permutation of the original ids after all earlier shuffles |
| PyTsp.CityGenes | utils.py:12-14 | One single-city gene per id of the order, over the set of all ids, named after the chromosome number |
| PyTsp.Cities | tsp.py:27 | The city of every gene is its first DNA item |
| PyTsp.CityChromosome | utils.py:12-17 | Building from a permutation of the ids fails with `IndexError` exactly when there is no city, and otherwise gives valid genes that visit the cities in that order |
| PyTsp.ShuffledChromosome | utils.py:8-17 | Chromosome `x` fails exactly when there is no city |
| PyTsp.ShuffledVisitsEveryCity | utils.py:8-17 | Every shuffled chromosome is valid and visits each city as often as the id list holds it |
| PyTsp.MadeShuffledSnoc | utils.py:8-19 | Appending the next chromosome keeps the list the shuffles would build |
| PyTsp.CreateShuffled | utils.py:5-19 | The result fails exactly when a chromosome is asked for and there is no city; otherwise chromosome `x` is the one built after `x + 1` shuffles |
| PyTsp.CreateInOrder | tsp.py:47-62 | The result fails exactly when a chromosome is asked for and there is no city; otherwise every chromosome is valid and visits the cities in the given order |
| PyTsp.ClosedLegs | tsp.py:27-31 | The legs of the closed tour: each city to the next, and the last back to the first |
| PyTsp.SumClosedLegsStep | tsp.py:33-38 | Each pair of the closed list adds its leg to the running sum |
| PyTsp.CalcDistance | tsp.py:26-40 | The distance raises `IndexError` exactly when a gene has no DNA or there is no gene, and is otherwise the length of the closed tour |
| PyTsp.ClosedLegsAsKernelLength | tsp.py:26-40 | The Python tour length equals the Taiwan kernel's tour length under the flipped distance |
| PyTsp.ClosedLengthIgnoresStart | tsp.py:26-40 | Rotating the city list does not change the closed tour length |
| PyTsp.EvaluateFitness | tsp.py:42-45 | Evaluation fails exactly when some chromosome cannot be measured; otherwise each fitness is minus that chromosome's tour length |
| PyAlgorithm.Init | algorithm.py:8-24 | A new driver holds the population and its size, has no best, no weakest and no evaluation yet, and starts with the best fitness below the weakest one, so the first evaluation replaces both |
| PyAlgorithm.AvgEvaluationTime | algorithm.py:26-27 | The average fails with `ZeroDivisionError` exactly before the first evaluation; otherwise it times the count to the total evaluation time |
| PyAlgorithm.CalcGenerationFitness | algorithm.py:29-82 | An empty evaluation makes `max` raise `ValueError`; otherwise the count and time grow, the population is kept, the best fitness becomes the maximum of the old one and the new fitnesses and changes exactly when some new fitness beats it (then holding a clone of the first chromosome with that fitness), and symmetrically for the weakest |
| PyAlgorithm.Reaching | algorithm.py:38-42 | Exactly the positions from `from` on whose fitness reaches the threshold, in increasing order |
| PyAlgorithm.SelectIndices | algorithm.py:35-44 | When somebody reaches the midpoint of the weakest and the best fitness, exactly those positions survive, in population order; when nobody does, everybody survives |
| PyAlgorithm.Select | algorithm.py:35-44 | The survivors are the chromosomes at the selected positions, in population order, and never more than the population |
| PyAlgorithm.StrictlyIncreasingBound | algorithm.py:35-44 | Strictly increasing positions below `n` number at most `n` |
| PyAlgorithm.FittestSurvives | algorithm.py:35-44 | The first chromosome with the generation's top fitness always survives selection, so a non-empty population never selects nobody |
| PyAlgorithm.OffspringKeeps | algorithm.py:50-57 | Any property that the survivors have and that cloning and crossover keep, every offspring has |
| PyAlgorithm.Reproduce | algorithm.py:46-60 | No survivors for a non-full population raise `IndexError`, too many fail the final assertion, a crossing draw with no genes makes `randrange` raise `ValueError`; otherwise the population is refilled to its size, survivors first, then one offspring per draw |
| PyAlgorithm.MutateAll | algorithm.py:62-64 | Every chromosome, and only it, goes through the mutate hook with its own draws |
| PyAlgorithm.Step | algorithm.py:92-96 | One generation keeps the population size, leaves the stored fitness equal to the evaluation of the new population, counts one more evaluation and its time, and never lowers the best fitness or raises the weakest |
| PyAlgorithm.Run | algorithm.py:84-105 | A probability outside [0, 1] fails the assertions; an empty population raises `ValueError`; otherwise the count grows by the number of generations plus one, the fitness is the last population's evaluation, the best never falls, the weakest never rises, and the elapsed time is recorded |

## Left out

- Serialisation by `repr`/`eval` and `pickle` of commands, reports and checkpoints: messages are modelled as values, and checkpoint files as the record they hold.
- The ping branch of `_on_message` calls an unbound `_send_message` and raises `NameError`; the model treats the raise as closing the connection.
- `KeyboardInterrupt` handling, threads, locks and the task thread's scheduling: each call runs to completion before the next starts. Partial socket writes are modelled by the per-call capacities of `Transport.SocketSend`.
- OpenCL plumbing (contexts, queues, buffer allocation, `preexecute_kernels`, kernel source assembly beyond the emitted numbers, the buffer getters): not modelled, because it only moves data.
- Single-precision rounding of fitness values: fitness is `real` throughout.
- `rand_range(0)` takes a remainder by zero on the device, which C leaves undefined; the model requires a positive range.
- The retry loop of `rand_range_exclude` is bounded by the sequence of draws supplied.
- GaAlgo.OneGeneration: in the reproduce phase (kernel/ga_algo.c:20-57) a work item may copy from a slice that another work item is rewriting at the same time, since nothing orders them before the barrier that follows the phase (kernel/ga_algo.c:136-140); the model reads every source slice as it was before the kernel, so the interleavings this race allows are not modelled.
- The ratio and average loops of `shuffler_chromosome_calc_ratio` (kernel/shuffler_chromosome.c:160-173), including the division by `diffTotal`, which is zero when every fitness equals the worst: single-precision arithmetic is not modelled, only the best and worst bounds are.
- Open failures of `save` and `restore` other than a missing or empty file name (permissions, a missing file): file I/O is not modelled.
- The noise generators of Noise.cl are not part of this model; their output is a parameter.
- `dna_in_kernel` of the shuffler chromosome reads an `_elements` attribute that does not exist and always raises; it is not modelled beyond that.
- The static `Chromosome.mutate` of chromosome.py has a signature that cannot be called as the driver calls it; the model takes the mutate hook as a parameter.
- A failed assertion part-way through a Python setter leaves earlier genes already changed; the model reports the exception and drops the partial state.
- The fitness dictionary of algorithm.py is keyed by chromosome identity; the model keeps one fitness per population position, in population order.
- The `set_customized_run_impl` hook: only the built-in `__run_impl` is modelled.
- PyAlgorithm.Step: the hooks (`clone`, the custom crossover and mutation functions, `evaluate_fitness`) are total functions in the model, so an exception one of them raises is not modelled; in the source it propagates out of the generation (algorithm.py:51-55, 62-64, 70), while the model's `Err(ValueError)` covers only `randrange` on a chromosome without genes.
- PyAlgorithm.Run: for the same reason, a hook that raises, which in the source ends `run` before `elapsed_time` is set (algorithm.py:98-105), is not modelled; the model's errors are only the failed probability assertions and the `ValueError`s of `max` and `randrange`.
- `__calc_generation_fitness` increments the count before `max` raises on an empty population; the model reports the `ValueError` without the count.
- `random.choice`, `random.sample` and `randrange` are modelled as draws taken modulo the size they choose from.
- utils.py shuffles the caller's city list in place; the model returns each order instead of mutating the argument.
- City coordinates and the Euclidean and spherical distance formulas: the distance is a parameter.
- `get_statistics` and the other plain getters of the engines.
- The value `numpy.array(rnum, dtype=numpy.uint32)` computes in the older restore: floating point is not modelled, so it is a parameter; the raw copy that follows overwrites it.
- `__prepare` of the control node lacks the `assert self.socket_server != None` of its siblings, so without a socket server it raises `AttributeError` rather than `AssertionError`; the model reports both as the same failed send.
- The older server_client.py raises `RuntimeError` on a broken socket; the model marks the connection broken instead of propagating it.
- `__close_connections` and `get_connected_lists` of the older transport.
- LegacyTransport.OnReadable: models the server's handler only; the client's loop (server_client.py:125-131) ignores an empty read instead of disconnecting, and is not modelled.
- The WebSocket opening handshake (SHA-1 and Base64 of the key) and HTTP request parsing.
- Worker.Process: the generation callback it injects (OpenCLGA/ocl_ga_client.py:133) runs on the engine's task thread; the model gives its outcome at each generation boundary and its report in `Worker.GenerationCallback`, but does not interleave that report with the replies to commands.

## Findings

| source | as written | input that shows it | evidently intended | confidence | as-written member | corrected member |
|---|---|---|---|---|---|---|
| OpenCLGA/utilities/httpwebsocketserver/HTTPWebSocketsHandler.py:147-155 | `_send_impl` has no branch for `bytearray`, so the close frame built by `_send_close` is sent as nothing | `_send_close()` | the two bytes `0x88 0x00` of an empty close frame (section 5.5.1 of RFC 6455) | not executed | WebSocket.CloseAsWrittenSendsNothing | WebSocket.CloseFrameIsRfcClose |
| OpenCLGA/utilities/httpwebsocketserver/HTTPWebSocketsHandler.py:161-171 | the frame header carries `len(message)`, the number of characters, while the payload is the UTF-8 encoding | the text "é": the header announces 1 byte, 2 bytes follow | the header carries the length of the encoded payload | not executed | WebSocket.EAcuteWire | WebSocket.SendMessageFrames |
| kernel/ga_algo.c:11 | `find_survied_idx` probes index `runs` once `start + runs` passes the end, and `start` otherwise, so it never moves past `start` before wrapping; evaluation/oclGA/cl/shuffler_chromosome.c:58 has the same line | two chromosomes, only the second survives, first draw 0: the search ends on chromosome 0, which is dead | probe `(start + runs) % count`, which visits every chromosome | not executed | GaAlgo.SkipsSurvivorAsWritten | GaAlgo.FindsSurvivor |
| kernel/shuffler_chromosome.c:148-157 | when maximising, `calc_ratio` passes the running maximum into the minimum's slot of `calc_min_max` and vice versa | fitnesses 5 and 7: best 0 and worst `INT_MAX` | best 7 and worst 5 | not executed | ShufflerKernel.CalcRatioBoundsMisreadsMaximum | ShufflerKernel.CalcRatioBounds |
| kernel/ga_mutation.c:9 | `mutate` asks `rand_range_exclude` for a partner other than `i` among `chromosome_size` positions, which for a one-gene chromosome means a draw below 1 other than 0 | a one-gene chromosome whose probability draw is below the mutation probability: the retry loop never exits | a chromosome with fewer than two genes is left alone | not executed | Rng.RandRangeExclude | GaAlgo.MutateGuarded |
| OpenCLGA/ocl_ga_client.py:121 | the generation callback the worker injects reads `data['best_result']`, a key `__execute_single_generation` never stores (OpenCLGA/ocl_ga.py:310-315) | `run` on an engine a worker prepared: the callback raises `KeyError` after generation 0 is stored, the exception leaves the run task, and no `generationResult` is sent | report the generation's best, average and worst, with `best_result` only when present | not executed | Worker.EntryLacksBestResult | Worker.GenerationCallbackCorrected |

=== FILE: best.dfy ===
/** `get_the_best` of both engines (OpenCLGA/ocl_ga.py and the older
    ocl_ga.py have the same body): the extreme fitness in the optimisation
    direction, the first individual holding it, and that individual's slice
    of the flat chromosome buffer. */
module Best {
  import opened Results
  import Seqs

  datatype Direction = Maximise | Minimise

  /** The `opt_for_max` option: only "max" and "min" pass the assertion. */
  function ParseDirection(opt: string): (r: Option<Direction>)
    ensures r == Some(Maximise) <==> opt == "max"
    ensures r == Some(Minimise) <==> opt == "min"
    ensures r.None? <==> opt != "max" && opt != "min"
  {
    if opt == "max" then Some(Maximise)
    else if opt == "min" then Some(Minimise)
    else None
  }

  /** `a` is strictly better than `b` in direction `d`. */
  predicate Better(d: Direction, a: real, b: real)
  {
    if d == Maximise then a > b else a < b
  }

  /** `fits[i]` is the extreme value: nothing is strictly better. */
  predicate IsExtreme(d: Direction, fits: seq<real>, i: int)
  {
    0 <= i < |fits| && forall j :: 0 <= j < |fits| ==> !Better(d, fits[j], fits[i])
  }

  /** `list(fits).index(max(fits))` (or `min`): the first index holding the
      extreme value. */
  function FirstExtreme(d: Direction, fits: seq<real>): (r: nat)
    requires |fits| > 0
    ensures IsExtreme(d, fits, r)
    ensures forall j :: 0 <= j < r ==> fits[j] != fits[r]
  {
    if |fits| == 1 then 0
    else
      var init := fits[..|fits| - 1];
      var k := FirstExtreme(d, init);
      assert forall j :: 0 <= j < |init| ==> init[j] == fits[j];
      if Better(d, fits[|fits| - 1], fits[k]) then |fits| - 1 else k
  }

  /** Any index that is extreme and first among equal values is the one
      `FirstExtreme` picks. */
  lemma FirstExtremeUnique(d: Direction, fits: seq<real>, i: nat)
    requires IsExtreme(d, fits, i)
    requires forall j :: 0 <= j < i ==> fits[j] != fits[i]
    ensures FirstExtreme(d, fits) == i
  {
    var k := FirstExtreme(d, fits);
    assert !Better(d, fits[i], fits[k]) && !Better(d, fits[k], fits[i]);
    assert fits[k] == fits[i];
  }

  datatype Found = Found(genome: seq<int>, fitness: real, index: nat)

  datatype Failure = DirectionNotRecognised | NoFitnesses

  /** `get_the_best`: the direction must be "max" or "min"; an empty fitness
      array makes `max`/`min` raise; otherwise the first extreme individual
      `i` and the buffer slice `[i*genes, (i+1)*genes)` (clamped, as numpy
      slices are). */
  function GetTheBest(opt: string, fits: seq<real>, chromosomes: seq<int>, genes: nat): (r: Result<Found, Failure>)
    ensures ParseDirection(opt).None? ==> r == Err(DirectionNotRecognised)
    ensures ParseDirection(opt).Some? && fits == [] ==> r == Err(NoFitnesses)
    ensures r.Ok? ==> ParseDirection(opt).Some? && r.value.index < |fits|
    ensures r.Ok? ==>
              && IsExtreme(ParseDirection(opt).value, fits, r.value.index)
              && (forall j :: 0 <= j < r.value.index ==> fits[j] != r.value.fitness)
              && r.value.fitness == fits[r.value.index]
    ensures r.Ok? ==> var lo := r.value.index * genes;
              lo + genes <= |chromosomes| ==> r.value.genome == chromosomes[lo..lo + genes]
  {
    match ParseDirection(opt)
    case None => Err(DirectionNotRecognised)
    case Some(d) =>
      if fits == [] then Err(NoFitnesses)
      else
        var i := FirstExtreme(d, fits);
        var lo := i * genes;
        assert (i + 1) * genes == lo + genes;
        Ok(Found(Seqs.PySlice(chromosomes, lo, lo + genes), fits[i], i))
  }
}

=== FILE: bytes.dfy ===
/** Bytes as the Python code sees them: `bytes` objects, ASCII and UTF-8
    encoding of `str`, and big-endian integers as packed by `struct`. */
module Bytes {
  import opened Results

  type byte = bv8

  /** The byte whose value is `n`, counted up from zero. */
  function B(n: nat): (r: byte)
    requires n < 256
    ensures r as nat == n
  {
    if n == 0 then 0
    else
      var below := B(n - 1);
      assert below < 255;
      below + 1
  }

  /** Every byte is the byte of its own value. */
  lemma {:induction false} ByteOfValue(b: byte)
    ensures B(b as nat) == b
    decreases b as nat
  {
    if b != 0 {
      var below := b - 1;
      assert below as nat == b as nat - 1;
      ByteOfValue(below);
    }
  }

  /** Bytes spelled by a sequence of values, as a `b'...'` literal would. */
  function FromValues(vs: seq<nat>): (r: seq<byte>)
    requires forall i :: 0 <= i < |vs| ==> vs[i] < 256
    ensures |r| == |vs|
    ensures forall i :: 0 <= i < |vs| ==> r[i] as nat == vs[i]
  {
    if vs == [] then [] else [B(vs[0])] + FromValues(vs[1..])
  }

  predicate IsAscii(s: string)
  {
    forall i :: 0 <= i < |s| ==> s[i] as int < 128
  }

  /** `s.encode('ascii')`: one byte per character, or the codec error. */
  function AsciiEncode(s: string): (r: Option<seq<byte>>)
    ensures r.Some? <==> IsAscii(s)
    ensures r.Some? ==> |r.value| == |s|
    ensures r.Some? ==> forall i :: 0 <= i < |s| ==> r.value[i] as int == s[i] as int
  {
    if s == [] then Some([])
    else if s[0] as int >= 128 then None
    else
      match AsciiEncode(s[1..])
      case None => None
      case Some(t) => Some([B(s[0] as int)] + t)
  }

  /** `b.decode('ascii')`, defined on bytes below 128. */
  function AsciiDecode(b: seq<byte>): (r: string)
    requires forall i :: 0 <= i < |b| ==> b[i] < 128
    ensures |r| == |b|
    ensures forall i :: 0 <= i < |b| ==> r[i] as int == b[i] as int
  {
    if b == [] then [] else [(b[0] as int) as char] + AsciiDecode(b[1..])
  }

  /** Decoding the ASCII encoding of a string gives the string back. */
  lemma AsciiRoundTrip(s: string)
    requires IsAscii(s)
    ensures AsciiEncode(s).Some?
    ensures forall i :: 0 <= i < |s| ==> AsciiEncode(s).value[i] < 128
    ensures AsciiDecode(AsciiEncode(s).value) == s
  {
    var e := AsciiEncode(s).value;
    assert forall i :: 0 <= i < |s| ==> e[i] as int == s[i] as int;
    var d := AsciiDecode(e);
    assert |d| == |s|;
    assert forall i :: 0 <= i < |s| ==> d[i] == s[i];
  }

  /** Length in bytes of the UTF-8 encoding of one character. */
  function Utf8Width(c: char): (r: nat)
    ensures 1 <= r <= 4
    ensures r == 1 <==> c as int < 128
  {
    if c as int < 0x80 then 1
    else if c as int < 0x800 then 2
    else if c as int < 0x10000 then 3
    else 4
  }

  /** `s.encode()` (UTF-8). */
  function Utf8Encode(s: string): (r: seq<byte>)
    ensures |r| >= |s|
    ensures |r| == |s| <==> IsAscii(s)
    ensures IsAscii(s) ==> Some(r) == AsciiEncode(s)
  {
    if s == [] then []
    else Utf8Char(s[0]) + Utf8Encode(s[1..])
  }

  /** UTF-8 encoding of one Unicode scalar value. */
  function Utf8Char(c: char): (r: seq<byte>)
    ensures |r| == Utf8Width(c)
    ensures c as int < 128 ==> r == [B(c as int)]
  {
    var v := c as int;
    if v < 0x80 then [B(v)]
    else if v < 0x800 then [B(0xC0 + v / 64), B(0x80 + v % 64)]
    else if v < 0x10000 then [B(0xE0 + v / 4096), B(0x80 + (v / 64) % 64), B(0x80 + v % 64)]
    else [B(0xF0 + v / 262144), B(0x80 + (v / 4096) % 64), B(0x80 + (v / 64) % 64), B(0x80 + v % 64)]
  }

  function Pow256(k: nat): (r: nat)
    ensures r > 0
  {
    if k == 0 then 1 else 256 * Pow256(k - 1)
  }

  /** `struct.pack('>H' or '>Q', n)`: `width` bytes, most significant first. */
  function ToBE(n: nat, width: nat): (r: seq<byte>)
    requires n < Pow256(width)
    ensures |r| == width
  {
    if width == 0 then [] else ToBE(n / 256, width - 1) + [B(n % 256)]
  }

  /** `struct.unpack('>H' or '>Q', b)`: the big-endian value of `b`. */
  function FromBE(b: seq<byte>): (r: nat)
    ensures r < Pow256(|b|)
  {
    if b == [] then 0 else FromBE(b[..|b| - 1]) * 256 + b[|b| - 1] as nat
  }

  /** Unpacking a packed integer gives the integer back. */
  lemma {:induction false} FromToBE(n: nat, width: nat)
    requires n < Pow256(width)
    ensures FromBE(ToBE(n, width)) == n
  {
    if width > 0 {
      var hi := ToBE(n / 256, width - 1);
      FromToBE(n / 256, width - 1);
      var r := hi + [B(n % 256)];
      assert r[..|r| - 1] == hi;
    }
  }

  /** Packing an unpacked byte string gives the bytes back. */
  lemma {:induction false} ToFromBE(b: seq<byte>)
    ensures ToBE(FromBE(b), |b|) == b
  {
    if b != [] {
      var init := b[..|b| - 1];
      ToFromBE(init);
      var n := FromBE(b);
      assert n / 256 == FromBE(init);
      assert n % 256 == b[|b| - 1] as nat;
      ByteOfValue(b[|b| - 1]);
      assert b == init + [b[|b| - 1]];
    }
  }
}

=== FILE: chromosomes.dfy ===
/** The two chromosome representations built from simple genes:
    `ShufflerChromosome` (OpenCLGA/shuffler_chromosome.py), whose genes are a
    permutation, and `SimpleChromosome` (OpenCLGA/simple_chromosome.py),
    whose genes vary independently. Only their host-side bookkeeping is
    modelled: the DNA accessors, the device-value mapping, the `#define`
    text and the choice of kernels for a crossover step. */
module Chromosomes {
  import opened Results
  import opened Seqs
  import opened Text
  import opened Genes
  import GaUtils

  // ---------------------------------------------------------------------
  // The gene list both representations share.

  /** The `dna` getter: each gene's value, in order. */
  function Dna<T>(genes: seq<SimpleGene<T>>): (r: seq<T>)
    ensures |r| == |genes|
    ensures forall i :: 0 <= i < |genes| ==> r[i] == genes[i].dna
  {
    if genes == [] then [] else [genes[0].dna] + Dna(genes[1..])
  }

  /** Index of the first `None` in `dna`, or `|dna|`. */
  function FirstNone<T>(dna: seq<Option<T>>): (k: nat)
    ensures k <= |dna|
    ensures forall i :: 0 <= i < k ==> dna[i].Some?
    ensures k < |dna| ==> dna[k].None?
  {
    if dna == [] || dna[0].None? then 0 else 1 + FirstNone(dna[1..])
  }

  /** `gene.dna = dna[i]` for each gene in turn: a `None` fails the gene's
      assertion and leaves the genes from there on as they were. */
  function AssignFrom<T>(genes: seq<SimpleGene<T>>, dna: seq<Option<T>>): (r: seq<SimpleGene<T>>)
    requires |dna| == |genes|
    ensures |r| == |genes|
    ensures forall i :: 0 <= i < |genes| ==> r[i].elements == genes[i].elements && r[i].name == genes[i].name
    ensures forall i :: 0 <= i < FirstNone(dna) ==> Some(r[i].dna) == dna[i]
    ensures forall i :: FirstNone(dna) <= i < |genes| ==> r[i] == genes[i]
  {
    if genes == [] || dna[0].None? then genes
    else [genes[0].(dna := dna[0].value)] + AssignFrom(genes[1..], dna[1..])
  }

  /** The `dna` setter of both chromosomes: the length assertion, then the
      genes one by one. The flag says whether it completed. */
  function AssignDna<T>(genes: seq<SimpleGene<T>>, dna: seq<Option<T>>): (r: (seq<SimpleGene<T>>, bool))
    ensures r.1 <==> |dna| == |genes| && forall i :: 0 <= i < |dna| ==> dna[i].Some?
    ensures |dna| != |genes| ==> r.0 == genes
    ensures r.1 ==> |r.0| == |genes| && forall i :: 0 <= i < |genes| ==> Some(Dna(r.0)[i]) == dna[i]
  {
    if |dna| != |genes| then (genes, false)
    else (AssignFrom(genes, dna), FirstNone(dna) == |dna|)
  }

  function Somes<T>(xs: seq<T>): (r: seq<Option<T>>)
    ensures |r| == |xs|
    ensures forall i :: 0 <= i < |xs| ==> r[i] == Some(xs[i])
  {
    if xs == [] then [] else [Some(xs[0])] + Somes(xs[1..])
  }

  /** Setting the DNA a chromosome already has changes nothing. */
  lemma AssignOwnDna<T>(genes: seq<SimpleGene<T>>)
    ensures AssignDna(genes, Somes(Dna(genes))) == (genes, true)
  {
    var dna := Somes(Dna(genes));
    assert FirstNone(dna) == |dna|;
    var r := AssignFrom(genes, dna);
    forall i | 0 <= i < |genes|
      ensures r[i] == genes[i]
    {
      assert Some(r[i].dna) == dna[i];
    }
    assert r == genes;
  }

  /** `[genes[idx].from_kernel_value(v) for idx, v in enumerate(data)]`
      after the length assertion. */
  function GenesFromKernel<T>(genes: seq<SimpleGene<T>>, data: seq<int>): (r: Option<seq<SimpleGene<T>>>)
    ensures r.Some? <==> |data| == |genes| && forall i :: 0 <= i < |data| ==> 0 <= data[i] < |genes[i].elements|
    ensures r.Some? ==> (|r.value| == |genes|
      && forall i :: 0 <= i < |genes| ==> Some(r.value[i]) == FromKernelValue(genes[i], data[i]))
  {
    if |data| != |genes| then None
    else if genes == [] then Some([])
    else match (FromKernelValue(genes[0], data[0]), GenesFromKernel(genes[1..], data[1..]))
      case (Some(g), Some(rest)) => Some([g] + rest)
      case _ => None
  }

  /** Reading the device values of a host chromosome gives back its genes
      when each gene's elements are distinct. */
  lemma {:induction false} GenesFromKernelRoundTrip<T>(genes: seq<SimpleGene<T>>, data: seq<int>)
    requires |data| == |genes|
    requires forall i :: 0 <= i < |genes| ==> genes[i].dna in genes[i].elements
    requires forall i :: 0 <= i < |genes| ==> data[i] == IndexOf(genes[i].elements, genes[i].dna)
    ensures GenesFromKernel(genes, data) == Some(genes)
  {
    if genes != [] {
      GenesFromKernelRoundTrip(genes[1..], data[1..]);
      assert genes[0].elements[data[0]] == genes[0].dna;
      assert FromKernelValue(genes[0], data[0]) == Some(genes[0]);
      assert [genes[0]] + genes[1..] == genes;
    }
  }

  /** A kernel launch: its name and its number of work items. */
  datatype Launch = Launch(kernel: string, workItems: nat)

  // ---------------------------------------------------------------------
  // ShufflerChromosome.

  /** A setting in the `repopulate_diff` dictionary. */
  datatype Setting = Word(w: string) | Number(x: real)

  datatype Shuffler<T> = Shuffler(
    genes: seq<SimpleGene<T>>,
    name: string,
    improving: Option<string>,
    repopulateDiff: Option<map<string, Setting>>)

  /** `ShufflerChromosome(genes, name)`: one DNA value per gene, the dummy
      improving function, and no repopulation setting, so `IsRepopulating`
      answers false. */
  function NewShuffler<T>(genes: seq<SimpleGene<T>>, name: string): (r: Shuffler<T>)
    ensures r.genes == genes && r.name == name
    ensures ShufflerDnaTotalLength(r) == |genes|
    ensures ImprovingFunc(r) == "shuffler_chromosome_dummy_improving_func"
    ensures r.repopulateDiff.None?
  {
    Shuffler(genes, name, None, None)
  }

  /** `dna_total_length`: one value per gene. */
  function ShufflerDnaTotalLength<T>(c: Shuffler<T>): nat
  {
    |c.genes|
  }

  /** `from_kernel_value`: a fresh chromosome of the mapped genes under the
      same name; the improving function and the repopulation setting are
      not carried over. */
  function ShufflerFromKernelValue<T>(c: Shuffler<T>, data: seq<int>): (r: Option<Shuffler<T>>)
    ensures r.Some? <==> GenesFromKernel(c.genes, data).Some?
    ensures r.Some? ==> r.value.name == c.name && r.value.improving.None? && r.value.repopulateDiff.None?
                        && |r.value.genes| == |data|
  {
    match GenesFromKernel(c.genes, data)
    case None => None
    case Some(gs) => Some(NewShuffler(gs, c.name))
  }

  /** The improving function named to the kernel: the one set by
      `use_improving_only_mutation`, else the dummy. */
  function ImprovingFunc<T>(c: Shuffler<T>): (f: string)
    ensures c.improving.Some? ==> f == c.improving.value
    ensures c.improving.None? ==> f == "shuffler_chromosome_dummy_improving_func"
  {
    if c.improving.Some? then c.improving.value else "shuffler_chromosome_dummy_improving_func"
  }

  /** `kernelize`: the element list of the first gene, the gene count, the
      improving function's macro and prototype. A chromosome without genes
      raises `IndexError`. */
  function ShufflerKernelize<T>(c: Shuffler<T>): (r: Option<string>)
    ensures r.Some? <==> c.genes != []
  {
    if c.genes == [] then None
    else
      var f := ImprovingFunc(c);
      Some(ElementsDefine + ElementsInKernelStr(c.genes[0]) + SizeLine(|c.genes|) + FuncLine(f) + ("int " + f + Prototype))
  }

  function SizeLine(n: nat): string
  {
    ShufflerSizeDefine + Decimal(n) + "\n"
  }

  function FuncLine(f: string): string
  {
    ImprovingDefine + f + "\n"
  }

  const ShufflerSizeDefine := "#define SHUFFLER_CHROMOSOME_GENE_SIZE "
  const ImprovingDefine := "#define IMPROVED_FITNESS_FUNC "
  const Prototype := "(global int* c,int idx,int chromosome_size FITNESS_ARGS);"

  /** The kernel text opens with the `#define` the older gene emitted itself,
      and carries the gene count and the improving function's macro. */
  lemma ShufflerKernelizeDefines<T>(c: Shuffler<T>)
    requires c.genes != []
    ensures var src := ShufflerKernelize(c).value;
      var head := LegacyKernelize(c.genes[0]);
      && |head| <= |src| && src[..|head|] == head
      && Contains(src, SizeLine(|c.genes|))
      && Contains(src, FuncLine(ImprovingFunc(c)))
  {
    var src := ShufflerKernelize(c).value;
    var head := LegacyKernelize(c.genes[0]);
    var size := SizeLine(|c.genes|);
    var func := FuncLine(ImprovingFunc(c));
    var tail := "int " + ImprovingFunc(c) + Prototype;
    LegacyKernelizeAgrees(c.genes[0]);
    assert head == ElementsDefine + ElementsInKernelStr(c.genes[0]);
    assert src == head + size + func + tail;
    FourParts(head, size, func, tail);
  }

  /** `is_repopulating`: without a setting never; otherwise `type` and
      `diff` must be present, and the difference named by `type` is compared
      with `diff`. */
  function IsRepopulating<T>(c: Shuffler<T>, best: real, avg: real, worst: real): (r: Result<bool, Raised>)
    ensures c.repopulateDiff.None? ==> r == Ok(false)
    ensures (c.repopulateDiff.Some? && ("type" !in c.repopulateDiff.value || "diff" !in c.repopulateDiff.value))
              ==> r == Err(AssertionError)
    ensures r == Ok(true) ==>
      var d := c.repopulateDiff.value;
      d["diff"].Number?
      && ((d["type"] == Word("best_worst") && GaUtils.Abs(best - worst) < d["diff"].x)
          || (d["type"] == Word("best_avg") && GaUtils.Abs(best - avg) < d["diff"].x))
  {
    if c.repopulateDiff.None? then Ok(false)
    else
      var d := c.repopulateDiff.value;
      if "type" !in d || "diff" !in d then Err(AssertionError)
      else if d["type"] == Word("best_worst") then Below(best - worst, d["diff"])
      else if d["type"] == Word("best_avg") then Below(best - avg, d["diff"])
      else Ok(false)
  }

  /** `abs(x) < diff`; a non-numeric `diff` raises `TypeError`. */
  function Below(x: real, diff: Setting): (r: Result<bool, Raised>)
    ensures r.Ok? <==> diff.Number?
    ensures r.Ok? ==> (r.value <==> GaUtils.Abs(x) < diff.x)
  {
    if diff.Number? then Ok(GaUtils.Abs(x) < diff.x) else Err(TypeError)
  }

  /** `int(population * 9 / 10) + 1`: one more than nine tenths of the
      population, rounded down. */
  function RepopulateCount(population: nat): (r: nat)
    ensures (r - 1) * 10 <= population * 9 < r * 10
  {
    population * 9 / 10 + 1
  }

  /** The repopulating step launches between one work item and the whole
      population. */
  lemma RepopulateCountBounds(population: nat)
    requires population >= 1
    ensures 1 <= RepopulateCount(population) <= population
  {
  }

  /** `execute_crossover` after `calc_ratio`: when repopulating, most of the
      population is populated afresh and nothing is picked or crossed;
      otherwise pick and crossover run over the whole population. */
  function ShufflerCrossoverLaunches<T>(c: Shuffler<T>, population: nat, best: real, avg: real, worst: real): (r: Result<seq<Launch>, Raised>)
    ensures r.Ok? <==> IsRepopulating(c, best, avg, worst).Ok?
    ensures r.Ok? ==> |r.value| >= 2 && r.value[0] == Launch("shuffler_chromosome_calc_ratio", 1)
    ensures r.Ok? && IsRepopulating(c, best, avg, worst).value ==>
      r.value == [Launch("shuffler_chromosome_calc_ratio", 1), Launch("shuffler_chromosome_populate", RepopulateCount(population))]
    ensures r.Ok? && !IsRepopulating(c, best, avg, worst).value ==>
      |r.value| == 3 && forall i :: 1 <= i < 3 ==> r.value[i].workItems == population
  {
    var ratio := Launch("shuffler_chromosome_calc_ratio", 1);
    match IsRepopulating(c, best, avg, worst)
    case Err(e) => Err(e)
    case Ok(true) => Ok([ratio, Launch("shuffler_chromosome_populate", RepopulateCount(population))])
    case Ok(false) =>
      Ok([ratio, Launch("shuffler_chromosome_pick_chromosomes", population),
          Launch("shuffler_chromosome_do_crossover", population)])
  }

  // ---------------------------------------------------------------------
  // SimpleChromosome.

  datatype Simple<T> = Simple(genes: seq<SimpleGene<T>>, name: string, improving: Option<string>)

  function Lengths<T>(genes: seq<SimpleGene<T>>): (r: seq<nat>)
    ensures |r| == |genes|
    ensures forall i :: 0 <= i < |genes| ==> r[i] == Length(genes[i])
  {
    if genes == [] then [] else [Length(genes[0])] + Lengths(genes[1..])
  }

  /** `dna_total_length`: the sum of the genes' lengths. */
  function SimpleDnaTotalLength<T>(c: Simple<T>): nat
  {
    SumNat(Lengths(c.genes))
  }

  /** Since every simple gene holds one value, both representations count
      one value per gene. */
  lemma {:induction false} TotalLengthIsGeneCount<T>(genes: seq<SimpleGene<T>>)
    ensures SimpleDnaTotalLength(Simple(genes, "", None)) == |genes|
    ensures SimpleDnaTotalLength(Simple(genes, "", None)) == ShufflerDnaTotalLength(NewShuffler(genes, ""))
  {
    if genes != [] {
      TotalLengthIsGeneCount(genes[1..]);
      assert Lengths(genes)[1..] == Lengths(genes[1..]);
    }
  }

  /** `early_terminated`: best and worst of the last ratio computation are
      within 0.0001. */
  function EarlyTerminated(best: real, worst: real): (r: bool)
    ensures r <==> worst - 0.0001 < best < worst + 0.0001
  {
    GaUtils.Abs(worst - best) < 0.0001
  }

  /** `execute_crossover`: nothing once early terminated, else pick then
      crossover over the whole population. */
  function SimpleCrossoverLaunches(population: nat, best: real, worst: real): (r: seq<Launch>)
    ensures r == [] <==> EarlyTerminated(best, worst)
    ensures r != [] ==> |r| == 2 && r[0].workItems == population && r[1].workItems == population
  {
    if EarlyTerminated(best, worst) then []
    else [Launch("simple_chromosome_pick_chromosomes", population),
          Launch("simple_chromosome_do_crossover", population)]
  }

  /** `from_kernel_value`: a fresh chromosome of the mapped genes under the
      same name. */
  function SimpleFromKernelValue<T>(c: Simple<T>, data: seq<int>): (r: Option<Simple<T>>)
    ensures r.Some? <==> GenesFromKernel(c.genes, data).Some?
    ensures r.Some? ==> r.value.name == c.name && r.value.improving.None? && |r.value.genes| == |data|
  {
    match GenesFromKernel(c.genes, data)
    case None => None
    case Some(gs) => Some(Simple(gs, c.name, None))
  }

  function ElementCounts<T>(genes: seq<SimpleGene<T>>): (r: seq<nat>)
    ensures |r| == |genes|
    ensures forall i :: 0 <= i < |genes| ==> r[i] == |genes[i].elements|
  {
    if genes == [] then [] else [|genes[0].elements|] + ElementCounts(genes[1..])
  }

  /** `kernelize`: the per-gene element counts as a C initialiser, the gene
      count and the first gene's mutate function. */
  function SimpleKernelize<T>(c: Simple<T>): (r: Option<string>)
    ensures r.Some? <==> c.genes != []
  {
    if c.genes == [] then None
    else Some(SizesOpen + DecimalList(ElementCounts(c.genes)) + "}\n"
              + (GeneSizeDefine + Decimal(|c.genes|) + "\n" + MutateFuncDefine))
  }

  const SizesOpen := "#define SIMPLE_CHROMOSOME_GENE_ELEMENTS_SIZE {"
  const GeneSizeDefine := "#define SIMPLE_CHROMOSOME_GENE_SIZE "
  const MutateFuncDefine := "#define SIMPLE_CHROMOSOME_GENE_MUTATE_FUNC simple_gene_mutate\n"

  /** The initialiser in the kernel text reads back as each gene's number of
      elements, and the gene count follows it. */
  lemma SimpleKernelizeReadsBack<T>(c: Simple<T>)
    requires c.genes != []
    ensures var src := SimpleKernelize(c).value;
      var body := DecimalList(ElementCounts(c.genes));
      && |SizesOpen| + |body| + 2 <= |src| && src[..|SizesOpen|] == SizesOpen
      && src[|SizesOpen| + |body|..|SizesOpen| + |body| + 2] == "}\n"
      && ParseDecimalList(src[|SizesOpen|..|SizesOpen| + |body|]) == Some(ElementCounts(c.genes))
      && Contains(src, GeneSizeDefine + Decimal(|c.genes|) + "\n")
  {
    var body := DecimalList(ElementCounts(c.genes));
    var size := GeneSizeDefine + Decimal(|c.genes|) + "\n";
    assert SimpleKernelize(c).value == SizesOpen + body + "}\n" + (size + MutateFuncDefine);
    FiveParts(SizesOpen, body, "}\n", size, MutateFuncDefine);
    DecimalListRoundTrip(ElementCounts(c.genes));
  }

  /** Where each part of `a + b + c + (d + e)` sits. */
  lemma FiveParts(a: string, b: string, c: string, d: string, e: string)
    ensures var s := a + b + c + (d + e);
      && |a| + |b| + |c| <= |s| && s[..|a|] == a
      && s[|a| + |b|..|a| + |b| + |c|] == c
      && s[|a|..|a| + |b|] == b
      && OccursAt(s, d, |a| + |b| + |c|)
  {
    var s := a + b + c + (d + e);
    assert s[..|a|] == a;
    assert s[|a|..|a| + |b|] == b;
    assert s[|a| + |b|..|a| + |b| + |c|] == c;
    assert s[|a| + |b| + |c|..|a| + |b| + |c| + |d|] == d;
  }
}

=== FILE: control_node.dfy ===
/** The control node (OpenCLGA/ocl_ga_server.py, `OpenCLGAServer`): it turns
    UI and keyboard commands into commands for every worker, keeps the
    registry of connected workers, aggregates elites across workers, and
    forwards worker reports to the websocket controller and viewers. */
module ControlNode {
  import opened Results
  import opened Elites
  import Lifecycle

  /** Option values other than the ones the control node reads itself. */
  datatype Value = Num(n: real) | Str(s: string)

  /** The `elitism_mode` sub-dictionary. */
  datatype ElitismInfo = ElitismInfo(top: Option<int>, every: Option<int>)

  /** The options dictionary: the keys the control node reads, each present
      or absent, and every other key. */
  datatype Options = Options(
    elitismMode: Option<ElitismInfo>,
    top: Option<int>,
    every: Option<int>,
    optForMax: Option<string>,
    others: map<string, Value>)

  /** `dict.update`: every key present in `p` overrides the one in `o`. */
  function Update(o: Options, p: Options): (r: Options)
    ensures p.top.Some? ==> r.top == p.top
    ensures p.top.None? ==> r.top == o.top
    ensures p.optForMax.Some? ==> r.optForMax == p.optForMax
    ensures p.optForMax.None? ==> r.optForMax == o.optForMax
    ensures r.others.Keys == o.others.Keys + p.others.Keys
    ensures forall k :: k in p.others ==> r.others[k] == p.others[k]
  {
    Options(
      if p.elitismMode.Some? then p.elitismMode else o.elitismMode,
      if p.top.Some? then p.top else o.top,
      if p.every.Some? then p.every else o.every,
      if p.optForMax.Some? then p.optForMax else o.optForMax,
      o.others + p.others)
  }

  /** Updating twice with the same payload is updating once. */
  lemma UpdateIdempotent(o: Options, p: Options)
    ensures Update(Update(o, p), p) == Update(o, p)
  {
  }

  /** A websocket peer: its address and its handler. */
  datatype Peer = Peer(addr: string, handler: nat)

  /** A message received from a worker, after `eval`. A `generationResult`
      carries the pickled `best_result` only in elitism mode. */
  datatype BestResult = BestResult(elites: seq<int>, fitnesses: seq<real>, dnaSize: nat)

  datatype Report =
    | WorkerConnected(worker: string, info: string)
    | WorkerLost(worker: string)
    | StatisticsReport(statistics: string)
    | BestReport(best: string)
    | SaveReport(filename: Option<string>)
    | GenerationResult(worker: string, bestFitness: real, bestResult: Option<BestResult>)
    | StateChanged(worker: string, state: Lifecycle.State)
    | OtherReport(kind: string)

  /** The dictionary that reaches the websockets: `best_result` was popped
      out of a `generationResult` before forwarding. */
  function Forwarded(r: Report): (f: Report)
    ensures f.GenerationResult? ==> f.bestResult.None?
    ensures !r.GenerationResult? ==> f == r
  {
    if r.GenerationResult? then r.(bestResult := None) else r
  }

  /** What `__notify('message', ...)` hands to the registered callbacks. */
  datatype Notice = StatisticsNotice(statistics: string) | BestNotice(best: string)

  /** Data of a command sent to every worker as `{'command', 'data'}`. */
  datatype CommandData =
    | NoData
    | PickledOptions(options: Options)
    | Probabilities(probMutation: Value, probCrossover: Value)
    | FileName(name: Option<string>)
    | EliteList(elites: seq<Elite>)

  datatype Command = Command(command: string, data: CommandData)

  /** An input dictionary from the keyboard or a websocket. */
  datatype Input = Input(command: Option<string>, payload: Option<Options>)

  /** The control node's state; `serving` stands for `socket_server != None`. */
  datatype Server = Server(
    options: Options,
    elitismRound: nat,
    elitismTop: int,
    elitismEvery: int,
    elitismMode: bool,
    optForMax: bool,
    elites: seq<Elite>,
    workers: seq<(string, Report)>,
    controller: Option<Peer>,
    viewers: seq<Peer>,
    serving: bool,
    paused: bool,
    forceStop: bool,
    sent: seq<Command>,
    wsOut: seq<(nat, Report)>,
    notices: seq<Notice>,
    wsInbox: seq<Input>,
    keyboardLine: string)

  /** The constructor: elitism settings come from `elitism_mode` (defaults
      0), and the mode is on only when both are nonzero. */
  function Init(options: Options, serving: bool): (s: Server)
    ensures s.elitismMode <==> s.elitismTop != 0 && s.elitismEvery != 0
    ensures options.elitismMode.None? ==> !s.elitismMode
    ensures s.optForMax <==> options.optForMax.None? || options.optForMax == Some("max")
    ensures s.elites == [] && s.elitismRound == 0 && s.workers == [] && s.controller.None?
  {
    var info := if options.elitismMode.Some? then options.elitismMode.value else ElitismInfo(None, None);
    var top := if info.top.Some? then info.top.value else 0;
    var every := if info.every.Some? then info.every.value else 0;
    Server(options, 0, top, every, top != 0 && every != 0,
           (if options.optForMax.Some? then options.optForMax.value else "max") == "max",
           [], [], None, [], serving, false, false, [], [], [], [], "")
  }

  // ---------------------------------------------------------------------
  // The worker registry: a dictionary keeps insertion order, a re-assigned
  // key keeps its place and `pop` removes it.

  predicate KeysDistinct(ws: seq<(string, Report)>)
  {
    forall i, j :: 0 <= i < j < |ws| ==> ws[i].0 != ws[j].0
  }

  function Keys(ws: seq<(string, Report)>): (r: set<string>)
    ensures forall i :: 0 <= i < |ws| ==> ws[i].0 in r
    ensures forall k :: k in r ==> exists i :: 0 <= i < |ws| && ws[i].0 == k
  {
    if ws == [] then {} else {ws[0].0} + Keys(ws[1..])
  }

  /** `d[k] = v`. */
  function Put(ws: seq<(string, Report)>, k: string, v: Report): (r: seq<(string, Report)>)
    ensures Keys(r) == Keys(ws) + {k}
  {
    if ws == [] then [(k, v)]
    else if ws[0].0 == k then [(k, v)] + ws[1..]
    else [ws[0]] + Put(ws[1..], k, v)
  }

  /** `d.pop(k, None)`. */
  function Pop(ws: seq<(string, Report)>, k: string): (r: seq<(string, Report)>)
    ensures Keys(r) == Keys(ws) - {k}
    ensures |r| <= |ws|
  {
    if ws == [] then []
    else if ws[0].0 == k then Pop(ws[1..], k)
    else [ws[0]] + Pop(ws[1..], k)
  }

  /** `d.get(k)`. */
  function Get(ws: seq<(string, Report)>, k: string): (r: Option<Report>)
    ensures r.Some? <==> k in Keys(ws)
  {
    if ws == [] then None
    else if ws[0].0 == k then Some(ws[0].1)
    else Get(ws[1..], k)
  }

  /** Assigning a key keeps the keys distinct. */
  lemma {:induction false} PutKeepsKeysDistinct(ws: seq<(string, Report)>, k: string, v: Report)
    requires KeysDistinct(ws)
    ensures KeysDistinct(Put(ws, k, v))
  {
    if ws != [] && ws[0].0 != k {
      TailKeysDistinct(ws);
      PutKeepsKeysDistinct(ws[1..], k, v);
      var t := Put(ws[1..], k, v);
      assert ws[0].0 !in Keys(t);
      ConsKeysDistinct(ws[0], t);
      assert Put(ws, k, v) == [ws[0]] + t;
    } else if ws != [] {
      TailKeysDistinct(ws);
      assert ws[0].0 == k;
      ConsKeysDistinct((k, v), ws[1..]);
    }
  }

  /** The rest of a registry with distinct keys has distinct keys, none of
      them the first key. */
  lemma TailKeysDistinct(ws: seq<(string, Report)>)
    requires KeysDistinct(ws) && ws != []
    ensures KeysDistinct(ws[1..]) && ws[0].0 !in Keys(ws[1..])
  {
    var tail := ws[1..];
    forall i, j | 0 <= i < j < |tail|
      ensures tail[i].0 != tail[j].0
    {
      assert tail[i] == ws[i + 1] && tail[j] == ws[j + 1];
    }
    forall i | 0 <= i < |tail|
      ensures tail[i].0 != ws[0].0
    {
      assert tail[i] == ws[i + 1];
    }
  }

  /** An entry whose key is new keeps the keys distinct in front. */
  lemma ConsKeysDistinct(e: (string, Report), t: seq<(string, Report)>)
    requires KeysDistinct(t) && e.0 !in Keys(t)
    ensures KeysDistinct([e] + t)
  {
    var r := [e] + t;
    forall i, j | 0 <= i < j < |r|
      ensures r[i].0 != r[j].0
    {
      assert r[j] == t[j - 1];
      if i > 0 {
        assert r[i] == t[i - 1];
      }
    }
  }


  /** After `d[k] = v`, `d[k]` is `v` and every other key keeps its value. */
  lemma {:induction false} PutGet(ws: seq<(string, Report)>, k: string, v: Report, other: string)
    ensures Get(Put(ws, k, v), k) == Some(v)
    ensures other != k ==> Get(Put(ws, k, v), other) == Get(ws, other)
  {
    if ws != [] && ws[0].0 != k {
      PutGet(ws[1..], k, v, other);
    }
  }

  /** After `d.pop(k)`, `k` is gone and every other key keeps its value. */
  lemma {:induction false} PopGet(ws: seq<(string, Report)>, k: string, other: string)
    ensures Get(Pop(ws, k), k).None?
    ensures other != k ==> Get(Pop(ws, k), other) == Get(ws, other)
  {
    if ws != [] {
      PopGet(ws[1..], k, other);
    }
  }

  // ---------------------------------------------------------------------
  // Websocket peers.

  function Addrs(ps: seq<Peer>): (r: seq<string>)
    ensures |r| == |ps| && forall i :: 0 <= i < |ps| ==> r[i] == ps[i].addr
  {
    if ps == [] then [] else [ps[0].addr] + Addrs(ps[1..])
  }

  /** `__send_message_to_WSs`: the controller first, then each viewer. */
  function SendToWebsockets(s: Server, msg: Report): (r: Server)
    ensures |r.wsOut| == |s.wsOut| + |s.viewers| + (if s.controller.Some? then 1 else 0)
    ensures forall i :: |s.wsOut| <= i < |r.wsOut| ==> r.wsOut[i].1 == msg
    ensures r == s.(wsOut := r.wsOut)
    ensures r.wsOut[..|s.wsOut|] == s.wsOut
  {
    var toController := if s.controller.Some? then [(s.controller.value.handler, msg)] else [];
    s.(wsOut := s.wsOut + toController + ToViewers(s.viewers, msg))
  }

  function ToViewers(vs: seq<Peer>, msg: Report): (r: seq<(nat, Report)>)
    ensures |r| == |vs|
    ensures forall i :: 0 <= i < |vs| ==> r[i] == (vs[i].handler, msg)
  {
    if vs == [] then [] else [(vs[0].handler, msg)] + ToViewers(vs[1..], msg)
  }

  /** Sends every registered worker's `workerConnected` message, in
      registration order. */
  function ReplayWorkers(s: Server, ws: seq<(string, Report)>): (r: Server)
    ensures r == s.(wsOut := r.wsOut)
    decreases |ws|
  {
    if ws == [] then s else ReplayWorkers(SendToWebsockets(s, ws[0].1), ws[1..])
  }

  /** `_ws_connected`: the first peer becomes the controller; a later peer is
      added to the viewers unless its address already is one; the new comer
      is then told about every connected worker. */
  function WsConnected(s: Server, addr: string, handler: nat): (r: Server)
    ensures s.controller.None? ==> r.controller == Some(Peer(addr, handler)) && r.viewers == s.viewers
    ensures s.controller.Some? ==> r.controller == s.controller
    ensures s.controller.Some? && addr in Addrs(s.viewers) ==> r.viewers == s.viewers
    ensures s.controller.Some? && addr !in Addrs(s.viewers) ==> r.viewers == s.viewers + [Peer(addr, handler)]
  {
    var joined :=
      if s.controller.None? then s.(controller := Some(Peer(addr, handler)))
      else if addr !in Addrs(s.viewers) then s.(viewers := s.viewers + [Peer(addr, handler)])
      else s;
    ReplayWorkers(joined, s.workers)
  }

  function DropViewer(vs: seq<Peer>, addr: string): (r: seq<Peer>)
    ensures addr !in Addrs(r)
    ensures forall p :: p in vs && p.addr != addr ==> p in r
    ensures forall p :: p in r ==> p in vs
  {
    if vs == [] then []
    else if vs[0].addr == addr then DropViewer(vs[1..], addr)
    else [vs[0]] + DropViewer(vs[1..], addr)
  }

  /** `_ws_disconnected`: a viewer leaves alone; the controller leaving
      clears the controller and every viewer. */
  function WsDisconnected(s: Server, addr: string): (r: Server)
    ensures s.controller.Some? && s.controller.value.addr == addr ==>
              r.controller.None? && r.viewers == []
    ensures !(s.controller.Some? && s.controller.value.addr == addr) ==>
              r.controller == s.controller && addr !in Addrs(r.viewers)
              && forall p :: p in s.viewers && p.addr != addr ==> p in r.viewers
    ensures r == s.(controller := r.controller, viewers := r.viewers)
  {
    var left := if addr in Addrs(s.viewers) then s.(viewers := DropViewer(s.viewers, addr)) else s;
    if left.controller.Some? && addr == left.controller.value.addr then
      left.(controller := None, viewers := [])
    else left
  }

  /** `_ws_queue_inputs`: while a controller exists only it is heard;
      `parsed` is the UTF-8/JSON decoding of the bytes, `None` when that
      raises (the message is then dropped). */
  function WsQueueInputs(s: Server, addr: string, parsed: Option<Input>): (r: Server)
    ensures s.controller.Some? && addr != s.controller.value.addr ==> r == s
    ensures (s.controller.None? || addr == s.controller.value.addr) && parsed.Some? ==>
              r == s.(wsInbox := s.wsInbox + [parsed.value])
    ensures parsed.None? ==> r == s
  {
    if s.controller.Some? && addr != s.controller.value.addr then s
    else if parsed.None? then s
    else s.(wsInbox := s.wsInbox + [parsed.value])
  }

  /** `get_input`: a keyboard line, if one was completed, wins over the
      websocket queue; an empty line is an empty dictionary. */
  function GetInput(s: Server, line: Option<string>): (r: (Server, Input))
    ensures line.Some? && line.value != "" ==> r == (s, Input(Some(line.value), None))
    ensures (line.None? || line == Some("")) && s.wsInbox != [] ==>
              r == (s.(wsInbox := s.wsInbox[1..]), s.wsInbox[0])
    ensures (line.None? || line == Some("")) && s.wsInbox == [] ==> r == (s, Input(None, None))
  {
    if line.Some? && line.value != "" then (s, Input(Some(line.value), None))
    else if s.wsInbox != [] then (s.(wsInbox := s.wsInbox[1..]), s.wsInbox[0])
    else (s, Input(None, None))
  }

  // ---------------------------------------------------------------------
  // Commands.

  /** Why `handle_message` raises: an assertion on the socket server, or a
      missing key (`opt_for_max` after `prepare`, a probability in `run`). */
  datatype Failure = NoSocketServer | MissingKey(key: string)

  /** `socket_server.send(repr(data))`. */
  function Send(s: Server, c: Command): (r: Result<Server, Failure>)
    ensures r.Ok? <==> s.serving
    ensures r.Ok? ==> r.value == s.(sent := s.sent + [c])
  {
    if s.serving then Ok(s.(sent := s.sent + [c])) else Err(NoSocketServer)
  }

  /** The name a UI command is sent to the workers under. */
  function Translate(cmd: string): (r: string)
    ensures cmd == "get_st" ==> r == "statistics"
    ensures cmd == "get_best" ==> r == "best"
    ensures cmd != "get_st" && cmd != "get_best" ==> r == cmd
  {
    if cmd == "get_st" then "statistics" else if cmd == "get_best" then "best" else cmd
  }

  /** `__update_members`: merge the payload, then read `top` (default 10),
      `every` (default 100) and `opt_for_max` (which must be present). The
      elitism mode itself is not recomputed. */
  function UpdateMembers(s: Server, payload: Options): (r: Result<Server, Failure>)
    ensures r.Err? <==> Update(s.options, payload).optForMax.None?
    ensures r.Ok? ==> r.value.elitismMode == s.elitismMode && r.value.options == Update(s.options, payload)
  {
    var o := Update(s.options, payload);
    if o.optForMax.None? then Err(MissingKey("opt_for_max"))
    else Ok(s.(options := o,
               elitismTop := if o.top.Some? then o.top.value else 10,
               elitismEvery := if o.every.Some? then o.every.value else 100,
               optForMax := o.optForMax.value == "max"))
  }

  /** The probabilities `run` forwards: the payload's, else `(0, 0)`. */
  function RunArguments(payload: Option<Options>): (r: Result<CommandData, Failure>)
    ensures payload.None? ==> r == Ok(Probabilities(Num(0.0), Num(0.0)))
    ensures payload.Some? && "prob_mutation" in payload.value.others && "prob_crossover" in payload.value.others ==>
              r == Ok(Probabilities(payload.value.others["prob_mutation"], payload.value.others["prob_crossover"]))
    ensures r.Err? <==> payload.Some? && ("prob_mutation" !in payload.value.others || "prob_crossover" !in payload.value.others)
  {
    if payload.None? then Ok(Probabilities(Num(0.0), Num(0.0)))
    else if "prob_mutation" !in payload.value.others then Err(MissingKey("prob_mutation"))
    else if "prob_crossover" !in payload.value.others then Err(MissingKey("prob_crossover"))
    else Ok(Probabilities(payload.value.others["prob_mutation"], payload.value.others["prob_crossover"]))
  }

  /** `__shutdown`: `exit` goes to every worker, then both servers stop and
      the registry and the websocket table are emptied. */
  function Shutdown(s: Server): (r: Result<Server, Failure>)
    ensures r.Ok? <==> s.serving
    ensures r.Ok? ==> (!r.value.serving && r.value.workers == [] && r.value.controller.None?
                       && r.value.viewers == [] && r.value.sent == s.sent + [Command("exit", NoData)])
  {
    match Send(s, Command("exit", NoData))
    case Err(e) => Err(e)
    case Ok(t) => Ok(t.(serving := false, workers := [], controller := None, viewers := []))
  }

  /** `handle_message`: the state after the command and whether the input
      loop goes on. */
  function HandleMessage(s: Server, msg: Input): (r: Result<(Server, bool), Failure>)
    ensures msg.command.None? ==> r == Ok((s, true))
    ensures r.Ok? && !r.value.1 <==> msg.command == Some("exit") && s.serving
    ensures msg.command.Some? && msg.command.value !in Known ==> r == Ok((s, true))
  {
    if msg.command.None? then Ok((s, true))
    else
      var cmd := msg.command.value;
      if cmd == "prepare" then
        var payload := if msg.payload.Some? then msg.payload.value else Options(None, None, None, None, map[]);
        match UpdateMembers(s, payload)
        case Err(e) => Err(e)
        case Ok(t) =>
          match Send(t, Command("prepare", PickledOptions(t.options)))
          case Err(e) => Err(e)
          case Ok(u) => Ok((u, true))
      else if cmd == "pause" then
        Continue(Send(s.(paused := true), Command("pause", NoData)))
      else if cmd == "run" then
        match RunArguments(msg.payload)
        case Err(e) => Err(e)
        case Ok(d) => Continue(Send(s, Command("run", d)))
      else if cmd == "stop" then
        Continue(Send(s.(forceStop := true), Command("stop", NoData)))
      else if cmd == "save" || cmd == "restore" then
        Continue(Send(s, Command(cmd, FileName(None))))
      else if cmd == "get_st" || cmd == "get_best" then
        Continue(Send(s, Command(Translate(cmd), NoData)))
      else if cmd == "exit" then
        match Shutdown(s)
        case Err(e) => Err(e)
        case Ok(t) => Ok((t, false))
      else Ok((s, true))
  }

  const Known: set<string> := {"prepare", "pause", "run", "stop", "save", "get_st", "get_best", "restore", "exit"}

  function Continue(r: Result<Server, Failure>): (c: Result<(Server, bool), Failure>)
    ensures c.Ok? <==> r.Ok?
    ensures c.Ok? ==> c.value == (r.value, true)
  {
    match r
    case Err(e) => Err(e)
    case Ok(s) => Ok((s, true))
  }

  /** `prepare` merges the payload into the options and forwards them. */
  lemma HandlesPrepare(s: Server, msg: Input)
    requires s.serving && msg.command == Some("prepare")
    requires Update(s.options, if msg.payload.Some? then msg.payload.value else Options(None, None, None, None, map[])).optForMax.Some?
    ensures var t := UpdateMembers(s, if msg.payload.Some? then msg.payload.value else Options(None, None, None, None, map[]));
      && t.Ok?
      && HandleMessage(s, msg) == Ok((t.value.(sent := s.sent + [Command("prepare", PickledOptions(t.value.options))]), true))
  {
  }

  /** `pause` sets the pause flag and forwards the command. */
  lemma HandlesPause(s: Server, msg: Input)
    requires s.serving && msg.command == Some("pause")
    ensures HandleMessage(s, msg) == Ok((s.(paused := true, sent := s.sent + [Command("pause", NoData)]), true))
  {
  }

  /** `run` forwards the two probabilities of the payload. */
  lemma HandlesRun(s: Server, msg: Input)
    requires s.serving && msg.command == Some("run")
    requires msg.payload.Some? ==> "prob_mutation" in msg.payload.value.others && "prob_crossover" in msg.payload.value.others
    ensures RunArguments(msg.payload).Ok?
    ensures HandleMessage(s, msg) == Ok((s.(sent := s.sent + [Command("run", RunArguments(msg.payload).value)]), true))
  {
  }

  /** `stop` sets the stop flag and forwards the command. */
  lemma HandlesStop(s: Server, msg: Input)
    requires s.serving && msg.command == Some("stop")
    ensures HandleMessage(s, msg) == Ok((s.(forceStop := true, sent := s.sent + [Command("stop", NoData)]), true))
  {
  }

  /** `save` and `restore` forward the command without a file name. */
  lemma HandlesSaveRestore(s: Server, msg: Input)
    requires s.serving && (msg.command == Some("save") || msg.command == Some("restore"))
    ensures HandleMessage(s, msg) == Ok((s.(sent := s.sent + [Command(msg.command.value, FileName(None))]), true))
  {
  }

  /** `get_st` and `get_best` are forwarded as `statistics` and `best`. */
  lemma HandlesQueries(s: Server, msg: Input)
    requires s.serving && (msg.command == Some("get_st") || msg.command == Some("get_best"))
    ensures HandleMessage(s, msg) == Ok((s.(sent := s.sent + [Command(Translate(msg.command.value), NoData)]), true))
  {
  }

  /** Every known command but `exit` sends exactly one command, named as
      translated, to the workers and keeps the loop going. */
  lemma CommandsAreForwarded(s: Server, msg: Input)
    requires s.serving && msg.command.Some? && msg.command.value in Known - {"exit"}
    requires msg.command.value == "prepare" ==> Update(s.options, if msg.payload.Some? then msg.payload.value else Options(None, None, None, None, map[])).optForMax.Some?
    requires msg.command.value == "run" && msg.payload.Some? ==>
               "prob_mutation" in msg.payload.value.others && "prob_crossover" in msg.payload.value.others
    ensures HandleMessage(s, msg).Ok?
    ensures var t := HandleMessage(s, msg).value.0;
      && |t.sent| == |s.sent| + 1
      && t.sent == s.sent + [Command(Translate(msg.command.value), t.sent[|s.sent|].data)]
  {
    var cmd := msg.command.value;
    if cmd == "prepare" {
      assert Translate(cmd) == cmd;
      HandlesPrepare(s, msg);
    } else if cmd == "pause" {
      assert Translate(cmd) == cmd;
      HandlesPause(s, msg);
    } else if cmd == "run" {
      assert Translate(cmd) == cmd;
      HandlesRun(s, msg);
    } else if cmd == "stop" {
      assert Translate(cmd) == cmd;
      HandlesStop(s, msg);
    } else if cmd == "save" || cmd == "restore" {
      assert Translate(cmd) == cmd;
      HandlesSaveRestore(s, msg);
    } else {
      HandlesQueries(s, msg);
    }
  }

  // ---------------------------------------------------------------------
  // Reports from workers.

  /** The elitism branch of `__process_data` for one `generationResult`, and
      whether processing reached the forwarding step (an assertion or a
      failed send ends it with the changes made so far). */
  function Aggregate(s: Server, worker: string, best: Option<BestResult>): (r: (Server, bool))
    requires s.elitismMode
    ensures (|| best.None?
             || |best.value.fitnesses| != s.elitismTop
             || |best.value.elites| != best.value.dnaSize * s.elitismTop) ==> r == (s, false)
    ensures r.0 == s.(elites := r.0.elites, elitismRound := r.0.elitismRound, sent := r.0.sent)
    ensures |s.sent| <= |r.0.sent| <= |s.sent| + 1 && r.0.sent[..|s.sent|] == s.sent
    ensures r.0.sent != s.sent ==> r.1 && r.0.elitismRound == 0
  {
    if best.None? then (s, false)
    else
      var b := best.value;
      if |b.fitnesses| != s.elitismTop || |b.elites| != b.dnaSize * s.elitismTop then (s, false)
      else
        var pool := s.elites + Unpack(b.fitnesses, b.elites, b.dnaSize, worker);
        var round := s.elitismRound + 1;
        if round < s.elitismEvery then (s.(elites := pool, elitismRound := round), true)
        else
          var kept := KeepTop(Sort(s.optForMax, pool), |b.fitnesses|);
          match Send(s.(elites := kept, elitismRound := round), Command("elites", EliteList(kept)))
          case Err(_) => (s.(elites := kept, elitismRound := round), false)
          case Ok(t) => (t.(elitismRound := 0), true)
  }

  /** The type-specific part of `__process_data`; the websocket peers and
      what was sent to them are left alone. */
  function Apply(s: Server, report: Report): (r: (Server, bool))
    ensures r.0.wsOut == s.wsOut && r.0.controller == s.controller && r.0.viewers == s.viewers
    ensures !(report.GenerationResult? && s.elitismMode) ==> r.1
    ensures report.WorkerConnected? ==> r.0.workers == Put(s.workers, report.worker, report)
    ensures report.WorkerLost? ==> r.0.workers == Pop(s.workers, report.worker)
    ensures !report.WorkerConnected? && !report.WorkerLost? ==> r.0.workers == s.workers
  {
    match report
    case WorkerConnected(w, _) => (s.(workers := Put(s.workers, w, report)), true)
    case WorkerLost(w) => (s.(workers := Pop(s.workers, w)), true)
    case StatisticsReport(st) => (s.(notices := s.notices + [StatisticsNotice(st)]), true)
    case BestReport(b) => (s.(notices := s.notices + [BestNotice(b)]), true)
    case GenerationResult(w, _, best) =>
      if s.elitismMode then Aggregate(s, w, best) else (s, true)
    case _ => (s, true)
  }

  /** `__process_data` on one decoded report: the report is forwarded to the
      websockets unless processing raised first. */
  function ProcessData(s: Server, report: Report): (r: Server)
    ensures |s.wsOut| <= |r.wsOut| && r.wsOut[..|s.wsOut|] == s.wsOut
    ensures forall i :: |s.wsOut| <= i < |r.wsOut| ==> r.wsOut[i].1 == Forwarded(report)
    ensures !(report.GenerationResult? && s.elitismMode) ==>
      |r.wsOut| == |s.wsOut| + |s.viewers| + (if s.controller.Some? then 1 else 0)
    ensures report.WorkerConnected? ==> r.workers == Put(s.workers, report.worker, report)
    ensures report.WorkerLost? ==> r.workers == Pop(s.workers, report.worker)
    ensures !report.WorkerConnected? && !report.WorkerLost? ==> r.workers == s.workers
  {
    var (t, forward) := Apply(s, report);
    if forward then SendToWebsockets(t, Forwarded(report)) else t
  }

  /** A well-formed `generationResult` in elitism mode before the last round
      of a window adds one entry per reported fitness and counts the round. */
  lemma AggregateCountsRound(s: Server, worker: string, b: BestResult)
    requires s.elitismMode
    requires |b.fitnesses| == s.elitismTop && |b.elites| == b.dnaSize * s.elitismTop
    requires s.elitismRound + 1 < s.elitismEvery
    ensures var (t, forward) := Aggregate(s, worker, Some(b));
      && forward
      && t.elites == s.elites + Unpack(b.fitnesses, b.elites, b.dnaSize, worker)
      && |t.elites| == |s.elites| + s.elitismTop
      && t.elitismRound == s.elitismRound + 1 && t.sent == s.sent
  {
  }

  /** The state after the round that reaches `every`. */
  lemma AggregateAtWindowEnd(s: Server, worker: string, b: BestResult)
    requires s.elitismMode && s.serving
    requires |b.fitnesses| == s.elitismTop && |b.elites| == b.dnaSize * s.elitismTop
    requires s.elitismRound + 1 >= s.elitismEvery
    ensures var pool := s.elites + Unpack(b.fitnesses, b.elites, b.dnaSize, worker);
      var kept := KeepTop(Sort(s.optForMax, pool), |b.fitnesses|);
      Aggregate(s, worker, Some(b))
        == (s.(elites := kept, elitismRound := 0, sent := s.sent + [Command("elites", EliteList(kept))]), true)
  {
  }

  /** On the round that reaches `every`, the pool becomes the best `top` of
      the stably sorted pool, an `elites` command carries it to the workers
      and the counter restarts. */
  lemma AggregatePromotes(s: Server, worker: string, b: BestResult)
    requires s.elitismMode && s.serving
    requires |b.fitnesses| == s.elitismTop && |b.elites| == b.dnaSize * s.elitismTop
    requires s.elitismRound + 1 >= s.elitismEvery
    ensures var (t, forward) := Aggregate(s, worker, Some(b));
      var pool := s.elites + Unpack(b.fitnesses, b.elites, b.dnaSize, worker);
      && forward
      && t.elitismRound == 0
      && t.elites == KeepTop(Sort(s.optForMax, pool), s.elitismTop)
      && Sorted(s.optForMax, t.elites)
      && |t.elites| == (if |pool| >= s.elitismTop then s.elitismTop else |pool|)
      && multiset(t.elites) <= multiset(pool)
      && t.sent == s.sent + [Command("elites", EliteList(t.elites))]
  {
    AggregateAtWindowEnd(s, worker, b);
    PromotedPool(s.optForMax, s.elites + Unpack(b.fitnesses, b.elites, b.dnaSize, worker), |b.fitnesses|);
  }

  /** Outside elitism mode, and in it when the report is well formed, every
      report is forwarded: the controller and each viewer get it, without
      `best_result`. */
  lemma ReportsAreForwarded(s: Server, report: Report)
    requires WellFormed(s, report)
    ensures var t := ProcessData(s, report);
      |t.wsOut| == |s.wsOut| + |s.viewers| + (if s.controller.Some? then 1 else 0)
      && forall i :: |s.wsOut| <= i < |t.wsOut| ==> t.wsOut[i].1 == Forwarded(report)
  {
    ApplyForwards(s, report);
    var t := Apply(s, report).0;
    assert ProcessData(s, report) == SendToWebsockets(t, Forwarded(report));
  }

  /** Processing reaches the forwarding step: always outside elitism mode,
      and in it when the report is well formed and the socket server is up. */
  predicate WellFormed(s: Server, report: Report)
  {
    report.GenerationResult? && s.elitismMode ==>
      s.serving && report.bestResult.Some?
      && |report.bestResult.value.fitnesses| == s.elitismTop
      && |report.bestResult.value.elites| == report.bestResult.value.dnaSize * s.elitismTop
  }

  lemma ApplyForwards(s: Server, report: Report)
    requires WellFormed(s, report)
    ensures Apply(s, report).1
  {
    if report.GenerationResult? && s.elitismMode {
      var b := report.bestResult.value;
      if s.elitismRound + 1 < s.elitismEvery {
        AggregateCountsRound(s, report.worker, b);
      } else {
        AggregateAtWindowEnd(s, report.worker, b);
      }
    }
  }

  /** `workerConnected` registers the message under its worker and
      `workerLost` forgets the worker. */
  lemma RegistryFollowsReports(s: Server, w: string, info: string)
    ensures Get(ProcessData(s, WorkerConnected(w, info)).workers, w) == Some(WorkerConnected(w, info))
    ensures Get(ProcessData(s, WorkerLost(w)).workers, w).None?
  {
    PutGet(s.workers, w, WorkerConnected(w, info), w);
    PopGet(s.workers, w, w);
  }
}

=== FILE: elites.dfy ===
/** The control node's elite pool (OpenCLGA/ocl_ga_server.py,
    `__process_data`): elites unpacked from one worker's report, the stable
    sort by fitness that `list.sort(key=..., reverse=...)` performs, and the
    truncation to the best `top`. */
module Elites {

  /** `(fitness, genome, worker_id)`. */
  datatype Elite = Elite(fitness: real, genome: seq<int>, worker: string)

  /** `elites[idx*size:(idx+1)*size]` for each `idx, fitness` of the report,
      given the exact flat length the assertions demand. */
  function Unpack(fitnesses: seq<real>, genomes: seq<int>, size: nat, worker: string): (r: seq<Elite>)
    requires |genomes| == size * |fitnesses|
    ensures |r| == |fitnesses|
    ensures forall i :: 0 <= i < |r| ==> r[i].fitness == fitnesses[i] && r[i].worker == worker
    ensures forall i :: 0 <= i < |r| ==> |r[i].genome| == size
    decreases |fitnesses|
  {
    if fitnesses == [] then []
    else [Elite(fitnesses[0], genomes[..size], worker)]
         + Unpack(fitnesses[1..], genomes[size..], size, worker)
  }

  /** The genomes of a list of elites laid end to end. */
  function Genomes(es: seq<Elite>): seq<int>
  {
    if es == [] then [] else es[0].genome + Genomes(es[1..])
  }

  /** Unpacking cuts the flat genome buffer without losing or reordering a
      value: laying the pieces end to end gives the buffer back. */
  lemma {:induction false} UnpackRoundTrip(fitnesses: seq<real>, genomes: seq<int>, size: nat, worker: string)
    requires |genomes| == size * |fitnesses|
    ensures Genomes(Unpack(fitnesses, genomes, size, worker)) == genomes
    decreases |fitnesses|
  {
    if fitnesses != [] {
      UnpackRoundTrip(fitnesses[1..], genomes[size..], size, worker);
      assert genomes[..size] + genomes[size..] == genomes;
    }
  }

  /** `a` may stand before `b` once sorted: descending when `reverse`
      (maximising), ascending otherwise. */
  predicate Before(reverse: bool, a: real, b: real)
  {
    if reverse then a >= b else a <= b
  }

  predicate Sorted(reverse: bool, es: seq<Elite>)
  {
    forall i, j :: 0 <= i < j < |es| ==> Before(reverse, es[i].fitness, es[j].fitness)
  }

  /** Inserts `x` ahead of the first element it may stand before, so that it
      precedes every element of equal fitness. */
  function Insert(reverse: bool, x: Elite, s: seq<Elite>): (r: seq<Elite>)
    ensures multiset(r) == multiset(s) + multiset{x}
  {
    if s == [] || Before(reverse, x.fitness, s[0].fitness) then [x] + s
    else
      assert s == [s[0]] + s[1..];
      [s[0]] + Insert(reverse, x, s[1..])
  }

  /** Inserting into a sorted list keeps it sorted. */
  lemma {:induction false} InsertSorted(reverse: bool, x: Elite, s: seq<Elite>)
    requires Sorted(reverse, s)
    ensures Sorted(reverse, Insert(reverse, x, s))
  {
    if s != [] && !Before(reverse, x.fitness, s[0].fitness) {
      var t := Insert(reverse, x, s[1..]);
      InsertSorted(reverse, x, s[1..]);
      forall e | e in t
        ensures Before(reverse, s[0].fitness, e.fitness)
      {
        assert e in multiset(t);
        if e != x {
          assert e in multiset(s[1..]);
        }
      }
      var r := [s[0]] + t;
      forall i, j | 0 <= i < j < |r|
        ensures Before(reverse, r[i].fitness, r[j].fitness)
      {
        if i > 0 {
          assert r[i] == t[i - 1] && r[j] == t[j - 1];
        } else {
          assert r[j] == t[j - 1] && r[j] in t;
        }
      }
    }
  }

  /** `list.sort(key=lambda item: item[0], reverse=reverse)`. */
  function Sort(reverse: bool, es: seq<Elite>): (r: seq<Elite>)
    ensures multiset(r) == multiset(es)
    ensures Sorted(reverse, r)
  {
    if es == [] then []
    else
      assert es == [es[0]] + es[1..];
      var rest := Sort(reverse, es[1..]);
      InsertSorted(reverse, es[0], rest);
      Insert(reverse, es[0], rest)
  }

  /** The elites of fitness `k`, in order. */
  function WithFitness(es: seq<Elite>, k: real): seq<Elite>
  {
    if es == [] then []
    else (if es[0].fitness == k then [es[0]] else []) + WithFitness(es[1..], k)
  }

  /** Filtering a list with one more element at its head. */
  lemma WithFitnessCons(e: Elite, s: seq<Elite>, k: real)
    ensures WithFitness([e] + s, k) == (if e.fitness == k then [e] else []) + WithFitness(s, k)
  {
    assert ([e] + s)[1..] == s;
  }

  /** Inserting one elite adds it to the elites of its own fitness, ahead of
      them, and changes no other fitness's elites. */
  lemma {:induction false} InsertKeepsTies(reverse: bool, x: Elite, s: seq<Elite>, k: real)
    ensures WithFitness(Insert(reverse, x, s), k)
      == (if x.fitness == k then [x] else []) + WithFitness(s, k)
  {
    if s == [] || Before(reverse, x.fitness, s[0].fitness) {
      WithFitnessCons(x, s, k);
    } else {
      var t := Insert(reverse, x, s[1..]);
      assert Insert(reverse, x, s) == [s[0]] + t;
      assert s == [s[0]] + s[1..];
      WithFitnessCons(s[0], t, k);
      WithFitnessCons(s[0], s[1..], k);
      InsertKeepsTies(reverse, x, s[1..], k);
      if s[0].fitness == k {
        assert x.fitness != k;
      }
    }
  }

  /** The sort is stable: the elites of any one fitness keep their relative
      order, as Python's sort guarantees (also with `reverse=True`). */
  lemma {:induction false} SortIsStable(reverse: bool, es: seq<Elite>, k: real)
    ensures WithFitness(Sort(reverse, es), k) == WithFitness(es, k)
  {
    if es != [] {
      SortIsStable(reverse, es[1..], k);
      InsertKeepsTies(reverse, es[0], Sort(reverse, es[1..]), k);
    }
  }

  /** `elites[:top]` applied when `len(elites) >= top`. */
  function KeepTop(es: seq<Elite>, top: nat): (r: seq<Elite>)
    ensures |r| == if |es| >= top then top else |es|
    ensures r == es[..|r|]
  {
    if |es| >= top then es[..top] else es
  }

  /** The promoted pool is the best `top` of the sorted pool: everything kept
      may stand before everything dropped. */
  lemma KeepTopIsBest(reverse: bool, es: seq<Elite>, top: nat)
    requires Sorted(reverse, es)
    ensures var kept := KeepTop(es, top);
      forall i, j :: 0 <= i < |kept| <= j < |es| ==> Before(reverse, kept[i].fitness, es[j].fitness)
  {
  }

  /** What promotion keeps: sorted, at most `top` entries, all drawn from
      the pool. */
  lemma PromotedPool(reverse: bool, pool: seq<Elite>, top: nat)
    ensures var kept := KeepTop(Sort(reverse, pool), top);
      && Sorted(reverse, kept)
      && |kept| == (if |pool| >= top then top else |pool|)
      && multiset(kept) <= multiset(pool)
  {
    var sorted := Sort(reverse, pool);
    var kept := KeepTop(sorted, top);
    assert sorted == kept + sorted[|kept|..];
    assert multiset(sorted) == multiset(kept) + multiset(sorted[|kept|..]);
  }
}

=== FILE: engine.dfy ===
/** Host-side bookkeeping of the engine in OpenCLGA/ocl_ga.py: the public
    calls wrapped by the lifecycle machine, the `GARun` task they queue, and
    the checkpoint written by `save` and read back by `restore`.  Kernel
    launches, buffer transfers and file I/O are not modelled; the
    population, fitness and random-state arrays are carried as plain
    sequences. */
module Engine {
  import opened Results
  import Lifecycle
  import opened Evolution

  /** A queued `GARun(ga, prob_mutation, prob_crossover)`. */
  datatype Task = Task(probMutation: real, probCrossover: real)

  datatype Host = Host(
    machine: Lifecycle.State,
    hasStateCallback: bool,
    hasRunCallback: bool,
    termination: Termination,
    population: nat,
    probMutation: real,
    probCrossover: real,
    paused: bool,
    forceStop: bool,
    hasThread: bool,
    tasks: seq<Task>,
    ledger: Ledger,
    elapsed: real,
    fitnesses: seq<real>,
    chromosomes: seq<int>,
    rnum: seq<nat>,
    savedFilename: Option<string>)

  /** The options `__init_members` reads. */
  datatype Options = Options(
    population: nat,
    termination: Termination,
    probMutation: Option<real>,
    probCrossover: Option<real>,
    hasStateCallback: bool,
    hasRunCallback: bool,
    savedFilename: Option<string>)

  /** `__init_members`: probabilities default to 0, nothing is paused or
      stopped, the generation index and time offset start at 0 and the
      statistics are empty; `saved_filename` defaults to `None`. */
  function Init(o: Options): (h: Host)
    ensures h.machine == Lifecycle.Waiting
    ensures !h.paused && !h.forceStop && h.hasThread && h.tasks == []
    ensures h.ledger == Ledger(0, 0.0, NoStatistics) && h.elapsed == 0.0
    ensures |h.fitnesses| == o.population
    ensures h.savedFilename == o.savedFilename
  {
    Host(Lifecycle.Waiting, o.hasStateCallback, o.hasRunCallback, o.termination, o.population,
         if o.probMutation.Some? then o.probMutation.value else 0.0,
         if o.probCrossover.Some? then o.probCrossover.value else 0.0,
         false, false, true, [], Ledger(0, 0.0, NoStatistics), 0.0,
         seq(o.population, _ => 0.0), [], [], o.savedFilename)
  }

  /** The exception a public call's body raises: a failed `assert`, or
      `open` handed `None` (`TypeError`) or the empty name
      (`FileNotFoundError`). */
  datatype Raised = AssertionFailed | TypeError | FileNotFound

  /** Result of a public call: the host afterwards, the exception if its
      body raised, and the states reported to the `state` callback. */
  datatype Outcome = Outcome(host: Host, raised: Option<Raised>, notified: seq<Lifecycle.State>)

  /** A body run under `EnterExit`: the machine takes the call's name, the
      body's effects apply if it returned, and `done` follows only then. */
  function Decorated(h: Host, name: Lifecycle.Action, body: Result<Host, Raised>): (r: Outcome)
    requires name != Lifecycle.Done
    ensures var c := Lifecycle.Wrapped(h.machine, name, body.Err?, h.hasStateCallback);
      r.host.machine == c.state && r.notified == c.notified
    ensures body.Err? ==> r.raised == Some(body.error) && r.host == h.(machine := r.host.machine)
    ensures body.Ok? ==> r.raised.None? && r.host == body.value.(machine := r.host.machine)
  {
    var c := Lifecycle.Wrapped(h.machine, name, body.Err?, h.hasStateCallback);
    match body
    case Ok(b) => Outcome(b.(machine := c.state), None, c.notified)
    case Err(e) => Outcome(h.(machine := c.state), Some(e), c.notified)
  }

  /** `prob = arg if arg else configured`: a zero argument falls back. */
  function Effective(arg: real, configured: real): real
  {
    if arg != 0.0 then arg else configured
  }

  predicate StrictlyInsideUnit(p: real)
  {
    0.0 < p < 1.0
  }

  /** `run`: both effective probabilities must lie strictly inside (0, 1) and
      the task thread must still exist; then force-stop is cleared and a
      `GARun` task with those probabilities is queued. */
  function Run(h: Host, argMutation: real, argCrossover: real): (r: Outcome)
    ensures var pm := Effective(argMutation, h.probMutation);
      var pc := Effective(argCrossover, h.probCrossover);
      && (r.raised.None? <==> StrictlyInsideUnit(pm) && StrictlyInsideUnit(pc) && h.hasThread)
      && (r.raised.None? ==> r.host.tasks == h.tasks + [Task(pm, pc)] && !r.host.forceStop)
      && (r.raised.Some? ==> r.host.tasks == h.tasks && r.host.forceStop == h.forceStop)
    ensures r.host.paused == h.paused && r.host.ledger == h.ledger && r.host.hasThread == h.hasThread
  {
    var pm := Effective(argMutation, h.probMutation);
    var pc := Effective(argCrossover, h.probCrossover);
    var body :=
      if !StrictlyInsideUnit(pm) || !StrictlyInsideUnit(pc) || !h.hasThread then Err(AssertionFailed)
      else Ok(h.(forceStop := false, tasks := h.tasks + [Task(pm, pc)]));
    Decorated(h, Lifecycle.Run, body)
  }

  /** `stop`: raise force-stop and discard the task thread. */
  function Stop(h: Host): (r: Outcome)
    ensures r.raised.None? && r.host.forceStop && !r.host.hasThread
    ensures r.host.tasks == h.tasks && r.host.paused == h.paused && r.host.ledger == h.ledger
  {
    Decorated(h, Lifecycle.Stop, Ok(h.(forceStop := true, hasThread := false)))
  }

  /** `pause`: raise the paused flag. */
  function Pause(h: Host): (r: Outcome)
    ensures r.raised.None? && r.host.paused
    ensures r.host.forceStop == h.forceStop && r.host.tasks == h.tasks && r.host.ledger == h.ledger
  {
    Decorated(h, Lifecycle.Pause, Ok(h.(paused := true)))
  }

  /** Once stopped, the engine cannot be run again: the thread is gone. */
  lemma RunAfterStopRaises(h: Host, argMutation: real, argCrossover: real)
    ensures Run(Stop(h).host, argMutation, argCrossover).raised == Some(AssertionFailed)
  {
  }

  /** The host fields `__save_state` writes. */
  datatype Checkpoint = Checkpoint(
    generationIdx: nat,
    statistics: Statistics,
    timeDiff: real,
    population: nat,
    rnum: seq<nat>,
    fitnesses: seq<real>,
    chromosomes: seq<int>,
    probMutation: real,
    probCrossover: real)

  /** `__restore_state`: read every saved field back, then mark the engine
      paused so that the next run resumes instead of repopulating. The
      lifecycle state, the stop flag, the elapsed time, the callbacks and
      the file name are left as they were. */
  function RestoreState(h: Host, c: Checkpoint): (r: Host)
    ensures r.paused
    ensures r.machine == h.machine && r.forceStop == h.forceStop && r.elapsed == h.elapsed
    ensures r.hasStateCallback == h.hasStateCallback && r.hasRunCallback == h.hasRunCallback
    ensures r.termination == h.termination && r.tasks == h.tasks && r.hasThread == h.hasThread
    ensures r.savedFilename == h.savedFilename
  {
    h.(probMutation := c.probMutation, probCrossover := c.probCrossover,
       ledger := Ledger(c.generationIdx, c.timeDiff, c.statistics),
       population := c.population, rnum := c.rnum, fitnesses := c.fitnesses,
       chromosomes := c.chromosomes, paused := true)
  }

  /** `__save_state`: a checkpoint the engine restores itself from exactly,
      apart from coming back paused. */
  function SaveState(h: Host): (c: Checkpoint)
    ensures RestoreState(h, c) == h.(paused := true)
  {
    Checkpoint(h.ledger.index, h.ledger.stats, h.ledger.timeDiff, h.population,
               h.rnum, h.fitnesses, h.chromosomes, h.probMutation, h.probCrossover)
  }

  /** `self.__saved_filename if self.__saved_filename else filename`: a
      configured non-empty name wins over the argument. */
  function FileName(saved: Option<string>, file: Option<string>): (r: Option<string>)
    ensures saved.Some? && saved.value != "" ==> r == saved
    ensures (saved.None? || saved.value == "") ==> r == file
  {
    if saved.Some? && saved.value != "" then saved else file
  }

  /** What `open(fname, ...)` raises before touching the file system:
      `TypeError` for `None`, `FileNotFoundError` for the empty name. */
  function OpenError(name: Option<string>): (r: Option<Raised>)
    ensures r.None? <==> name.Some? && name.value != ""
  {
    if name.None? then Some(Raised.TypeError)
    else if name.value == "" then Some(FileNotFound)
    else None
  }

  /** `save(filename)`: the paused assertion comes first, then the file name
      is resolved and opened; on success the checkpoint reaches the file
      under that name. */
  function Save(h: Host, file: Option<string>): (r: (Outcome, Option<(string, Checkpoint)>))
    ensures var name := FileName(h.savedFilename, file);
      && (r.0.raised.None? <==> h.paused && name.Some? && name.value != "")
      && (!h.paused ==> r.0.raised == Some(AssertionFailed))
      && (h.paused && name.None? ==> r.0.raised == Some(Raised.TypeError))
      && (r.1.Some? <==> r.0.raised.None?)
      && (r.1.Some? ==> r.1.value.0 == name.value)
    ensures r.0.host == h.(machine := r.0.host.machine)
  {
    var name := FileName(h.savedFilename, file);
    if !h.paused then (Decorated(h, Lifecycle.Save, Err(AssertionFailed)), None)
    else match OpenError(name)
      case Some(e) => (Decorated(h, Lifecycle.Save, Err(e)), None)
      case None => (Decorated(h, Lifecycle.Save, Ok(h)), Some((name.value, SaveState(h))))
  }

  /** `restore(filename)` from the checkpoint `c` the resolved file holds:
      without a usable name `open` raises and the host is left as it was. */
  function Restore(h: Host, file: Option<string>, c: Checkpoint): (r: Outcome)
    ensures var name := FileName(h.savedFilename, file);
      && (r.raised.None? <==> name.Some? && name.value != "")
      && (name.None? ==> r.raised == Some(Raised.TypeError))
      && (r.raised.None? ==> r.host.paused)
      && (r.raised.Some? ==> r.host == h.(machine := r.host.machine))
  {
    match OpenError(FileName(h.savedFilename, file))
    case Some(e) => Decorated(h, Lifecycle.Restore, Err(e))
    case None => Decorated(h, Lifecycle.Restore, Ok(RestoreState(h, c)))
  }

  /** The control node always sends `save` and `restore` with no file name,
      so on an engine configured without `saved_filename` both raise
      `TypeError` and the host keeps its fields. */
  lemma NoFileNameRaises(h: Host, c: Checkpoint)
    requires h.savedFilename.None?
    ensures Save(h, None).0.raised.Some? && Save(h, None).1.None?
    ensures Restore(h, None, c).raised == Some(Raised.TypeError)
    ensures Restore(h, None, c).host == h.(machine := Restore(h, None, c).host.machine)
  {
  }

  /** Restoring what `save` wrote, from the file it wrote, brings back every
      saved host field, on any engine, and leaves it paused. */
  lemma SaveRestoreRoundTrip(saved: Host, file: Option<string>, target: Host)
    requires saved.paused && target.savedFilename == saved.savedFilename
    requires OpenError(FileName(saved.savedFilename, file)).None?
    ensures Save(saved, file).1.Some?
    ensures var h := Restore(target, file, Save(saved, file).1.value.1).host;
      && h.ledger == saved.ledger && h.population == saved.population
      && h.rnum == saved.rnum && h.fitnesses == saved.fitnesses && h.chromosomes == saved.chromosomes
      && h.probMutation == saved.probMutation && h.probCrossover == saved.probCrossover
      && h.paused
  {
  }

  /** What one `GARun` task leaves behind. */
  datatype Report = Report(host: Host, populated: bool, runCallback: seq<bool>)

  /** `GARun.run`: populate generation 0 only when the engine is not paused
      (a fresh start, not a resume or a restore); clear paused; evolve; add
      the task's duration to the elapsed time; report the paused flag to the
      `run` callback.  `obs` are the generation boundaries the task meets,
      `genStart` the clock when evolution starts. */
  function GARun(h: Host, started: real, genStart: real, obs: seq<Boundary>, evolved: real, finished: real): (r: Result<Report, Failure>)
    requires Observable(h.ledger, h.termination, genStart, obs)
    ensures var s := StartEvolution(h.ledger, h.termination, genStart, obs, evolved);
      && (r.Ok? <==> s.Ok?)
      && (r.Ok? ==>
            && r.value.populated == !h.paused
            && r.value.host.ledger == s.value.ledger
            && r.value.host.paused == s.value.paused
            && r.value.host.elapsed == h.elapsed + (finished - started)
            && r.value.runCallback == (if h.hasRunCallback then [s.value.paused] else []))
  {
    var populated := !h.paused;
    var h1 := h.(paused := false);
    match StartEvolution(h1.ledger, h1.termination, genStart, obs, evolved)
    case Err(e) => Err(e)
    case Ok(run) =>
      var h2 := h1.(ledger := run.ledger, paused := run.paused, elapsed := h1.elapsed + (finished - started));
      Ok(Report(h2, populated, if h.hasRunCallback then [run.paused] else []))
  }

  /** A run after `restore` resumes: it does not repopulate generation 0 and
      continues from the restored generation index. */
  lemma RunAfterRestoreResumes(h: Host, file: Option<string>, c: Checkpoint, started: real, genStart: real, obs: seq<Boundary>, evolved: real, finished: real)
    requires OpenError(FileName(h.savedFilename, file)).None?
    requires Observable(Restore(h, file, c).host.ledger, h.termination, genStart, obs)
    ensures var g := GARun(Restore(h, file, c).host, started, genStart, obs, evolved, finished);
      g.Ok? ==> !g.value.populated
    ensures Restore(h, file, c).host.ledger.index == c.generationIdx
  {
  }

  /** A count-terminated task that pauses after generation `g` leaves the
      resume index at `g + 1`; one that runs to the end leaves it where it
      was. */
  lemma {:induction false} CountRunResumeIndex(h: Host, started: real, genStart: real, obs: seq<Boundary>, evolved: real, finished: real)
    requires h.termination.ByCount?
    requires Observable(h.ledger, h.termination, genStart, obs)
    ensures var g := GARun(h, started, genStart, obs, evolved, finished);
      var run := CountLoop(h.ledger, h.ledger.index, h.termination.count, genStart, obs);
      && (run.exit == PausedAfter ==> g.Ok? && g.value.host.ledger.index == h.ledger.index + run.ran && g.value.host.paused)
      && (run.exit == Exhausted && g.Ok? ==> g.value.host.ledger.index == h.ledger.index)
  {
    var count := h.termination.count;
    CountLoopExit(h.ledger, h.ledger.index, count, genStart, obs);
    CountLoopResumeIndex(h.ledger, h.ledger.index, count, genStart, obs);
  }
}

=== FILE: eval_shuffler.dfy ===
/** The experimental single-kernel shuffler (evaluation/oclGA/cl/
    shuffler_chromosome.c). Its populate, swap and mutation loops are the
    same code as the shuffler kernel's and the flat-buffer mutation
    (`ShufflerKernel.Populate`, `Seqs.Swap`, `GaAlgo.MutateGenes`), and its
    survivor search and survivor update are those of kernel/ga_algo.c
    (`GaAlgo.FindSurvivedIdx`, `GaAlgo.UpdateSurvivors`). What differs is
    reproduction: it works on whole chromosomes and swaps only when the two
    survivors differ and the match is not the cross point itself. */
module EvalShuffler {
  import opened Seqs
  import opened Tours
  import opened GaAlgo

  /** The first index from `from` on holding `x`, other than `skip`; `|s|`
      when there is none. */
  function FirstMatchExcept(s: seq<int>, x: int, skip: nat, from: nat): (r: nat)
    requires from <= |s|
    ensures from <= r <= |s|
    ensures r < |s| ==> s[r] == x && r != skip
    ensures forall k :: from <= k < r && k != skip ==> s[k] != x
    decreases |s| - from
  {
    if from == |s| then |s|
    else if s[from] == x && from != skip then from
    else FirstMatchExcept(s, x, skip, from + 1)
  }

  /** Every chromosome has `n` genes. */
  predicate Uniform(cs: seq<seq<int>>, n: nat)
  {
    forall k :: 0 <= k < |cs| ==> |cs[k]| == n
  }

  /** `shuffler_chromosome_reproduce` for work item `idx`, with the first
      search result `c1` and the second `c2` found from the draws; `mode`
      chooses the search as the kernel writes it or with wrap-around. */
  function Reproduce(mode: Probing, cs: seq<seq<int>>, survivors: seq<bool>, n: nat, idx: nat, probCrossover: real, d: ReproduceDraws): (r: seq<seq<int>>)
    requires |cs| == |survivors| && idx < |cs| && Uniform(cs, n) && DrawsFit(d, |cs|, n)
    ensures |r| == |cs| && Uniform(r, n)
    ensures survivors[idx] ==> r == cs
    ensures forall k :: 0 <= k < |cs| && k != idx ==> r[k] == cs[k]
    ensures !survivors[idx] ==> IsPermutationOf(r[idx], cs[FindSurvivedIdx(mode, survivors, d.first).0])
    ensures !survivors[idx] && IsTour(cs[FindSurvivedIdx(mode, survivors, d.first).0], n) ==> IsTour(r[idx], n)
    ensures !survivors[idx] && (d.prob > probCrossover
      || FindSurvivedIdx(mode, survivors, d.first).0 == FindSurvivedIdx(mode, survivors, d.second).0)
      ==> r[idx] == cs[FindSurvivedIdx(mode, survivors, d.first).0]
  {
    if survivors[idx] then cs
    else
      var c1 := FindSurvivedIdx(mode, survivors, d.first).0;
      var copy := cs[c1];
      var genes :=
        if d.prob <= probCrossover && n > 0 then
          var c2 := FindSurvivedIdx(mode, survivors, d.second).0;
          if c1 == c2 then copy
          else
            var target := cs[idx := copy][c2][d.crossPoint];
            var i := FirstMatchExcept(copy, target, d.crossPoint, 0);
            if i < n then Swap(copy, d.crossPoint, i) else copy
        else copy;
      assert IsTour(copy, n) ==> IsTour(genes, n) by {
        if IsTour(copy, n) {
          PermutationKeepsTour(copy, genes, n);
        }
      }
      cs[idx := genes]
  }

  /** As written, with two chromosomes of which only the second survives, a
      first draw of 0 and a crossover draw above the probability, the dead
      chromosome 0 is refilled from itself and nothing changes. */
  lemma ReproduceAsWrittenKeepsDead(cs: seq<seq<int>>, n: nat, probCrossover: real, d: ReproduceDraws)
    requires |cs| == 2 && Uniform(cs, n) && DrawsFit(d, 2, n) && d.first == 0 && d.prob > probCrossover
    ensures Reproduce(AsWritten, cs, [false, true], n, 0, probCrossover, d) == cs
  {
    SkipsSurvivorAsWritten();
  }

  /** With the corrected search, a dead chromosome becomes a rearrangement of
      a survivor whenever one exists. */
  lemma ReproduceFromSurvivor(cs: seq<seq<int>>, survivors: seq<bool>, n: nat, idx: nat, probCrossover: real, d: ReproduceDraws, k: nat)
    requires |cs| == |survivors| && idx < |cs| && Uniform(cs, n) && DrawsFit(d, |cs|, n)
    requires k < |survivors| && survivors[k] && !survivors[idx]
    ensures exists j :: (0 <= j < |cs| && survivors[j] && j != idx
      && IsPermutationOf(Reproduce(Wrapping, cs, survivors, n, idx, probCrossover, d)[idx], cs[j]))
  {
    FindsSurvivor(survivors, d.first, k);
    var j := FindSurvivedIdx(Wrapping, survivors, d.first).0;
    assert survivors[j] && j != idx;
  }
}

=== FILE: evolution.dfy ===
/** The host-side generation loops shared by both engines
    (`__evolve_by_count`, `__evolve_by_time`, `_start_evolution` in
    OpenCLGA/ocl_ga.py; the same three bodies appear in the older ocl_ga.py).
    The kernels are not modelled: each generation is represented by what the
    host observes at its end -- the statistics the chromosome reports,
    whether the generation callback raised, the early-termination flag,
    the pause and force-stop flags that other threads may have raised, and
    the wall clock. */
module Evolution {
  import opened Results

  /** The `{best, worst, avg}` entry stored for one generation. */
  datatype GenStats = GenStats(best: real, worst: real, avg: real)

  /** The keys of that entry, the dictionary handed to the generation
      callback. */
  const EntryKeys: set<string> := {"best", "worst", "avg"}

  /** `__dictStatistics`: one entry per executed generation index, plus the
      `avg_time_per_gen` key once a run has finished without pausing. */
  datatype Statistics = Statistics(gens: map<nat, GenStats>, avgTimePerGen: Option<real>)

  const NoStatistics := Statistics(map[], None)

  /** `len(__dictStatistics)`: the generation keys plus the average key. */
  function EntryCount(st: Statistics): (r: nat)
    ensures r == 0 <==> st.gens == map[] && st.avgTimePerGen.None?
  {
    |st.gens| + (if st.avgTimePerGen.Some? then 1 else 0)
  }

  /** What the host observes once a generation has been executed: its
      statistics, whether the generation callback (foreign code, when one
      is set) raised on them, the early-termination flag, the flags other
      threads may have raised, and the clock. */
  datatype Boundary = Boundary(stats: GenStats, callbackRaised: bool, early: bool, paused: bool, forceStop: bool, now: real)

  /** The host fields the loops read and write: the resume index, the time
      offset carried over a pause, and the statistics. */
  datatype Ledger = Ledger(index: nat, timeDiff: real, stats: Statistics)

  /** Why a loop ended. */
  datatype Exit = Exhausted | CallbackRaised | Early | OutOfTime | PausedAfter | ForceStopped

  /** Result of one loop: the ledger, how many generations ran (they are
      the consecutive indices starting at the resume index), why the loop
      ended and the paused flag it leaves. */
  datatype Run = Run(ledger: Ledger, ran: nat, exit: Exit, paused: bool)

  /** Nothing at this boundary ends a count loop. */
  predicate Clear(b: Boundary)
  {
    !b.callbackRaised && !b.early && !b.paused && !b.forceStop
  }

  /** Record generation `i`'s statistics. */
  function Record(l: Ledger, i: nat, b: Boundary): (r: Ledger)
    ensures r.stats.gens == l.stats.gens[i := b.stats]
    ensures r.index == l.index && r.timeDiff == l.timeDiff && r.stats.avgTimePerGen == l.stats.avgTimePerGen
  {
    l.(stats := l.stats.(gens := l.stats.gens[i := b.stats]))
  }

  /** The `for i in range(index, count)` loop from generation `i` on; `obs[k]`
      is the boundary after generation `i + k` and `start` the clock when the
      call began. A raising generation callback propagates out of the loop
      right after the generation's statistics are stored. */
  function CountLoop(l: Ledger, i: nat, count: nat, start: real, obs: seq<Boundary>): (r: Run)
    requires count - i <= |obs|
    decreases count - i
    ensures r.ran == 0 || i + r.ran <= count
    ensures r.ledger.stats.avgTimePerGen == l.stats.avgTimePerGen
  {
    if i >= count then Run(l, 0, Exhausted, false)
    else
      var b := obs[0];
      var l1 := Record(l, i, b);
      if b.callbackRaised then Run(l1, 1, CallbackRaised, b.paused)
      else if b.early then Run(l1, 1, Early, b.paused)
      else if b.paused then Run(l1.(index := i + 1, timeDiff := b.now - start), 1, PausedAfter, true)
      else if b.forceStop then Run(l1, 1, ForceStopped, false)
      else
        var rest := CountLoop(l1, i + 1, count, start, obs[1..]);
        rest.(ran := rest.ran + 1)
  }

  /** The count loop runs every remaining generation exactly when no
      boundary raises a flag or an exception; otherwise it stops at the
      first boundary that does, and the exit names what stopped it.  The
      paused flag it leaves is the one seen at its last boundary. */
  lemma {:induction false} CountLoopExit(l: Ledger, i: nat, count: nat, start: real, obs: seq<Boundary>)
    requires count - i <= |obs|
    decreases count - i
    ensures var r := CountLoop(l, i, count, start, obs);
      && (r.exit == Exhausted <==> forall k :: 0 <= k < count - i ==> Clear(obs[k]))
      && (r.exit == Exhausted ==> r.ran == (if i < count then count - i else 0))
      && (r.exit != Exhausted ==> 0 < r.ran && !Clear(obs[r.ran - 1]))
      && (forall k :: 0 <= k < r.ran - 1 ==> Clear(obs[k]))
      && (r.exit == CallbackRaised ==> obs[r.ran - 1].callbackRaised)
      && (r.exit == Early ==> obs[r.ran - 1].early)
      && (r.exit == ForceStopped ==> obs[r.ran - 1].forceStop)
      && r.exit != OutOfTime
      && (r.paused <==> 0 < r.ran && obs[r.ran - 1].paused)
  {
    if i < count && Clear(obs[0]) {
      CountLoopExit(Record(l, i, obs[0]), i + 1, count, start, obs[1..]);
    }
  }

  /** Only a pause moves the resume index: to one past the generation it
      followed, with the time spent so far as the carried-over offset. */
  lemma {:induction false} CountLoopResumeIndex(l: Ledger, i: nat, count: nat, start: real, obs: seq<Boundary>)
    requires count - i <= |obs|
    decreases count - i
    ensures var r := CountLoop(l, i, count, start, obs);
      && (r.exit == PausedAfter ==>
            0 < r.ran && r.ledger.index == i + r.ran && r.ledger.timeDiff == obs[r.ran - 1].now - start
            && obs[r.ran - 1].paused && !obs[r.ran - 1].early)
      && (r.exit != PausedAfter ==> r.ledger.index == l.index && r.ledger.timeDiff == l.timeDiff)
  {
    if i < count && Clear(obs[0]) {
      CountLoopResumeIndex(Record(l, i, obs[0]), i + 1, count, start, obs[1..]);
    }
  }

  /** `after` is `before` with generations `from .. from + ran - 1` stored:
      generation `from + k` holds the `k`-th boundary's statistics and every
      other key keeps its entry. */
  ghost predicate Stores(before: map<nat, GenStats>, after: map<nat, GenStats>, from: nat, obs: seq<Boundary>, ran: nat)
  {
    && ran <= |obs|
    && (forall g :: g in after <==> g in before || from <= g < from + ran)
    && (forall g :: g in after && !(from <= g < from + ran) ==> after[g] == before[g])
    && (forall k :: 0 <= k < ran ==> after[from + k] == obs[k].stats)
  }

  /** Storing the first boundary, then the rest, stores them all. */
  lemma StoresStep(before: map<nat, GenStats>, after: map<nat, GenStats>, from: nat, obs: seq<Boundary>, ran: nat)
    requires obs != [] && Stores(before[from := obs[0].stats], after, from + 1, obs[1..], ran)
    ensures Stores(before, after, from, obs, ran + 1)
  {
    forall k | 0 <= k < ran + 1
      ensures after[from + k] == obs[k].stats
    {
      if k > 0 {
        assert obs[1..][k - 1] == obs[k];
      }
    }
  }

  /** Every executed generation `i + k` has its boundary's statistics stored
      under its own index; every other key keeps its entry. */
  lemma {:induction false} CountLoopStatistics(l: Ledger, i: nat, count: nat, start: real, obs: seq<Boundary>)
    requires count - i <= |obs|
    decreases count - i
    ensures var r := CountLoop(l, i, count, start, obs);
      Stores(l.stats.gens, r.ledger.stats.gens, i, obs, r.ran)
  {
    var r := CountLoop(l, i, count, start, obs);
    if i < count && Clear(obs[0]) {
      var l1 := Record(l, i, obs[0]);
      CountLoopStatistics(l1, i + 1, count, start, obs[1..]);
      StoresStep(l.stats.gens, r.ledger.stats.gens, i, obs, r.ran - 1);
    }
  }

  /** Whether the boundary after a generation ends the `while True` loop of
      `__evolve_by_time`, given the offset carried in from an earlier pause. */
  predicate StopsTimeLoop(b: Boundary, start: real, timeDiff: real, maxTime: real)
  {
    b.callbackRaised || b.early || b.now - start + timeDiff > maxTime || b.paused || b.forceStop
  }

  /** `__evolve_by_time`: run generation `index`, advance the index, then stop
      on early termination or an elapsed time over budget, or on a pause
      (recording the time spent) or a forced stop.  A raising generation
      callback propagates before the index is advanced.  The clock is only
      consulted at generation boundaries; `obs` runs up to a boundary that
      stops the loop. */
  function TimeLoop(l: Ledger, maxTime: real, start: real, obs: seq<Boundary>): (r: Run)
    requires |obs| > 0 && StopsTimeLoop(obs[|obs| - 1], start, l.timeDiff, maxTime)
    decreases |obs|
    ensures 0 < r.ran <= |obs|
    ensures r.ledger.stats.avgTimePerGen == l.stats.avgTimePerGen
  {
    var b := obs[0];
    var l1 := Record(l, l.index, b).(index := l.index + 1);
    if b.callbackRaised then Run(Record(l, l.index, b), 1, CallbackRaised, b.paused)
    else if b.early then Run(l1, 1, Early, b.paused)
    else if b.now - start + l.timeDiff > maxTime then Run(l1, 1, OutOfTime, b.paused)
    else if b.paused then Run(l1.(timeDiff := b.now - start), 1, PausedAfter, true)
    else if b.forceStop then Run(l1, 1, ForceStopped, false)
    else
      var rest := TimeLoop(l1, maxTime, start, obs[1..]);
      rest.(ran := rest.ran + 1)
  }

  /** The time loop runs at least one generation, advances the index once per
      generation that completes (not for one whose callback raised), and
      stops at the first boundary that ends it; it runs out
      of time only when the elapsed time at that boundary exceeds the budget,
      while every earlier boundary was within it. */
  lemma {:induction false} TimeLoopExit(l: Ledger, maxTime: real, start: real, obs: seq<Boundary>)
    requires |obs| > 0 && StopsTimeLoop(obs[|obs| - 1], start, l.timeDiff, maxTime)
    decreases |obs|
    ensures var r := TimeLoop(l, maxTime, start, obs);
      && (r.exit != CallbackRaised ==> r.ledger.index == l.index + r.ran)
      && (r.exit == CallbackRaised ==> r.ledger.index == l.index + r.ran - 1 && obs[r.ran - 1].callbackRaised)
      && StopsTimeLoop(obs[r.ran - 1], start, l.timeDiff, maxTime)
      && (forall k :: 0 <= k < r.ran - 1 ==> !StopsTimeLoop(obs[k], start, l.timeDiff, maxTime))
      && (r.exit == OutOfTime ==> obs[r.ran - 1].now - start + l.timeDiff > maxTime)
      && (r.exit == Early ==> obs[r.ran - 1].early)
      && (r.exit == ForceStopped ==> obs[r.ran - 1].forceStop)
      && (r.exit == PausedAfter ==> r.ledger.timeDiff == obs[r.ran - 1].now - start)
      && (r.exit != PausedAfter ==> r.ledger.timeDiff == l.timeDiff)
      && r.exit != Exhausted
      && (r.paused <==> obs[r.ran - 1].paused)
  {
    var b := obs[0];
    if !StopsTimeLoop(b, start, l.timeDiff, maxTime) {
      var l1 := Record(l, l.index, b).(index := l.index + 1);
      TimeLoopExit(l1, maxTime, start, obs[1..]);
    }
  }

  /** Generation `index + k` has the statistics of the `k`-th boundary, and
      every other key keeps its entry. */
  lemma {:induction false} TimeLoopStatistics(l: Ledger, maxTime: real, start: real, obs: seq<Boundary>)
    requires |obs| > 0 && StopsTimeLoop(obs[|obs| - 1], start, l.timeDiff, maxTime)
    decreases |obs|
    ensures var r := TimeLoop(l, maxTime, start, obs);
      Stores(l.stats.gens, r.ledger.stats.gens, l.index, obs, r.ran)
  {
    var r := TimeLoop(l, maxTime, start, obs);
    var b := obs[0];
    if !StopsTimeLoop(b, start, l.timeDiff, maxTime) {
      var l1 := Record(l, l.index, b).(index := l.index + 1);
      TimeLoopStatistics(l1, maxTime, start, obs[1..]);
      StoresStep(l.stats.gens, r.ledger.stats.gens, l.index, obs, r.ran - 1);
    }
  }

  /** The `termination` option. */
  datatype Termination = ByTime(maxTime: real) | ByCount(count: nat) | Unrecognised

  /** What the environment must supply for the chosen loop: enough boundaries
      for the remaining count, or boundaries up to one that stops the time
      loop. */
  predicate Observable(l: Ledger, term: Termination, start: real, obs: seq<Boundary>)
  {
    match term
    case ByTime(maxTime) => |obs| > 0 && StopsTimeLoop(obs[|obs| - 1], start, l.timeDiff, maxTime)
    case ByCount(count) => count - l.index <= |obs|
    case Unrecognised => true
  }

  /** Dispatch on the termination type; an unrecognised type runs nothing. */
  function Evolve(l: Ledger, term: Termination, start: real, obs: seq<Boundary>): (r: Run)
    requires Observable(l, term, start, obs)
    ensures term.Unrecognised? ==> r == Run(l, 0, Exhausted, false)
  {
    match term
    case ByTime(maxTime) => TimeLoop(l, maxTime, start, obs)
    case ByCount(count) => CountLoop(l, l.index, count, start, obs)
    case Unrecognised => Run(l, 0, Exhausted, false)
  }

  /** What `_start_evolution` raises: the division on an empty
      dictionary, or the generation callback's exception passed through. */
  datatype Failure = ZeroDivisionError | CallbackError

  /** `_start_evolution`: run the loop; a raising generation callback
      propagates; otherwise, unless the loop left the engine paused,
      store `avg_time_per_gen` as the total time over `len(statistics)`,
      a count that includes an `avg_time_per_gen` key left by an earlier
      run; an empty dictionary makes the division raise. */
  function StartEvolution(l: Ledger, term: Termination, start: real, obs: seq<Boundary>, end: real): (r: Result<Run, Failure>)
    requires Observable(l, term, start, obs)
    ensures var run := Evolve(l, term, start, obs);
      && (run.exit == CallbackRaised ==> r == Err(CallbackError))
      && (run.exit != CallbackRaised && run.paused ==> r == Ok(run))
      && (r.Ok? ==> r.value.ran == run.ran && r.value.exit == run.exit && r.value.paused == run.paused)
      && (run.exit != CallbackRaised && !run.paused ==>
            (r.Err? <==> EntryCount(run.ledger.stats) == 0) && (r.Err? ==> r.error == Failure.ZeroDivisionError))
      && (run.exit != CallbackRaised && !run.paused && r.Ok? ==>
            && r.value.ledger.stats.gens == run.ledger.stats.gens
            && r.value.ledger.index == run.ledger.index
            && r.value.ledger.timeDiff == run.ledger.timeDiff
            && r.value.ledger.stats.avgTimePerGen.Some?
            && r.value.ledger.stats.avgTimePerGen.value * (EntryCount(run.ledger.stats) as real)
               == end - start + run.ledger.timeDiff)
  {
    var run := Evolve(l, term, start, obs);
    if run.exit == CallbackRaised then Err(CallbackError)
    else if run.paused then Ok(run)
    else
      var n := EntryCount(run.ledger.stats);
      if n == 0 then Err(Failure.ZeroDivisionError)
      else
        var avg := (end - start + run.ledger.timeDiff) / (n as real);
        Ok(run.(ledger := run.ledger.(stats := run.ledger.stats.(avgTimePerGen := Some(avg)))))
  }

  /** A count run that executes at least one generation, and any time run,
      never divides by zero: a statistics entry exists by then. Without a
      raising callback it therefore always succeeds. */
  lemma {:induction false} NoZeroDivisionAfterAGeneration(l: Ledger, term: Termination, start: real, obs: seq<Boundary>, end: real)
    requires Observable(l, term, start, obs)
    requires term.ByTime? || (term.ByCount? && l.index < term.count)
    ensures StartEvolution(l, term, start, obs, end) != Err(Failure.ZeroDivisionError)
    ensures (forall k :: 0 <= k < |obs| ==> !obs[k].callbackRaised) ==> StartEvolution(l, term, start, obs, end).Ok?
  {
    var run := Evolve(l, term, start, obs);
    match term {
      case ByTime(maxTime) =>
        TimeLoopExit(l, maxTime, start, obs);
        TimeLoopStatistics(l, maxTime, start, obs);
        assert l.index in run.ledger.stats.gens;
      case ByCount(count) =>
        CountLoopExit(l, l.index, count, start, obs);
        CountLoopStatistics(l, l.index, count, start, obs);
        assert l.index in run.ledger.stats.gens;
    }
  }
}

=== FILE: framing.dfy ===
/** Sentinel framing of OpenCLGA/utilities/socketserverclient/server_client.py:
    each message travels as `OPMsgB` ++ payload ++ `OPMsgE`; the receiver
    accumulates bytes, cuts out the first complete frame and trims the
    buffer past its end marker, repeatedly. */
module Framing {
  import opened Results
  import opened Bytes
  import opened Seqs

  /** `OP_MSG_BEGIN`, the ASCII bytes of "OPMsgB". */
  const Prefix: seq<byte> := [0x4F, 0x50, 0x4D, 0x73, 0x67, 0x42]

  /** `OP_MSG_END`, the ASCII bytes of "OPMsgE". */
  const Postfix: seq<byte> := [0x4F, 0x50, 0x4D, 0x73, 0x67, 0x45]

  /** One frame on the wire. */
  function Frame(payload: seq<byte>): (r: seq<byte>)
    ensures |r| == |payload| + 12
    ensures r[..6] == Prefix && r[6..6 + |payload|] == payload && r[6 + |payload|..] == Postfix
  {
    Prefix + payload + Postfix
  }

  /** What `_extract_specific_task` reports. */
  datatype Extraction =
    | Extracted(msg: seq<byte>, postIdx: nat, postLen: nat)   // (True, post_idx, len(postfix)), callback(msg)
    | NoFrame                                                 // (False, -1, -1)
    | PrefixNotAtStart                                        // the `pre_idx == 0` assertion fails

  /** `_extract_specific_task`: when both sentinels occur, the prefix must be
      at index 0 and the message is everything between it and the first
      postfix. */
  function Extract(buf: seq<byte>): (r: Extraction)
    ensures r.NoFrame? <==> !Contains(buf, Prefix) || !Contains(buf, Postfix)
    ensures r.PrefixNotAtStart? <==> Contains(buf, Prefix) && Contains(buf, Postfix) && Find(buf, Prefix) != 0
    ensures r.Extracted? ==>
              && OccursAt(buf, Prefix, 0)
              && r.postIdx == Find(buf, Postfix) && r.postLen == |Postfix|
              && 6 <= r.postIdx
              && r.msg == buf[6..r.postIdx]
  {
    var pre := Find(buf, Prefix);
    var post := Find(buf, Postfix);
    if pre >= 0 && post >= 0 then
      if pre != 0 then PrefixNotAtStart
      else
        assert post >= 6 by {
          if post < 6 {
            PostfixNotInsidePrefix(buf, post);
          }
        }
        Extracted(PySlice(buf, pre + |Prefix|, post), post, |Postfix|)
    else NoFrame
  }

  /** A postfix occurrence cannot overlap a prefix at index 0: `O` appears in
      the prefix only at its start and the two sentinels differ. */
  lemma PostfixNotInsidePrefix(buf: seq<byte>, i: int)
    requires OccursAt(buf, Prefix, 0) && 0 <= i < 6
    ensures !OccursAt(buf, Postfix, i)
  {
    assert buf[..6] == Prefix;
    if i == 0 {
      assert buf[5] == Prefix[5] != Postfix[5];
    } else {
      assert buf[i] == Prefix[i] != Postfix[0];
    }
  }

  /** `_remove_temp_data`: drop everything through the end of the postfix;
      nothing is left when nothing follows it. */
  function Remove(buf: seq<byte>, postIdx: nat, postLen: nat): (r: seq<byte>)
    ensures |buf| > postIdx + postLen ==> r == buf[postIdx + postLen..]
    ensures |buf| <= postIdx + postLen ==> r == []
  {
    if |buf| > postIdx + postLen then buf[postIdx + postLen..] else []
  }

  /** Result of the extract/trim loop run after each successful read. */
  datatype Drained = Drained(msgs: seq<seq<byte>>, rest: seq<byte>, failed: bool)

  /** `while success: extract, then trim`: every complete frame at the head
      of the buffer is delivered in order; a failed prefix assertion ends
      the loop (and, in the receive loop, the whole connection loop). */
  function Drain(buf: seq<byte>): (r: Drained)
    decreases |buf|
    ensures |r.rest| <= |buf|
  {
    match Extract(buf)
    case NoFrame => Drained([], buf, false)
    case PrefixNotAtStart => Drained([], buf, true)
    case Extracted(msg, post, len) =>
      var next := Remove(buf, post, len);
      var tail := Drain(next);
      Drained([msg] + tail.msgs, tail.rest, tail.failed)
  }

  /** The first postfix in a frame is its own end marker, provided the
      payload does not itself contain the postfix. */
  lemma {:induction false} FirstPostfixEndsFrame(payload: seq<byte>, rest: seq<byte>)
    requires !Contains(payload, Postfix)
    ensures Find(Frame(payload) + rest, Postfix) == 6 + |payload|
  {
    var buf := Frame(payload) + rest;
    var end := 6 + |payload|;
    assert buf[end..end + 6] == Postfix;
    assert OccursAt(buf, Postfix, end);
    assert OccursAt(buf, Prefix, 0) by { assert buf[..6] == Prefix; }
    forall i | 0 <= i < end
      ensures !OccursAt(buf, Postfix, i)
    {
      if i < 6 {
        PostfixNotInsidePrefix(buf, i);
      } else if i + 6 <= end {
        assert payload[i - 6..i] == buf[i..i + 6];
        assert !OccursAt(payload, Postfix, i - 6);
        assert buf[i..i + 6] != Postfix;
      } else {
        assert buf[i..i + 6][end - i] == buf[end] == Postfix[0];
        assert Postfix[end - i] != Postfix[0];
      }
    }
  }

  /** Round trip of one frame: a buffer that starts with a frame whose
      payload does not contain the postfix yields exactly that payload and
      keeps exactly the bytes that followed it. */
  lemma {:induction false} ExtractFrame(payload: seq<byte>, rest: seq<byte>)
    requires !Contains(payload, Postfix)
    ensures var buf := Frame(payload) + rest;
      && Extract(buf) == Extracted(payload, 6 + |payload|, 6)
      && Remove(buf, 6 + |payload|, 6) == rest
  {
    var buf := Frame(payload) + rest;
    FirstPostfixEndsFrame(payload, rest);
    assert OccursAt(buf, Prefix, 0) by { assert buf[..6] == Prefix; }
    assert Find(buf, Prefix) == 0;
    assert buf[6..6 + |payload|] == payload;
    assert buf[6 + |payload| + 6..] == rest;
  }

  /** All frames of `payloads`, back to back. */
  function Frames(payloads: seq<seq<byte>>): (r: seq<byte>)
    ensures |r| >= 12 * |payloads|
  {
    if payloads == [] then [] else Frame(payloads[0]) + Frames(payloads[1..])
  }

  /** A payload the framing can carry: it does not contain the end marker. */
  predicate Carriable(payload: seq<byte>)
  {
    !Contains(payload, Postfix)
  }

  /** No complete frame can be cut from `rest`. */
  predicate Incomplete(rest: seq<byte>)
  {
    !Contains(rest, Prefix) || !Contains(rest, Postfix)
  }

  /** Round trip of a stream: back-to-back frames followed by an incomplete
      tail deliver every payload, in order, and leave exactly the tail. */
  lemma {:induction false} DrainFrames(payloads: seq<seq<byte>>, rest: seq<byte>)
    requires forall i :: 0 <= i < |payloads| ==> Carriable(payloads[i])
    requires Incomplete(rest)
    ensures Drain(Frames(payloads) + rest) == Drained(payloads, rest, false)
  {
    if payloads == [] {
      assert Frames(payloads) + rest == rest;
    } else {
      var tail := Frames(payloads[1..]) + rest;
      assert Frames(payloads) + rest == Frame(payloads[0]) + tail;
      ExtractFrame(payloads[0], tail);
      DrainFrames(payloads[1..], rest);
      assert [payloads[0]] + payloads[1..] == payloads;
    }
  }
}

=== FILE: ga_algo.dfy ===
/** One generation of the flat-buffer genetic algorithm (kernel/ga_algo.c,
    kernel/ga_mutation.c, kernel/simple_gene.c): choosing survivors by a
    fitness threshold, refilling every dead chromosome from a survivor with
    at most one crossover swap, and swap mutation. Lower fitness is better
    here (the fitness is a tour length). Random draws are parameters, each
    within the range the kernel's `rand_range` would give. */
module GaAlgo {
  import opened Results
  import opened Seqs
  import opened Population
  import opened GaUtils
  import Rng

  /** A population buffer of `count` chromosomes of `size` genes each. */
  predicate IsBuffer(cs: seq<int>, count: nat, size: nat)
  {
    |cs| == count * size
  }

  lemma SliceInBuffer(cs: seq<int>, count: nat, size: nat, k: nat)
    requires IsBuffer(cs, count, size) && k < count
    ensures HasSlice(cs, k, size)
  {
    MulMono(k + 1, count, size);
  }

  // ---------------------------------------------------------------------
  // Survivor search

  /** How `find_survied_idx` turns its probe counter into an index: as the
      kernel writes it, or wrapping around past the end. */
  datatype Probing = AsWritten | Wrapping

  function Adjusted(mode: Probing, start: nat, runs: nat, count: nat): (r: nat)
    requires start < count && runs < count
    ensures r < count
  {
    match mode
    case AsWritten => if start + runs >= count then runs else start
    case Wrapping => if start + runs >= count then start + runs - count else start + runs
  }

  /** The probe loop from probe `runs` on: the number of the first probe
      that lands on a survivor, if any. */
  function Probe(mode: Probing, survivors: seq<bool>, start: nat, runs: nat): (r: Option<nat>)
    requires start < |survivors| && runs <= |survivors|
    ensures r.Some? ==> runs <= r.value < |survivors| && survivors[Adjusted(mode, start, r.value, |survivors|)]
    ensures r.Some? ==> forall k :: runs <= k < r.value ==> !survivors[Adjusted(mode, start, k, |survivors|)]
    ensures r.None? ==> forall k :: runs <= k < |survivors| ==> !survivors[Adjusted(mode, start, k, |survivors|)]
    decreases |survivors| - runs
  {
    if runs == |survivors| then None
    else if survivors[Adjusted(mode, start, runs, |survivors|)] then Some(runs)
    else Probe(mode, survivors, start, runs + 1)
  }

  /** `find_survied_idx` given its first draw `start < count`: the index
      returned and the number of probes made. After `count` failed probes
      it falls back to `start`. */
  function FindSurvivedIdx(mode: Probing, survivors: seq<bool>, start: nat): (r: (nat, nat))
    requires start < |survivors|
    ensures r.0 < |survivors| && 1 <= r.1 <= |survivors|
    ensures survivors[r.0] || (r.0 == start && r.1 == |survivors|)
    ensures !survivors[r.0] ==> forall k :: 0 <= k < |survivors| ==> !survivors[Adjusted(mode, start, k, |survivors|)]
  {
    match Probe(mode, survivors, start, 0)
    case Some(k) => (Adjusted(mode, start, k, |survivors|), k + 1)
    case None => (start, |survivors|)
  }

  /** With wrap-around the probes visit every index, so a survivor is found
      whenever there is one. */
  lemma {:induction false} FindsSurvivor(survivors: seq<bool>, start: nat, k: nat)
    requires start < |survivors| && k < |survivors| && survivors[k]
    ensures survivors[FindSurvivedIdx(Wrapping, survivors, start).0]
  {
    var count := |survivors|;
    var runs := if k >= start then k - start else k + count - start;
    assert Adjusted(Wrapping, start, runs, count) == k;
  }

  /** As written, the index stays at `start` until `start + runs` reaches
      `count`: with two chromosomes of which only the second survives and
      a first draw of 0, the search ends on the dead chromosome 0. */
  lemma SkipsSurvivorAsWritten()
    ensures var r := FindSurvivedIdx(AsWritten, [false, true], 0);
      r.0 == 0 && ![false, true][r.0]
  {
    var s := [false, true];
    assert Adjusted(AsWritten, 0, 0, 2) == 0;
    assert Adjusted(AsWritten, 0, 1, 2) == 0;
    assert Probe(AsWritten, s, 0, 1) == None;
  }

  // ---------------------------------------------------------------------
  // Reproduction

  /** The draws one call of `reproduce` consumes. */
  datatype ReproduceDraws = ReproduceDraws(first: nat, prob: real, second: nat, crossPoint: nat)

  predicate DrawsFit(d: ReproduceDraws, count: nat, size: nat)
  {
    d.first < count && d.second < count && (d.crossPoint < size || size == 0)
  }

  /** `reproduce`: a survivor is kept; a dead chromosome becomes a copy of
      the chromosome the search returns first and, when the crossover draw
      allows, swaps the cross point with the first cell equal to the second
      search result's gene at that point. `mode` chooses the search as the
      kernel writes it or with wrap-around. */
  function Reproduce(mode: Probing, cs: seq<int>, survivors: seq<bool>, size: nat, idx: nat, probCrossover: real, d: ReproduceDraws): (r: seq<int>)
    requires IsBuffer(cs, |survivors|, size) && idx < |survivors| && DrawsFit(d, |survivors|, size)
    ensures |r| == |cs|
    ensures survivors[idx] ==> r == cs
    ensures forall k :: 0 <= k < |cs| && !(idx * size <= k < (idx + 1) * size) ==> r[k] == cs[k]
    ensures !survivors[idx] ==> (
      && HasSlice(r, idx, size) && HasSlice(cs, FindSurvivedIdx(mode, survivors, d.first).0, size)
      && IsPermutationOf(Slice(r, idx, size), Slice(cs, FindSurvivedIdx(mode, survivors, d.first).0, size)))
    ensures !survivors[idx] && d.prob > probCrossover ==> (
      && HasSlice(r, idx, size) && HasSlice(cs, FindSurvivedIdx(mode, survivors, d.first).0, size)
      && Slice(r, idx, size) == Slice(cs, FindSurvivedIdx(mode, survivors, d.first).0, size))
  {
    var count := |survivors|;
    if survivors[idx] then cs
    else
      var c1 := FindSurvivedIdx(mode, survivors, d.first).0;
      SliceInBuffer(cs, count, size, idx);
      SliceInBuffer(cs, count, size, c1);
      var copy := Slice(cs, c1, size);
      var copied := WithSlice(cs, idx, size, copy);
      if d.prob <= probCrossover && size > 0 then
        var c2 := FindSurvivedIdx(mode, survivors, d.second).0;
        SliceInBuffer(copied, count, size, c2);
        var target := Slice(copied, c2, size)[d.crossPoint];
        var i := FirstMatch(copy, target, 0);
        if i < size then WithSlice(cs, idx, size, Swap(copy, d.crossPoint, i))
        else copied
      else copied
  }

  /** As written, with two chromosomes of which only the second survives,
      a first draw of 0 and a crossover draw above the probability, the dead
      chromosome 0 is refilled from itself: the buffer does not change. */
  lemma ReproduceAsWrittenKeepsDead(cs: seq<int>, size: nat, probCrossover: real, d: ReproduceDraws)
    requires IsBuffer(cs, 2, size) && DrawsFit(d, 2, size) && d.first == 0 && d.prob > probCrossover
    ensures Reproduce(AsWritten, cs, [false, true], size, 0, probCrossover, d) == cs
  {
    SkipsSurvivorAsWritten();
    assert cs == cs[..0] + cs[0..size] + cs[size..];
  }

  /** With the corrected search, every dead chromosome is refilled from a
      survivor whenever one exists. */
  lemma ReproduceCopiesSurvivor(cs: seq<int>, survivors: seq<bool>, size: nat, idx: nat, probCrossover: real, d: ReproduceDraws, k: nat)
    requires IsBuffer(cs, |survivors|, size) && idx < |survivors| && DrawsFit(d, |survivors|, size)
    requires k < |survivors| && survivors[k]
    ensures survivors[FindSurvivedIdx(Wrapping, survivors, d.first).0]
    ensures FindSurvivedIdx(Wrapping, survivors, d.first).0 != idx || survivors[idx]
    ensures !survivors[idx] ==> exists j :: (0 <= j < |survivors| && survivors[j] && j != idx && HasSlice(cs, j, size)
      && IsPermutationOf(Slice(Reproduce(Wrapping, cs, survivors, size, idx, probCrossover, d), idx, size), Slice(cs, j, size)))
  {
    FindsSurvivor(survivors, d.first, k);
    var j := FindSurvivedIdx(Wrapping, survivors, d.first).0;
    SliceInBuffer(cs, |survivors|, size, j);
  }

  // ---------------------------------------------------------------------
  // Survivor selection

  /** The best (lowest) and weakest (highest) fitness seen so far, and the
      survivor flags of the current population. */
  datatype Survival = Survival(best: real, weakest: real, survivors: seq<bool>)

  /** A chromosome survives when its fitness is at most
      `weakest - (weakest - best) / 1.1`, which lies one eleventh of the
      way from the best to the weakest. */
  function Threshold(best: real, weakest: real): real
  {
    weakest - (weakest - best) / 1.1
  }

  /** `update_survivors`: only work item 0 acts. The batch minimum starts
      from `INT_MAX` and the batch maximum from 0. */
  function UpdateSurvivors(workItem: nat, fitnesses: seq<real>, s: Survival): (r: Survival)
    requires |s.survivors| == |fitnesses|
    ensures workItem != 0 ==> r == s
    ensures workItem == 0 ==> r.best <= s.best && r.weakest >= s.weakest
    ensures workItem == 0 ==> r.best <= IntMaxAsFloat && r.weakest >= 0.0
    ensures workItem == 0 ==> forall i :: 0 <= i < |fitnesses| ==> r.best <= fitnesses[i] <= r.weakest
    ensures workItem == 0 ==> r.best in {s.best, IntMaxAsFloat} || r.best in fitnesses
    ensures workItem == 0 ==> r.weakest in {s.weakest, 0.0} || r.weakest in fitnesses
    ensures |r.survivors| == |fitnesses|
    ensures workItem == 0 ==> forall i :: 0 <= i < |fitnesses| ==>
      (r.survivors[i] <==> fitnesses[i] <= Threshold(r.best, r.weakest))
  {
    if workItem != 0 then s
    else
      var (lo, hi) := CalcMinMax(fitnesses, IntMaxAsFloat, 0.0);
      var best := if lo < s.best then lo else s.best;
      var weakest := if hi > s.weakest then hi else s.weakest;
      var t := Threshold(best, weakest);
      Survival(best, weakest, seq(|fitnesses|, i requires 0 <= i < |fitnesses| => fitnesses[i] <= t))
  }

  /** The threshold never falls below the best fitness, so a chromosome
      that reaches the best survives. */
  lemma BestSurvives(fitnesses: seq<real>, s: Survival, k: nat)
    requires |s.survivors| == |fitnesses| && k < |fitnesses|
    requires fitnesses[k] == UpdateSurvivors(0, fitnesses, s).best
    ensures UpdateSurvivors(0, fitnesses, s).survivors[k]
  {
    var r := UpdateSurvivors(0, fitnesses, s);
    assert r.best <= r.weakest;
    assert Threshold(r.best, r.weakest) - r.best == (r.weakest - r.best) * (1.0 - 1.0 / 1.1);
  }

  // ---------------------------------------------------------------------
  // Mutation

  /** The chromosome after positions `0 .. k-1` have had their chance to
      swap: position `i` swaps with `partners[i]` when `draws[i] < prob`. */
  function MutatedUpTo<T(==)>(genes: seq<T>, prob: real, draws: seq<real>, partners: seq<nat>, k: nat): (r: seq<T>)
    requires k <= |genes| && |draws| == |genes| && |partners| == |genes|
    requires forall i :: 0 <= i < |genes| && draws[i] < prob ==> partners[i] < |genes| && partners[i] != i
    ensures |r| == |genes| && IsPermutationOf(r, genes)
    ensures (forall i :: 0 <= i < k ==> draws[i] >= prob) ==> r == genes
  {
    if k == 0 then genes
    else
      var g := MutatedUpTo(genes, prob, draws, partners, k - 1);
      if draws[k - 1] < prob then Swap(g, k - 1, partners[k - 1]) else g
  }

  /** `mutate` on one chromosome's genes: the loop visits every position
      once and swaps it with a different position when its draw is below
      `prob`. */
  method MutateGenes<T(==)>(genes: seq<T>, prob: real, draws: seq<real>, partners: seq<nat>) returns (r: seq<T>)
    requires |draws| == |genes| && |partners| == |genes|
    requires forall i :: 0 <= i < |genes| && draws[i] < prob ==> partners[i] < |genes| && partners[i] != i
    ensures r == MutatedUpTo(genes, prob, draws, partners, |genes|)
    ensures IsPermutationOf(r, genes)
  {
    r := genes;
    var i := 0;
    while i < |genes|
      invariant i <= |genes|
      invariant r == MutatedUpTo(genes, prob, draws, partners, i)
    {
      ghost var next := MutatedUpTo(genes, prob, draws, partners, i + 1);
      if draws[i] < prob {
        assert partners[i] < |genes|;
        r := Swap(r, i, partners[i]);
      }
      assert r == next;
      i := i + 1;
    }
  }

  /** `mutate` on chromosome `idx` of the buffer: its genes are rearranged
      and no other cell changes. */
  method Mutate(cs: seq<int>, idx: nat, size: nat, prob: real, draws: seq<real>, partners: seq<nat>) returns (r: seq<int>)
    requires HasSlice(cs, idx, size) && |draws| == size && |partners| == size
    requires forall i :: 0 <= i < size && draws[i] < prob ==> partners[i] < size && partners[i] != i
    ensures |r| == |cs| && HasSlice(r, idx, size)
    ensures IsPermutationOf(Slice(r, idx, size), Slice(cs, idx, size))
    ensures forall k :: 0 <= k < |cs| && !(idx * size <= k < (idx + 1) * size) ==> r[k] == cs[k]
    ensures (forall i :: 0 <= i < size ==> draws[i] >= prob) ==> r == cs
  {
    var genes := MutateGenes(Slice(cs, idx, size), prob, draws, partners);
    r := WithSlice(cs, idx, size, genes);
    if forall i :: 0 <= i < size ==> draws[i] >= prob {
      assert cs == cs[..idx * size] + Slice(cs, idx, size) + cs[(idx + 1) * size..];
    }
  }

  /** `mutate` with the one-gene case guarded: a chromosome with fewer than
      two genes has no other position to swap with and is left alone. As
      written, a drawn position of a one-gene chromosome waits for
      `rand_range_exclude(holder, 1, 0)`, which never returns (see
      `Rng.RandRangeExclude`). */
  method MutateGuarded(cs: seq<int>, idx: nat, size: nat, prob: real, draws: seq<real>, partners: seq<nat>) returns (r: seq<int>)
    requires HasSlice(cs, idx, size) && |draws| == size && |partners| == size
    requires size >= 2 ==> forall i :: 0 <= i < size && draws[i] < prob ==> partners[i] < size && partners[i] != i
    ensures |r| == |cs| && HasSlice(r, idx, size)
    ensures IsPermutationOf(Slice(r, idx, size), Slice(cs, idx, size))
    ensures forall k :: 0 <= k < |cs| && !(idx * size <= k < (idx + 1) * size) ==> r[k] == cs[k]
    ensures size < 2 ==> r == cs
    ensures (forall i :: 0 <= i < size ==> draws[i] >= prob) ==> r == cs
  {
    if size < 2 {
      return cs;
    }
    r := Mutate(cs, idx, size, prob, draws, partners);
  }

  /** `simple_gene_mutate`: with raw draws for `rand_range_exclude`, the
      gene is kept when the probability draw exceeds `probMutate`, and
      otherwise replaced by a different value below `max`; `None` when the
      draws run out before the retry loop exits. */
  method SimpleGeneMutate(gene: nat, max: nat, probDraw: real, probMutate: real, draws: seq<nat>) returns (r: Option<nat>)
    requires max > 0
    ensures probDraw > probMutate ==> r == Some(gene)
    ensures probDraw <= probMutate && r.Some? ==> r.value < max && r.value != gene
    ensures probDraw <= probMutate && max == 1 && gene == 0 ==> r.None?
  {
    if probDraw > probMutate {
      return Some(gene);
    }
    var e := Rng.RandRangeExclude(draws, max, gene);
    if e.None? {
      return None;
    }
    return Some(e.value.0);
  }

  // ---------------------------------------------------------------------
  // One generation

  /** The draws of one work item of `ga_one_generation` after the fitness
      and survivor phases. */
  datatype GenerationDraws = GenerationDraws(reproduce: ReproduceDraws, mutation: seq<real>, partners: seq<nat>)

  /** Which `mutate` a work item runs: the kernel's, or the corrected one
      that leaves a chromosome of fewer than two genes alone. */
  datatype Mutation = KernelMutate | GuardedMutate

  /** The kernel's `mutate` never returns: the chromosome has one gene and
      its only position is drawn, so `rand_range_exclude(holder, 1, 0)`
      waits for a draw that cannot come. */
  predicate MutateHangs(size: nat, prob: real, draws: seq<real>)
    requires |draws| == size
  {
    size == 1 && draws[0] < prob
  }

  /** What one work item does to the buffer: nothing beyond the population,
      otherwise `reproduce` then `mutate` on its own chromosome; `None` when
      the work item never finishes, which only the kernel's `mutate` can
      cause. */
  method OneGeneration(mode: Probing, mutation: Mutation, cs: seq<int>, survivors: seq<bool>, size: nat, idx: nat,
                       probCrossover: real, probMutate: real, d: GenerationDraws) returns (r: Option<seq<int>>)
    requires IsBuffer(cs, |survivors|, size) && DrawsFit(d.reproduce, |survivors|, size)
    requires |d.mutation| == size && |d.partners| == size
    requires size >= 2 ==> forall i :: 0 <= i < size && d.mutation[i] < probMutate ==> d.partners[i] < size && d.partners[i] != i
    ensures r.None? <==> mutation.KernelMutate? && idx < |survivors| && MutateHangs(size, probMutate, d.mutation)
    ensures idx >= |survivors| ==> r == Some(cs)
    ensures r.Some? ==> |r.value| == |cs|
    ensures r.Some? ==> forall k :: 0 <= k < |cs| && !(idx * size <= k < (idx + 1) * size) ==> r.value[k] == cs[k]
    ensures r.Some? && idx < |survivors| && survivors[idx] ==> (
      && HasSlice(cs, idx, size) && HasSlice(r.value, idx, size)
      && IsPermutationOf(Slice(r.value, idx, size), Slice(cs, idx, size)))
    ensures r.Some? && idx < |survivors| && !survivors[idx] ==> (
      && HasSlice(r.value, idx, size)
      && HasSlice(cs, FindSurvivedIdx(mode, survivors, d.reproduce.first).0, size)
      && IsPermutationOf(Slice(r.value, idx, size), Slice(cs, FindSurvivedIdx(mode, survivors, d.reproduce.first).0, size)))
  {
    if idx >= |survivors| {
      return Some(cs);
    }
    SliceInBuffer(cs, |survivors|, size, idx);
    var reproduced := Reproduce(mode, cs, survivors, size, idx, probCrossover, d.reproduce);
    if mutation.GuardedMutate? {
      var m := MutateGuarded(reproduced, idx, size, probMutate, d.mutation, d.partners);
      return Some(m);
    }
    if MutateHangs(size, probMutate, d.mutation) {
      return None;
    }
    var m := Mutate(reproduced, idx, size, probMutate, d.mutation, d.partners);
    return Some(m);
  }
}

=== FILE: ga_utils.dfy ===
/** Device-side helpers shared by the kernels (kernel/ga_utils.c): swapping
    two genes of one chromosome in the flat population buffer, and the
    running minimum and maximum of the fitness array. Fitness values are
    `real` here; single-precision rounding is not modelled. */
module GaUtils {
  import opened Seqs
  import opened Population

  /** `INT_MAX` stored into a `float`: 2147483647 rounds to 2^31. */
  const IntMaxAsFloat: real := 2147483648.0

  /** `fabs`, and Python's `abs` on a float. */
  function Abs(x: real): (r: real)
    ensures r >= 0.0 && (r == x || r == -x)
  {
    if x < 0.0 then -x else x
  }

  /** `chromosome_swap`: exchanges genes `cp` and `p1` of chromosome `idx`. */
  function ChromosomeSwap(cs: seq<int>, idx: nat, size: nat, cp: nat, p1: nat): (r: seq<int>)
    requires HasSlice(cs, idx, size) && cp < size && p1 < size
    ensures |r| == |cs|
    ensures r[idx * size + cp] == cs[idx * size + p1] && r[idx * size + p1] == cs[idx * size + cp]
    ensures forall k :: 0 <= k < |cs| && k != idx * size + cp && k != idx * size + p1 ==> r[k] == cs[k]
    ensures IsPermutationOf(Slice(r, idx, size), Slice(cs, idx, size))
  {
    var r := Swap(cs, idx * size + cp, idx * size + p1);
    SwapInsideSlice(cs, idx, size, cp, p1);
    r
  }

  /** A swap of two cells inside a slice swaps them within the slice and
      leaves the slice's multiset of genes alone. */
  lemma SwapInsideSlice(cs: seq<int>, idx: nat, size: nat, cp: nat, p1: nat)
    requires HasSlice(cs, idx, size) && cp < size && p1 < size
    ensures Slice(Swap(cs, idx * size + cp, idx * size + p1), idx, size) == Swap(Slice(cs, idx, size), cp, p1)
  {
    var base := idx * size;
    assert (idx + 1) * size == base + size;
    SwapInside(cs, base, size, cp, p1);
  }

  lemma SwapInside(s: seq<int>, base: nat, size: nat, a: nat, b: nat)
    requires base + size <= |s| && a < size && b < size
    ensures Swap(s, base + a, base + b)[base..base + size] == Swap(s[base..base + size], a, b)
  {
  }

  /** `calc_min_max_fitness`: one left-to-right pass that raises `max` to
      any larger fitness and lowers `min` to any smaller one. */
  function CalcMinMax(fitnesses: seq<real>, min: real, max: real): (r: (real, real))
    ensures r.0 <= min && r.1 >= max
    ensures forall i :: 0 <= i < |fitnesses| ==> r.0 <= fitnesses[i] <= r.1
    ensures r.0 == min || r.0 in fitnesses
    ensures r.1 == max || r.1 in fitnesses
  {
    if fitnesses == [] then (min, max)
    else
      var f := fitnesses[0];
      CalcMinMax(fitnesses[1..], if f < min then f else min, if f > max then f else max)
  }
}

=== FILE: genes.dfy ===
/** `SimpleGene` (OpenCLGA/simple_gene.py and the older simple_gene.py): one
    DNA value drawn from a list of elements. On the device a gene is the
    index of its value in that list. */
module Genes {
  import opened Results
  import opened Seqs
  import opened Text

  /** `None` stands for Python's `None`, which the constructor and the setter
      reject. */
  datatype SimpleGene<T> = SimpleGene(dna: T, elements: seq<T>, name: string)

  /** `SimpleGene(dna, elements, name)`: fails its assertion on `None`. */
  function NewGene<T>(dna: Option<T>, elements: seq<T>, name: string): (r: Option<SimpleGene<T>>)
    ensures r.Some? <==> dna.Some?
    ensures r.Some? ==> r.value.elements == elements && r.value.name == name && Some(r.value.dna) == dna
  {
    if dna.None? then None else Some(SimpleGene(dna.value, elements, name))
  }

  /** The `dna` setter. */
  function SetDna<T>(g: SimpleGene<T>, dna: Option<T>): (r: Option<SimpleGene<T>>)
    ensures r.Some? <==> dna.Some?
    ensures r.Some? ==> r.value.elements == g.elements && r.value.name == g.name && Some(r.value.dna) == dna
  {
    if dna.None? then None else Some(g.(dna := dna.value))
  }

  /** `clone_gene`: a gene with the same DNA, elements and name. */
  function Clone<T>(g: SimpleGene<T>): (r: SimpleGene<T>)
    ensures r == g
  {
    SimpleGene(g.dna, g.elements, g.name)
  }

  /** `length`: a simple gene always holds one value. */
  function Length<T>(g: SimpleGene<T>): (r: nat)
    ensures r == 1
  {
    1
  }

  /** `elements_in_kernel`: the device's values, the indices of the
      elements. */
  function ElementsInKernel<T>(g: SimpleGene<T>): (r: seq<nat>)
    ensures |r| == |g.elements|
    ensures forall i :: 0 <= i < |r| ==> r[i] == i
  {
    Range(|g.elements|)
  }

  /** `elements_in_kernel_str`: the C initialiser `{0, 1, ...}` and a
      newline. */
  function ElementsInKernelStr<T>(g: SimpleGene<T>): (r: string)
    ensures |r| >= 3 && r[0] == '{' && r[|r| - 2..] == "}\n"
  {
    "{" + DecimalList(ElementsInKernel(g)) + "}\n"
  }

  /** The initialiser is braced and reads back as the index list. */
  lemma ElementsInKernelStrReadsBack<T>(g: SimpleGene<T>)
    ensures var s := ElementsInKernelStr(g);
      |s| >= 3 && s[0] == '{' && s[|s| - 2..] == "}\n"
      && ParseDecimalList(s[1..|s| - 2]) == Some(ElementsInKernel(g))
  {
    var s := ElementsInKernelStr(g);
    assert s[1..|s| - 2] == DecimalList(ElementsInKernel(g));
    DecimalListRoundTrip(ElementsInKernel(g));
  }

  /** The macro the element list is defined under. */
  const ElementsDefine := "#define SIMPLE_GENE_ELEMENTS "

  /** The older gene's `kernelize`: the whole `#define` line, the macro
      name followed by a braced initialiser and a newline. */
  function LegacyKernelize<T>(g: SimpleGene<T>): (r: string)
    ensures |ElementsDefine| + 3 <= |r| && r[..|ElementsDefine|] == ElementsDefine
    ensures r[|ElementsDefine|] == '{' && r[|r| - 2..] == "}\n"
  {
    "#define SIMPLE_GENE_ELEMENTS {" + DecimalList(ElementsInKernel(g)) + "}\n"
  }

  /** Both versions define the same element list: the newer one leaves the
      `#define` to the chromosome. */
  lemma LegacyKernelizeAgrees<T>(g: SimpleGene<T>)
    ensures LegacyKernelize(g) == "#define SIMPLE_GENE_ELEMENTS " + ElementsInKernelStr(g)
  {
  }

  /** `from_kernel_value`: the gene whose value is element `v` of the same
      list, under the same name; the assertion `0 <= v < len(elements)`
      fails otherwise. */
  function FromKernelValue<T>(g: SimpleGene<T>, v: int): (r: Option<SimpleGene<T>>)
    ensures r.Some? <==> 0 <= v < |g.elements|
    ensures r.Some? ==> r.value.elements == g.elements && r.value.name == g.name
    ensures r.Some? ==> r.value.dna == g.elements[v]
  {
    if 0 <= v < |g.elements| then Some(SimpleGene(g.elements[v], g.elements, g.name)) else None
  }

  /** The older gene's `from_kernel_value`, guarded by `v > -1`. */
  function LegacyFromKernelValue<T>(g: SimpleGene<T>, v: int): (r: Option<SimpleGene<T>>)
    ensures r.Some? <==> -1 < v < |g.elements|
  {
    if v > -1 && v < |g.elements| then Some(SimpleGene(g.elements[v], g.elements, g.name)) else None
  }

  lemma LegacyFromKernelValueAgrees<T>(g: SimpleGene<T>, v: int)
    ensures LegacyFromKernelValue(g, v) == FromKernelValue(g, v)
  {
  }

  /** `list.index`: the first position holding `x`. */
  function IndexOf<T(==)>(s: seq<T>, x: T): (r: int)
    ensures r == -1 <==> x !in s
    ensures r != -1 ==> 0 <= r < |s| && s[r] == x && x !in s[..r]
  {
    if s == [] then -1
    else if s[0] == x then 0
    else
      var k := IndexOf(s[1..], x);
      if k == -1 then -1
      else
        assert s[..k + 1] == [s[0]] + s[1..][..k];
        k + 1
  }

  /** Reading a device value back and taking the value's index again gives
      the device value, when the elements are distinct. */
  lemma FromKernelValueRoundTrip<T>(g: SimpleGene<T>, v: int)
    requires Distinct(g.elements) && 0 <= v < |g.elements|
    ensures IndexOf(g.elements, FromKernelValue(g, v).value.dna) == v
  {
  }
}

=== FILE: legacy_engine.dfy ===
/** Host-side bookkeeping of the older engine (ocl_ga.py): no lifecycle
    machine and no task thread -- `run` evolves synchronously -- closed-range
    probability checks, and a checkpoint without the probabilities whose
    restore leaves the paused flag alone.  The generation loops and
    `get_the_best` are the ones of modules Evolution and Best. */
module LegacyEngine {
  import opened Results
  import opened Evolution
  import Engine

  datatype Host = Host(
    termination: Termination,
    population: nat,
    paused: bool,
    forceStop: bool,
    ledger: Ledger,
    elapsed: real,
    fitnesses: seq<real>,
    chromosomes: seq<int>,
    rnum: seq<nat>)

  /** What the older engine's calls raise: the assertions, what `open`
      raises on an unusable file name, and the evolution's own failures. */
  datatype Raised = AssertionFailed | OpenFailed(error: Engine.Raised) | Evolution(failure: Failure)

  predicate InClosedUnit(p: real)
  {
    0.0 <= p <= 1.0
  }

  /** What a synchronous `run` leaves behind, and how many generations it
      executed. */
  datatype Report = Report(host: Host, populated: bool, generations: nat)

  /** The boundaries as the loops read them: nothing in the older engine
      clears `__forceStop`, so once it is set every boundary sees it. */
  function Seen(forceStop: bool, obs: seq<Boundary>): (r: seq<Boundary>)
    ensures |r| == |obs|
    ensures forall k :: 0 <= k < |obs| ==> r[k] == obs[k].(forceStop := obs[k].forceStop || forceStop)
    ensures !forceStop ==> r == obs
  {
    seq(|obs|, k requires 0 <= k < |obs| => obs[k].(forceStop := obs[k].forceStop || forceStop))
  }

  /** Whether `stop` was called by one of the first `ran` boundaries of a
      run: the flag it raises is never cleared. */
  predicate StopSeenBy(obs: seq<Boundary>, ran: nat)
  {
    exists k :: 0 <= k < ran && k < |obs| && obs[k].forceStop
  }

  /** `run`: both probabilities in [0, 1]; populate generation 0 only when
      not paused; clear paused; evolve, with the force-stop flag left over
      from an earlier `stop` still raised; add the call's duration to the
      elapsed time.  A `stop` made during the run, by the time of a boundary
      the run reached, leaves the flag raised afterwards. */
  function Run(h: Host, probMutation: real, probCrossover: real,
               started: real, genStart: real, obs: seq<Boundary>, evolved: real, finished: real): (r: Result<Report, Raised>)
    requires Observable(h.ledger, h.termination, genStart, obs)
    ensures !(InClosedUnit(probMutation) && InClosedUnit(probCrossover)) ==> r == Err(AssertionFailed)
    ensures InClosedUnit(probMutation) && InClosedUnit(probCrossover) ==>
              var s := StartEvolution(h.ledger, h.termination, genStart, Seen(h.forceStop, obs), evolved);
              && (r.Ok? <==> s.Ok?)
              && (r.Ok? ==>
                    && r.value.populated == !h.paused
                    && r.value.host.ledger == s.value.ledger
                    && r.value.host.paused == s.value.paused
                    && (r.value.host.forceStop <==> h.forceStop || StopSeenBy(obs, s.value.ran))
                    && r.value.generations == s.value.ran
                    && r.value.host.elapsed == h.elapsed + (finished - started))
  {
    if !InClosedUnit(probMutation) || !InClosedUnit(probCrossover) then Err(AssertionFailed)
    else
      var populated := !h.paused;
      match StartEvolution(h.ledger, h.termination, genStart, Seen(h.forceStop, obs), evolved)
      case Err(e) => Err(Evolution(e))
      case Ok(run) =>
        Ok(Report(h.(ledger := run.ledger, paused := run.paused, forceStop := h.forceStop || StopSeenBy(obs, run.ran),
                     elapsed := h.elapsed + (finished - started)),
                  populated, run.ran))
  }

  /** `stop`. */
  function Stop(h: Host): (r: Host)
    ensures r.forceStop && r.paused == h.paused && r.ledger == h.ledger
  {
    h.(forceStop := true)
  }

  /** While the force-stop flag is raised, a run ends at its first
      generation boundary and leaves the flag raised. */
  lemma RunWithStopRaisedEndsAtFirstBoundary(h: Host, probMutation: real, probCrossover: real,
                                             started: real, genStart: real, obs: seq<Boundary>, evolved: real, finished: real)
    requires h.forceStop
    requires Observable(h.ledger, h.termination, genStart, obs)
    ensures var r := Run(h, probMutation, probCrossover, started, genStart, obs, evolved, finished);
      r.Ok? ==> r.value.generations <= 1 && r.value.host.forceStop
  {
    var seen := Seen(true, obs);
    match h.termination {
      case ByCount(count) =>
        CountLoopExit(h.ledger, h.ledger.index, count, genStart, seen);
      case ByTime(maxTime) =>
        TimeLoopExit(h.ledger, maxTime, genStart, seen);
      case Unrecognised =>
    }
  }

  /** After `stop`, every later run ends at its first generation boundary:
      the flag is never cleared. */
  lemma RunAfterStopEndsAtFirstBoundary(h: Host, probMutation: real, probCrossover: real,
                                        started: real, genStart: real, obs: seq<Boundary>, evolved: real, finished: real)
    requires Observable(h.ledger, h.termination, genStart, obs)
    ensures var r := Run(Stop(h), probMutation, probCrossover, started, genStart, obs, evolved, finished);
      r.Ok? ==> r.value.generations <= 1 && r.value.host.forceStop
  {
    RunWithStopRaisedEndsAtFirstBoundary(Stop(h), probMutation, probCrossover, started, genStart, obs, evolved, finished);
  }

  /** A run that a `stop` made during it ends leaves the flag raised, so the
      next run ends at its first boundary too. */
  lemma ForceStoppedRunKeepsFlag(h: Host, probMutation: real, probCrossover: real,
                                 started: real, genStart: real, obs: seq<Boundary>, evolved: real, finished: real)
    requires Observable(h.ledger, h.termination, genStart, obs)
    ensures var r := Run(h, probMutation, probCrossover, started, genStart, obs, evolved, finished);
      r.Ok? && Evolve(h.ledger, h.termination, genStart, Seen(h.forceStop, obs)).exit == ForceStopped ==>
        r.value.host.forceStop
  {
    var seen := Seen(h.forceStop, obs);
    var run := Evolve(h.ledger, h.termination, genStart, seen);
    if run.exit == ForceStopped && !h.forceStop {
      match h.termination {
        case ByCount(count) =>
          CountLoopExit(h.ledger, h.ledger.index, count, genStart, seen);
        case ByTime(maxTime) =>
          TimeLoopExit(h.ledger, maxTime, genStart, seen);
        case Unrecognised =>
      }
      assert seen[run.ran - 1].forceStop;
      assert obs[run.ran - 1].forceStop;
    }
  }

  /** `pause`. */
  function Pause(h: Host): (r: Host)
    ensures r.paused && r.forceStop == h.forceStop && r.ledger == h.ledger
  {
    h.(paused := true)
  }

  /** The fields the older `__save_state` writes: no probabilities. The
      seeds are read into a `float32` array byte for byte; `rnum` keeps the
      32-bit words those bytes hold. */
  datatype Checkpoint = Checkpoint(
    generationIdx: nat,
    statistics: Statistics,
    timeDiff: real,
    population: nat,
    rnum: seq<nat>,
    fitnesses: seq<real>,
    chromosomes: seq<int>)

  /** `save(filename)`: the paused assertion, then `open(filename)`, which
      raises `TypeError` for `None` and `FileNotFoundError` for the empty
      name; on success the checkpoint reaches the file under that name. */
  function Save(h: Host, file: Option<string>): (r: Result<(string, Checkpoint), Raised>)
    ensures r.Ok? <==> h.paused && file.Some? && file.value != ""
    ensures !h.paused ==> r == Err(AssertionFailed)
    ensures h.paused && file.None? ==> r == Err(OpenFailed(Engine.Raised.TypeError))
    ensures h.paused && file == Some("") ==> r == Err(OpenFailed(Engine.FileNotFound))
    ensures r.Ok? ==> r.value.0 == file.value
  {
    if !h.paused then Err(AssertionFailed)
    else match Engine.OpenError(file)
      case Some(e) => Err(OpenFailed(e))
      case None =>
        Ok((file.value, Checkpoint(h.ledger.index, h.ledger.stats, h.ledger.timeDiff, h.population,
                                   h.rnum, h.fitnesses, h.chromosomes)))
  }

  /** `__restore_state`: read the fields back; the paused flag is not
      touched. The new seed buffer is first filled from
      `numpy.array(rnum, dtype=uint32)`, a value conversion of the saved
      `float32` array whose result floating point leaves to the parameter
      `converted`; the closing `enqueue_copy` then writes the array's raw
      bytes over it, and those are the 32-bit words `save` read from the
      device. */
  function RestoreState(h: Host, c: Checkpoint, converted: seq<nat>): (r: Host)
    ensures r.paused == h.paused && r.forceStop == h.forceStop && r.elapsed == h.elapsed
    ensures r.rnum == c.rnum
  {
    var created := h.(ledger := Ledger(c.generationIdx, c.timeDiff, c.statistics), population := c.population,
                      rnum := converted, fitnesses := c.fitnesses, chromosomes := c.chromosomes);
    created.(rnum := c.rnum)
  }

  /** `restore(filename)` from the checkpoint `c` the file holds: `open`
      raises first on an unusable name, and the host is left as it was. */
  function Restore(h: Host, file: Option<string>, c: Checkpoint, converted: seq<nat>): (r: Result<Host, Raised>)
    ensures r.Ok? <==> file.Some? && file.value != ""
    ensures file.None? ==> r == Err(OpenFailed(Engine.Raised.TypeError))
    ensures file == Some("") ==> r == Err(OpenFailed(Engine.FileNotFound))
    ensures r.Ok? ==> r.value.paused == h.paused && r.value.forceStop == h.forceStop && r.value.rnum == c.rnum
  {
    match Engine.OpenError(file)
    case Some(e) => Err(OpenFailed(e))
    case None => Ok(RestoreState(h, c, converted))
  }

  /** Restoring, from the file `save` wrote, the checkpoint it wrote brings
      back the generation index, statistics, time offset, population, random
      seeds, fitnesses and chromosomes, whatever the value conversion of the
      seeds yields, and leaves the target's own paused flag in place, so a
      target that was never paused repopulates on its next run. */
  lemma SaveRestoreRoundTrip(saved: Host, file: string, target: Host, converted: seq<nat>)
    requires saved.paused && file != ""
    ensures Save(saved, Some(file)).Ok?
    ensures var (name, c) := Save(saved, Some(file)).value;
      && name == file
      && Restore(target, Some(name), c, converted).Ok?
      && var h := Restore(target, Some(name), c, converted).value;
      && h.ledger == saved.ledger && h.population == saved.population
      && h.rnum == saved.rnum && h.fitnesses == saved.fitnesses && h.chromosomes == saved.chromosomes
      && h.paused == target.paused
  {
  }
}

=== FILE: legacy_transport.dfy ===
/** The older socket layer (server_client.py): a sender that writes prefix,
    message and postfix as three separate writes, and a receiver keyed by
    (socket, address) that fires the first matching callback entry, may
    split on a middle marker, and then drops the whole buffer. */
module LegacyTransport {
  import opened Results
  import opened Bytes
  import opened Seqs
  import opened Framing
  import Transport

  /** What `send` hands to `__send`, in order, and whether it raises: the
      prefix, the message and the postfix; a `str` that is not ASCII raises
      while the second `__send` encodes it, after the prefix has been
      written and before any byte of the message. */
  datatype Writes = Writes(parts: seq<seq<byte>>, encodeError: bool)

  function SendWrites(m: Transport.Message): (r: Writes)
    ensures r.encodeError <==> Transport.MessageBytes(m).None?
    ensures r.encodeError ==> r.parts == [Prefix]
    ensures !r.encodeError ==>
      |r.parts| == 3 && r.parts[0] + r.parts[1] + r.parts[2] == Frame(Transport.MessageBytes(m).value)
  {
    match Transport.MessageBytes(m)
    case None => Writes([Prefix], true)
    case Some(data) => Writes([Prefix, data, Postfix], false)
  }

  /** `send` over a socket: each write loops until done; a zero-byte send
      raises and abandons the writes not yet made.  `caps[k]` are the
      socket's capacities for the `k`-th write.  `encodeError` is the
      `UnicodeEncodeError` of a `str` that is not ASCII, raised once the
      prefix is on the wire. */
  method Send(m: Transport.Message, caps: seq<seq<nat>>) returns (wire: seq<byte>, broken: bool, encodeError: bool)
    requires |caps| == 3
    requires forall k :: 0 <= k < |SendWrites(m).parts| ==> |caps[k]| >= |SendWrites(m).parts[k]|
    ensures encodeError <==> Transport.MessageBytes(m).None? && !broken
    ensures Transport.MessageBytes(m).None? ==>
      |wire| <= |Prefix| && wire == Prefix[..|wire|] && (!broken ==> wire == Prefix)
    ensures Transport.MessageBytes(m).Some? && !broken ==> wire == Frame(Transport.MessageBytes(m).value)
    ensures Transport.MessageBytes(m).Some? ==> |wire| <= |Frame(Transport.MessageBytes(m).value)|
    ensures Transport.MessageBytes(m).Some? ==> wire == Frame(Transport.MessageBytes(m).value)[..|wire|]
  {
    wire := [];
    broken := false;
    encodeError := false;
    var writes := SendWrites(m);
    var parts := writes.parts;
    if writes.encodeError {
      var w, b, _ := Transport.SocketSend(Prefix, caps[0]);
      wire, broken, encodeError := w, b, !b;
      return;
    }
    var frame := Frame(Transport.MessageBytes(m).value);
    var k := 0;
    while k < 3
      invariant 0 <= k <= 3
      invariant wire == (if k == 0 then [] else if k == 1 then parts[0] else if k == 2 then parts[0] + parts[1] else frame)
      invariant |wire| <= |frame| && wire == frame[..|wire|]
    {
      var w, b, _ := Transport.SocketSend(parts[k], caps[k]);
      assert frame == parts[0] + parts[1] + parts[2];
      if b {
        if k == 1 {
          assert (parts[0] + w) == frame[..|parts[0] + w|];
        } else if k == 2 {
          assert (parts[0] + parts[1] + w) == frame[..|parts[0] + parts[1] + w|];
        }
        wire := wire + w;
        broken := true;
        return;
      }
      wire := wire + w;
      k := k + 1;
    }
  }

  /** One `callbacks_info` entry: begin and end markers and an optional
      middle marker (an empty one counts as absent). */
  datatype Entry = Entry(pre: seq<byte>, post: seq<byte>, mid: seq<byte>)

  /** What the fired callback receives. */
  datatype Delivery = Whole(msg: seq<byte>) | Split(ipport: seq<byte>, msg: seq<byte>)

  /** Entry `e` fires on `data`: both its markers occur. */
  predicate Fires(data: seq<byte>, e: Entry)
  {
    Contains(data, e.pre) && Contains(data, e.post)
  }

  /** What a firing entry delivers: split on a non-empty middle marker that
      occurs, otherwise the bytes between the first begin and end markers. */
  function DeliveryFor(data: seq<byte>, e: Entry): (d: Delivery)
    requires Fires(data, e)
    ensures d.Split? <==> e.mid != [] && Contains(data, e.mid)
  {
    var pre := Find(data, e.pre);
    var post := Find(data, e.post);
    if e.mid != [] && Find(data, e.mid) >= 0 then
      var mid := Find(data, e.mid);
      Split(PySlice(data, pre + |e.pre|, mid), PySlice(data, mid + |e.mid|, post))
    else
      Whole(PySlice(data, pre + |e.pre|, post))
  }

  /** `_extract_specific_task`: the first entry that fires delivers;
      no entry firing gives `None`. */
  function Extract(data: seq<byte>, entries: seq<Entry>): (r: Option<(nat, Delivery)>)
    ensures r.None? <==> forall i :: 0 <= i < |entries| ==> !Fires(data, entries[i])
    ensures r.Some? ==>
              && r.value.0 < |entries|
              && Fires(data, entries[r.value.0])
              && (forall j :: 0 <= j < r.value.0 ==> !Fires(data, entries[j]))
              && r.value.1 == DeliveryFor(data, entries[r.value.0])
  {
    if entries == [] then None
    else if Fires(data, entries[0]) then Some((0, DeliveryFor(data, entries[0])))
    else
      var tail := entries[1..];
      assert forall j :: 1 <= j < |entries| ==> entries[j] == tail[j - 1];
      match Extract(data, tail)
      case None => None
      case Some((i, d)) => Some((i + 1, d))
  }

  /** The receive buffers, keyed by (socket, address). */
  type Key = (nat, string)

  /** What one readable socket leads to. */
  datatype Event =
    | Delivered(buffers: map<Key, seq<byte>>, fired: Option<(nat, Delivery)>)
    | Disconnected(buffers: map<Key, seq<byte>>)

  /** One readable client socket: append what arrived (an empty read means
      the peer has gone), try one extraction, and on success pop the whole
      buffer -- whatever followed the first message is lost. */
  function OnReadable(buffers: map<Key, seq<byte>>, key: Key, data: seq<byte>, entries: seq<Entry>): (r: Event)
    ensures data == [] <==> r.Disconnected?
    ensures r.Disconnected? ==> r.buffers == buffers
    ensures r.Delivered? ==>
              var buf := (if key in buffers then buffers[key] else []) + data;
              && r.fired == Extract(buf, entries)
              && (r.fired.Some? ==> r.buffers == buffers - {key})
              && (r.fired.None? ==> r.buffers == buffers[key := buf])
  {
    if data == [] then Disconnected(buffers)
    else
      var buf := (if key in buffers then buffers[key] else []) + data;
      var fired := Extract(buf, entries);
      if fired.Some? then Delivered(buffers[key := buf] - {key}, fired)
      else Delivered(buffers[key := buf], fired)
  }

  /** The standard registration: one entry with the sentinel markers. */
  const Standard: seq<Entry> := [Entry(Prefix, Postfix, [])]

  /** A frame whose payload does not contain the end marker is delivered
      whole; whatever arrived after it in the same read is discarded with
      the buffer. */
  lemma {:induction false} FrameDeliveredTailDropped(key: Key, payload: seq<byte>, rest: seq<byte>)
    requires Carriable(payload)
    ensures var ev := OnReadable(map[], key, Frame(payload) + rest, Standard);
      ev == Delivered(map[], Some((0, Whole(payload))))
  {
    var buf := Frame(payload) + rest;
    FrameFiresWhole(payload, rest);
    assert Extract(buf, Standard) == Some((0, Whole(payload)));
    assert ([] + buf) == buf;
    assert map[][key := buf] - {key} == map[];
  }

  /** The standard entry fires on a frame at the front of the buffer and
      delivers its payload whole. */
  lemma FrameFiresWhole(payload: seq<byte>, rest: seq<byte>)
    requires Carriable(payload)
    ensures Fires(Frame(payload) + rest, Standard[0])
    ensures DeliveryFor(Frame(payload) + rest, Standard[0]) == Whole(payload)
  {
    var buf := Frame(payload) + rest;
    FirstPostfixEndsFrame(payload, rest);
    assert OccursAt(buf, Prefix, 0) by { assert buf[..6] == Prefix; }
    assert Find(buf, Prefix) == 0;
    assert buf[6..6 + |payload|] == payload;
  }
}

=== FILE: lifecycle.dfy ===
/** The engine's lifecycle: a ten-state machine driven by the names of the
    public calls, and the wrapper that brackets every such call with its own
    name and `done` (OpenCLGA/ocl_ga.py, `StateMachine` and `EnterExit`). */
module Lifecycle {
  import opened Results

  datatype State =
    | Waiting | Preparing | Prepared | Restoring | Running
    | Pausing | Paused | Stopping | Stopped | Saving

  /** The action names the engine feeds the machine: the decorated method's
      name, or `done` once its body has returned. */
  datatype Action = Prepare | Restore | Done | Run | Pause | Stop | Save

  datatype Row = Row(from: State, action: Action, to: State)

  /** The transition table, row for row. */
  const Table: seq<Row> := [
    Row(Waiting, Prepare, Preparing),
    Row(Waiting, Restore, Restoring),
    Row(Preparing, Done, Prepared),
    Row(Prepared, Run, Running),
    Row(Restoring, Done, Prepared),
    Row(Running, Pause, Pausing),
    Row(Running, Stop, Stopping),
    Row(Pausing, Done, Paused),
    Row(Paused, Run, Running),
    Row(Paused, Stop, Stopping),
    Row(Paused, Save, Saving),
    Row(Stopping, Done, Stopped),
    Row(Saving, Done, Paused)
  ]

  /** No two rows share a (state, action) key, so the scan's
      "at most one match" assertion never fires. */
  predicate KeysDistinct(t: seq<Row>)
  {
    forall i, j :: 0 <= i < j < |t| ==> (t[i].from, t[i].action) != (t[j].from, t[j].action)
  }

  /** The target of the row matching (`s`, `a`), scanning the table. */
  function Lookup(t: seq<Row>, s: State, a: Action): (r: Option<State>)
    ensures r.None? <==> forall i :: 0 <= i < |t| ==> (t[i].from, t[i].action) != (s, a)
    ensures r.Some? ==> exists i :: 0 <= i < |t| && t[i] == Row(s, a, r.value)
  {
    if t == [] then None
    else if t[0].from == s && t[0].action == a then Some(t[0].to)
    else
      var r := Lookup(t[1..], s, a);
      if r.Some? then
        assert t[1..][0] == t[1];
        r
      else r
  }

  /** Outcome of feeding one action: the new state and the states passed to
      the `state` callback (none, or the one new state). */
  datatype Step = Step(state: State, notified: seq<State>)

  /** `StateMachine.next`: follow the matching row and report the new state
      to the callback when one is registered; an unmatched action changes
      nothing and reports nothing. */
  function Next(s: State, a: Action, hasCallback: bool): (r: Step)
    ensures |r.notified| <= 1
    ensures r.notified != [] ==> r.notified == [r.state] && hasCallback
  {
    match Successor(s, a)
    case None => Step(s, [])
    case Some(t) => Step(t, if hasCallback then [t] else [])
  }

  /** `Next` follows the table scan: the matching row's target, reported
      when a callback is registered; nothing at all when no row matches. */
  lemma {:induction false} NextFollowsTable(s: State, a: Action, hasCallback: bool)
    ensures Lookup(Table, s, a).None? ==> Next(s, a, hasCallback) == Step(s, [])
    ensures Lookup(Table, s, a).Some? ==>
              Next(s, a, hasCallback).state == Lookup(Table, s, a).value
              && (Next(s, a, hasCallback).notified != [] <==> hasCallback)
  {
    TableAgreesWithSuccessor(s, a);
  }

  /** An independent statement of the same table, one case per row. */
  function Successor(s: State, a: Action): Option<State>
  {
    match (s, a)
    case (Waiting, Prepare) => Some(Preparing)
    case (Waiting, Restore) => Some(Restoring)
    case (Preparing, Done) => Some(Prepared)
    case (Prepared, Run) => Some(Running)
    case (Restoring, Done) => Some(Prepared)
    case (Running, Pause) => Some(Pausing)
    case (Running, Stop) => Some(Stopping)
    case (Pausing, Done) => Some(Paused)
    case (Paused, Run) => Some(Running)
    case (Paused, Stop) => Some(Stopping)
    case (Paused, Save) => Some(Saving)
    case (Stopping, Done) => Some(Stopped)
    case (Saving, Done) => Some(Paused)
    case _ => None
  }

  /** Every row of the table is a case of `Successor`. */
  lemma RowsAreSuccessors()
    ensures forall i :: 0 <= i < |Table| ==> Successor(Table[i].from, Table[i].action) == Some(Table[i].to)
  {
  }

  /** Every case of `Successor` is a row of the table. */
  lemma SuccessorsAreRows(s: State, a: Action)
    ensures Successor(s, a).Some? ==> Row(s, a, Successor(s, a).value) in Table
  {
  }

  /** The table has thirteen rows and no two share a (state, action) key. */
  lemma TableKeysDistinct()
    ensures |Table| == 13 && KeysDistinct(Table)
  {
  }

  /** Scanning the table agrees with the case-by-case statement for every
      state and action. */
  lemma {:induction false} TableAgreesWithSuccessor(s: State, a: Action)
    ensures Lookup(Table, s, a) == Successor(s, a)
  {
    RowsAreSuccessors();
    SuccessorsAreRows(s, a);
    var r := Lookup(Table, s, a);
    if r.Some? {
      var i :| 0 <= i < |Table| && Table[i] == Row(s, a, r.value);
      assert Successor(Table[i].from, Table[i].action) == Some(Table[i].to);
    }
  }

  /** `stopped` has no outgoing row: once there, the machine stays. */
  lemma {:induction false} StoppedIsAbsorbing(a: Action, hasCallback: bool)
    ensures Lookup(Table, Stopped, a).None?
    ensures Next(Stopped, a, hasCallback) == Step(Stopped, [])
  {
    assert forall i :: 0 <= i < |Table| ==> Table[i].from != Stopped;
  }

  /** Outcome of a decorated call: final state, callback reports, and
      whether the body raised. */
  datatype Call = Call(state: State, notified: seq<State>, raised: bool)

  /** `EnterExit`: issue the method's own name, run the body, then issue
      `done` -- unless the body raised, in which case `done` is never issued. */
  function Wrapped(s: State, name: Action, bodyRaises: bool, hasCallback: bool): (r: Call)
    requires name != Done
    ensures r.raised == bodyRaises
    ensures bodyRaises ==> r.state == Next(s, name, hasCallback).state
    ensures !bodyRaises ==> r.state == Next(Next(s, name, hasCallback).state, Done, hasCallback).state
    ensures r.notified == Next(s, name, hasCallback).notified
              + (if bodyRaises then [] else Next(Next(s, name, hasCallback).state, Done, hasCallback).notified)
  {
    var enter := Next(s, name, hasCallback);
    if bodyRaises then Call(enter.state, enter.notified, true)
    else
      var exit := Next(enter.state, Done, hasCallback);
      Call(exit.state, enter.notified + exit.notified, false)
  }

  /** `prepare` or `restore` from `waiting` ends in `prepared`, reporting
      the intermediate and the final state. */
  lemma {:induction false} PrepareAndRestoreEndPrepared(hasCallback: bool)
    ensures Wrapped(Waiting, Prepare, false, hasCallback).state == Prepared
    ensures Wrapped(Waiting, Restore, false, hasCallback).state == Prepared
    ensures hasCallback ==> Wrapped(Waiting, Prepare, false, hasCallback).notified == [Preparing, Prepared]
    ensures hasCallback ==> Wrapped(Waiting, Restore, false, hasCallback).notified == [Restoring, Prepared]
  {
  }

  /** `pause` from `running` and `save` from `paused` both end in `paused`. */
  lemma {:induction false} PauseAndSaveEndPaused(hasCallback: bool)
    ensures Wrapped(Running, Pause, false, hasCallback).state == Paused
    ensures Wrapped(Paused, Save, false, hasCallback).state == Paused
  {
  }

  /** With a callback, `save` from `paused` reports `saving` and then
      `paused`; a raising body reports only `saving`. */
  lemma {:induction false} SaveReports()
    ensures Wrapped(Paused, Save, false, true).notified == [Saving, Paused]
    ensures Wrapped(Paused, Save, true, true).notified == [Saving]
  {
  }

  /** With a callback, `stop` from `running` reports `stopping` and then
      `stopped`; a raising body reports only `stopping`. */
  lemma {:induction false} StopReports()
    ensures Wrapped(Running, Stop, false, true).notified == [Stopping, Stopped]
    ensures Wrapped(Running, Stop, true, true).notified == [Stopping]
  {
  }

  /** `stop` from `running` or `paused` ends in `stopped`. */
  lemma {:induction false} StopEndsStopped(hasCallback: bool)
    ensures Wrapped(Running, Stop, false, hasCallback).state == Stopped
    ensures Wrapped(Paused, Stop, false, hasCallback).state == Stopped
  {
  }

  /** `run` from `prepared` or `paused` ends in `running`: the trailing
      `done` matches no row there and reports nothing. */
  lemma {:induction false} RunEndsRunning(hasCallback: bool)
    ensures Wrapped(Prepared, Run, false, hasCallback).state == Running
    ensures Wrapped(Paused, Run, false, hasCallback).state == Running
    ensures hasCallback ==> Wrapped(Prepared, Run, false, hasCallback).notified == [Running]
  {
  }
}

=== FILE: population.dfy ===
/** The device's population buffer: chromosome `idx` occupies the cells
    `[idx * size, (idx + 1) * size)` of one flat `int` array. A work item
    reads and writes its own slice. */
module Population {

  predicate HasSlice(cs: seq<int>, idx: nat, size: nat)
  {
    (idx + 1) * size <= |cs|
  }

  /** Chromosome `idx`'s genes. */
  function Slice(cs: seq<int>, idx: nat, size: nat): (r: seq<int>)
    requires HasSlice(cs, idx, size)
    ensures |r| == size
  {
    cs[idx * size..(idx + 1) * size]
  }

  /** The buffer with chromosome `idx` replaced by `genes`. */
  function WithSlice(cs: seq<int>, idx: nat, size: nat, genes: seq<int>): (r: seq<int>)
    requires HasSlice(cs, idx, size) && |genes| == size
    ensures |r| == |cs|
    ensures Slice(r, idx, size) == genes
    ensures forall k :: 0 <= k < |cs| && !(idx * size <= k < (idx + 1) * size) ==> r[k] == cs[k]
  {
    cs[..idx * size] + genes + cs[(idx + 1) * size..]
  }

  /** Replacing one chromosome leaves every other chromosome as it was. */
  lemma OtherSlicesUnchanged(cs: seq<int>, idx: nat, size: nat, genes: seq<int>, other: nat)
    requires HasSlice(cs, idx, size) && |genes| == size
    requires HasSlice(cs, other, size) && other != idx
    ensures Slice(WithSlice(cs, idx, size, genes), other, size) == Slice(cs, other, size)
  {
    var r := WithSlice(cs, idx, size, genes);
    if other < idx {
      assert (other + 1) * size <= idx * size by { MulMono(other + 1, idx, size); }
    } else {
      assert (idx + 1) * size <= other * size by { MulMono(idx + 1, other, size); }
    }
  }

  lemma MulMono(a: nat, b: nat, size: nat)
    requires a <= b
    ensures a * size <= b * size
  {
  }
}

=== FILE: py_algorithm.dfy ===
/** The pure-Python genetic algorithm driver (algorithm.py,
    `BaseGeneticAlgorithm`): evaluate the population, then for every
    generation select the survivors, refill the population with offspring,
    mutate everybody and evaluate again, keeping the best and the weakest
    chromosome ever seen. Chromosomes are of any type `C`; cloning,
    crossover, mutation and fitness evaluation are the hooks a subclass or
    the `set_customized_*` setters provide, and are parameters here, as are
    the random draws and the clock readings. */
module PyAlgorithm {
  import opened Results
  import opened Seqs
  import Best

  /** `sys.maxsize` on a 64-bit build. */
  const MaxSize: int := 0x7FFF_FFFF_FFFF_FFFF

  /** The driver's state. `fitness` holds the latest evaluation, one value
      per chromosome, in population order. */
  datatype Ga<C> = Ga(
    population: seq<C>,
    populationSize: nat,
    fitness: seq<real>,
    best: Option<C>,
    bestFitness: real,
    weakest: Option<C>,
    weakestFitness: real,
    count: nat,
    evalTime: real,
    elapsed: Option<real>)

  /** The constructor: best starts at `-sys.maxsize` and weakest at
      `sys.maxsize`, so the first evaluation replaces both. */
  function Init<C>(cs: seq<C>): (g: Ga<C>)
    ensures g.population == cs && g.populationSize == |cs| && g.fitness == []
    ensures g.best.None? && g.weakest.None? && g.count == 0 && g.evalTime == 0.0 && g.elapsed.None?
    ensures g.bestFitness < g.weakestFitness
  {
    Ga(cs, |cs|, [], None, -(MaxSize as real), None, MaxSize as real, 0, 0.0, None)
  }

  /** `get_avg_evaluation_time`: total evaluation time over the number of
      evaluations; before the first one the division fails. */
  function AvgEvaluationTime<C>(g: Ga<C>): (r: Result<real, Raised>)
    ensures r.Ok? <==> g.count != 0
    ensures r.Err? ==> r.error == ZeroDivisionError
    ensures r.Ok? ==> r.value * (g.count as real) == g.evalTime
  {
    if g.count == 0 then Err(ZeroDivisionError) else Ok(g.evalTime / g.count as real)
  }

  // ---------------------------------------------------------------------
  // Evaluation

  /** `__calc_generation_fitness` once `evaluate_fitness` has produced
      `fits`: count the evaluation and its time, then replace the best only
      by a strictly larger fitness and the weakest only by a strictly smaller
      one, cloning the first chromosome that holds it. `max` of an empty
      fitness map raises. */
  function CalcGenerationFitness<C>(g: Ga<C>, fits: seq<real>, duration: real, clone: C -> C): (r: Result<Ga<C>, Raised>)
    requires |fits| == |g.population|
    ensures r.Err? <==> fits == []
    ensures r.Err? ==> r.error == ValueError
    ensures r.Ok? ==> (
      && r.value.population == g.population && r.value.populationSize == g.populationSize
      && r.value.fitness == fits && r.value.count == g.count + 1 && r.value.evalTime == g.evalTime + duration
      && r.value.elapsed == g.elapsed)
    ensures r.Ok? ==> (
      && r.value.bestFitness >= g.bestFitness
      && (forall i :: 0 <= i < |fits| ==> fits[i] <= r.value.bestFitness)
      && (r.value.bestFitness == g.bestFitness || r.value.bestFitness in fits)
      && (r.value.bestFitness != g.bestFitness <==> exists i :: 0 <= i < |fits| && fits[i] > g.bestFitness)
      && (r.value.bestFitness == g.bestFitness ==> r.value.best == g.best)
      && (r.value.bestFitness != g.bestFitness ==>
            r.value.best == Some(clone(g.population[Best.FirstExtreme(Best.Maximise, fits)]))))
    ensures r.Ok? ==> (
      && r.value.weakestFitness <= g.weakestFitness
      && (forall i :: 0 <= i < |fits| ==> fits[i] >= r.value.weakestFitness)
      && (r.value.weakestFitness == g.weakestFitness || r.value.weakestFitness in fits)
      && (r.value.weakestFitness != g.weakestFitness <==> exists i :: 0 <= i < |fits| && fits[i] < g.weakestFitness)
      && (r.value.weakestFitness == g.weakestFitness ==> r.value.weakest == g.weakest)
      && (r.value.weakestFitness != g.weakestFitness ==>
            r.value.weakest == Some(clone(g.population[Best.FirstExtreme(Best.Minimise, fits)]))))
  {
    if fits == [] then Err(ValueError)
    else
      var top := Best.FirstExtreme(Best.Maximise, fits);
      var bottom := Best.FirstExtreme(Best.Minimise, fits);
      var counted := g.(fitness := fits, count := g.count + 1, evalTime := g.evalTime + duration);
      var withBest :=
        if fits[top] > g.bestFitness then counted.(best := Some(clone(g.population[top])), bestFitness := fits[top])
        else counted;
      Ok(if fits[bottom] < g.weakestFitness
         then withBest.(weakest := Some(clone(g.population[bottom])), weakestFitness := fits[bottom])
         else withBest)
  }

  // ---------------------------------------------------------------------
  // Selection

  /** The midpoint between the weakest and the best fitness. */
  function Threshold(best: real, weakest: real): real
  {
    weakest + (best - weakest) / 2.0
  }

  /** The positions from `from` on whose fitness reaches `t`, in order. */
  function Reaching(fits: seq<real>, t: real, from: nat): (r: seq<nat>)
    requires from <= |fits|
    ensures forall k :: 0 <= k < |r| ==> from <= r[k] < |fits| && fits[r[k]] >= t
    ensures forall i :: from <= i < |fits| && fits[i] >= t ==> i in r
    ensures forall k, l :: 0 <= k < l < |r| ==> r[k] < r[l]
    decreases |fits| - from
  {
    if from == |fits| then []
    else if fits[from] >= t then [from] + Reaching(fits, t, from + 1)
    else Reaching(fits, t, from + 1)
  }

  /** `__select` as positions: those whose fitness reaches the midpoint of
      the weakest and the best fitness, in population order, or everybody
      when nobody does. */
  function SelectIndices(fits: seq<real>, best: real, weakest: real): (r: seq<nat>)
    ensures forall k, l :: 0 <= k < l < |r| ==> r[k] < r[l]
    ensures forall k :: 0 <= k < |r| ==> r[k] < |fits|
    ensures (exists i :: 0 <= i < |fits| && fits[i] >= Threshold(best, weakest)) ==>
              forall i :: 0 <= i < |fits| ==> (i in r <==> fits[i] >= Threshold(best, weakest))
    ensures (forall i :: 0 <= i < |fits| ==> fits[i] < Threshold(best, weakest)) ==> r == Range(|fits|)
  {
    var kept := Reaching(fits, Threshold(best, weakest), 0);
    if kept == [] then Range(|fits|)
    else
      assert forall i :: 0 <= i < |fits| && i in kept ==> fits[i] >= Threshold(best, weakest);
      assert fits[kept[0]] >= Threshold(best, weakest);
      kept
  }

  /** `__select`: the surviving chromosomes themselves. */
  function Select<C>(cs: seq<C>, fits: seq<real>, best: real, weakest: real): (r: seq<C>)
    requires |fits| == |cs|
    ensures |r| == |SelectIndices(fits, best, weakest)| && |r| <= |cs|
    ensures forall k :: 0 <= k < |r| ==> r[k] == cs[SelectIndices(fits, best, weakest)[k]]
  {
    var idx := SelectIndices(fits, best, weakest);
    StrictlyIncreasingBound(idx, |cs|);
    seq(|idx|, k requires 0 <= k < |idx| => cs[idx[k]])
  }

  /** Strictly increasing positions below `n` number at most `n`. */
  lemma {:induction false} StrictlyIncreasingBound(idx: seq<nat>, n: nat)
    requires forall k, l :: 0 <= k < l < |idx| ==> idx[k] < idx[l]
    requires forall k :: 0 <= k < |idx| ==> idx[k] < n
    ensures |idx| <= n
  {
    if idx != [] {
      var init := idx[..|idx| - 1];
      var last := idx[|idx| - 1];
      assert forall k :: 0 <= k < |init| ==> init[k] < last;
      StrictlyIncreasingBound(init, last);
    }
  }

  /** The first chromosome holding the generation's top fitness always
      survives selection: either it reaches the midpoint, or nobody does and
      everybody survives. A non-empty population therefore never selects
      nobody. */
  lemma FittestSurvives(fits: seq<real>, best: real, weakest: real)
    requires |fits| > 0
    ensures Best.FirstExtreme(Best.Maximise, fits) in SelectIndices(fits, best, weakest)
    ensures |SelectIndices(fits, best, weakest)| > 0
  {
    var top := Best.FirstExtreme(Best.Maximise, fits);
    var t := Threshold(best, weakest);
    if fits[top] >= t {
      assert exists i :: 0 <= i < |fits| && fits[i] >= t;
    } else {
      assert forall i :: 0 <= i < |fits| ==> fits[i] < t by {
        forall i | 0 <= i < |fits|
          ensures fits[i] < t
        {
          assert !Best.Better(Best.Maximise, fits[i], fits[top]);
        }
      }
      assert Range(|fits|)[top] == top;
    }
  }

  // ---------------------------------------------------------------------
  // Reproduction

  /** The draws behind one offspring: `random.choice` of the first parent,
      `random.random()`, `random.choice` of the second parent and
      `random.randrange` of the cross point. The two choices and the cross
      point are taken modulo the size they choose from, so every draw is
      in range and every outcome is reachable. */
  datatype OffspringDraw = OffspringDraw(first: nat, prob: real, second: nat, crossPoint: nat)

  /** A crossing draw whose first parent has no genes: `randrange(0, 0)`
      raises. */
  predicate NoCrossPoint<C>(survivors: seq<C>, prob: real, d: OffspringDraw, clone: C -> C, numGenes: C -> nat)
    requires |survivors| > 0
  {
    d.prob < prob && numGenes(clone(survivors[d.first % |survivors|])) == 0
  }

  /** One offspring: a clone of the first pick, crossed at the drawn point
      with a clone of the second pick when the draw is below `prob`. */
  function Offspring<C>(survivors: seq<C>, prob: real, d: OffspringDraw, clone: C -> C, cross: (C, C, nat) -> C, numGenes: C -> nat): C
    requires |survivors| > 0 && !NoCrossPoint(survivors, prob, d, clone, numGenes)
  {
    var c1 := clone(survivors[d.first % |survivors|]);
    if d.prob < prob then cross(c1, clone(survivors[d.second % |survivors|]), d.crossPoint % numGenes(c1))
    else c1
  }

  /** Whatever cloning and crossover keep, every offspring has. */
  lemma OffspringKeeps<C(!new)>(survivors: seq<C>, prob: real, d: OffspringDraw, clone: C -> C, cross: (C, C, nat) -> C, numGenes: C -> nat, p: C -> bool)
    requires |survivors| > 0 && !NoCrossPoint(survivors, prob, d, clone, numGenes)
    requires forall k :: 0 <= k < |survivors| ==> p(survivors[k])
    requires forall c :: p(c) ==> p(clone(c))
    requires forall a, b, i :: p(a) && p(b) ==> p(cross(a, b, i))
    ensures p(Offspring(survivors, prob, d, clone, cross, numGenes))
  {
    var c1 := clone(survivors[d.first % |survivors|]);
    assert p(c1);
    if d.prob < prob {
      var c2 := clone(survivors[d.second % |survivors|]);
      assert p(c2);
      assert p(cross(c1, c2, d.crossPoint % numGenes(c1)));
    }
  }

  /** The offspring draws the first `n` offspring use all allow a cross
      point. */
  predicate CrossPointsExist<C>(survivors: seq<C>, prob: real, draws: seq<OffspringDraw>, n: nat, clone: C -> C, numGenes: C -> nat)
    requires |survivors| > 0 && n <= |draws|
  {
    forall k :: 0 <= k < n ==> !NoCrossPoint(survivors, prob, draws[k], clone, numGenes)
  }

  /** `__reproduce`: add offspring until the population is full again. An
      empty survivor list has nothing to choose from, and more survivors
      than the population size fail the final assertion. */
  method Reproduce<C>(survivors: seq<C>, size: nat, prob: real, draws: seq<OffspringDraw>,
                      clone: C -> C, cross: (C, C, nat) -> C, numGenes: C -> nat) returns (r: Result<seq<C>, Raised>)
    requires |survivors| <= size ==> |draws| >= size - |survivors|
    ensures survivors == [] && size > 0 ==> r == Err(IndexError)
    ensures |survivors| > size ==> r == Err(AssertionError)
    ensures survivors != [] && |survivors| <= size ==>
              (r.Ok? <==> CrossPointsExist(survivors, prob, draws, size - |survivors|, clone, numGenes))
    ensures r.Err? ==> r.error == IndexError || r.error == AssertionError || r.error == ValueError
    ensures survivors != [] && |survivors| <= size && r.Err? ==> r.error == ValueError
    ensures r.Ok? ==> |r.value| == size && r.value[..|survivors|] == survivors
    ensures r.Ok? && survivors != [] ==> forall k :: 0 <= k < size - |survivors| ==>
              !NoCrossPoint(survivors, prob, draws[k], clone, numGenes)
              && r.value[|survivors| + k] == Offspring(survivors, prob, draws[k], clone, cross, numGenes)
  {
    if |survivors| > size {
      return Err(AssertionError);
    }
    var offspring: seq<C> := [];
    while |survivors| + |offspring| < size
      invariant |survivors| + |offspring| <= size
      invariant offspring != [] ==> survivors != []
      invariant survivors != [] ==> CrossPointsExist(survivors, prob, draws, |offspring|, clone, numGenes)
      invariant survivors != [] ==> forall k :: 0 <= k < |offspring| ==>
                  offspring[k] == Offspring(survivors, prob, draws[k], clone, cross, numGenes)
    {
      if survivors == [] {
        return Err(IndexError);
      }
      var d := draws[|offspring|];
      var c1 := clone(survivors[d.first % |survivors|]);
      if d.prob < prob {
        var c2 := clone(survivors[d.second % |survivors|]);
        if numGenes(c1) == 0 {
          return Err(ValueError);
        }
        c1 := cross(c1, c2, d.crossPoint % numGenes(c1));
      }
      offspring := offspring + [c1];
    }
    r := Ok(survivors + offspring);
  }

  // ---------------------------------------------------------------------
  // The run

  /** `__start_mutation`: the mutate hook applied to every chromosome. */
  function MutateAll<C, M>(cs: seq<C>, prob: real, draws: seq<M>, mutate: (C, real, M) -> C): (r: seq<C>)
    requires |draws| == |cs|
    ensures |r| == |cs|
    ensures forall k :: 0 <= k < |cs| ==> r[k] == mutate(cs[k], prob, draws[k])
  {
    seq(|cs|, k requires 0 <= k < |cs| => mutate(cs[k], prob, draws[k]))
  }

  /** The draws and the clock reading of one generation. */
  datatype Generation<M> = Generation(offspring: seq<OffspringDraw>, mutation: seq<M>, duration: real)

  /** The hooks a subclass and the customisation setters provide. */
  datatype Hooks<!C, !M> = Hooks(
    evaluate: seq<C> -> seq<real>,
    clone: C -> C,
    cross: (C, C, nat) -> C,
    numGenes: C -> nat,
    mutate: (C, real, M) -> C)

  /** `evaluate_fitness` reports one fitness per chromosome, in population
      order. */
  ghost predicate Evaluates<C(!new), M>(h: Hooks<C, M>)
  {
    forall cs :: |h.evaluate(cs)| == |cs|
  }

  /** The state every evaluation leaves: a full population and its
      fitness, one value each. */
  predicate Evaluated<C>(g: Ga<C>, evaluate: seq<C> -> seq<real>)
  {
    |g.population| == g.populationSize && g.fitness == evaluate(g.population)
  }

  /** One pass of the generation loop of `__run_impl`: select, reproduce,
      mutate and evaluate. */
  method Step<C(!new), M>(g: Ga<C>, probMutate: real, probCrossover: real, gen: Generation<M>, h: Hooks<C, M>) returns (r: Result<Ga<C>, Raised>)
    requires Evaluates(h)
    requires Evaluated(g, h.evaluate) && g.populationSize > 0
    requires |gen.offspring| >= g.populationSize && |gen.mutation| == g.populationSize
    ensures r.Err? ==> r.error == ValueError
    ensures r.Ok? ==> Evaluated(r.value, h.evaluate) && r.value.populationSize == g.populationSize
    ensures r.Ok? ==> r.value.count == g.count + 1 && r.value.evalTime == g.evalTime + gen.duration
    ensures r.Ok? ==> r.value.bestFitness >= g.bestFitness && r.value.weakestFitness <= g.weakestFitness
    ensures r.Ok? ==> r.value.elapsed == g.elapsed
  {
    var survivors := Select(g.population, g.fitness, g.bestFitness, g.weakestFitness);
    FittestSurvives(g.fitness, g.bestFitness, g.weakestFitness);
    var next := Reproduce(survivors, g.populationSize, probCrossover, gen.offspring, h.clone, h.cross, h.numGenes);
    if next.Err? {
      return Err(next.error);
    }
    var mutated := MutateAll(next.value, probMutate, gen.mutation, h.mutate);
    r := CalcGenerationFitness(g.(population := mutated), h.evaluate(mutated), gen.duration, h.clone);
  }

  /** `run` with `__run_impl`: both probabilities must lie in [0, 1]; then
      one evaluation, and one more for every generation, so the count grows
      by `generations + 1`; the population keeps its size, the best fitness
      never falls and the weakest never rises, and the stored fitness is the
      last evaluation's. */
  method Run<C(!new), M>(g: Ga<C>, generations: nat, probMutate: real, probCrossover: real,
                   firstDuration: real, gens: seq<Generation<M>>, elapsed: real, h: Hooks<C, M>) returns (r: Result<Ga<C>, Raised>)
    requires Evaluates(h)
    requires |g.population| == g.populationSize
    requires |gens| == generations
    requires forall k :: 0 <= k < generations ==>
               |gens[k].offspring| >= g.populationSize && |gens[k].mutation| == g.populationSize
    ensures !(0.0 <= probMutate <= 1.0 && 0.0 <= probCrossover <= 1.0) ==> r == Err(AssertionError)
    ensures (0.0 <= probMutate <= 1.0 && 0.0 <= probCrossover <= 1.0) && g.population == [] ==> r == Err(ValueError)
    ensures r.Ok? ==> Evaluated(r.value, h.evaluate) && r.value.populationSize == g.populationSize
    ensures r.Ok? ==> r.value.count == g.count + generations + 1
    ensures r.Ok? ==> r.value.bestFitness >= g.bestFitness && r.value.weakestFitness <= g.weakestFitness
    ensures r.Ok? ==> r.value.elapsed == Some(elapsed)
  {
    if !(0.0 <= probMutate <= 1.0 && 0.0 <= probCrossover <= 1.0) {
      return Err(AssertionError);
    }
    var first := CalcGenerationFitness(g, h.evaluate(g.population), firstDuration, h.clone);
    if first.Err? {
      return Err(first.error);
    }
    var cur := first.value;
    var k := 0;
    while k < generations
      invariant k <= generations
      invariant Evaluated(cur, h.evaluate) && cur.populationSize == g.populationSize && g.populationSize > 0
      invariant cur.count == g.count + k + 1
      invariant cur.bestFitness >= g.bestFitness && cur.weakestFitness <= g.weakestFitness
    {
      var next := Step(cur, probMutate, probCrossover, gens[k], h);
      if next.Err? {
        return Err(next.error);
      }
      cur := next.value;
      k := k + 1;
    }
    r := Ok(cur.(elapsed := Some(elapsed)));
  }
}

=== FILE: py_chromosome.dfy ===
/** The pure-Python chromosome (chromosome.py): an ordered list of genes and
    a name. Its DNA is the list of the genes' DNA lists; the setter stores
    them back gene by gene, so every gene still checks its own elements. */
module PyChromosome {
  import opened Results
  import opened Seqs
  import opened PyGene

  datatype Chromosome<T> = Chromosome(genes: seq<Gene<T>>, name: string)

  /** Every gene has the DNA length of the first one. */
  predicate SameLengths<T>(genes: seq<Gene<T>>)
  {
    forall i :: 0 <= i < |genes| ==> |genes[i].dna| == |genes[0].dna|
  }

  /** Every gene keeps its DNA inside its own elements. */
  predicate AllValid<T(==)>(genes: seq<Gene<T>>)
  {
    forall i :: 0 <= i < |genes| ==> Valid(genes[i])
  }

  /** `Chromosome(genes, name)`: reading `genes[0]` fails on an empty list,
      and the genes must share one DNA length. */
  function NewChromosome<T>(genes: seq<Gene<T>>, name: string): (r: Result<Chromosome<T>, Raised>)
    ensures genes == [] ==> r == Err(IndexError)
    ensures genes != [] ==> (r.Ok? <==> SameLengths(genes))
    ensures r.Err? ==> r.error == IndexError || r.error == AssertionError
    ensures r.Ok? ==> r.value.genes == genes && r.value.name == name
  {
    if genes == [] then Err(IndexError)
    else if SameLengths(genes) then Ok(Chromosome(genes, name))
    else Err(AssertionError)
  }

  /** The `dna` getter: one DNA list per gene, in gene order. */
  function Dna<T>(c: Chromosome<T>): (r: seq<seq<T>>)
    ensures |r| == |c.genes|
    ensures forall i :: 0 <= i < |r| ==> r[i] == c.genes[i].dna
  {
    seq(|c.genes|, i requires 0 <= i < |c.genes| => c.genes[i].dna)
  }

  /** The sum of the genes' DNA lengths. */
  function TotalLength<T>(genes: seq<Gene<T>>): nat
  {
    if genes == [] then 0 else |genes[0].dna| + TotalLength(genes[1..])
  }

  lemma {:induction false} TotalLengthSnoc<T>(genes: seq<Gene<T>>, g: Gene<T>)
    ensures TotalLength(genes + [g]) == TotalLength(genes) + |g.dna|
  {
    if genes == [] {
      assert genes + [g] == [g];
    } else {
      assert (genes + [g])[1..] == genes[1..] + [g];
      TotalLengthSnoc(genes[1..], g);
    }
  }

  /** `dna_total_length`: a loop adding up every gene's length. */
  method DnaTotalLength<T>(c: Chromosome<T>) returns (length: nat)
    ensures length == TotalLength(c.genes)
  {
    length := 0;
    var i := 0;
    while i < |c.genes|
      invariant i <= |c.genes|
      invariant length == TotalLength(c.genes[..i])
    {
      assert c.genes[..i + 1] == c.genes[..i] + [c.genes[i]];
      TotalLengthSnoc(c.genes[..i], c.genes[i]);
      length := length + |c.genes[i].dna|;
      i := i + 1;
    }
    assert c.genes[..|c.genes|] == c.genes;
  }

  /** Genes of one common length `n` add up to `n` times their count. */
  lemma {:induction false} UniformTotalLength<T>(genes: seq<Gene<T>>, n: nat)
    requires forall i :: 0 <= i < |genes| ==> |genes[i].dna| == n
    ensures TotalLength(genes) == |genes| * n
  {
    if genes != [] {
      assert forall i :: 0 <= i < |genes| - 1 ==> genes[1..][i] == genes[i + 1];
      UniformTotalLength(genes[1..], n);
    }
  }

  /** What a chromosome built by the constructor totals: the common gene
      length times the number of genes. */
  lemma ConstructedTotalLength<T>(c: Chromosome<T>)
    requires c.genes != [] && SameLengths(c.genes)
    ensures TotalLength(c.genes) == |c.genes| * |c.genes[0].dna|
  {
    UniformTotalLength(c.genes, |c.genes[0].dna|);
  }

  /** Every DNA list is accepted by the setter of the gene at its position. */
  predicate FitsGenes<T(==)>(genes: seq<Gene<T>>, dna: seq<seq<T>>)
  {
    |dna| == |genes| && forall i :: 0 <= i < |genes| ==> AllIn(dna[i], genes[i].elements)
  }

  /** The genes after the setter of gene `i` has stored `dna[i]`. */
  function StoreAll<T(==)>(genes: seq<Gene<T>>, dna: seq<seq<T>>): (r: seq<Gene<T>>)
    requires FitsGenes(genes, dna)
    ensures |r| == |genes|
    ensures forall i :: 0 <= i < |genes| ==> Ok(r[i]) == PyGene.SetDna(genes[i], dna[i])
  {
    seq(|genes|, i requires 0 <= i < |genes| => PyGene.SetDna(genes[i], dna[i]).value)
  }

  /** Gene by gene, `a` and `b` have the same elements and names. */
  predicate SameShape<T>(a: seq<Gene<T>>, b: seq<Gene<T>>)
  {
    |a| == |b| && forall i :: 0 <= i < |a| ==> a[i].elements == b[i].elements && a[i].name == b[i].name
  }

  /** The `dna` setter: one list per gene, each stored through that gene's
      own setter. */
  function SetDna<T(==)>(c: Chromosome<T>, dna: seq<seq<T>>): (r: Result<Chromosome<T>, Raised>)
    ensures r.Ok? <==> FitsGenes(c.genes, dna)
    ensures r.Err? ==> r.error == AssertionError
    ensures r.Ok? ==> Dna(r.value) == dna && AllValid(r.value.genes) && r.value.name == c.name
    ensures r.Ok? ==> SameShape(r.value.genes, c.genes)
  {
    if FitsGenes(c.genes, dna) then Ok(c.(genes := StoreAll(c.genes, dna))) else Err(AssertionError)
  }

  /** Storing back what the getter returns changes nothing. */
  lemma SetDnaOfDna<T>(c: Chromosome<T>)
    requires AllValid(c.genes)
    ensures SetDna(c, Dna(c)) == Ok(c)
  {
    var r := SetDna(c, Dna(c));
    assert r.Ok?;
    assert r.value.genes == c.genes;
  }

  /** `swap`: both positions must be gene indices; the two genes trade
      places. */
  function SwapGenes<T>(c: Chromosome<T>, p1: int, p2: int): (r: Result<Chromosome<T>, Raised>)
    ensures r.Ok? <==> 0 <= p1 < |c.genes| && 0 <= p2 < |c.genes|
    ensures r.Err? ==> r.error == AssertionError
    ensures r.Ok? ==> (
      && |r.value.genes| == |c.genes| && r.value.name == c.name
      && r.value.genes[p1] == c.genes[p2] && r.value.genes[p2] == c.genes[p1]
      && forall k :: 0 <= k < |c.genes| && k != p1 && k != p2 ==> r.value.genes[k] == c.genes[k])
  {
    if 0 <= p1 < |c.genes| && 0 <= p2 < |c.genes| then Ok(c.(genes := Swap(c.genes, p1, p2)))
    else Err(AssertionError)
  }

  /** A swap keeps the chromosome's genes, and a second identical swap
      undoes it. */
  lemma SwapGenesTwice<T>(c: Chromosome<T>, p1: nat, p2: nat)
    requires p1 < |c.genes| && p2 < |c.genes|
    ensures multiset(SwapGenes(c, p1, p2).value.genes) == multiset(c.genes)
    ensures SwapGenes(SwapGenes(c, p1, p2).value, p1, p2) == Ok(c)
  {
    var once := SwapGenes(c, p1, p2).value;
    assert once.genes == Swap(c.genes, p1, p2);
    assert Swap(once.genes, p1, p2) == c.genes;
  }

  /** `b` takes the cells of `a` in `[lo, hi)` and keeps its own elsewhere. */
  function Exchange<T>(a: seq<T>, b: seq<T>, lo: nat, hi: nat): (r: seq<T>)
    requires |a| == |b| && lo <= hi <= |a|
    ensures |r| == |b|
    ensures forall i :: 0 <= i < |r| ==> r[i] == if lo <= i < hi then a[i] else b[i]
  {
    b[..lo] + a[lo..hi] + b[hi..]
  }

  /** Exchanging the same range between two lists keeps the two lists'
      items together. */
  lemma {:induction false} ExchangeKeepsItems<T>(a: seq<T>, b: seq<T>, lo: nat, hi: nat)
    requires |a| == |b| && lo <= hi <= |a|
    ensures multiset(Exchange(b, a, lo, hi)) + multiset(Exchange(a, b, lo, hi)) == multiset(a) + multiset(b)
  {
    assert a == a[..lo] + a[lo..hi] + a[hi..];
    assert b == b[..lo] + b[lo..hi] + b[hi..];
    assert Exchange(b, a, lo, hi) == a[..lo] + b[lo..hi] + a[hi..];
    assert Exchange(a, b, lo, hi) == b[..lo] + a[lo..hi] + b[hi..];
  }

  /** The two parents carry the same element sets gene by gene, so either
      one's DNA fits the other's genes. */
  predicate Compatible<T(==)>(c1: Chromosome<T>, c2: Chromosome<T>)
  {
    && |c1.genes| == |c2.genes| && AllValid(c1.genes) && AllValid(c2.genes)
    && forall i :: 0 <= i < |c1.genes| ==> c1.genes[i].elements == c2.genes[i].elements
  }

  /** The bounds `crossover` asserts. `p2` is Python's optional second point;
      0 counts as absent. */
  predicate CrossoverBounds<T>(c1: Chromosome<T>, c2: Chromosome<T>, p1: int, p2: Option<int>)
  {
    && 0 <= p1 < |c2.genes| && |c2.genes| == |c1.genes|
    && (p2.Some? && p2.value != 0 ==> 0 <= p2.value < |c2.genes| && p1 < p2.value)
  }

  /** The end of the exchanged range: `p2`, or the end for one point. */
  function CrossEnd<T>(c1: Chromosome<T>, p1: int, p2: Option<int>): (hi: nat)
    requires 0 <= p1 <= |c1.genes| && (p2.Some? && p2.value != 0 ==> p1 < p2.value <= |c1.genes|)
    ensures p1 <= hi <= |c1.genes|
  {
    if p2.Some? && p2.value != 0 then p2.value else |c1.genes|
  }

  /** `Chromosome.crossover`: one point exchanges the rear from `p1` on, two
      points exchange the middle `[p1, p2)`; the parents trade those genes'
      DNA, each stored through its own setter. */
  function Crossover<T(==)>(c1: Chromosome<T>, c2: Chromosome<T>, p1: int, p2: Option<int>): (r: Result<(Chromosome<T>, Chromosome<T>), Raised>)
    ensures !CrossoverBounds(c1, c2, p1, p2) ==> r == Err(AssertionError)
    ensures CrossoverBounds(c1, c2, p1, p2) && Compatible(c1, c2) ==> r.Ok?
    ensures r.Ok? ==> CrossoverBounds(c1, c2, p1, p2)
    ensures r.Ok? ==> (
      var hi := CrossEnd(c1, p1, p2);
      && Dna(r.value.0) == Exchange(Dna(c2), Dna(c1), p1, hi)
      && Dna(r.value.1) == Exchange(Dna(c1), Dna(c2), p1, hi)
      && r.value.0.name == c1.name && r.value.1.name == c2.name)
    ensures r.Ok? ==> (
      && AllValid(r.value.0.genes) && AllValid(r.value.1.genes)
      && SameShape(r.value.0.genes, c1.genes) && SameShape(r.value.1.genes, c2.genes))
  {
    if !CrossoverBounds(c1, c2, p1, p2) then Err(AssertionError)
    else
      var hi := CrossEnd(c1, p1, p2);
      var d1 := Exchange(Dna(c2), Dna(c1), p1, hi);
      var d2 := Exchange(Dna(c1), Dna(c2), p1, hi);
      assert Compatible(c1, c2) ==> FitsGenes(c1.genes, d1) && FitsGenes(c2.genes, d2);
      match SetDna(c1, d1)
      case Err(e) => Err(e)
      case Ok(n1) =>
        match SetDna(c2, d2)
        case Err(e) => Err(e)
        case Ok(n2) => Ok((n1, n2))
  }

  /** Exchanging the range again, the other way round, restores `a`. */
  lemma ExchangeBack<T>(a: seq<T>, b: seq<T>, lo: nat, hi: nat)
    requires |a| == |b| && lo <= hi <= |a|
    ensures Exchange(Exchange(a, b, lo, hi), Exchange(b, a, lo, hi), lo, hi) == a
  {
  }

  /** Two chromosomes with the same name, DNA, and per-gene elements and
      names are the same chromosome. */
  lemma SameChromosome<T>(a: Chromosome<T>, b: Chromosome<T>)
    requires a.name == b.name && Dna(a) == Dna(b) && SameShape(a.genes, b.genes)
    ensures a == b
  {
    forall i | 0 <= i < |a.genes|
      ensures a.genes[i] == b.genes[i]
    {
      assert Dna(a)[i] == Dna(b)[i];
    }
  }

  /** Crossover moves genes between the parents but loses or invents none,
      and crossing the children again at the same points gives back the
      parents. */
  lemma CrossoverTwice<T>(c1: Chromosome<T>, c2: Chromosome<T>, p1: int, p2: Option<int>)
    requires CrossoverBounds(c1, c2, p1, p2) && Compatible(c1, c2)
    ensures multiset(Dna(Crossover(c1, c2, p1, p2).value.0)) + multiset(Dna(Crossover(c1, c2, p1, p2).value.1))
            == multiset(Dna(c1)) + multiset(Dna(c2))
    ensures Crossover(Crossover(c1, c2, p1, p2).value.0, Crossover(c1, c2, p1, p2).value.1, p1, p2) == Ok((c1, c2))
  {
    var r := Crossover(c1, c2, p1, p2).value;
    var hi := CrossEnd(c1, p1, p2);
    ExchangeKeepsItems(Dna(c1), Dna(c2), p1, hi);
    assert Compatible(r.0, r.1);
    var back := Crossover(r.0, r.1, p1, p2).value;
    assert back.0 == c1 by {
      ExchangeBack(Dna(c1), Dna(c2), p1, hi);
      SameChromosome(back.0, c1);
    }
    assert back.1 == c2 by {
      ExchangeBack(Dna(c2), Dna(c1), p1, hi);
      SameChromosome(back.1, c2);
    }
  }

  /** `clone`: fresh copies of the genes in a chromosome built by the
      constructor, so the name is not carried over. */
  function Clone<T>(c: Chromosome<T>): (r: Result<Chromosome<T>, Raised>)
    ensures r.Ok? <==> c.genes != [] && SameLengths(c.genes)
    ensures r.Ok? ==> r.value.genes == c.genes && Dna(r.value) == Dna(c) && r.value.name == ""
  {
    var copies := seq(|c.genes|, i requires 0 <= i < |c.genes| => CloneGene(c.genes[i]));
    assert copies == c.genes;
    NewChromosome(copies, "")
  }
}

=== FILE: py_gene.dfy ===
/** The pure-Python gene (gene.py): a list of DNA items, each drawn from the
    gene's set of elements, and a name. The class keeps every item inside
    the set: the constructor and the `dna` setter both check it. The random
    draws of `mutate` are parameters. */
module PyGene {
  import opened Results

  datatype Gene<T> = Gene(dna: seq<T>, elements: set<T>, name: string)

  /** Every item of `dna` is one of `elements`. */
  predicate AllIn<T(==)>(dna: seq<T>, elements: set<T>)
  {
    forall i :: 0 <= i < |dna| ==> dna[i] in elements
  }

  /** The class invariant the setter enforces. */
  predicate Valid<T(==)>(g: Gene<T>)
  {
    AllIn(g.dna, g.elements)
  }

  /** The `dna` setter: it refuses any item outside the gene's elements. */
  function SetDna<T(==)>(g: Gene<T>, dna: seq<T>): (r: Result<Gene<T>, Raised>)
    ensures r.Ok? <==> AllIn(dna, g.elements)
    ensures r.Err? ==> r.error == AssertionError
    ensures r.Ok? ==> Valid(r.value) && r.value.dna == dna
    ensures r.Ok? ==> r.value.elements == g.elements && r.value.name == g.name
  {
    if AllIn(dna, g.elements) then Ok(g.(dna := dna)) else Err(AssertionError)
  }

  /** Storing what the getter returns gives the gene back unchanged. */
  lemma SetDnaOfDna<T>(g: Gene<T>)
    requires Valid(g)
    ensures SetDna(g, g.dna) == Ok(g)
  {
  }

  /** `Gene(dna, elements, name)`: the constructor goes through the setter. */
  function NewGene<T(==)>(dna: seq<T>, elements: set<T>, name: string): (r: Result<Gene<T>, Raised>)
    ensures r.Ok? <==> AllIn(dna, elements)
    ensures r.Ok? ==> Valid(r.value)
    ensures r.Ok? ==> r.value.dna == dna && r.value.elements == elements && r.value.name == name
  {
    SetDna(Gene([], elements, name), dna)
  }

  /** `clone_gene`: a new gene with the same DNA, elements and name. */
  function CloneGene<T>(g: Gene<T>): (r: Gene<T>)
    ensures r.dna == g.dna && r.elements == g.elements && r.name == g.name
  {
    Gene(g.dna, g.elements, g.name)
  }

  /** There is an element other than `x` for `random.choice` to pick. */
  predicate HasAlternative<T(==)>(elements: set<T>, x: T)
  {
    elements - {x} != {}
  }

  /** The draws fit the gene: wherever an alternative exists, the choice
      drawn for that position is one of them. */
  predicate ChoicesFit<T(==)>(g: Gene<T>, draws: seq<real>, choices: seq<T>)
  {
    && |draws| == |g.dna| && |choices| == |g.dna|
    && forall i :: 0 <= i < |g.dna| && HasAlternative(g.elements, g.dna[i]) ==>
         (choices[i] in g.elements && choices[i] != g.dna[i])
  }

  /** Some position draws below `prob` but has nothing to change to, so
      `random.choice` of an empty list raises. */
  predicate Stuck<T(==)>(dna: seq<T>, elements: set<T>, prob: real, draws: seq<real>)
    requires |draws| == |dna|
  {
    exists i :: 0 <= i < |dna| && draws[i] < prob && !HasAlternative(elements, dna[i])
  }

  /** The new DNA list of `mutate`, built item by item from the front: an
      item whose draw is below `prob` is replaced by its choice. */
  function MutatedItems<T(==)>(dna: seq<T>, elements: set<T>, prob: real, draws: seq<real>, choices: seq<T>): (r: Option<seq<T>>)
    requires |draws| == |dna| && |choices| == |dna|
    requires forall i :: 0 <= i < |dna| && HasAlternative(elements, dna[i]) ==>
               (choices[i] in elements && choices[i] != dna[i])
    ensures r.None? <==> Stuck(dna, elements, prob, draws)
    ensures r.Some? ==> |r.value| == |dna|
    ensures r.Some? ==> forall i :: 0 <= i < |dna| && draws[i] < prob ==> r.value[i] in elements && r.value[i] != dna[i]
    ensures r.Some? ==> forall i :: 0 <= i < |dna| && draws[i] >= prob ==> r.value[i] == dna[i]
  {
    if dna == [] then Some([])
    else
      var rest := MutatedItems(dna[1..], elements, prob, draws[1..], choices[1..]);
      if draws[0] < prob && !HasAlternative(elements, dna[0]) then
        assert !HasAlternative(elements, dna[0]) && draws[0] < prob;
        None
      else if rest.None? then
        var i :| 0 <= i < |dna| - 1 && draws[1..][i] < prob && !HasAlternative(elements, dna[1..][i]);
        assert draws[i + 1] < prob && !HasAlternative(elements, dna[i + 1]);
        None
      else
        var item := if draws[0] < prob then choices[0] else dna[0];
        assert forall i :: 1 <= i < |dna| ==> draws[i] == draws[1..][i - 1] && dna[i] == dna[1..][i - 1];
        Some([item] + rest.value)
  }

  /** `Gene.mutate`: every position whose draw is below `prob` takes a
      different element, every other keeps its item, and the list is stored
      back through the setter. */
  function Mutate<T(==)>(g: Gene<T>, prob: real, draws: seq<real>, choices: seq<T>): (r: Result<Gene<T>, Raised>)
    requires Valid(g) && ChoicesFit(g, draws, choices)
    ensures r.Err? <==> Stuck(g.dna, g.elements, prob, draws)
    ensures r.Err? ==> r.error == IndexError
    ensures r.Ok? ==> Valid(r.value) && |r.value.dna| == |g.dna|
    ensures r.Ok? ==> r.value.elements == g.elements && r.value.name == g.name
    ensures r.Ok? ==> forall i :: 0 <= i < |g.dna| ==>
              (draws[i] < prob ==> r.value.dna[i] != g.dna[i]) && (draws[i] >= prob ==> r.value.dna[i] == g.dna[i])
  {
    match MutatedItems(g.dna, g.elements, prob, draws, choices)
    case None => Err(IndexError)
    case Some(dna) =>
      assert AllIn(dna, g.elements);
      SetDna(g, dna)
  }

  /** With `prob` no higher than every draw, `mutate` changes nothing. */
  lemma MutateNeverDrawn<T>(g: Gene<T>, prob: real, draws: seq<real>, choices: seq<T>)
    requires Valid(g) && ChoicesFit(g, draws, choices)
    requires forall i :: 0 <= i < |draws| ==> draws[i] >= prob
    ensures Mutate(g, prob, draws, choices) == Ok(g)
  {
    var r := Mutate(g, prob, draws, choices);
    assert r.Ok?;
    assert r.value.dna == g.dna;
  }
}

=== FILE: py_operators.dfy ===
/** The travelling-salesman operators of the pure-Python examples, written
    out identically in utils.py and tsp.py: a crossover that brings one gene
    of the other parent into place with a single swap, and a swap mutation.
    Both only move genes around, so a chromosome that lists every city once
    still does afterwards. The random draws are parameters. */
module PyOperators {
  import opened Results
  import opened Seqs
  import opened PyChromosome
  import GaAlgo

  /** `custom_crossover`: find the first gene of `c1` whose DNA equals the
      DNA of `c2`'s gene at `point` and swap it into `point`. Reading
      `c2.dna[point]` fails past `c2`'s end, and `swap` asserts that `point`
      is a position of `c1`. */
  function CustomCrossover<T(==)>(c1: Chromosome<T>, c2: Chromosome<T>, point: nat): (r: Result<Chromosome<T>, Raised>)
    ensures c1.genes == [] ==> r == Ok(c1)
    ensures c1.genes != [] && point >= |c2.genes| ==> r == Err(IndexError)
    ensures c1.genes != [] && point < |c2.genes| ==> (
      var i := FirstMatch(Dna(c1), c2.genes[point].dna, 0);
      && (i == |c1.genes| ==> r == Ok(c1))
      && (i < |c1.genes| ==> (r.Ok? <==> point < |c1.genes|))
      && (i < |c1.genes| && r.Ok? ==> (
            && |r.value.genes| == |c1.genes| && r.value.name == c1.name
            && r.value.genes[point] == c1.genes[i] && r.value.genes[i] == c1.genes[point]
            && r.value.genes[point].dna == c2.genes[point].dna
            && forall k :: 0 <= k < |c1.genes| && k != point && k != i ==> r.value.genes[k] == c1.genes[k])))
    ensures r.Ok? ==> multiset(r.value.genes) == multiset(c1.genes)
    ensures r.Err? ==> r.error == IndexError || r.error == AssertionError
  {
    if c1.genes == [] then Ok(c1)
    else if point >= |c2.genes| then Err(IndexError)
    else
      var i := FirstMatch(Dna(c1), c2.genes[point].dna, 0);
      if i == |c1.genes| then Ok(c1)
      else SwapGenes(c1, point, i)
  }

  /** Between two orderings of the same genes the crossover always succeeds,
      puts `c2`'s gene DNA at `point`, and leaves an ordering of the same
      genes. */
  lemma CrossoverImportsGene<T>(c1: Chromosome<T>, c2: Chromosome<T>, point: nat)
    requires multiset(c2.genes) == multiset(c1.genes) && point < |c1.genes|
    ensures CustomCrossover(c1, c2, point).Ok?
    ensures Dna(CustomCrossover(c1, c2, point).value)[point] == c2.genes[point].dna
    ensures multiset(CustomCrossover(c1, c2, point).value.genes) == multiset(c2.genes)
  {
    assert |c2.genes| == |c1.genes| by {
      assert |multiset(c2.genes)| == |multiset(c1.genes)|;
    }
    var g := c2.genes[point];
    assert g in multiset(c1.genes) by {
      assert g in multiset(c2.genes);
    }
    var j :| 0 <= j < |c1.genes| && c1.genes[j] == g;
    var i := FirstMatch(Dna(c1), g.dna, 0);
    assert Dna(c1)[j] == g.dna;
    assert i <= j;
    if i == |c1.genes| {
      assert false;
    }
  }

  /** The draws fit a chromosome of `n` genes: one per position, and a
      position that draws below `prob` names another position to swap with
      whenever there is one. */
  predicate PartnersFit(n: nat, prob: real, draws: seq<real>, partners: seq<nat>)
  {
    && |draws| == n && |partners| == n
    && forall i :: 0 <= i < n && draws[i] < prob && n >= 2 ==> partners[i] < n && partners[i] != i
  }

  /** `custom_mutate`: every position whose draw is below `prob` swaps with
      a different position. With one gene there is no other position and
      `random.sample` raises. */
  method CustomMutate<T(==)>(c: Chromosome<T>, prob: real, draws: seq<real>, partners: seq<nat>) returns (r: Result<Chromosome<T>, Raised>)
    requires PartnersFit(|c.genes|, prob, draws, partners)
    ensures r.Err? <==> |c.genes| == 1 && draws[0] < prob
    ensures r.Err? ==> r.error == ValueError
    ensures r.Ok? ==> r.value.name == c.name && |r.value.genes| == |c.genes|
    ensures r.Ok? ==> multiset(r.value.genes) == multiset(c.genes)
    ensures r.Ok? ==> r.value.genes == GaAlgo.MutatedUpTo(c.genes, prob, draws, partners, |c.genes|)
  {
    if |c.genes| == 1 && draws[0] < prob {
      return Err(ValueError);
    }
    var genes := GaAlgo.MutateGenes(c.genes, prob, draws, partners);
    r := Ok(c.(genes := genes));
  }
}

=== FILE: py_tsp.dfy ===
/** The travelling-salesman problem of the pure-Python examples: building the
    starting chromosomes from a list of city ids (utils.py shuffles each one,
    tsp.py keeps the input order), the length of the closed tour a
    chromosome lists, and the fitness that is its negation. The city
    coordinates and the Euclidean distance are a parameter. */
module PyTsp {
  import opened Results
  import opened Seqs
  import opened Tours
  import opened Text
  import opened PyGene
  import opened PyChromosome
  import TaiwanTour

  // ---------------------------------------------------------------------
  // Starting population

  /** The draws of one `random.shuffle` of `n` items: for `i` from `n - 1`
      down to 1, an index `j <= i` to exchange with. */
  predicate ShuffleDraws(n: nat, draws: seq<nat>)
  {
    && |draws| == (if n == 0 then 0 else n - 1)
    && forall k :: 0 <= k < |draws| ==> draws[k] <= n - 1 - k
  }

  /** One set of shuffle draws per chromosome, each fitting `n` ids. */
  predicate EveryShuffleDraws(n: nat, draws: seq<seq<nat>>)
  {
    forall k :: 0 <= k < |draws| ==> ShuffleDraws(n, draws[k])
  }

  /** `random.shuffle` after its first `k` exchanges. */
  function ShuffleSteps<T(==)>(s: seq<T>, draws: seq<nat>, k: nat): (r: seq<T>)
    requires ShuffleDraws(|s|, draws) && k <= |draws|
    ensures |r| == |s| && IsPermutationOf(r, s)
  {
    if k == 0 then s
    else
      var prev := ShuffleSteps(s, draws, k - 1);
      Swap(prev, |s| - k, draws[k - 1])
  }

  /** `random.shuffle`: the list in its shuffled order. */
  function Shuffle<T(==)>(s: seq<T>, draws: seq<nat>): (r: seq<T>)
    requires ShuffleDraws(|s|, draws)
    ensures |r| == |s| && IsPermutationOf(r, s)
  {
    ShuffleSteps(s, draws, |draws|)
  }

  /** The city ids after the first `x` shuffles: utils.py shuffles one list
      in place, so every chromosome starts from the previous one's order. */
  function Orders(ids: seq<int>, draws: seq<seq<nat>>, x: nat): (r: seq<int>)
    requires x <= |draws| && EveryShuffleDraws(|ids|, draws)
    ensures |r| == |ids| && IsPermutationOf(r, ids)
  {
    if x == 0 then ids else Shuffle(Orders(ids, draws, x - 1), draws[x - 1])
  }

  /** One single-item gene per city of `order`, over the set of all ids,
      named after chromosome `x`. */
  function CityGenes(order: seq<int>, ids: seq<int>, x: nat): (r: seq<Gene<int>>)
    ensures |r| == |order|
    ensures forall i :: 0 <= i < |r| ==> r[i] == Gene([order[i]], Elements(ids), "city " + Decimal(x))
  {
    seq(|order|, i requires 0 <= i < |order| => Gene([order[i]], Elements(ids), "city " + Decimal(x)))
  }

  /** Every gene has a first DNA item to read the city from. */
  predicate HasCities(c: Chromosome<int>)
  {
    forall i :: 0 <= i < |c.genes| ==> c.genes[i].dna != []
  }

  /** The cities a chromosome visits: the first DNA item of every gene. */
  function Cities(c: Chromosome<int>): (r: seq<int>)
    requires HasCities(c)
    ensures |r| == |c.genes|
    ensures forall i :: 0 <= i < |r| ==> r[i] == c.genes[i].dna[0]
  {
    seq(|c.genes|, i requires 0 <= i < |c.genes| => c.genes[i].dna[0])
  }

  /** The chromosome the constructors build from `order`: every gene passes
      its own check and they share one length, so construction succeeds
      exactly when there is a city, and the chromosome visits `order`. */
  function CityChromosome(order: seq<int>, ids: seq<int>, x: nat): (r: Result<Chromosome<int>, Raised>)
    requires IsPermutationOf(order, ids)
    ensures r.Ok? <==> ids != []
    ensures r.Err? ==> r.error == IndexError
    ensures r.Ok? ==> r.value == Chromosome(CityGenes(order, ids, x), "")
    ensures r.Ok? ==> AllValid(r.value.genes) && HasCities(r.value) && Cities(r.value) == order
  {
    var genes := CityGenes(order, ids, x);
    assert |order| == |ids| by {
      assert |multiset(order)| == |multiset(ids)|;
    }
    assert AllValid(genes) by {
      forall i | 0 <= i < |genes|
        ensures Valid(genes[i])
      {
        assert order[i] in multiset(ids);
      }
    }
    NewChromosome(genes, "")
  }

  /** Chromosome `x` of utils.py: built from the city order after `x + 1`
      shuffles. */
  function ShuffledChromosome(ids: seq<int>, draws: seq<seq<nat>>, x: nat): (r: Result<Chromosome<int>, Raised>)
    requires x < |draws| && EveryShuffleDraws(|ids|, draws)
    ensures r.Ok? <==> ids != []
    ensures r.Err? ==> r.error == IndexError
  {
    CityChromosome(Orders(ids, draws, x + 1), ids, x)
  }

  /** Every shuffled chromosome passes the genes' checks and visits every
      city exactly as often as the id list holds it. */
  lemma ShuffledVisitsEveryCity(ids: seq<int>, draws: seq<seq<nat>>, x: nat)
    requires x < |draws| && EveryShuffleDraws(|ids|, draws) && ids != []
    ensures var c := ShuffledChromosome(ids, draws, x).value;
      AllValid(c.genes) && HasCities(c) && IsPermutationOf(Cities(c), ids) && c.name == ""
  {
  }

  /** `cs` are the first `|cs|` chromosomes of utils.py. */
  predicate MadeShuffled(cs: seq<Chromosome<int>>, ids: seq<int>, draws: seq<seq<nat>>)
    requires |cs| <= |draws| && EveryShuffleDraws(|ids|, draws)
  {
    forall y :: 0 <= y < |cs| ==> Ok(cs[y]) == ShuffledChromosome(ids, draws, y)
  }

  /** Appending the next chromosome keeps `MadeShuffled`. */
  lemma MadeShuffledSnoc(cs: seq<Chromosome<int>>, ids: seq<int>, draws: seq<seq<nat>>, c: Chromosome<int>)
    requires |cs| < |draws| && EveryShuffleDraws(|ids|, draws)
    requires MadeShuffled(cs, ids, draws) && Ok(c) == ShuffledChromosome(ids, draws, |cs|)
    ensures MadeShuffled(cs + [c], ids, draws)
  {
    var next := cs + [c];
    forall y | 0 <= y < |next|
      ensures Ok(next[y]) == ShuffledChromosome(ids, draws, y)
    {
      if y < |cs| {
        assert next[y] == cs[y];
      }
    }
  }

  /** `create_chromosomes_by_cityids` of utils.py: chromosome `x` lists the
      cities after `x + 1` shuffles of the one list. A chromosome without
      genes fails the constructor's `genes[0]`. */
  method CreateShuffled(num: nat, ids: seq<int>, draws: seq<seq<nat>>) returns (r: Result<seq<Chromosome<int>>, Raised>)
    requires |draws| == num && EveryShuffleDraws(|ids|, draws)
    ensures r.Err? <==> num > 0 && ids == []
    ensures r.Err? ==> r.error == IndexError
    ensures r.Ok? ==> |r.value| == num
    ensures r.Ok? ==> forall x :: 0 <= x < num ==> Ok(r.value[x]) == ShuffledChromosome(ids, draws, x)
  {
    var cs: seq<Chromosome<int>> := [];
    while |cs| < num
      invariant |cs| <= num && MadeShuffled(cs, ids, draws)
      invariant |cs| > 0 ==> ids != []
    {
      var made := ShuffledChromosome(ids, draws, |cs|);
      if made.Err? {
        return Err(made.error);
      }
      MadeShuffledSnoc(cs, ids, draws, made.value);
      cs := cs + [made.value];
    }
    r := Ok(cs);
  }

  /** `create_chromosomes_by_cityids` of tsp.py: no shuffle, so every
      chromosome lists the cities in the given order. */
  method CreateInOrder(num: nat, ids: seq<int>) returns (r: Result<seq<Chromosome<int>>, Raised>)
    ensures r.Err? <==> num > 0 && ids == []
    ensures r.Err? ==> r.error == IndexError
    ensures r.Ok? ==> |r.value| == num
    ensures r.Ok? ==> forall x :: 0 <= x < num ==> Ok(r.value[x]) == CityChromosome(ids, ids, x)
    ensures r.Ok? ==> forall x :: 0 <= x < num ==>
              AllValid(r.value[x].genes) && HasCities(r.value[x]) && Cities(r.value[x]) == ids
  {
    var cs: seq<Chromosome<int>> := [];
    var x := 0;
    while x < num
      invariant x <= num && |cs| == x
      invariant forall y :: 0 <= y < x ==> Ok(cs[y]) == CityChromosome(ids, ids, y)
      invariant forall y :: 0 <= y < x ==> AllValid(cs[y].genes) && HasCities(cs[y]) && Cities(cs[y]) == ids
      invariant x > 0 ==> ids != []
    {
      var made := CityChromosome(ids, ids, x);
      if made.Err? {
        return Err(made.error);
      }
      cs := cs + [made.value];
      x := x + 1;
    }
    r := Ok(cs);
  }

  // ---------------------------------------------------------------------
  // Tour length and fitness

  /** The distance between two cities, from their coordinates. */
  type Distance = (int, int) -> real

  /** The `N` legs of the closed tour over `N` cities: from each city to the
      next, the last one back to the first. */
  function ClosedLegs(ids: seq<int>, dist: Distance): (r: seq<real>)
    ensures |r| == |ids|
    ensures forall i {:trigger r[i]} :: 0 <= i < |ids| - 1 ==> r[i] == dist(ids[i], ids[i + 1])
    ensures |ids| > 0 ==> r[|ids| - 1] == dist(ids[|ids| - 1], ids[0])
  {
    seq(|ids|, i requires 0 <= i < |ids| => dist(ids[i], if i + 1 < |ids| then ids[i + 1] else ids[0]))
  }

  /** `calc_distance` can read a city from every gene, and there is one. */
  predicate Measurable(c: Chromosome<int>)
  {
    c.genes != [] && HasCities(c)
  }

  /** The length of the closed tour a chromosome lists. */
  function TourLength(c: Chromosome<int>, dist: Distance): real
    requires Measurable(c)
  {
    SumReal(ClosedLegs(Cities(c), dist))
  }

  /** One more pair of the closed list adds one more leg. */
  lemma SumClosedLegsStep(ids: seq<int>, dist: Distance, i: nat)
    requires i < |ids|
    ensures SumReal(ClosedLegs(ids, dist)[..i + 1])
            == SumReal(ClosedLegs(ids, dist)[..i]) + dist((ids + [ids[0]])[i], (ids + [ids[0]])[i + 1])
  {
    var legs := ClosedLegs(ids, dist);
    assert legs[i] == dist((ids + [ids[0]])[i], (ids + [ids[0]])[i + 1]);
    assert legs[..i + 1] == legs[..i] + [legs[i]];
    TaiwanTour.SumRealSnoc(legs[..i], legs[i]);
  }

  /** `calc_distance`: pair every city with the next, the list closed by
      its first city, and add the distances. A gene with no DNA or a
      chromosome with no genes raises. */
  method CalcDistance(c: Chromosome<int>, dist: Distance) returns (r: Result<real, Raised>)
    ensures r.Err? <==> !Measurable(c)
    ensures r.Err? ==> r.error == IndexError
    ensures r.Ok? ==> r.value == TourLength(c, dist)
  {
    if !HasCities(c) || c.genes == [] {
      return Err(IndexError);
    }
    var ids := Cities(c);
    var closed := ids + [ids[0]];
    var legs := ClosedLegs(ids, dist);
    var total := 0.0;
    var i := 0;
    while i < |ids|
      invariant i <= |ids|
      invariant total == SumReal(legs[..i])
    {
      SumClosedLegsStep(ids, dist, i);
      total := total + dist(closed[i], closed[i + 1]);
      i := i + 1;
    }
    assert legs[..|ids|] == legs;
    r := Ok(total);
  }

  /** The distance with its arguments exchanged. */
  function Flip(dist: Distance): Distance
  {
    (a, b) => dist(b, a)
  }

  /** The Python tour length is the kernel's `taiwan_calc_fitness` length
      (which measures each leg from the later city back) under the flipped
      distance. */
  lemma ClosedLegsAsKernelLength(ids: seq<int>, dist: Distance)
    requires |ids| >= 1
    ensures SumReal(ClosedLegs(ids, dist)) == TaiwanTour.Length(ids, Flip(dist))
  {
    var legs := TaiwanTour.Legs(ids, Flip(dist));
    var closing := TaiwanTour.Closing(ids, Flip(dist));
    assert ClosedLegs(ids, dist) == legs + [closing];
    TaiwanTour.SumRealSnoc(legs, closing);
  }

  /** A closed tour has no start: listing the cities from the second one on
      gives the same length. */
  lemma ClosedLengthIgnoresStart(ids: seq<int>, dist: Distance)
    requires |ids| >= 2
    ensures SumReal(ClosedLegs(ids[1..] + [ids[0]], dist)) == SumReal(ClosedLegs(ids, dist))
  {
    ClosedLegsAsKernelLength(ids, dist);
    ClosedLegsAsKernelLength(ids[1..] + [ids[0]], dist);
    TaiwanTour.RotationKeepsLength(ids, Flip(dist));
  }

  /** `evaluate_fitness`: each chromosome's fitness is its negated tour
      length, so a shorter tour is a fitter one. */
  method EvaluateFitness(cs: seq<Chromosome<int>>, dist: Distance) returns (r: Result<seq<real>, Raised>)
    ensures r.Err? <==> exists k :: 0 <= k < |cs| && !Measurable(cs[k])
    ensures r.Ok? ==> |r.value| == |cs| && forall k :: 0 <= k < |cs| ==> Measurable(cs[k])
    ensures r.Ok? ==> forall k :: 0 <= k < |cs| ==> r.value[k] == -TourLength(cs[k], dist)
  {
    var fits: seq<real> := [];
    var k := 0;
    while k < |cs|
      invariant k <= |cs| && |fits| == k
      invariant forall j :: 0 <= j < k ==> Measurable(cs[j]) && fits[j] == -TourLength(cs[j], dist)
    {
      var d := CalcDistance(cs[k], dist);
      if d.Err? {
        return Err(d.error);
      }
      fits := fits + [-d.value];  // `-1 * distance`
      k := k + 1;
    }
    r := Ok(fits);
  }
}

=== FILE: results.dfy ===
/** Failure-carrying values shared by every module of the model.
    `Option` stands for Python's `None`-or-value, `Result` for a value or a
    raised exception. */
module Results {

  datatype Option<+T> = None | Some(value: T)

  datatype Result<+T, +E> = Ok(value: T) | Err(error: E)

  /** The Python exceptions the modelled code can raise: a failed `assert`,
      a wrong type, an index past the end, an empty sequence handed to
      `random.sample`/`max`, a division by zero, and a missing dictionary
      key. */
  datatype Raised = AssertionError | TypeError | IndexError | ValueError | ZeroDivisionError | KeyError
}

=== FILE: rng.dfy ===
/** The kernels' random numbers (kernel/ga_utils.c). The generator functions
    of Noise.cl are not part of this model: they are parameters here, and
    every property below holds whatever they compute. */
module Rng {
  import opened Results

  const U32: nat := 0x1_0000_0000

  /** `ParallelRNG`, `ParallelRNG2`, `ParallelRNG3`. */
  datatype Noise = Noise(rng: nat -> nat, rng2: (nat, nat) -> nat, rng3: (nat, nat, nat) -> nat)

  /** `init_rand`: the holder is seeded with `ParallelRNG(seed)`. */
  function InitRand(noise: Noise, seed: nat): (holder: nat)
    ensures holder < U32
    ensures holder == noise.rng(seed) % U32
  {
    noise.rng(seed) % U32
  }

  /** `rand`: the value drawn and the new holder, which keeps the second
      intermediate value rather than the value drawn. */
  function Rand(noise: Noise, holder: nat): (r: (nat, nat))
    ensures r.0 < U32 && r.1 < U32
    ensures r.1 == noise.rng2(noise.rng(holder) % U32, holder) % U32
  {
    var b := noise.rng(holder) % U32;
    var c := noise.rng2(b, holder) % U32;
    var d := noise.rng3(c, b, holder) % U32;
    (d, c)
  }

  /** `rand_range`: a draw reduced modulo `range`. */
  function RandRange(noise: Noise, holder: nat, range: nat): (r: (nat, nat))
    requires range > 0
    ensures r.0 < range
    ensures r.1 == Rand(noise, holder).1
  {
    var (d, h) := Rand(noise, holder);
    (d % range, h)
  }

  /** `rand_range_exclude` over the raw draws it would consume: the first
      draw whose residue is not `excluded`, and how many draws it took;
      `None` when the draws run out first. */
  method RandRangeExclude(draws: seq<nat>, range: nat, excluded: nat) returns (r: Option<(nat, nat)>)
    requires range > 0
    ensures r.Some? ==> r.value.0 < range && r.value.0 != excluded
    ensures r.Some? ==> 1 <= r.value.1 <= |draws| && r.value.0 == draws[r.value.1 - 1] % range
    ensures r.Some? ==> forall k :: 0 <= k < r.value.1 - 1 ==> draws[k] % range == excluded
    ensures r.None? <==> forall k :: 0 <= k < |draws| ==> draws[k] % range == excluded
    ensures range == 1 && excluded == 0 ==> r.None?
  {
    var k := 0;
    while k < |draws|
      invariant k <= |draws|
      invariant forall i :: 0 <= i < k ==> draws[i] % range == excluded
    {
      if draws[k] % range != excluded {
        return Some((draws[k] % range, k + 1));
      }
      k := k + 1;
    }
    return None;
  }
}

=== FILE: seqs.dfy ===
/** Sequence helpers shared by the genetic operators and the codecs:
    swapping two cells, permutations, Python's `find` and slicing. */
module Seqs {

  /** `b` holds exactly the same items as `a`, counted with multiplicity. */
  predicate IsPermutationOf<T(==)>(a: seq<T>, b: seq<T>)
  {
    multiset(a) == multiset(b)
  }

  /** Exchange cells `i` and `j`; every other cell keeps its value. */
  function Swap<T(==)>(s: seq<T>, i: nat, j: nat): (r: seq<T>)
    requires i < |s| && j < |s|
    ensures |r| == |s|
    ensures r[i] == s[j] && r[j] == s[i]
    ensures forall k :: 0 <= k < |s| && k != i && k != j ==> r[k] == s[k]
    ensures IsPermutationOf(r, s)
  {
    s[i := s[j]][j := s[i]]
  }

  /** `needle` occurs in `hay` starting at index `i`. */
  predicate OccursAt<T(==)>(hay: seq<T>, needle: seq<T>, i: int)
  {
    0 <= i && i + |needle| <= |hay| && hay[i..i + |needle|] == needle
  }

  /** `needle` occurs somewhere in `hay`. */
  predicate Contains<T(==)>(hay: seq<T>, needle: seq<T>)
  {
    exists i :: 0 <= i <= |hay| && OccursAt(hay, needle, i)
  }

  /** Python's `hay.find(needle, from)`: the lowest occurrence at or after
      `from`, or -1. */
  function FindFrom<T(==)>(hay: seq<T>, needle: seq<T>, from: nat): (r: int)
    decreases |hay| - from
    ensures r == -1 || (from <= r && OccursAt(hay, needle, r))
    ensures r == -1 ==> forall i :: from <= i ==> !OccursAt(hay, needle, i)
    ensures r >= 0 ==> forall i :: from <= i < r ==> !OccursAt(hay, needle, i)
  {
    if from + |needle| > |hay| then -1
    else if hay[from..from + |needle|] == needle then from
    else FindFrom(hay, needle, from + 1)
  }

  /** Python's `hay.find(needle)`. */
  function Find<T(==)>(hay: seq<T>, needle: seq<T>): (r: int)
    ensures r == -1 <==> !Contains(hay, needle)
    ensures r >= 0 ==> OccursAt(hay, needle, r)
    ensures r >= 0 ==> forall i :: 0 <= i < r ==> !OccursAt(hay, needle, i)
  {
    var r := FindFrom(hay, needle, 0);
    if r == -1 then
      assert !Contains(hay, needle);
      r
    else
      r
  }

  /** Python's slice `s[a:b]` for non-negative bounds: both bounds are clamped
      to the length and an inverted range is empty. */
  function PySlice<T>(s: seq<T>, a: nat, b: nat): (r: seq<T>)
    ensures a <= b <= |s| ==> r == s[a..b]
    ensures b <= a ==> r == []
    ensures |s| <= a ==> r == []
  {
    var lo := if a < |s| then a else |s|;
    var hi := if b < |s| then b else |s|;
    if hi <= lo then [] else s[lo..hi]
  }

  /** The first index holding `x`, or `|s|` when there is none. */
  function FirstMatch<T(==)>(s: seq<T>, x: T, from: nat): (r: nat)
    requires from <= |s|
    ensures from <= r <= |s|
    ensures r < |s| ==> s[r] == x
    ensures forall k :: from <= k < r ==> s[k] != x
    decreases |s| - from
  {
    if from == |s| then |s|
    else if s[from] == x then from
    else FirstMatch(s, x, from + 1)
  }

  /** The items of `a` not present in `b`, in the order of `a`. */
  function Without<T(==, !new)>(a: seq<T>, b: seq<T>): (r: seq<T>)
    ensures forall x :: x in r <==> x in a && x !in b
    ensures |r| <= |a|
  {
    if a == [] then []
    else if a[0] in b then Without(a[1..], b)
    else [a[0]] + Without(a[1..], b)
  }

  /** `0, 1, ..., n-1`. */
  function Range(n: nat): (r: seq<nat>)
    ensures |r| == n
    ensures forall i :: 0 <= i < n ==> r[i] == i
  {
    if n == 0 then [] else Range(n - 1) + [n - 1]
  }

  /** Sum of a sequence of naturals. */
  function SumNat(s: seq<nat>): nat
  {
    if s == [] then 0 else s[0] + SumNat(s[1..])
  }

  /** Sum of a sequence of reals. */
  function SumReal(s: seq<real>): real
  {
    if s == [] then 0.0 else s[0] + SumReal(s[1..])
  }

  /** `s` has no repeated item. */
  predicate Distinct<T(==)>(s: seq<T>)
  {
    forall i, j :: 0 <= i < j < |s| ==> s[i] != s[j]
  }

  /** Where the three parts of `a + b + c` sit. */
  lemma ConcatSlices<T>(a: seq<T>, b: seq<T>, c: seq<T>)
    ensures var s := a + b + c;
      && s[..|a|] == a
      && s[|a|..|a| + |b|] == b
      && s[|a| + |b|..] == c
      && OccursAt(s, b, |a|)
  {
  }

  /** Where the first three parts of `a + b + c + d` sit. */
  lemma FourParts<T>(a: seq<T>, b: seq<T>, c: seq<T>, d: seq<T>)
    ensures var s := a + b + c + d;
      && s[..|a|] == a
      && OccursAt(s, b, |a|)
      && OccursAt(s, c, |a| + |b|)
  {
    var s := a + b + c + d;
    assert s[|a|..|a| + |b|] == b;
    assert s[|a| + |b|..|a| + |b| + |c|] == c;
  }
}

=== FILE: shuffler_kernel.dfy ===
/** The shuffler chromosome's kernels (OpenCLGA/kernel/shuffler_chromosome.c,
    and the older kernel/shuffler_chromosome.c, whose populate, swap,
    mutation, pick and crossover are the same code): a chromosome is a tour
    of the gene indices `0 .. n-1`, and every operator keeps it one. The
    population is a sequence of chromosomes, one per work item; work items
    at or beyond the population size return at once. Random draws are
    parameters within the ranges `rand_range` gives; `rand_prob` draws are
    reals. */
module ShufflerKernel {
  import opened Seqs
  import opened Tours
  import opened GaUtils

  // ---------------------------------------------------------------------
  // Populate

  /** Taking item `r` out of the live pool `pool[..m]`: the last live item
      moves into its place and the pool shrinks by one. */
  lemma PoolStep(pool: seq<int>, m: nat, r: nat)
    requires r < m - 1 && m <= |pool|
    ensures multiset(pool[r := pool[m - 1]][..m - 1]) + multiset{pool[r]} == multiset(pool[..m])
  {
    var front := pool[..m - 1];
    assert pool[..m] == front + [pool[m - 1]];
    assert pool[r := pool[m - 1]][..m - 1] == front[r := pool[m - 1]];
    assert multiset(front[r := pool[m - 1]]) == multiset(front) - multiset{pool[r]} + multiset{pool[m - 1]};
  }

  /** `shuffler_chromosome_do_populate` with the draws `rand_range` returned:
      gene `i` takes pool item `draws[i] < n-i-1` and the last live item
      fills the hole; the last gene takes what is left in slot 0. */
  method Populate(elements: seq<int>, draws: seq<nat>) returns (genes: seq<int>)
    requires |elements| >= 1 && |draws| == |elements| - 1
    requires forall i :: 0 <= i < |draws| ==> draws[i] < |elements| - i - 1
    ensures |genes| == |elements|
    ensures IsPermutationOf(genes, elements)
    ensures IsTour(elements, |elements|) ==> IsTour(genes, |elements|)
  {
    var n := |elements|;
    var pool := elements;
    genes := [];
    var i := 0;
    assert pool[..n] == elements;
    while i < n - 1
      invariant 0 <= i <= n - 1
      invariant |genes| == i && |pool| == n
      invariant multiset(genes) + multiset(pool[..n - i]) == multiset(elements)
    {
      var m := n - i;
      var r := draws[i];
      PoolStep(pool, m, r);
      genes := genes + [pool[r]];
      pool := pool[r := pool[m - 1]];
      i := i + 1;
    }
    assert pool[..1] == [pool[0]];
    genes := genes + [pool[0]];
    if IsTour(elements, n) {
      PermutationKeepsTour(elements, genes, n);
    }
  }

  // ---------------------------------------------------------------------
  // Mutation

  /** `shuffler_chromosome_single_gene_mutate` on one chromosome: kept when
      the draw exceeds `probMutate`; otherwise position `i` swaps with `j`,
      the improving function's answer (no swap when that is `i`) or a
      `rand_range_exclude` draw different from `i`. */
  function SingleGeneMutate(c: seq<int>, probDraw: real, probMutate: real, improve: bool, i: nat, j: nat): (r: seq<int>)
    requires probDraw <= probMutate ==> i < |c| && j < |c| && (improve || j != i)
    ensures |r| == |c| && IsPermutationOf(r, c)
    ensures probDraw > probMutate ==> r == c
    ensures probDraw <= probMutate ==> (
      && r[i] == c[j] && r[j] == c[i]
      && forall k :: 0 <= k < |c| && k != i && k != j ==> r[k] == c[k])
    ensures probDraw <= probMutate && !improve && Distinct(c) ==> r != c
    ensures IsTour(c, |c|) ==> IsTour(r, |c|)
  {
    var r := if probDraw > probMutate || (improve && i == j) then c else Swap(c, i, j);
    assert IsTour(c, |c|) ==> IsTour(r, |c|) by {
      if IsTour(c, |c|) {
        PermutationKeepsTour(c, r, |c|);
      }
    }
    assert probDraw <= probMutate && !improve && Distinct(c) ==> r != c by {
      if probDraw <= probMutate && !improve && Distinct(c) {
        assert r[i] == c[j] != c[i];
      }
    }
    r
  }

  // ---------------------------------------------------------------------
  // Pick and crossover

  /** Every chromosome scores within 1e-5 of every other: pick and crossover
      do nothing at all. */
  predicate Converged(best: real, worst: real)
  {
    Abs(worst - best) < 0.00001
  }

  /** `shuffler_chromosome_pick_chromosomes` for work item `idx`: the
      chromosome chosen by the ratio draw is copied into `other[idx]`. */
  function Pick(cs: seq<seq<int>>, other: seq<seq<int>>, best: real, worst: real, idx: nat, crossIdx: nat): (r: seq<seq<int>>)
    requires |other| == |cs|
    requires !Converged(best, worst) && idx < |cs| ==> crossIdx < |cs|
    ensures |r| == |other|
    ensures Converged(best, worst) || idx >= |cs| ==> r == other
    ensures !Converged(best, worst) && idx < |cs| ==> (
      && r[idx] == cs[crossIdx]
      && forall k :: 0 <= k < |r| && k != idx ==> r[k] == other[k])
  {
    if Converged(best, worst) || idx >= |cs| then other
    else other[idx := cs[crossIdx]]
  }

  /** Work item `idx` crosses over: not converged, not within 1e-6 of the
      best fitness, and its draw is below `probCrossover`. */
  predicate Crosses(fitness: seq<real>, best: real, worst: real, idx: nat, probDraw: real, probCrossover: real)
  {
    && !Converged(best, worst)
    && idx < |fitness|
    && Abs(fitness[idx] - best) >= 0.000001
    && probDraw < probCrossover
  }

  /** The `cross_map` marks of a chromosome: `marks[v] != 0` exactly for
      the genes `v` of `p`. */
  predicate MarksOf(marks: seq<int>, p: seq<int>, n: nat)
  {
    |marks| == n && forall v :: 0 <= v < n ==> (marks[v] != 0 <==> v in p)
  }

  /** The first crossover loop: copy the other parent's first `cut` genes
      over this chromosome and mark each of them in a cleared map. */
  method CopyPrefix(self: seq<int>, other: seq<int>, n: nat, cut: nat) returns (child: seq<int>, marks: seq<int>)
    requires IsTour(self, n) && IsTour(other, n) && cut <= n
    ensures |child| == n && child[..cut] == other[..cut]
    ensures MarksOf(marks, other[..cut], n)
  {
    child := self;
    marks := seq(n, v => 0);
    var i := 0;
    while i < cut
      invariant i <= cut && |child| == n
      invariant child[..i] == other[..i]
      invariant MarksOf(marks, other[..i], n)
    {
      assert other[..i + 1] == other[..i] + [other[i]];
      child := child[i := other[i]];
      marks := marks[other[i] := 1];
      i := i + 1;
    }
  }

  /** Writing `x` at the end of a finished prefix extends it by `x`. */
  lemma ExtendPrefix(s: seq<int>, cp: nat, x: int)
    requires cp < |s|
    ensures s[cp := x][..cp + 1] == s[..cp] + [x]
  {
  }

  /** The first `cp` cells of `child` hold `p` followed by the genes of
      `self[..i]` outside `p`. */
  predicate Appended(child: seq<int>, cp: nat, self: seq<int>, p: seq<int>, i: nat)
    requires i <= |self|
  {
    cp == |p| + |Without(self[..i], p)| && cp <= |child| && child[..cp] == p + Without(self[..i], p)
  }

  /** Once every gene of `self` is seen, a full-length `child` is exactly
      `p` followed by the genes of `self` outside `p`. */
  lemma AppendedAll(child: seq<int>, cp: nat, self: seq<int>, p: seq<int>)
    requires Appended(child, cp, self, p, |self|)
    requires |child| == |self| == |p| + |Without(self, p)|
    ensures child == p + Without(self, p)
  {
    assert self[..|self|] == self;
  }

  /** One pass of the second crossover loop keeps the copied prefix equal
      to the other parent's genes followed by this parent's unmarked genes
      seen so far. */
  lemma AppendRestStep(self: seq<int>, child: seq<int>, marks: seq<int>, p: seq<int>, n: nat, cp: nat, i: nat)
    requires IsTour(self, n) && |child| == n && MarksOf(marks, p, n)
    requires |Without(self, p)| == n - |p|
    requires i < n && Appended(child, cp, self, p, i)
    ensures marks[self[i]] == 0 ==> cp < n && Appended(child[cp := self[i]], cp + 1, self, p, i + 1)
    ensures marks[self[i]] != 0 ==> Appended(child, cp, self, p, i + 1)
  {
    var x := self[i];
    assert marks[x] != 0 <==> x in p by {
      assert 0 <= x < n;
    }
    var before := Without(self[..i], p);
    var after := Without(self[..i + 1], p);
    assert after == before + (if x in p then [] else [x]) by {
      WithoutSnoc(self, i, p);
    }
    assert |after| <= n - |p| by {
      WithoutPrefix(self, i + 1, p);
    }
    if marks[x] == 0 {
      ExtendPrefix(child, cp, x);
    }
  }

  /** The second crossover loop: append this parent's unmarked genes, in
      order, from position `cut` on. */
  method AppendRest(self: seq<int>, child0: seq<int>, marks: seq<int>, p: seq<int>, n: nat) returns (child: seq<int>)
    requires IsTour(self, n) && |child0| == n && |p| <= n
    requires child0[..|p|] == p && MarksOf(marks, p, n)
    requires |Without(self, p)| == n - |p|
    ensures child == p + Without(self, p)
  {
    child := child0;
    var cp: nat := |p|;
    var i := 0;
    assert self[..0] == [];
    while i < n
      invariant i <= n && |child| == n
      invariant Appended(child, cp, self, p, i)
    {
      AppendRestStep(self, child, marks, p, n, cp, i);
      if marks[self[i]] == 0 {
        child := child[cp := self[i]];
        cp := cp + 1;
      }
      i := i + 1;
    }
    AppendedAll(child, cp, self, p);
  }

  /** The crossover loops with the `cross_map` marks compute the order
      crossover of the two parents. */
  method OrderCrossoverKernel(self: seq<int>, other: seq<int>, n: nat, cut: nat) returns (child: seq<int>)
    requires IsTour(self, n) && IsTour(other, n) && cut <= n
    ensures child == OrderCrossover(self, other, cut)
    ensures IsTour(child, n)
  {
    var p := other[..cut];
    var prefix, marks := CopyPrefix(self, other, n, cut);
    assert Elements(p) <= Below(n);
    WithoutFromTour(self, p, n);
    child := AppendRest(self, prefix, marks, p, n);
    OrderCrossoverIsTour(self, other, n, cut);
  }

  /** `shuffler_chromosome_do_crossover` for work item `idx`: when it
      crosses, its chromosome takes the other parent's genes up to the cut
      point `cutDraw + 1` in `[1, n-1]` and then its own remaining genes in
      its own order; otherwise the population is unchanged. */
  method DoCrossover(cs: seq<seq<int>>, other: seq<seq<int>>, fitness: seq<real>, best: real, worst: real,
                     probCrossover: real, idx: nat, probDraw: real, cutDraw: nat, n: nat) returns (r: seq<seq<int>>)
    requires |other| == |cs| && |fitness| == |cs|
    requires Crosses(fitness, best, worst, idx, probDraw, probCrossover) ==>
      IsTour(cs[idx], n) && IsTour(other[idx], n) && cutDraw < n - 1
    ensures |r| == |cs|
    ensures !Crosses(fitness, best, worst, idx, probDraw, probCrossover) ==> r == cs
    ensures forall k :: 0 <= k < |cs| && k != idx ==> r[k] == cs[k]
    ensures Crosses(fitness, best, worst, idx, probDraw, probCrossover) ==> (
      && 1 <= cutDraw + 1 <= n - 1
      && IsTour(r[idx], n)
      && r[idx][..cutDraw + 1] == other[idx][..cutDraw + 1]
      && r[idx][cutDraw + 1..] == Without(cs[idx], other[idx][..cutDraw + 1]))
  {
    if !Crosses(fitness, best, worst, idx, probDraw, probCrossover) {
      return cs;
    }
    var child := OrderCrossoverKernel(cs[idx], other[idx], n, cutDraw + 1);
    r := cs[idx := child];
  }

  // ---------------------------------------------------------------------
  // The older kernel's roulette and best/worst

  /** `ratio[0] + ... + ratio[k-1]`, summed left to right. */
  function PrefixSum(ratio: seq<real>, k: nat): real
    requires k <= |ratio|
  {
    if k == 0 then 0.0 else PrefixSum(ratio, k - 1) + ratio[k - 1]
  }

  /** `shuffler_chromosome_random_choose`: the first index whose running
      total exceeds the draw, else the last index. */
  method RandomChoose(ratio: seq<real>, draw: real) returns (r: nat)
    requires |ratio| >= 1
    ensures r < |ratio|
    ensures forall k :: 0 < k <= r ==> PrefixSum(ratio, k) <= draw
    ensures PrefixSum(ratio, r + 1) > draw || r == |ratio| - 1
  {
    var accumulated := 0.0;
    var i := 0;
    while i < |ratio|
      invariant i <= |ratio|
      invariant accumulated == PrefixSum(ratio, i)
      invariant forall k :: 0 < k <= i ==> PrefixSum(ratio, k) <= draw
    {
      accumulated := accumulated + ratio[i];
      if accumulated > draw {
        return i;
      }
      i := i + 1;
    }
    return |ratio| - 1;
  }

  /** The best and worst fitness as the older `shuffler_chromosome_calc_ratio`
      computes them. When optimising for the maximum it hands its `max`
      variable, which starts at 0, to the minimum slot of
      `calc_min_max_fitness` and its `min` variable, which starts at
      `INT_MAX`, to the maximum slot, and then reads the best from the
      former: the best can never exceed 0 and the worst never falls below
      `INT_MAX`. */
  function CalcRatioBoundsAsWritten(forMax: bool, fitness: seq<real>): (r: (real, real))
    ensures forMax ==> r.0 <= 0.0 && r.1 >= IntMaxAsFloat
    ensures !forMax ==> r == CalcRatioBounds(false, fitness)
  {
    if forMax then
      var (lo, hi) := CalcMinMax(fitness, 0.0, IntMaxAsFloat);
      (lo, hi)
    else
      var (lo, hi) := CalcMinMax(fitness, IntMaxAsFloat, 0.0);
      (lo, hi)
  }

  /** Fitnesses 5 and 7 under maximisation give best 0 and worst 2^31. */
  lemma CalcRatioBoundsMisreadsMaximum()
    ensures CalcRatioBoundsAsWritten(true, [5.0, 7.0]) == (0.0, IntMaxAsFloat)
    ensures CalcRatioBounds(true, [5.0, 7.0]) == (7.0, 5.0)
  {
    assert CalcMinMax([5.0, 7.0], 0.0, IntMaxAsFloat) == (0.0, IntMaxAsFloat);
    assert CalcMinMax([7.0], 5.0, 5.0) == (5.0, 7.0);
  }

  /** Within `[0, INT_MAX]`, the fitnesses' range as a population bounds it. */
  predicate InFloatRange(fitness: seq<real>)
  {
    forall i :: 0 <= i < |fitness| ==> 0.0 <= fitness[i] <= IntMaxAsFloat
  }

  /** The best and worst fitness with the minimum and maximum slots passed
      the right way round: best is the maximum when optimising for the
      maximum and the minimum otherwise, and worst the other end. */
  function CalcRatioBounds(forMax: bool, fitness: seq<real>): (r: (real, real))
    ensures InFloatRange(fitness) && fitness != [] ==> (
      && r.0 in fitness && r.1 in fitness
      && forall i :: 0 <= i < |fitness| ==>
        (if forMax then r.1 <= fitness[i] <= r.0 else r.0 <= fitness[i] <= r.1))
  {
    var (lo, hi) := CalcMinMax(fitness, IntMaxAsFloat, 0.0);
    assert fitness != [] && InFloatRange(fitness) ==> lo in fitness && hi in fitness by {
      if fitness != [] && InFloatRange(fitness) {
        assert lo <= fitness[0] <= hi;
      }
    }
    if forMax then (hi, lo) else (lo, hi)
  }
}

=== FILE: text.dfy ===
/** The text the representations emit into kernel source: `str(n)` of a
    natural number and `", ".join(...)` of such numbers, each with the
    parser that reads it back. */
module Text {
  import opened Results

  predicate IsDigit(c: char)
  {
    '0' <= c <= '9'
  }

  predicate AllDigits(s: string)
  {
    forall i :: 0 <= i < |s| ==> IsDigit(s[i])
  }

  function Digit(d: nat): (c: char)
    requires d < 10
    ensures IsDigit(c)
  {
    ('0' as int + d) as char
  }

  function DigitValue(c: char): (d: nat)
    requires IsDigit(c)
    ensures d < 10 && Digit(d) == c
  {
    c as int - '0' as int
  }

  /** `str(n)`: decimal digits, most significant first, no leading zero. */
  function Decimal(n: nat): (r: string)
    ensures |r| >= 1 && AllDigits(r)
    ensures |r| > 1 ==> r[0] != '0'
    decreases n
  {
    if n < 10 then [Digit(n)] else Decimal(n / 10) + [Digit(n % 10)]
  }

  /** `int(s)` on a string of digits; a leading digit other than `0` makes
      the value positive. */
  function ParseDecimal(s: string): (r: nat)
    requires AllDigits(s)
    ensures |s| > 0 && s[0] != '0' ==> r >= 1
  {
    if s == [] then 0 else ParseDecimal(s[..|s| - 1]) * 10 + DigitValue(s[|s| - 1])
  }

  lemma {:induction false} DecimalRoundTrip(n: nat)
    ensures ParseDecimal(Decimal(n)) == n
    decreases n
  {
    if n >= 10 {
      DecimalRoundTrip(n / 10);
      var d := Decimal(n);
      assert d[..|d| - 1] == Decimal(n / 10);
    }
  }

  /** The other direction: a digit string without a leading zero is what
      `str` prints for its value. */
  lemma {:induction false} ParseDecimalRoundTrip(s: string)
    requires AllDigits(s) && |s| >= 1 && (|s| > 1 ==> s[0] != '0')
    ensures Decimal(ParseDecimal(s)) == s
    decreases |s|
  {
    var c := s[|s| - 1];
    var d := DigitValue(c);
    if |s| > 1 {
      var p := s[..|s| - 1];
      assert p[0] == s[0];
      ParseDecimalRoundTrip(p);
      var n := ParseDecimal(p);
      assert (n * 10 + d) / 10 == n && (n * 10 + d) % 10 == d;
      assert s == p + [c];
    }
  }

  /** `sep.join(parts)`. */
  function Join(parts: seq<string>, sep: string): string
  {
    if parts == [] then []
    else if |parts| == 1 then parts[0]
    else parts[0] + sep + Join(parts[1..], sep)
  }

  function Decimals(ns: seq<nat>): (r: seq<string>)
    ensures |r| == |ns|
    ensures forall i :: 0 <= i < |ns| ==> r[i] == Decimal(ns[i])
  {
    if ns == [] then [] else [Decimal(ns[0])] + Decimals(ns[1..])
  }

  /** `", ".join([str(v) for v in ns])`. */
  function DecimalList(ns: seq<nat>): string
  {
    Join(Decimals(ns), ", ")
  }

  /** Length of the longest prefix of digits. */
  function DigitRun(s: string): (k: nat)
    ensures k <= |s| && AllDigits(s[..k])
    ensures k < |s| ==> !IsDigit(s[k])
  {
    if s == [] || !IsDigit(s[0]) then 0
    else
      var k := 1 + DigitRun(s[1..]);
      assert s[..k] == [s[0]] + s[1..][..k - 1];
      k
  }

  lemma {:induction false} DigitRunOfDigits(d: string, t: string)
    requires AllDigits(d)
    requires t == [] || !IsDigit(t[0])
    ensures DigitRun(d + t) == |d|
  {
    if d != [] {
      assert (d + t)[1..] == d[1..] + t;
      DigitRunOfDigits(d[1..], t);
    }
  }

  /** Reads back a list of naturals separated by `", "`; `None` for text that
      is not such a list. */
  function ParseDecimalList(s: string): (r: Option<seq<nat>>)
    decreases |s|
  {
    if s == [] then Some([])
    else
      var k := DigitRun(s);
      if k == 0 then None
      else if k == |s| then Some([ParseDecimal(s)])
      else if k + 2 < |s| && s[k..k + 2] == ", " then
        match ParseDecimalList(s[k + 2..])
        case None => None
        case Some(rest) => Some([ParseDecimal(s[..k])] + rest)
      else None
  }

  /** The joined list reads back as the numbers it was built from. */
  lemma {:induction false} DecimalListRoundTrip(ns: seq<nat>)
    ensures ParseDecimalList(DecimalList(ns)) == Some(ns)
  {
    if |ns| == 1 {
      DigitRunOfDigits(Decimal(ns[0]), []);
      assert Decimal(ns[0]) + [] == Decimal(ns[0]);
      DecimalRoundTrip(ns[0]);
      assert DecimalList(ns) == Decimal(ns[0]);
      assert [ns[0]] == ns;
    } else if |ns| > 1 {
      var d := Decimal(ns[0]);
      var t := DecimalList(ns[1..]);
      assert Decimals(ns)[1..] == Decimals(ns[1..]);
      assert DecimalList(ns) == d + (", " + t);
      DigitRunOfDigits(d, ", " + t);
      var s := d + (", " + t);
      assert s[..|d|] == d;
      assert s[|d|..|d| + 2] == ", ";
      assert s[|d| + 2..] == t;
      DecimalListRoundTrip(ns[1..]);
      assert t != [] by { NonEmptyList(ns[1..]); }
      DecimalRoundTrip(ns[0]);
      assert DigitRun(s) == |d| && |d| > 0 && |d| + 2 < |s|;
      assert ParseDecimalList(s) == Some([ParseDecimal(s[..|d|])] + ns[1..]);
      assert [ns[0]] + ns[1..] == ns;
    }
  }

  lemma NonEmptyList(ns: seq<nat>)
    requires ns != []
    ensures DecimalList(ns) != []
  {
    if |ns| > 1 {
      assert Decimals(ns)[0] == Decimal(ns[0]);
    }
  }
}

=== FILE: tour.dfy ===
/** The travelling-salesman fitness of the Taiwan example
    (examples/taiwan_travel/kernel/taiwan_fitness.c): the length of a closed
    tour, and the improving-only mutation helper that looks for the swap of
    one city that shortens the tour most. The spherical distance between
    two cities is floating-point trigonometry and is a parameter here. */
module TaiwanTour {
  import opened Seqs

  /** The distance between the cities of two genes. */
  type Distance = (int, int) -> real

  /** The legs between consecutive genes, leg `i` from gene `i` to gene
      `i + 1` (measured as `dist(genes[i + 1], genes[i])`). */
  function Legs(genes: seq<int>, dist: Distance): (r: seq<real>)
    ensures |r| == if |genes| == 0 then 0 else |genes| - 1
    ensures forall i {:trigger r[i]} :: 0 <= i < |r| ==> r[i] == dist(genes[i + 1], genes[i])
  {
    if |genes| <= 1 then [] else seq(|genes| - 1, i requires 0 <= i < |genes| - 1 => dist(genes[i + 1], genes[i]))
  }

  /** The closing leg from the last gene back to the first. */
  function Closing(genes: seq<int>, dist: Distance): real
    requires |genes| >= 1
  {
    dist(genes[0], genes[|genes| - 1])
  }

  /** The tour's length: every consecutive leg plus the closing leg. */
  function Length(genes: seq<int>, dist: Distance): real
    requires |genes| >= 1
  {
    SumReal(Legs(genes, dist)) + Closing(genes, dist)
  }

  lemma {:induction false} SumRealSnoc(s: seq<real>, x: real)
    ensures SumReal(s + [x]) == SumReal(s) + x
  {
    if s != [] {
      SumRealSnoc(s[1..], x);
      assert (s + [x])[1..] == s[1..] + [x];
    } else {
      assert s + [x] == [x];
    }
  }

  /** `taiwan_calc_fitness`: a loop over the `size - 1` consecutive legs,
      then the closing leg. */
  method CalcFitness(genes: seq<int>, dist: Distance) returns (r: real)
    requires |genes| >= 1
    ensures r == Length(genes, dist)
  {
    var legs := Legs(genes, dist);
    r := 0.0;
    var i := 0;
    while i < |genes| - 1
      invariant i <= |genes| - 1
      invariant r == SumReal(legs[..i])
    {
      assert legs[..i + 1] == legs[..i] + [legs[i]];
      SumRealSnoc(legs[..i], legs[i]);
      r := r + dist(genes[i + 1], genes[i]);
      i := i + 1;
    }
    assert legs[..|genes| - 1] == legs;
    r := r + dist(genes[0], genes[|genes| - 1]);
  }

  lemma RotatedLegs(genes: seq<int>, dist: Distance)
    requires |genes| >= 2
    ensures Legs(genes[1..] + [genes[0]], dist) == Legs(genes, dist)[1..] + [Closing(genes, dist)]
  {
    var rotated := genes[1..] + [genes[0]];
    var a := Legs(rotated, dist);
    var b := Legs(genes, dist)[1..] + [Closing(genes, dist)];
    assert |a| == |b|;
    forall i | 0 <= i < |a|
      ensures a[i] == b[i]
    {
      assert a[i] == dist(rotated[i + 1], rotated[i]);
      if i < |a| - 1 {
        assert rotated[i] == genes[i + 1] && rotated[i + 1] == genes[i + 2];
        assert b[i] == Legs(genes, dist)[i + 1];
      } else {
        assert rotated[i] == genes[|genes| - 1] && rotated[i + 1] == genes[0];
      }
    }
  }

  /** A closed tour has no start: starting from the second city gives the
      same length. */
  lemma RotationKeepsLength(genes: seq<int>, dist: Distance)
    requires |genes| >= 2
    ensures Length(genes[1..] + [genes[0]], dist) == Length(genes, dist)
  {
    var rotated := genes[1..] + [genes[0]];
    var legs := Legs(genes, dist);
    RotatedLegs(genes, dist);
    SumRealSnoc(legs[1..], Closing(genes, dist));
    assert SumReal(legs) == legs[0] + SumReal(legs[1..]);
    assert Closing(rotated, dist) == legs[0];
  }

  /** `taiwan_fitness_swap`. */
  function SwapGenes(genes: seq<int>, cp: nat, p1: nat): (r: seq<int>)
    requires cp < |genes| && p1 < |genes|
    ensures |r| == |genes| && IsPermutationOf(r, genes)
    ensures r[cp] == genes[p1] && r[p1] == genes[cp]
    ensures forall k :: 0 <= k < |genes| && k != cp && k != p1 ==> r[k] == genes[k]
  {
    Swap(genes, cp, p1)
  }

  /** Swapping the same two cells twice restores the chromosome. */
  lemma SwapTwice(genes: seq<int>, cp: nat, p1: nat)
    requires cp < |genes| && p1 < |genes|
    ensures SwapGenes(SwapGenes(genes, cp, p1), cp, p1) == genes
  {
  }

  /** The score of the chromosome with genes `i` and `idx` swapped. */
  function Trial(genes: seq<int>, i: nat, idx: nat, score: seq<int> -> real): real
    requires i < |genes| && idx < |genes|
  {
    score(SwapGenes(genes, i, idx))
  }

  /** `improving_only_mutation_helper`: try swapping gene `idx` with each
      gene `i < size - 1` other than itself, undo each trial, and answer the
      first `i` giving the lowest score strictly below the current one, or
      `idx` when there is none. The chromosome is handed back as found. The
      score is `taiwan_calc_fitness`, that is `Length` with the example's
      distance; nothing below depends on which function it is. */
  method ImprovingHelper(genes: seq<int>, idx: nat, score: seq<int> -> real) returns (best: nat, after: seq<int>)
    requires idx < |genes|
    ensures after == genes
    ensures best < |genes|
    ensures best == idx || (best < |genes| - 1 && best != idx)
    ensures best != idx ==> Trial(genes, best, idx, score) < score(genes)
    ensures best == idx ==> forall i :: 0 <= i < |genes| - 1 && i != idx ==> Trial(genes, i, idx, score) >= score(genes)
    ensures best != idx ==> forall i :: 0 <= i < |genes| - 1 && i != idx ==> Trial(genes, i, idx, score) >= Trial(genes, best, idx, score)
    ensures best != idx ==> forall i :: 0 <= i < best && i != idx ==> Trial(genes, i, idx, score) > Trial(genes, best, idx, score)
  {
    var c := genes;
    best := idx;
    var shortest := score(c);
    var i := 0;
    while i + 1 < |genes|
      invariant i < |genes|
      invariant c == genes
      invariant best == idx || (best < i && best != idx)
      invariant shortest == if best == idx then score(genes) else Trial(genes, best, idx, score)
      invariant best != idx ==> shortest < score(genes)
      invariant forall k :: 0 <= k < i && k != idx ==> Trial(genes, k, idx, score) >= shortest
      invariant best != idx ==> forall k :: 0 <= k < best && k != idx ==> Trial(genes, k, idx, score) > shortest
    {
      if i != idx {
        c := SwapGenes(c, i, idx);
        var current := score(c);
        SwapTwice(genes, i, idx);
        c := SwapGenes(c, i, idx);
        if current < shortest {
          shortest := current;
          best := i;
        }
      }
      i := i + 1;
    }
    after := c;
  }
}

=== FILE: tours.dfy ===
/** A shuffler chromosome on the device is a tour: the gene indices
    `0 .. n-1`, each exactly once. This module states that notion and the
    counting facts the crossover proofs rest on. */
module Tours {
  import opened Seqs

  /** `s` holds each of `0 .. n-1` exactly once. */
  predicate IsTour(s: seq<int>, n: nat)
  {
    |s| == n && Distinct(s) && forall i :: 0 <= i < |s| ==> 0 <= s[i] < n
  }

  function Elements(s: seq<int>): set<int>
  {
    set x | x in s
  }

  /** `{0, 1, ..., n-1}`. */
  function Below(n: nat): (r: set<int>)
    ensures forall x :: x in r <==> 0 <= x < n
  {
    if n == 0 then {} else Below(n - 1) + {n - 1}
  }

  lemma {:induction false} BelowCard(n: nat)
    ensures |Below(n)| == n
  {
    if n > 0 {
      var smaller := Below(n - 1);
      BelowCard(n - 1);
      assert n - 1 !in smaller;
      assert Below(n) == smaller + {n - 1};
      assert |smaller + {n - 1}| == |smaller| + 1;
    }
  }

  /** A sequence without repeats has as many items as distinct values. */
  lemma {:induction false} DistinctCard(s: seq<int>)
    requires Distinct(s)
    ensures |Elements(s)| == |s|
  {
    if s != [] {
      DistinctCard(s[1..]);
      assert Elements(s) == {s[0]} + Elements(s[1..]);
      assert s[0] !in Elements(s[1..]);
    }
  }

  lemma TourElements(s: seq<int>, n: nat)
    requires IsTour(s, n)
    ensures Elements(s) == Below(n)
  {
    DistinctCard(s);
    BelowCard(n);
    assert Elements(s) <= Below(n);
    SubsetOfSameCard(Elements(s), Below(n));
  }

  lemma SubsetOfSameCard(a: set<int>, b: set<int>)
    requires a <= b && |a| == |b|
    ensures a == b
  {
    SplitCard(a, b);
    assert |b - a| == 0;
  }

  /** `b` splits into `a` and the rest. */
  lemma SplitCard(a: set<int>, b: set<int>)
    requires a <= b
    ensures |b| == |a| + |b - a|
  {
    assert b == a + (b - a);
    assert a * (b - a) == {};
  }

  lemma {:induction false} WithoutDistinct(a: seq<int>, b: seq<int>)
    requires Distinct(a)
    ensures Distinct(Without(a, b))
  {
    if a != [] {
      WithoutDistinct(a[1..], b);
      if a[0] !in b {
        var w := Without(a[1..], b);
        assert a[0] !in w by { assert a[0] !in a[1..]; }
        assert [a[0]] + w == Without(a, b);
      }
    }
  }

  lemma WithoutElements(a: seq<int>, b: seq<int>)
    ensures Elements(Without(a, b)) == Elements(a) - Elements(b)
  {
  }

  /** Order crossover: the first `cut` genes of the other parent, then the
      genes of this parent they do not contain, in this parent's order. */
  function OrderCrossover(self: seq<int>, other: seq<int>, cut: nat): (r: seq<int>)
    requires cut <= |other|
    ensures |r| >= cut && r[..cut] == other[..cut]
  {
    other[..cut] + Without(self, other[..cut])
  }

  /** The genes of a tour left after removing `p` from it. */
  lemma WithoutFromTour(self: seq<int>, p: seq<int>, n: nat)
    requires IsTour(self, n) && Distinct(p) && Elements(p) <= Below(n)
    ensures var w := Without(self, p);
      Distinct(w) && |w| == n - |p| && Elements(w) == Below(n) - Elements(p)
  {
    var w := Without(self, p);
    WithoutDistinct(self, p);
    WithoutElements(self, p);
    TourElements(self, n);
    DistinctCard(p);
    DistinctCard(w);
    SplitCard(Elements(p), Below(n));
    BelowCard(n);
  }

  lemma ConcatDistinct(p: seq<int>, w: seq<int>)
    requires Distinct(p) && Distinct(w) && Elements(p) * Elements(w) == {}
    ensures Distinct(p + w)
  {
    var r := p + w;
    forall i, j | 0 <= i < j < |r|
      ensures r[i] != r[j]
    {
      if j < |p| {
        assert r[i] == p[i] && r[j] == p[j];
      } else if i < |p| {
        assert r[i] == p[i] && r[i] in Elements(p);
        assert r[j] == w[j - |p|] && r[j] in Elements(w);
        assert r[j] !in Elements(p) * Elements(w);
      } else {
        assert r[i] == w[i - |p|] && r[j] == w[j - |p|];
      }
    }
  }

  /** Crossing two tours gives a tour, whatever the cut. */
  lemma OrderCrossoverIsTour(self: seq<int>, other: seq<int>, n: nat, cut: nat)
    requires IsTour(self, n) && IsTour(other, n) && cut <= n
    ensures IsTour(OrderCrossover(self, other, cut), n)
  {
    var p := other[..cut];
    var w := Without(self, p);
    assert Distinct(p);
    assert Elements(p) <= Below(n);
    WithoutFromTour(self, p, n);
    ConcatDistinct(p, w);
    var r := p + w;
    forall i | 0 <= i < |r|
      ensures 0 <= r[i] < n
    {
      if i >= cut {
        assert r[i] == w[i - cut] && r[i] in Elements(w);
      }
    }
  }

  /** `Without` distributes over concatenation. */
  lemma {:induction false} WithoutConcat(a: seq<int>, b: seq<int>, p: seq<int>)
    ensures Without(a + b, p) == Without(a, p) + Without(b, p)
  {
    if a != [] {
      WithoutConcat(a[1..], b, p);
      assert (a + b)[0] == a[0] && (a + b)[1..] == a[1..] + b;
    } else {
      assert a + b == b;
    }
  }

  /** Scanning one more item of `a`: it is kept exactly when `p` lacks it. */
  lemma WithoutSnoc(a: seq<int>, i: nat, p: seq<int>)
    requires i < |a|
    ensures Without(a[..i + 1], p) == Without(a[..i], p) + (if a[i] in p then [] else [a[i]])
  {
    assert a[..i + 1] == a[..i] + [a[i]];
    WithoutConcat(a[..i], [a[i]], p);
    assert [a[i]][1..] == [];
  }

  /** A prefix keeps no more items than the whole. */
  lemma WithoutPrefix(a: seq<int>, i: nat, p: seq<int>)
    requires i <= |a|
    ensures |Without(a[..i], p)| <= |Without(a, p)|
  {
    assert a == a[..i] + a[i..];
    WithoutConcat(a[..i], a[i..], p);
  }

  /** A sequence without repeats holds each value at most once. */
  lemma {:induction false} DistinctCounts(s: seq<int>)
    requires Distinct(s)
    ensures forall x :: multiset(s)[x] <= 1
  {
    if s != [] {
      DistinctCounts(s[1..]);
      assert s == [s[0]] + s[1..];
      assert s[0] !in multiset(s[1..]);
    }
  }

  /** Two equal cells make a value count twice. */
  lemma RepeatCounts(s: seq<int>, i: nat, j: nat)
    requires i < j < |s|
    ensures s[i] == s[j] ==> multiset(s)[s[i]] >= 2
  {
    assert s == s[..i] + [s[i]] + s[i + 1..j] + [s[j]] + s[j + 1..];
  }

  /** Rearranging a tour gives a tour. */
  lemma PermutationKeepsTour(a: seq<int>, b: seq<int>, n: nat)
    requires IsTour(a, n) && IsPermutationOf(b, a)
    ensures IsTour(b, n)
  {
    assert |b| == |multiset(b)| == |multiset(a)| == |a|;
    DistinctCounts(a);
    forall i, j | 0 <= i < j < |b|
      ensures b[i] != b[j]
    {
      RepeatCounts(b, i, j);
    }
    forall i | 0 <= i < |b|
      ensures 0 <= b[i] < n
    {
      assert b[i] in multiset(b);
      assert b[i] in a;
    }
  }

  /** `0, 1, ..., n-1` is itself a tour. */
  lemma RangeIsTour(n: nat)
    ensures IsTour(Range(n), n)
  {
  }
}

=== FILE: transport.dfy ===
/** The connection side of OpenCLGA/utilities/socketserverclient/server_client.py:
    one `MessageHandler` per socket (a framed send queue plus a receive
    buffer), the `socket_send` write loop, the per-socket receive step of
    `loop_for_connections`, and the server's handler registry.  Sockets,
    `select` and the sender threads are not modelled; what a socket returns
    is a parameter. */
module Transport {
  import opened Results
  import opened Bytes
  import opened Seqs
  import opened Framing

  /** What callers pass to `send`: a `str` or bytes. */
  datatype Message = Text(text: string) | Raw(raw: seq<byte>)

  /** `bytearray(msg, 'ASCII')` for a `str`, the bytes themselves otherwise;
      a non-ASCII `str` raises. */
  function MessageBytes(m: Message): (r: Option<seq<byte>>)
    ensures m.Raw? ==> r == Some(m.raw)
    ensures m.Text? ==> r == AsciiEncode(m.text)
  {
    match m
    case Text(s) => AsciiEncode(s)
    case Raw(b) => Some(b)
  }

  datatype Handler = Handler(queue: seq<byte>, recvBuf: seq<byte>, done: bool, socketOpen: bool, senderRunning: bool)

  /** A handler just built around an open socket. */
  const Fresh := Handler([], [], false, true, true)

  datatype Raised = UnicodeEncodeError

  /** `append_data_to_queue`: the queue grows by exactly one frame around the
      message's bytes. */
  function AppendToQueue(h: Handler, m: Message): (r: Result<Handler, Raised>)
    ensures r.Err? <==> MessageBytes(m).None?
    ensures r.Ok? ==> r.value == h.(queue := h.queue + Frame(MessageBytes(m).value))
  {
    match MessageBytes(m)
    case None => Err(UnicodeEncodeError)
    case Some(data) => Ok(h.(queue := h.queue + Prefix + data + Postfix))
  }

  /** `clear_data_queue`. */
  function ClearQueue(h: Handler): (r: Handler)
    ensures r.queue == [] && r.recvBuf == h.recvBuf && r.done == h.done
  {
    h.(queue := [])
  }

  /** `has_pending_data`. */
  predicate HasPending(h: Handler)
  {
    |h.queue| != 0
  }

  /** The queue holds nothing after a clear, and a frame after an append. */
  lemma PendingAfterClearAndAppend(h: Handler, m: Message)
    ensures !HasPending(ClearQueue(h))
    ensures AppendToQueue(h, m).Ok? ==> HasPending(AppendToQueue(h, m).value)
  {
  }

  /** `MessageHandler.shutdown`: the first call stops the sender and closes
      the socket; later calls do nothing. */
  function Shutdown(h: Handler): (r: Handler)
    ensures r.done && !r.socketOpen && !r.senderRunning
    ensures r.queue == h.queue && r.recvBuf == h.recvBuf
    ensures h.done ==> r == h.(socketOpen := r.socketOpen, senderRunning := r.senderRunning)
  {
    if h.done then h.(socketOpen := false, senderRunning := false)
    else h.(socketOpen := false, senderRunning := false, done := true)
  }

  /** `send_msg`: queue the message, unless the handler has shut down. */
  function SendMsg(h: Handler, m: Message): (r: Result<Handler, Raised>)
    ensures h.done ==> r == Ok(h)
    ensures !h.done ==> r == AppendToQueue(h, m)
  {
    if h.done then Ok(h) else AppendToQueue(h, m)
  }

  /** Shutting down twice is shutting down once, and a shut-down handler
      queues nothing more. */
  lemma ShutdownIsFinal(h: Handler, m: Message)
    ensures Shutdown(Shutdown(h)) == Shutdown(h)
    ensures SendMsg(Shutdown(h), m) == Ok(Shutdown(h))
  {
  }

  /** `socket_send`: write `data` with repeated `send` calls, each accepting
      up to `capacity[k]` bytes of what remains; a call that accepts nothing
      raises `RuntimeError`, which is caught and ends the write.  Returns the
      bytes that reached the socket and whether the write broke. */
  method SocketSend(data: seq<byte>, capacity: seq<nat>) returns (written: seq<byte>, broken: bool, calls: nat)
    requires |capacity| >= |data|
    ensures |written| <= |data| && written == data[..|written|]
    ensures calls <= |capacity|
    ensures !broken ==> written == data
    ensures broken ==> |written| < |data| && calls < |capacity| && capacity[calls] == 0
    ensures forall k :: 0 <= k < calls ==> capacity[k] > 0
  {
    var total := 0;
    written := [];
    broken := false;
    calls := 0;
    while total < |data|
      invariant 0 <= total <= |data|
      invariant calls <= total
      invariant written == data[..total]
      invariant forall k :: 0 <= k < calls ==> capacity[k] > 0
      decreases |data| - total
    {
      var remaining := |data| - total;
      var sent := if capacity[calls] < remaining then capacity[calls] else remaining;
      if sent == 0 {
        broken := true;
        return;
      }
      written := written + data[total..total + sent];
      total := total + sent;
      calls := calls + 1;
    }
  }

  /** What a readable socket produced: bytes, or an empty read or an error
      (both mean the peer has gone). */
  datatype Read = Bytes(data: seq<byte>) | Failed

  /** `_check_for_recv`: append the bytes when there are any. */
  function CheckForRecv(h: Handler, rd: Read): (r: (bool, Handler))
    ensures r.0 <==> rd.Bytes? && rd.data != []
    ensures r.0 ==> r.1 == h.(recvBuf := h.recvBuf + rd.data)
    ensures !r.0 ==> r.1 == h
  {
    if rd.Bytes? && rd.data != [] then (true, h.(recvBuf := h.recvBuf + rd.data)) else (false, h)
  }

  /** What one readable client socket leads to in the receive loop. */
  datatype Event =
    | Delivered(handler: Handler, msgs: seq<seq<byte>>)   // frames passed to the callback
    | Disconnected(handler: Handler)                      // dropped from the loop and shut down
    | LoopEnds(handler: Handler, msgs: seq<seq<byte>>)    // the prefix assertion raised

  /** One readable client socket: on data, extract and trim until no
      complete frame remains; on an empty read, shut the handler down. */
  function OnReadable(h: Handler, rd: Read): (r: Event)
    ensures !(rd.Bytes? && rd.data != []) <==> r.Disconnected?
    ensures r.Disconnected? ==> r.handler == Shutdown(h)
    ensures !r.Disconnected? ==>
              var d := Drain(h.recvBuf + rd.data);
              r.handler == h.(recvBuf := d.rest) && r.msgs == d.msgs && (r.LoopEnds? <==> d.failed)
  {
    var (ok, h1) := CheckForRecv(h, rd);
    if !ok then Disconnected(Shutdown(h))
    else
      var d := Drain(h1.recvBuf);
      if d.failed then LoopEnds(h1.(recvBuf := d.rest), d.msgs)
      else Delivered(h1.(recvBuf := d.rest), d.msgs)
  }

  /** Frames that arrive together in one read reach the receiver's
      callback unchanged and in order, leaving the buffer empty. */
  lemma {:induction false} QueuedFramesAreDelivered(payloads: seq<seq<byte>>)
    requires forall i :: 0 <= i < |payloads| ==> Carriable(payloads[i])
    requires payloads != []
    ensures OnReadable(Fresh, Bytes(Frames(payloads))) == Delivered(Fresh, payloads)
  {
    var bytes := Frames(payloads);
    assert Incomplete([]);
    DrainFrames(payloads, []);
    assert bytes + [] == bytes;
    assert Fresh.recvBuf + bytes == bytes;
    assert bytes != [];
    var d := Drain(bytes);
    assert d == Drained(payloads, [], false);
  }

  /** `Server`: the registry of client handlers, keyed by handler, each with
      the peer address it was accepted from. */
  datatype Server = Server(handlers: map<nat, Handler>, addrs: map<nat, string>)

  predicate WellFormed(s: Server)
  {
    s.handlers.Keys == s.addrs.Keys
  }

  /** `client_mh_creator`: wrap the accepted connection and register it
      under a fresh key. */
  function Register(s: Server, id: nat, addr: string): (r: Server)
    requires id !in s.handlers
    ensures r.handlers == s.handlers[id := Fresh] && r.addrs == s.addrs[id := addr]
    ensures WellFormed(s) ==> WellFormed(r)
  {
    Server(s.handlers[id := Fresh], s.addrs[id := addr])
  }

  /** `client_mh_remover`: `pop(mh, None)`, so an unknown key is fine. */
  function Unregister(s: Server, id: nat): (r: Server)
    ensures r.handlers == s.handlers - {id} && r.addrs == s.addrs - {id}
    ensures WellFormed(s) ==> WellFormed(r)
  {
    Server(s.handlers - {id}, s.addrs - {id})
  }

  /** `Server.send`: `send_msg` on every registered handler. */
  function Broadcast(s: Server, m: Message): (r: Result<Server, Raised>)
    ensures r.Err? <==> MessageBytes(m).None? && exists id :: id in s.handlers && !s.handlers[id].done
    ensures r.Ok? ==> r.value.addrs == s.addrs && r.value.handlers.Keys == s.handlers.Keys
    ensures r.Ok? ==> forall id :: id in s.handlers ==> Ok(r.value.handlers[id]) == SendMsg(s.handlers[id], m)
  {
    if MessageBytes(m).None? && exists id :: id in s.handlers && !s.handlers[id].done then Err(UnicodeEncodeError)
    else
      Ok(s.(handlers := map id | id in s.handlers :: if s.handlers[id].done then s.handlers[id] else s.handlers[id].(queue := s.handlers[id].queue + Frame(MessageBytes(m).value))))
  }

  /** A registered, live handler receives every broadcast frame; an
      unregistered one receives nothing. */
  lemma BroadcastReachesRegistered(s: Server, id: nat, addr: string, m: Message)
    requires id !in s.handlers
    requires MessageBytes(m).Some?
    ensures var r := Broadcast(Register(s, id, addr), m);
      r.Ok? && r.value.handlers[id].queue == Frame(MessageBytes(m).value)
    ensures var r := Broadcast(Unregister(s, id), m);
      r.Ok? && id !in r.value.handlers
  {
  }

  /** A readable client socket on the server: a peer that has gone is
      dropped from the registry (`mh_remover`) and its handler shut down;
      otherwise the handler keeps its trimmed receive buffer. */
  function ServerReceive(s: Server, id: nat, rd: Read): (r: (Server, Event))
    requires id in s.handlers
    ensures r.1 == OnReadable(s.handlers[id], rd)
    ensures r.1.Disconnected? ==> id !in r.0.handlers && r.0.handlers == s.handlers - {id}
    ensures !r.1.Disconnected? ==> r.0.handlers == s.handlers[id := r.1.handler] && r.0.addrs == s.addrs
  {
    var ev := OnReadable(s.handlers[id], rd);
    if ev.Disconnected? then (Unregister(s, id), ev)
    else (s.(handlers := s.handlers[id := ev.handler]), ev)
  }

  /** `Server.shutdown`: every client handler is shut down and popped;
      returns the emptied registry and the closed handlers. */
  function ShutdownServer(s: Server): (r: (Server, map<nat, Handler>))
    ensures r.0.handlers == map[] && r.0.addrs == map[]
    ensures r.1.Keys == s.handlers.Keys
    ensures forall id :: id in r.1 ==> r.1[id].done && !r.1[id].socketOpen && r.1[id].queue == s.handlers[id].queue
  {
    (Server(map[], map[]), map id | id in s.handlers :: Shutdown(s.handlers[id]))
  }
}

=== FILE: websocket.dfy ===
/** The vendored WebSocket request handler: frame header and length
    encoding (section 5.2 of RFC 6455), unmasking (section 5.3 of RFC 6455),
    the close frame (section 5.5.1 of RFC 6455), and the connection flags
    that `_ws_close` and `_on_message` maintain. */
module WebSocket {
  import opened Results
  import opened Bytes
  import Seqs

  const OpContinuation: nat := 0x0
  const OpText: nat := 0x1
  const OpBinary: nat := 0x2
  const OpClose: nat := 0x8
  const OpPing: nat := 0x9
  const OpPong: nat := 0xA

  /** 2^64: lengths at or above it do not fit `struct.pack('>Q', ...)`. */
  const U64: nat := 0x1_0000_0000_0000_0000

  lemma Pow256Widths()
    ensures Pow256(2) == 65536
    ensures Pow256(8) == U64
  {
  }

  /** The Python values `_send_impl` is handed. */
  datatype Sendable =
    | IntVal(v: nat)
    | BytesVal(b: seq<byte>)
    | StrVal(s: string)
    | ByteArrayVal(b: seq<byte>)

  /** The bytes a value stands for once converted with `bytes(...)`/`encode()`. */
  function Content(m: Sendable): seq<byte>
    requires m.IntVal? ==> m.v < 256
  {
    match m
    case IntVal(v) => [B(v)]
    case BytesVal(b) => b
    case StrVal(s) => Utf8Encode(s)
    case ByteArrayVal(b) => b
  }

  /** `_send_impl` as written: `int`, `bytes` and `str` are converted, and any
      other type, `bytearray` included, leaves the initial empty `bytearray()`
      to be sent. */
  function SendImplAsWritten(m: Sendable): (r: seq<byte>)
    requires m.IntVal? ==> m.v < 256
    ensures !m.ByteArrayVal? ==> r == Content(m)
    ensures m.ByteArrayVal? ==> r == []
  {
    match m
    case IntVal(v) => [B(v)]
    case BytesVal(b) => b
    case StrVal(s) => Utf8Encode(s)
    case ByteArrayVal(_) => []
  }

  /** `_send_impl` with a `bytearray` branch: every value is sent as its bytes. */
  function SendImpl(m: Sendable): (r: seq<byte>)
    requires m.IntVal? ==> m.v < 256
    ensures r == Content(m)
    ensures !m.ByteArrayVal? ==> r == SendImplAsWritten(m)
  {
    match m
    case IntVal(v) => [B(v)]
    case BytesVal(b) => b
    case StrVal(s) => Utf8Encode(s)
    case ByteArrayVal(b) => b
  }

  /** An outgoing message: `send_message` is handed a `str` or `bytes`. */
  datatype Message = Text(text: string) | Binary(data: seq<byte>)

  function AsSendable(m: Message): Sendable
  {
    match m
    case Text(s) => StrVal(s)
    case Binary(b) => BytesVal(b)
  }

  /** The bytes `_send_impl(message)` puts on the wire. */
  function PayloadBytes(m: Message): (r: seq<byte>)
    ensures r == SendImpl(AsSendable(m))
  {
    match m
    case Text(s) => Utf8Encode(s)
    case Binary(b) => b
  }

  /** `len(message)`: characters for `str`, bytes for `bytes`. */
  function PyLen(m: Message): (r: nat)
    ensures m.Binary? ==> r == |PayloadBytes(m)|
    ensures m.Text? ==> r <= |PayloadBytes(m)|
  {
    match m
    case Text(s) => |s|
    case Binary(b) => |b|
  }

  /** The seven-bit length of the second header byte: the length itself up
      to 125, else 126 or 127 announcing a 2- or 8-byte extension. */
  function LengthByte(n: nat): (r: byte)
    ensures r < 0x80
    ensures r as nat <= 125 <==> n <= 125
  {
    if n <= 125 then B(n) else if n <= 65535 then B(126) else B(127)
  }

  /** The extended payload length that follows the second header byte. */
  function ExtendedLength(n: nat): (r: seq<byte>)
    requires n < U64
    ensures |r| == if n <= 125 then 0 else if n <= 65535 then 2 else 8
  {
    Pow256Widths();
    if n <= 125 then [] else if n <= 65535 then ToBE(n, 2) else ToBE(n, 8)
  }

  /** The length field of a frame sent by the server (mask bit clear). */
  function LengthField(n: nat): (r: seq<byte>)
    requires n < U64
  {
    [LengthByte(n)] + ExtendedLength(n)
  }

  /** The wire output of `_send_message`; `failed` when an exception aborted it
      part-way, after which `_ws_close` runs. */
  datatype Sent = Sent(wire: seq<byte>, failed: bool)

  /** `_send_message` as written: the header carries `len(message)`. */
  function SendMessageAsWritten(opcode: nat, m: Message): (r: Sent)
    requires opcode < 16
    ensures r.failed <==> PyLen(m) >= U64
    ensures r.failed ==> r.wire == [B(0x80 + opcode), B(127)]
    ensures !r.failed ==> r.wire == [B(0x80 + opcode)] + LengthField(PyLen(m)) + PayloadBytes(m)
  {
    var n := PyLen(m);
    var head := SendImpl(IntVal(0x80 + opcode));
    if n >= U64 then Sent(head + [B(127)], true)
    else Sent(head + LengthField(n) + (if n > 0 then PayloadBytes(m) else []), false)
  }

  /** `_send_message` with the header carrying the length of the bytes sent. */
  function SendMessage(opcode: nat, m: Message): (r: Sent)
    requires opcode < 16
    ensures r.failed <==> |PayloadBytes(m)| >= U64
    ensures m.Binary? || IsAscii(m.text) ==> r == SendMessageAsWritten(opcode, m)
  {
    var payload := PayloadBytes(m);
    var n := |payload|;
    var head := SendImpl(IntVal(0x80 + opcode));
    if n >= U64 then Sent(head + [B(127)], true)
    else Sent(head + LengthField(n) + (if n > 0 then payload else []), false)
  }

  /** A decoding failure of the reader: `ord(b'')` raises `TypeError` and a
      short `struct.unpack` raises `struct.error`. */
  datatype ReadError = TypeError | StructError

  /** Reads the length field starting at the second header byte, ignoring the
      mask bit; yields the length and how many bytes it took. */
  function ReadLength(s: seq<byte>): (r: Result<(nat, nat), ReadError>)
    requires |s| >= 1
    ensures r.Ok? ==> 1 <= r.value.1 <= |s|
    ensures r.Err? ==> r.error == StructError
  {
    var l := s[0] & 0x7F;
    if l == 126 then
      if |s| < 3 then Err(StructError) else Ok((FromBE(s[1..3]), 3))
    else if l == 127 then
      if |s| < 9 then Err(StructError) else Ok((FromBE(s[1..9]), 9))
    else Ok((l as nat, 1))
  }

  /** The unmasking loop of `_read_next_message`, one byte appended at a time:
      byte `i` is XORed with mask byte `i % 4`. */
  function Unmask(data: seq<byte>, mask: seq<byte>): (r: seq<byte>)
    requires data == [] || |mask| == 4
    ensures |r| == |data|
  {
    if data == [] then []
    else
      var last := |data| - 1;
      Unmask(data[..last], mask) + [data[last] ^ mask[last % 4]]
  }

  /** Byte `i` of the unmasked data is byte `i` of the data XOR mask byte
      `i % 4`. */
  lemma {:induction false} UnmaskBytes(data: seq<byte>, mask: seq<byte>)
    requires |mask| == 4
    ensures forall i :: 0 <= i < |data| ==> Unmask(data, mask)[i] == data[i] ^ mask[i % 4]
  {
    if data != [] {
      var last := |data| - 1;
      UnmaskBytes(data[..last], mask);
      assert forall i :: 0 <= i < last ==> data[..last][i] == data[i];
    }
  }

  /** A decoded message and the stream left after it. */
  datatype Decoded = Decoded(opcode: nat, message: seq<byte>, rest: seq<byte>)

  /** `_read_next_message` on the bytes the socket will still deliver: the
      opcode, the length, always four mask bytes, then as many payload bytes
      as arrive (fewer than announced only at end of stream). */
  function ReadNextMessage(stream: seq<byte>): (r: Result<Decoded, ReadError>)
    ensures r.Ok? ==> r.value.opcode < 16 && |r.value.rest| + 2 <= |stream|
    ensures |stream| < 2 ==> r == Err(ReadError.TypeError)
  {
    if |stream| < 2 then Err(ReadError.TypeError)
    else
      match ReadLength(stream[1..])
      case Err(e) => Err(e)
      case Ok((len, used)) =>
        var at := 1 + used;
        var mask := Seqs.PySlice(stream, at, at + 4);
        var data := Seqs.PySlice(stream, at + 4, at + 4 + len);
        var stop := if at + 4 + len <= |stream| then at + 4 + len else |stream|;
        assert data != [] ==> |mask| == 4;
        Ok(Decoded((stream[0] & 0x0F) as nat, Unmask(data, mask), stream[stop..]))
  }

  /** A frame as a client must send it: FIN set, mask bit set, the masking key
      and the masked payload. */
  function ClientFrame(opcode: nat, mask: seq<byte>, payload: seq<byte>): (r: seq<byte>)
    requires opcode < 16 && |mask| == 4 && |payload| < U64
  {
    [B(0x80 + opcode)] + ([LengthByte(|payload|) | 0x80] + ExtendedLength(|payload|))
      + mask + Unmask(payload, mask)
  }

  /** A frame parsed the way section 5.2 of RFC 6455 lays it out. */
  datatype Frame = Frame(fin: bool, opcode: nat, masked: bool, payload: seq<byte>)

  /** The reference reader of a peer: `None` while the frame is incomplete. */
  function ParseFrame(s: seq<byte>): (r: Option<(Frame, seq<byte>)>)
    ensures r.Some? ==> |r.value.1| < |s|
  {
    if |s| < 2 then None
    else
      match ReadLength(s[1..])
      case Err(_) => None
      case Ok((len, used)) =>
        var masked := s[1] & 0x80 != 0;
        var at := 1 + used + (if masked then 4 else 0);
        if |s| < at + len then None
        else
          var data := s[at..at + len];
          var payload := if masked then Unmask(data, s[1 + used..at]) else data;
          Some((Frame(s[0] & 0x80 != 0, (s[0] & 0x0F) as nat, masked, payload), s[at + len..]))
  }

  /** Connection flags of one handler, the bytes it has sent, how often
      `on_ws_closed` ran and the messages handed to `on_ws_message`. */
  datatype Conn = Conn(
    connected: bool,
    closeConnection: bool,
    wire: seq<byte>,
    closedNotices: nat,
    delivered: seq<seq<byte>>)

  /** The two bytes `_send_close` puts into its `bytearray`. */
  function CloseBytes(): seq<byte>
  {
    [B(0x80 + OpClose), B(0x00)]
  }

  /** `_send_close` as written: the `bytearray` falls through `_send_impl`. */
  function SendCloseAsWritten(): (r: seq<byte>)
    ensures r == [] && |CloseBytes()| == 2
  {
    SendImplAsWritten(ByteArrayVal(CloseBytes()))
  }

  /** `_send_close` with `SendImpl` sending the `bytearray`. */
  function SendClose(): (r: seq<byte>)
    ensures r == CloseBytes() && r == [0x88, 0x00]
  {
    SendImpl(ByteArrayVal(CloseBytes()))
  }

  /** Which `_send_impl` the handler runs: the code as written, whose close
      frame falls through and sends nothing, or the corrected one that sends
      the `bytearray`. */
  datatype Build = AsWritten | Corrected

  /** What `_send_close` puts on the wire under each build. */
  function CloseWire(b: Build): seq<byte>
  {
    match b
    case AsWritten => SendCloseAsWritten()
    case Corrected => SendClose()
  }

  /** `_ws_close`: only a connected handler changes; the close frame it sends
      is nothing as written and `[0x88, 0x00]` when corrected. */
  function WsClose(b: Build, c: Conn): (r: Conn)
    ensures !r.connected
    ensures c.connected ==> r.closeConnection && r.closedNotices == c.closedNotices + 1
    ensures c.connected && b.AsWritten? ==> r.wire == c.wire
    ensures c.connected && b.Corrected? ==> r.wire == c.wire + [0x88, 0x00]
    ensures !c.connected ==> r == c
    ensures r.delivered == c.delivered
  {
    if c.connected then
      c.(connected := false, closeConnection := true, wire := c.wire + CloseWire(b),
         closedNotices := c.closedNotices + 1)
    else c
  }

  /** `_on_message` for every opcode but ping (see the module's README entry). */
  function OnMessage(b: Build, c: Conn, opcode: nat, message: seq<byte>): (r: Conn)
    requires opcode != OpPing
    ensures opcode == OpClose ==> !r.connected && r.closeConnection && r.closedNotices == c.closedNotices + 1
    ensures opcode == OpClose && b.AsWritten? ==> r.wire == c.wire
    ensures opcode == OpClose && b.Corrected? ==> r.wire == c.wire + [0x88, 0x00]
    ensures opcode in {OpContinuation, OpText, OpBinary} <==> r.delivered == c.delivered + [message]
    ensures opcode !in {OpContinuation, OpText, OpBinary} ==> r.delivered == c.delivered
    ensures opcode != OpClose ==> r == c.(delivered := r.delivered)
  {
    if opcode == OpClose then
      c.(connected := false, closeConnection := true, wire := c.wire + CloseWire(b),
         closedNotices := c.closedNotices + 1)
    else if opcode == OpPong then c
    else if opcode == OpContinuation || opcode == OpText || opcode == OpBinary then
      c.(delivered := c.delivered + [message])
    else c
  }

  /** One pass of `_read_messages`: a decoding failure while connected becomes
      `WebSocketError` and closes the connection; while disconnected it is
      ignored. A ping reaches an unbound name in `_on_message`, and the
      resulting exception closes the connection as well. */
  function ReadStep(b: Build, c: Conn, stream: seq<byte>): (r: (Conn, seq<byte>))
    ensures |r.1| <= |stream|
  {
    match ReadNextMessage(stream)
    case Err(_) => (if c.connected then WsClose(b, c) else c, [])
    case Ok(d) =>
      if d.opcode == OpPing then (WsClose(b, c), d.rest)
      else (OnMessage(b, c, d.opcode, d.message), d.rest)
  }

  /** The first byte `0x80 + opcode` has FIN set and carries the opcode in its
      low four bits. */
  lemma HeaderByte(opcode: nat)
    requires opcode < 16
    ensures (B(0x80 + opcode) & 0x0F) as nat == opcode
    ensures B(0x80 + opcode) & 0x80 != 0
  {
    var b := B(opcode);
    assert B(0x80 + opcode) == b | 0x80 by {
      assert (b | 0x80) as nat == b as nat + 0x80 by {
        assert b < 16;
      }
    }
    assert (b | 0x80) & 0x0F == b;
  }

  /** Setting the mask bit on a length byte below 128 does not change the
      length the reader sees; a byte below 128 has the mask bit clear. */
  lemma MaskBitIgnored(b: byte)
    requires b < 0x80
    ensures (b | 0x80) & 0x7F == b && (b | 0x80) & 0x80 != 0
    ensures b & 0x7F == b && b & 0x80 == 0
  {
  }

  /** Reading back the length field, with or without the mask bit, gives the
      length and the field's size. */
  lemma LengthFieldRoundTrip(n: nat, first: byte, rest: seq<byte>)
    requires n < U64 && first & 0x7F == LengthByte(n)
    ensures ReadLength([first] + ExtendedLength(n) + rest) == Ok((n, 1 + |ExtendedLength(n)|))
  {
    Pow256Widths();
    var ext := ExtendedLength(n);
    var s := [first] + ext + rest;
    UnmaskedLayout(first, [], ext, rest);
    assert s[1..1 + |ext|] == ext;
    if n <= 125 {
    } else if n <= 65535 {
      FromToBE(n, 2);
    } else {
      FromToBE(n, 8);
    }
  }

  /** Unmasking twice with the same key is the identity (section 5.3 of
      RFC 6455: the same operation masks and unmasks). */
  lemma UnmaskInvolution(data: seq<byte>, mask: seq<byte>)
    requires |mask| == 4
    ensures Unmask(Unmask(data, mask), mask) == data
  {
    var once := Unmask(data, mask);
    var twice := Unmask(once, mask);
    UnmaskBytes(data, mask);
    UnmaskBytes(once, mask);
    forall i | 0 <= i < |data|
      ensures twice[i] == data[i]
    {
      assert twice[i] == (data[i] ^ mask[i % 4]) ^ mask[i % 4];
    }
  }

  /** Where the parts of a masked frame sit in the stream. */
  lemma MaskedLayout(head: byte, field: seq<byte>, mask: seq<byte>, data: seq<byte>, rest: seq<byte>)
    requires |mask| == 4
    ensures var s := [head] + field + mask + data + rest; var at := 1 + |field|;
      && s[1..] == field + (mask + data + rest)
      && Seqs.PySlice(s, at, at + 4) == mask
      && Seqs.PySlice(s, at + 4, at + 4 + |data|) == data
      && s[at + 4 + |data|..] == rest
  {
    var s := [head] + field + mask + data + rest;
    assert s[1 + |field|..] == mask + data + rest;
  }

  /** Where the parts of an unmasked frame sit in the stream. */
  lemma UnmaskedLayout(head: byte, field: seq<byte>, data: seq<byte>, rest: seq<byte>)
    ensures var s := [head] + field + data + rest; var at := 1 + |field|;
      && s[1..] == field + (data + rest)
      && s[at..at + |data|] == data
      && s[at + |data|..] == rest
  {
    var s := [head] + field + data + rest;
    assert s[1 + |field|..] == data + rest;
  }

  /** The reader on a stream laid out as header byte, length field, key,
      masked payload and what follows. */
  lemma ReadFramed(head: byte, field: seq<byte>, mask: seq<byte>, data: seq<byte>, rest: seq<byte>)
    requires |field| >= 1 && |mask| == 4
    requires ReadLength(field + (mask + data + rest)) == Ok((|data|, |field|))
    ensures ReadNextMessage([head] + field + mask + data + rest)
      == Ok(Decoded((head & 0x0F) as nat, Unmask(data, mask), rest))
  {
    MaskedLayout(head, field, mask, data, rest);
  }

  /** The reference reader on a stream laid out as header byte, length field
      with the mask bit clear, payload and what follows. */
  lemma ParseFramed(head: byte, field: seq<byte>, data: seq<byte>, rest: seq<byte>)
    requires |field| >= 1 && field[0] & 0x80 == 0
    requires ReadLength(field + (data + rest)) == Ok((|data|, |field|))
    ensures ParseFrame([head] + field + data + rest)
      == Some((Frame(head & 0x80 != 0, (head & 0x0F) as nat, false, data), rest))
  {
    UnmaskedLayout(head, field, data, rest);
  }

  /** The reader decodes a masked client frame to its opcode and payload and
      leaves whatever follows it. */
  lemma ReadClientFrame(opcode: nat, mask: seq<byte>, payload: seq<byte>, rest: seq<byte>)
    requires opcode < 16 && |mask| == 4 && |payload| < U64
    ensures ReadNextMessage(ClientFrame(opcode, mask, payload) + rest) == Ok(Decoded(opcode, payload, rest))
  {
    var n := |payload|;
    var masked := Unmask(payload, mask);
    var head := B(0x80 + opcode);
    var field := [LengthByte(n) | 0x80] + ExtendedLength(n);
    assert ReadLength(field + (mask + masked + rest)) == Ok((|masked|, |field|)) by {
      MaskBitIgnored(LengthByte(n));
      LengthFieldRoundTrip(n, LengthByte(n) | 0x80, mask + masked + rest);
      assert field + (mask + masked + rest) == [LengthByte(n) | 0x80] + ExtendedLength(n) + (mask + masked + rest);
    }
    assert ClientFrame(opcode, mask, payload) + rest == [head] + field + mask + masked + rest;
    ReadFramed(head, field, mask, masked, rest);
    assert (head & 0x0F) as nat == opcode by {
      HeaderByte(opcode);
    }
    assert Unmask(masked, mask) == payload by {
      UnmaskInvolution(payload, mask);
    }
  }

  /** A peer reads an unmasked server frame back as FIN, the opcode and the
      payload, followed by the rest of the stream. */
  lemma ParseServerFrame(opcode: nat, p: seq<byte>, rest: seq<byte>)
    requires opcode < 16 && |p| < U64
    ensures ParseFrame([B(0x80 + opcode)] + LengthField(|p|) + p + rest)
      == Some((Frame(true, opcode, false, p), rest))
  {
    var n := |p|;
    var f := LengthField(n);
    assert f[0] & 0x80 == 0 && ReadLength(f + (p + rest)) == Ok((|p|, |f|)) by {
      MaskBitIgnored(LengthByte(n));
      LengthFieldRoundTrip(n, LengthByte(n), p + rest);
      assert f + (p + rest) == [LengthByte(n)] + ExtendedLength(n) + (p + rest);
    }
    ParseFramed(B(0x80 + opcode), f, p, rest);
    assert B(0x80 + opcode) & 0x80 != 0 && (B(0x80 + opcode) & 0x0F) as nat == opcode by {
      HeaderByte(opcode);
    }
  }

  /** The wire output of `SendMessage` for a payload that fits the length
      field: header byte, length field, payload. */
  lemma SendMessageWire(opcode: nat, m: Message)
    requires opcode < 16 && |PayloadBytes(m)| < U64
    ensures SendMessage(opcode, m)
      == Sent([B(0x80 + opcode)] + LengthField(|PayloadBytes(m)|) + PayloadBytes(m), false)
  {
  }

  /** A peer reading a frame sent by the model's `SendMessage` gets FIN set,
      the opcode, no mask and exactly the payload bytes, followed by the rest
      of the stream. */
  lemma SendMessageFrames(opcode: nat, m: Message, rest: seq<byte>)
    requires opcode < 16 && |PayloadBytes(m)| < U64
    ensures ParseFrame(SendMessage(opcode, m).wire + rest)
      == Some((Frame(true, opcode, false, PayloadBytes(m)), rest))
  {
    SendMessageWire(opcode, m);
    ParseServerFrame(opcode, PayloadBytes(m), rest);
  }

  /** The bytes the handler as written sends for the one-character text
      "é": a header announcing one byte, then the character's two UTF-8
      bytes. */
  lemma EAcuteWire()
    ensures PayloadBytes(Text("\U{e9}")) == [0xC3, 0xA9]
    ensures SendMessageAsWritten(OpText, Text("\U{e9}")).wire == [0x81, 0x01, 0xC3, 0xA9]
  {
    ByteOfValue(0xC3);
    ByteOfValue(0xA9);
    ByteOfValue(0x81);
    ByteOfValue(0x01);
    assert Utf8Encode("\U{e9}") == Utf8Char('\U{e9}');
  }

  /** What a peer reads from the handler as written for the text "é": the
      header announces one byte while two payload bytes follow, so it reads
      a one-byte message and takes the second byte as the next frame's
      start. With the length of the bytes sent it reads both. */
  lemma TextLengthCountsCharacters()
    ensures ParseFrame(SendMessageAsWritten(OpText, Text("\U{e9}")).wire)
      == Some((Frame(true, OpText, false, [0xC3]), [0xA9]))
    ensures ParseFrame(SendMessage(OpText, Text("\U{e9}")).wire)
      == Some((Frame(true, OpText, false, [0xC3, 0xA9]), []))
  {
    EAcuteWire();
    var wire: seq<byte> := [0x81, 0x01, 0xC3, 0xA9];
    assert ParseFrame(wire) == Some((Frame(true, OpText, false, [0xC3]), [0xA9])) by {
      var head: byte := 0x81;
      assert head & 0x80 != 0 && (head & 0x0F) as nat == OpText;
      assert ReadLength([0x01] + ([0xC3] + [0xA9])) == Ok((1, 1));
      ParseFramed(head, [0x01], [0xC3], [0xA9]);
      assert [head] + [0x01] + [0xC3] + [0xA9] == wire;
    }
    var w := SendMessage(OpText, Text("\U{e9}")).wire;
    SendMessageFrames(OpText, Text("\U{e9}"), []);
    assert w + [] == w;
  }

  /** As written, `_send_close` puts nothing on the wire. */
  lemma CloseAsWrittenSendsNothing()
    ensures SendCloseAsWritten() == []
  {
  }

  /** The close frame is exactly `[0x88, 0x00]`: FIN, opcode close, no mask and
      an empty body (section 5.5.1 of RFC 6455). */
  lemma CloseFrameIsRfcClose()
    ensures SendClose() == [0x88, 0x00]
    ensures ParseFrame(SendClose()) == Some((Frame(true, OpClose, false, []), []))
  {
    var s := SendClose();
    assert s == [0x88, 0x00];
    assert ReadLength([0x00] + ([] + [])) == Ok((0, 1));
    HeaderByte(OpClose);
    ParseFramed(0x88, [0x00], [], []);
    assert [0x88] + [0x00] + [] + [] == s;
  }

  /** A second `_ws_close` does nothing. */
  lemma WsCloseIdempotent(b: Build, c: Conn)
    ensures WsClose(b, WsClose(b, c)) == WsClose(b, c)
    ensures WsClose(b, c).closedNotices <= c.closedNotices + 1
  {
  }

  /** A data frame from the client reaches `on_ws_message` with its unmasked
      payload; a close frame ends the connection and, as written, answers
      with nothing, while the corrected handler answers with the close
      frame. */
  lemma ReadStepOnClientFrames(b: Build, c: Conn, opcode: nat, mask: seq<byte>, payload: seq<byte>, rest: seq<byte>)
    requires opcode < 16 && opcode != OpPing && |mask| == 4 && |payload| < U64
    ensures var r := ReadStep(b, c, ClientFrame(opcode, mask, payload) + rest);
      && r.1 == rest
      && (opcode in {OpContinuation, OpText, OpBinary} ==> r.0 == c.(delivered := c.delivered + [payload]))
      && (opcode == OpClose ==> !r.0.connected && r.0.closeConnection && r.0.delivered == c.delivered)
      && (opcode == OpClose && b.AsWritten? ==> r.0.wire == c.wire)
      && (opcode == OpClose && b.Corrected? ==> r.0.wire == c.wire + [0x88, 0x00])
  {
    ReadClientFrame(opcode, mask, payload, rest);
  }

  /** At the end of the stream a connected handler closes and a closed one
      stays as it is. */
  lemma ReadStepAtEndOfStream(b: Build, c: Conn)
    ensures ReadStep(b, c, []) == (WsClose(b, c), [])
  {
  }
}

=== FILE: worker.dfy ===
/** The worker side (OpenCLGA/ocl_ga_client.py): `OpenCLGAWorker` turns the
    control node's commands into calls on its engine and sends reports back;
    `OpenCLGAClient` creates one worker per OpenCL device and lives while
    every worker does. The engine's own behaviour is modelled in `Engine`;
    here it is seen only through the calls made on it. */
module Worker {
  import opened Results
  import opened ControlNode
  import Elites
  import Lifecycle
  import Evolution

  /** A call the worker makes on its `OpenCLGA` engine. */
  datatype EngineCall =
    | Prepare(options: Options)
    | Pause
    | Stop
    | Restore(file: Option<string>)
    | Save(file: Option<string>)
    | GetBest
    | GetStatistics
    | Run(probMutate: Value, probCross: Value)
    | UpdateElites(elites: seq<Elites.Elite>)

  /** What the worker logs instead of acting. */
  datatype LogLine = NeedsEngine(command: string) | UnknownCommand(command: string) | Traceback

  /** The engine's answers to `get_the_best` and `get_statistics`, as the
      strings the reports carry, and for which options the `OpenCLGA`
      constructor returns (it raises, for example, `KeyError` on options
      without a termination). */
  datatype Answers = Answers(best: string, statistics: string, constructs: Options -> bool)

  /** The worker process: `engine` stands for `ocl_ga != None`, `client` for
      `client != None`, `exitSet` for the exit event, and `machine` for the
      state of the engine's lifecycle machine. */
  datatype Worker = Worker(
    id: string,
    engine: bool,
    client: bool,
    exitSet: bool,
    machine: Lifecycle.State,
    calls: seq<EngineCall>,
    outbox: seq<Report>,
    log: seq<LogLine>)

  /** `__send`: queue the report on the socket client, if there is one. */
  function Send(w: Worker, r: Report): (v: Worker)
    ensures w.client ==> v.outbox == w.outbox + [r]
    ensures !w.client ==> v == w
    ensures v.(outbox := w.outbox) == w
  {
    if w.client then w.(outbox := w.outbox + [r]) else w
  }

  /** `__send` of several reports, in order. */
  function SendAll(w: Worker, rs: seq<Report>): (v: Worker)
    ensures w.client ==> v.outbox == w.outbox + rs
    ensures !w.client ==> v == w
    ensures v.(outbox := w.outbox) == w
  {
    if w.client then w.(outbox := w.outbox + rs) else w
  }

  /** The `stateChanged` reports `_state_changed` sends, one per state. */
  function StateReports(id: string, states: seq<Lifecycle.State>): (r: seq<Report>)
    ensures |r| == |states|
    ensures forall i :: 0 <= i < |r| ==> r[i] == StateChanged(id, states[i])
  {
    if states == [] then [] else [StateChanged(id, states[0])] + StateReports(id, states[1 ..])
  }

  /** The action `EnterExit` issues for a call: the six decorated methods
      issue their own name; the getters and `update_elites` are not
      decorated and leave the machine alone. */
  function Decoration(c: EngineCall): (r: Option<Lifecycle.Action>)
    ensures r != Some(Lifecycle.Done)
    ensures r.None? <==> c.GetBest? || c.GetStatistics? || c.UpdateElites?
  {
    match c
    case Prepare(_) => Some(Lifecycle.Prepare)
    case Pause => Some(Lifecycle.Pause)
    case Stop => Some(Lifecycle.Stop)
    case Restore(_) => Some(Lifecycle.Restore)
    case Save(_) => Some(Lifecycle.Save)
    case Run(_, _) => Some(Lifecycle.Run)
    case _ => None
  }

  /** The lifecycle effect of a call made from machine state `s`. The worker
      always registers its `state` callback (ocl_ga_client.py:134-135). */
  function Step(s: Lifecycle.State, c: EngineCall, raises: bool): (r: Lifecycle.Call)
    ensures Decoration(c).None? ==> r.state == s && r.notified == []
    ensures Decoration(c).Some? ==> r == Lifecycle.Wrapped(s, Decoration(c).value, raises, true)
  {
    match Decoration(c)
    case None => Lifecycle.Call(s, [], raises)
    case Some(a) => Lifecycle.Wrapped(s, a, raises, true)
  }

  /** The commands refused while no engine exists. */
  const Guarded: set<string> := {"pause", "stop", "restore", "best", "save", "statistics", "elites"}

  /** Every command the dispatch has a branch for. */
  const Handled: set<string> := Guarded + {"prepare", "run", "exit"}

  /** An engine call made inside the `try`: a decorated call moves the
      machine and, through the `state` callback, reports every state it
      enters, even when its body then raises; when the call raises, the rest
      of the branch is skipped and the traceback is logged. */
  function Call(w: Worker, c: EngineCall, raises: bool): (v: Worker)
    ensures v.calls == w.calls + [c]
    ensures raises <==> v.log == w.log + [Traceback]
    ensures !raises ==> v.log == w.log
    ensures v.machine == Step(w.machine, c, raises).state
    ensures w.client ==> v.outbox == w.outbox + StateReports(w.id, Step(w.machine, c, raises).notified)
    ensures !w.client ==> v.outbox == w.outbox
    ensures v.(calls := w.calls, log := w.log, machine := w.machine, outbox := w.outbox) == w
  {
    var step := Step(w.machine, c, raises);
    SendAll(w, StateReports(w.id, step.notified))
      .(calls := w.calls + [c], log := if raises then w.log + [Traceback] else w.log, machine := step.state)
  }

  /** The branch of the dispatch a command name selects. */
  datatype Branch =
    | PrepareBranch | PauseBranch | StopBranch | RestoreBranch | SaveBranch
    | BestBranch | StatisticsBranch | RunBranch | ElitesBranch | ExitBranch
    | UnknownBranch

  predicate NeedsEngineBranch(b: Branch)
  {
    b in {PauseBranch, StopBranch, RestoreBranch, SaveBranch, BestBranch, StatisticsBranch, ElitesBranch}
  }

  /** The `if cmd == ...` chain, read as a lookup from name to branch. */
  function BranchOf(c: string): (b: Branch)
    ensures b.UnknownBranch? <==> c !in Handled
    ensures NeedsEngineBranch(b) <==> c in Guarded
    ensures b.PrepareBranch? <==> c == "prepare"
    ensures b.ExitBranch? <==> c == "exit"
    ensures b.RunBranch? <==> c == "run"
    ensures b.SaveBranch? <==> c == "save"
    ensures b.BestBranch? <==> c == "best"
    ensures b.StatisticsBranch? <==> c == "statistics"
  {
    if c == "prepare" then PrepareBranch
    else if c == "pause" then PauseBranch
    else if c == "stop" then StopBranch
    else if c == "restore" then RestoreBranch
    else if c == "save" then SaveBranch
    else if c == "best" then BestBranch
    else if c == "statistics" then StatisticsBranch
    else if c == "run" then RunBranch
    else if c == "elites" then ElitesBranch
    else if c == "exit" then ExitBranch
    else UnknownBranch
  }

  /** `_process_data` for one command: the guard, then the dispatch inside a
      `try` that swallows every exception. `raises` says whether the engine
      call raises; a payload of the wrong shape raises before any call. For
      `prepare`, a raising constructor leaves `ocl_ga` as it was, while a
      raising `prepare()` comes after the new engine, whose machine starts in
      `waiting`, is assigned. */
  function Process(w: Worker, cmd: Command, raises: bool, answers: Answers): (v: Worker)
    ensures v.id == w.id && v.client == w.client
    ensures cmd.command in Guarded && !w.engine ==> v == w.(log := w.log + [NeedsEngine(cmd.command)])
    ensures cmd.command !in Handled ==> v == w.(log := w.log + [UnknownCommand(cmd.command)])
    ensures v.exitSet <==> w.exitSet || cmd.command == "exit"
  {
    var b := BranchOf(cmd.command);
    if NeedsEngineBranch(b) && !w.engine then w.(log := w.log + [NeedsEngine(cmd.command)])
    else
      match b
      case PrepareBranch =>
        if cmd.data.PickledOptions? && answers.constructs(cmd.data.options) then
          Call(w.(engine := true, machine := Lifecycle.Waiting), Prepare(cmd.data.options), raises)
        else w.(log := w.log + [Traceback])
      case PauseBranch => Call(w, Pause, raises)
      case StopBranch => Call(w, Stop, raises)
      case RestoreBranch =>
        if cmd.data.FileName? then Call(w, Restore(cmd.data.name), raises)
        else w.(log := w.log + [Traceback])
      case SaveBranch =>
        if cmd.data.FileName? then
          var v := Call(w, Save(cmd.data.name), raises);
          if raises then v else Send(v, SaveReport(None))
        else w.(log := w.log + [Traceback])
      case BestBranch =>
        var v := Call(w, GetBest, raises);
        if raises then v else Send(v, BestReport(answers.best))
      case StatisticsBranch =>
        var v := Call(w, GetStatistics, raises);
        if raises then v else Send(v, StatisticsReport(answers.statistics))
      case RunBranch =>
        if cmd.data.Probabilities? && w.engine then
          Call(w, Run(cmd.data.probMutation, cmd.data.probCrossover), raises)
        else w.(log := w.log + [Traceback])
      case ElitesBranch =>
        if cmd.data.EliteList? then Call(w, UpdateElites(cmd.data.elites), raises)
        else w.(log := w.log + [Traceback])
      case ExitBranch => w.(exitSet := true)
      case UnknownBranch => w.(log := w.log + [UnknownCommand(cmd.command)])
  }

  /** A command makes at most one engine call, appended to the calls made
      before. */
  lemma ProcessCalls(w: Worker, cmd: Command, raises: bool, answers: Answers)
    ensures var v := Process(w, cmd, raises, answers);
      |w.calls| <= |v.calls| <= |w.calls| + 1 && v.calls[..|w.calls|] == w.calls
  {
    var v := Process(w, cmd, raises, answers);
    var b := BranchOf(cmd.command);
    if NeedsEngineBranch(b) && !w.engine {
      assert v.calls == w.calls;
    } else {
      assert v.calls == w.calls + CallsOf(w, cmd, b, answers);
    }
  }

  /** The engine call, if any, that branch `b` makes for `cmd`. */
  function CallsOf(w: Worker, cmd: Command, b: Branch, answers: Answers): (r: seq<EngineCall>)
    ensures |r| <= 1
  {
    match b
    case PrepareBranch =>
      if cmd.data.PickledOptions? && answers.constructs(cmd.data.options) then [Prepare(cmd.data.options)] else []
    case PauseBranch => [Pause]
    case StopBranch => [Stop]
    case RestoreBranch => if cmd.data.FileName? then [Restore(cmd.data.name)] else []
    case SaveBranch => if cmd.data.FileName? then [Save(cmd.data.name)] else []
    case BestBranch => [GetBest]
    case StatisticsBranch => [GetStatistics]
    case RunBranch => if cmd.data.Probabilities? && w.engine then [Run(cmd.data.probMutation, cmd.data.probCrossover)] else []
    case ElitesBranch => if cmd.data.EliteList? then [UpdateElites(cmd.data.elites)] else []
    case ExitBranch => []
    case UnknownBranch => []
  }

  /** Only `prepare` with options the constructor accepts creates the
      engine, even when its `prepare()` then raises, and nothing removes
      it. */
  lemma ProcessEngine(w: Worker, cmd: Command, raises: bool, answers: Answers)
    ensures Process(w, cmd, raises, answers).engine <==>
      w.engine || (cmd.command == "prepare" && cmd.data.PickledOptions? && answers.constructs(cmd.data.options))
  {
  }

  /** A command logs at most one line: the refusal, the traceback, or, for
      a name without a branch only, the unknown command. */
  lemma ProcessLog(w: Worker, cmd: Command, raises: bool, answers: Answers)
    ensures var v := Process(w, cmd, raises, answers);
      || v.log == w.log
      || v.log == w.log + [NeedsEngine(cmd.command)]
      || v.log == w.log + [Traceback]
      || (cmd.command !in Handled && v.log == w.log + [UnknownCommand(cmd.command)])
  {
  }

  /** The worker's replies: `save` answers with no file name after the
      states its decorated call reported, `best` and `statistics` answer
      with the engine's results and report no state, since the getters are
      not decorated. A raising engine call sends no reply, only the states
      entered before the raise. */
  lemma Replies(w: Worker, cmd: Command, answers: Answers)
    requires w.engine && w.client
    ensures cmd == Command("save", FileName(None)) ==>
      Process(w, cmd, false, answers).outbox
        == w.outbox + StateReports(w.id, Lifecycle.Wrapped(w.machine, Lifecycle.Save, false, true).notified)
           + [SaveReport(None)]
    ensures cmd.command == "best" ==>
      Process(w, cmd, false, answers).outbox == w.outbox + [BestReport(answers.best)]
    ensures cmd.command == "statistics" ==>
      Process(w, cmd, false, answers).outbox == w.outbox + [StatisticsReport(answers.statistics)]
    ensures var v := Process(w, cmd, true, answers);
      && |w.outbox| <= |v.outbox| && v.outbox[..|w.outbox|] == w.outbox
      && forall i :: |w.outbox| <= i < |v.outbox| ==> v.outbox[i].StateChanged?
  {
    if cmd == Command("save", FileName(None)) {
      SaveReply(w, answers);
    }
    if cmd.command == "best" {
      ProcessGetter(w, cmd, false, answers);
    }
    if cmd.command == "statistics" {
      ProcessGetter(w, cmd, false, answers);
    }
    RaisingCallSendsNoReply(w, cmd, answers);
  }

  /** The `save` reply follows the states its call reported. */
  lemma SaveReply(w: Worker, answers: Answers)
    requires w.engine && w.client
    ensures Process(w, Command("save", FileName(None)), false, answers).outbox
        == w.outbox + StateReports(w.id, Lifecycle.Wrapped(w.machine, Lifecycle.Save, false, true).notified)
           + [SaveReport(None)]
  {
    SaveReplyFollowsStep(w, answers);
    SaveStep(w.machine, false);
  }

  /** A `save` call is wrapped as the decorated `save` action. */
  lemma SaveStep(s: Lifecycle.State, raises: bool)
    ensures Step(s, Save(None), raises) == Lifecycle.Wrapped(s, Lifecycle.Save, raises, true)
  {
  }

  /** The `save` reply follows the reports of its call's step. */
  lemma SaveReplyFollowsStep(w: Worker, answers: Answers)
    requires w.engine && w.client
    ensures Process(w, Command("save", FileName(None)), false, answers).outbox
        == w.outbox + StateReports(w.id, Step(w.machine, Save(None), false).notified) + [SaveReport(None)]
  {
    ProcessSave(w, None, false, answers);
    CallThenReply(w, Save(None), false, SaveReport(None));
  }

  /** A reply sent after an engine call comes after the states it reported. */
  lemma CallThenReply(w: Worker, c: EngineCall, raises: bool, reply: Report)
    requires w.client
    ensures Send(Call(w, c, raises), reply).outbox
      == w.outbox + StateReports(w.id, Step(w.machine, c, raises).notified) + [reply]
  {
  }

  /** The `best` and `statistics` branches, when an engine exists. */
  lemma ProcessGetter(w: Worker, cmd: Command, raises: bool, answers: Answers)
    requires w.engine
    ensures cmd.command == "best" ==>
      var v := Call(w, GetBest, raises);
      Process(w, cmd, raises, answers) == if raises then v else Send(v, BestReport(answers.best))
    ensures cmd.command == "statistics" ==>
      var v := Call(w, GetStatistics, raises);
      Process(w, cmd, raises, answers) == if raises then v else Send(v, StatisticsReport(answers.statistics))
  {
  }

  /** A command whose engine call raises sends no reply: whatever it adds
      to the outbox is a `stateChanged` report. */
  lemma RaisingCallSendsNoReply(w: Worker, cmd: Command, answers: Answers)
    requires w.engine
    ensures var v := Process(w, cmd, true, answers);
      && |w.outbox| <= |v.outbox| && v.outbox[..|w.outbox|] == w.outbox
      && forall i :: |w.outbox| <= i < |v.outbox| ==> v.outbox[i].StateChanged?
  {
    match BranchOf(cmd.command) {
      case PrepareBranch =>
        if cmd.data.PickledOptions? && answers.constructs(cmd.data.options) {
          CallSendsOnlyStates(w.(engine := true, machine := Lifecycle.Waiting), Prepare(cmd.data.options), true);
        }
      case PauseBranch => CallSendsOnlyStates(w, Pause, true);
      case StopBranch => CallSendsOnlyStates(w, Stop, true);
      case RestoreBranch =>
        if cmd.data.FileName? { CallSendsOnlyStates(w, Restore(cmd.data.name), true); }
      case SaveBranch =>
        if cmd.data.FileName? { CallSendsOnlyStates(w, Save(cmd.data.name), true); }
      case BestBranch => CallSendsOnlyStates(w, GetBest, true);
      case StatisticsBranch => CallSendsOnlyStates(w, GetStatistics, true);
      case RunBranch =>
        if cmd.data.Probabilities? { CallSendsOnlyStates(w, Run(cmd.data.probMutation, cmd.data.probCrossover), true); }
      case ElitesBranch =>
        if cmd.data.EliteList? { CallSendsOnlyStates(w, UpdateElites(cmd.data.elites), true); }
      case ExitBranch =>
      case UnknownBranch =>
    }
  }

  /** Whatever it does otherwise, an engine call appends only
      `stateChanged` reports to the outbox. */
  lemma CallSendsOnlyStates(w: Worker, c: EngineCall, raises: bool)
    ensures var v := Call(w, c, raises);
      && |w.outbox| <= |v.outbox| && v.outbox[..|w.outbox|] == w.outbox
      && forall i :: |w.outbox| <= i < |v.outbox| ==> v.outbox[i].StateChanged?
  {
    var rs := if w.client then StateReports(w.id, Step(w.machine, c, raises).notified) else [];
    assert Call(w, c, raises).outbox == w.outbox + rs;
  }

  /** The `save` branch with a file-name payload, when an engine exists. */
  lemma ProcessSave(w: Worker, name: Option<string>, raises: bool, answers: Answers)
    requires w.engine
    ensures var v := Call(w, Save(name), raises);
      Process(w, Command("save", FileName(name)), raises, answers) == if raises then v else Send(v, SaveReport(None))
  {
    assert BranchOf("save") == SaveBranch;
  }

  /** `save` on a paused engine reports `saving`, then `paused`, then
      replies; a `save` whose body raises has still reported `saving`. */
  lemma SaveReportsStates(w: Worker, answers: Answers)
    requires w.engine && w.client && w.machine == Lifecycle.Paused
    ensures Process(w, Command("save", FileName(None)), false, answers).outbox
      == w.outbox + [StateChanged(w.id, Lifecycle.Saving), StateChanged(w.id, Lifecycle.Paused), SaveReport(None)]
    ensures Process(w, Command("save", FileName(None)), true, answers).outbox
      == w.outbox + [StateChanged(w.id, Lifecycle.Saving)]
  {
    var saving, paused := StateChanged(w.id, Lifecycle.Saving), StateChanged(w.id, Lifecycle.Paused);
    Lifecycle.SaveReports();
    SaveReply(w, answers);
    assert StateReports(w.id, [Lifecycle.Saving, Lifecycle.Paused]) == [saving, paused];
    SaveRaises(w, answers);
    assert StateReports(w.id, [Lifecycle.Saving]) == [saving];
  }

  /** A raising `save` sends only the states its call reported. */
  lemma SaveRaises(w: Worker, answers: Answers)
    requires w.engine && w.client
    ensures Process(w, Command("save", FileName(None)), true, answers).outbox
        == w.outbox + StateReports(w.id, Lifecycle.Wrapped(w.machine, Lifecycle.Save, true, true).notified)
  {
    ProcessSave(w, None, true, answers);
    SaveStep(w.machine, true);
  }

  /** `run` hands the payload's two probabilities to the engine unchanged. */
  lemma RunPassesProbabilities(w: Worker, pm: Value, pc: Value, raises: bool, answers: Answers)
    requires w.engine
    ensures Process(w, Command("run", Probabilities(pm, pc)), raises, answers).calls == w.calls + [Run(pm, pc)]
  {
  }

  /** A sequence of commands, each with whether its engine call raises. */
  function ProcessAll(w: Worker, cmds: seq<(Command, bool)>, answers: Answers): (v: Worker)
    decreases |cmds|
  {
    if cmds == [] then w
    else ProcessAll(Process(w, cmds[0].0, cmds[0].1, answers), cmds[1..], answers)
  }

  /** Until a `prepare` carrying options arrives the engine is never
      touched: every other command is refused, fails, or needs no engine. */
  lemma {:induction false} NoEngineWithoutPrepare(w: Worker, cmds: seq<(Command, bool)>, answers: Answers)
    requires !w.engine
    requires forall i :: 0 <= i < |cmds| ==> !(cmds[i].0.command == "prepare" && cmds[i].0.data.PickledOptions?)
    ensures ProcessAll(w, cmds, answers).calls == w.calls
    ensures !ProcessAll(w, cmds, answers).engine
    decreases |cmds|
  {
    if cmds != [] {
      var v := Process(w, cmds[0].0, cmds[0].1, answers);
      ProcessCalls(w, cmds[0].0, cmds[0].1, answers);
      ProcessEngine(w, cmds[0].0, cmds[0].1, answers);
      assert v.calls == w.calls;
      NoEngineWithoutPrepare(v, cmds[1..], answers);
    }
  }

  /** Every command the control node sends has a branch on the worker: none
      is logged as unknown. */
  lemma ControlNodeCommandsAreHandled(cmd: string, w: Worker, data: CommandData, raises: bool, answers: Answers)
    requires cmd in Known || cmd == "elites"
    ensures Translate(cmd) in Handled
    ensures var v := Process(w, Command(Translate(cmd), data), raises, answers);
      |w.log| <= |v.log| && UnknownCommand(Translate(cmd)) !in v.log[|w.log|..]
  {
    var c := Translate(cmd);
    assert c in Handled;
    var v := Process(w, Command(c, data), raises, answers);
    ProcessLog(w, Command(c, data), raises, answers);
    if v.log == w.log {
      assert v.log[|w.log|..] == [];
    } else if v.log == w.log + [NeedsEngine(c)] {
      assert v.log[|w.log|..] == [NeedsEngine(c)];
    } else {
      assert v.log[|w.log|..] == [Traceback];
    }
  }

  /** The two reports the worker sends about itself. */
  function NotifyOnline(w: Worker, info: string): (v: Worker)
    ensures w.client ==> v.outbox == w.outbox + [WorkerConnected(w.id, info)]
  {
    Send(w, WorkerConnected(w.id, info))
  }

  /** `__shutdown`: stop the engine if there is one, which reports the
      states `stop` enters, then report the worker lost, and drop the
      client. A raising `stop` skips the rest of the `try`, and its
      exception is printed rather than logged as a traceback. */
  function Shutdown(w: Worker, stopRaises: bool): (v: Worker)
    ensures !v.client
    ensures v.engine <==> w.engine && stopRaises
    ensures w.engine ==> v.calls == w.calls + [Stop]
    ensures !w.engine ==> v.calls == w.calls
    ensures w.engine ==> v.machine == Lifecycle.Wrapped(w.machine, Lifecycle.Stop, stopRaises, true).state
    ensures w.client && w.engine ==>
      v.outbox == w.outbox + StateReports(w.id, Lifecycle.Wrapped(w.machine, Lifecycle.Stop, stopRaises, true).notified)
                  + (if stopRaises then [] else [WorkerLost(w.id)])
    ensures w.client && !w.engine ==> v.outbox == w.outbox + [WorkerLost(w.id)]
    ensures !w.client ==> v.outbox == w.outbox
    ensures v.log == w.log
  {
    if w.engine then
      var step := Step(w.machine, Stop, stopRaises);
      var v := SendAll(w, StateReports(w.id, step.notified)).(calls := w.calls + [Stop], machine := step.state);
      if stopRaises then v.(client := false)
      else Send(v.(engine := false), WorkerLost(w.id)).(client := false)
    else Send(w, WorkerLost(w.id)).(client := false)
  }

  /** Shutting down a worker whose engine is running reports `stopping` and
      `stopped` before `workerLost`. */
  lemma ShutdownWhileRunning(w: Worker)
    requires w.engine && w.client && w.machine == Lifecycle.Running
    ensures Shutdown(w, false).outbox
      == w.outbox + [StateChanged(w.id, Lifecycle.Stopping), StateChanged(w.id, Lifecycle.Stopped), WorkerLost(w.id)]
    ensures Shutdown(w, true).outbox == w.outbox + [StateChanged(w.id, Lifecycle.Stopping)]
  {
    Lifecycle.StopReports();
  }

  /** The keys `__send_and_dump_info` reads from the entry it is handed,
      in order. */
  const CallbackReads: seq<string> := ["best", "avg", "worst", "best_result"]

  /** `__send_and_dump_info`, the generation callback the worker injects
      into the engine's options, as written, on an entry with keys `keys`:
      it asserts the engine exists, then reads `best`, `avg`, `worst` and
      `best_result`, and only then sends the `generationResult`. */
  function GenerationCallback(w: Worker, index: nat, keys: set<string>, stats: Evolution.GenStats): (r: Result<Worker, Raised>)
    ensures !w.engine ==> r == Err(AssertionError)
    ensures w.engine && "best_result" !in keys ==> r == Err(KeyError)
    ensures r.Ok? ==> forall i :: 0 <= i < |CallbackReads| ==> CallbackReads[i] in keys
    ensures r.Ok? && w.client ==> r.value.outbox == w.outbox + [GenerationResult(w.id, stats.best, None)]
  {
    assert CallbackReads[3] == "best_result";
    if !w.engine then Err(AssertionError)
    else if exists i :: 0 <= i < |CallbackReads| && CallbackReads[i] !in keys then Err(KeyError)
    else Ok(Send(w, GenerationResult(w.id, stats.best, None)))
  }

  /** On the entry the engine hands it, the callback as written always
      raises `KeyError`: `best_result` is not one of the entry's keys. */
  lemma EntryLacksBestResult(w: Worker, index: nat, stats: Evolution.GenStats)
    requires w.engine
    ensures GenerationCallback(w, index, Evolution.EntryKeys, stats) == Err(KeyError)
  {
  }

  /** The callback as evidently intended: it reads only the three keys the
      entry holds, takes `best_result` only when present (never, from this
      engine), and reports the generation. */
  function GenerationCallbackCorrected(w: Worker, index: nat, stats: Evolution.GenStats): (r: Result<Worker, Raised>)
    ensures !w.engine ==> r == Err(AssertionError)
    ensures w.engine ==> r.Ok? && r.value.(outbox := w.outbox) == w
    ensures w.engine && w.client ==> r.value.outbox == w.outbox + [GenerationResult(w.id, stats.best, None)]
  {
    if !w.engine then Err(AssertionError)
    else Ok(Send(w, GenerationResult(w.id, stats.best, None)))
  }

  /** An engine a worker prepared runs at most one generation per `run`:
      the worker's callback raises on the first generation's entry, right
      after it is stored, the exception leaves `_start_evolution`, and no
      `generationResult` is ever sent. */
  lemma {:induction false} WorkerRunEndsAtFirstGeneration(w: Worker, l: Evolution.Ledger, term: Evolution.Termination,
                                                          start: real, obs: seq<Evolution.Boundary>, end: real)
    requires w.engine
    requires Evolution.Observable(l, term, start, obs)
    requires term.ByTime? || (term.ByCount? && l.index < term.count)
    requires forall k :: 0 <= k < |obs| ==>
      obs[k].callbackRaised == GenerationCallback(w, l.index + k, Evolution.EntryKeys, obs[k].stats).Err?
    ensures var run := Evolution.Evolve(l, term, start, obs);
      && run.ran == 1 && run.exit == Evolution.CallbackRaised
      && run.ledger.stats.gens == l.stats.gens[l.index := obs[0].stats]
      && run.ledger.index == l.index
    ensures Evolution.StartEvolution(l, term, start, obs, end) == Err(Evolution.CallbackError)
  {
    EntryLacksBestResult(w, l.index, obs[0].stats);
  }

  /** With the corrected callback a worker's run is not cut short: a time
      run, or a count run with a generation left, finishes its evolution. */
  lemma {:induction false} CorrectedRunFinishes(w: Worker, l: Evolution.Ledger, term: Evolution.Termination,
                                               start: real, obs: seq<Evolution.Boundary>, end: real)
    requires w.engine
    requires Evolution.Observable(l, term, start, obs)
    requires term.ByTime? || (term.ByCount? && l.index < term.count)
    requires forall k :: 0 <= k < |obs| ==>
      obs[k].callbackRaised == GenerationCallbackCorrected(w, l.index + k, obs[k].stats).Err?
    ensures Evolution.StartEvolution(l, term, start, obs, end).Ok?
  {
    Evolution.NoZeroDivisionAfterAGeneration(l, term, start, obs, end);
  }

  // ---------------------------------------------------------------------
  // The client process.

  /** `(platform, device)` pairs in platform-major order, given how many
      devices each platform has. */
  predicate PlatformMajor(a: (nat, nat), b: (nat, nat))
  {
    a.0 < b.0 || (a.0 == b.0 && a.1 < b.1)
  }

  function SumDevices(counts: seq<nat>): nat
  {
    if counts == [] then 0 else SumDevices(counts[..|counts| - 1]) + counts[|counts| - 1]
  }

  /** `query_devices`: every (platform index, device index) pair; without
      any platform, `platforms[0]` raises `IndexError` before the loop. */
  method QueryDevices(counts: seq<nat>) returns (r: Result<seq<(nat, nat)>, Raised>)
    ensures counts == [] <==> r == Err(IndexError)
    ensures r.Ok? ==> |r.value| == SumDevices(counts)
    ensures r.Ok? ==> forall p: nat, d: nat :: (p, d) in r.value <==> p < |counts| && d < counts[p]
    ensures r.Ok? ==> forall i, j :: 0 <= i < j < |r.value| ==> PlatformMajor(r.value[i], r.value[j])
  {
    if counts == [] {
      return Err(IndexError);
    }
    var data: seq<(nat, nat)> := [];
    var pidx: nat := 0;
    while pidx < |counts|
      invariant pidx <= |counts|
      invariant |data| == SumDevices(counts[..pidx])
      invariant forall p: nat, d: nat :: (p, d) in data <==> p < pidx && d < counts[p]
      invariant forall i, j :: 0 <= i < j < |data| ==> PlatformMajor(data[i], data[j])
    {
      var didx: nat := 0;
      ghost var before := data;
      while didx < counts[pidx]
        invariant didx <= counts[pidx]
        invariant |data| == |before| + didx
        invariant forall p: nat, d: nat :: (p, d) in data <==> (p < pidx && d < counts[p]) || (p == pidx && d < didx)
        invariant forall i, j :: 0 <= i < j < |data| ==> PlatformMajor(data[i], data[j])
        invariant forall i :: 0 <= i < |data| ==> data[i].0 < pidx || (data[i].0 == pidx && data[i].1 < didx)
      {
        data := data + [(pidx, didx)];
        didx := didx + 1;
      }
      assert counts[..pidx + 1][..pidx] == counts[..pidx];
      pidx := pidx + 1;
    }
    assert counts[..|counts|] == counts;
    r := Ok(data);
  }

  /** `__is_alive`: the client lives while every worker does. */
  method IsAlive(alive: seq<bool>) returns (r: bool)
    ensures r <==> forall i :: 0 <= i < |alive| ==> alive[i]
  {
    r := true;
    var k := 0;
    while k < |alive|
      invariant k <= |alive|
      invariant r <==> forall i :: 0 <= i < k ==> alive[i]
    {
      r := r && alive[k];
      k := k + 1;
    }
  }

  /** `run_forever`'s loop over successive polls of the workers' liveness:
      the index of the poll that ends it, if any. */
  function RunForever(polls: seq<seq<bool>>): (r: Option<nat>)
    ensures r.Some? ==> r.value < |polls| && exists i :: 0 <= i < |polls[r.value]| && !polls[r.value][i]
    ensures forall k :: 0 <= k < |polls| && (r.None? || k < r.value) ==>
      forall i :: 0 <= i < |polls[k]| ==> polls[k][i]
  {
    if polls == [] then None
    else if exists i :: 0 <= i < |polls[0]| && !polls[0][i] then Some(0)
    else match RunForever(polls[1..])
      case None => None
      case Some(n) => Some(n + 1)
  }
}
